=== FILE: README.md ===
# MISI book viewer, modelled in Dafny

MISI publishes three online course books: software engineering (swe), large language models (llm) and mind-body practice (mbs). They share one book viewer. This project models the logic at the viewer's core and proves what that logic promises.

- **Learner state.** The progress store holds one snapshot and offers the mutators for chapters, questions, checkpoints, concept reviews and settings (`Progress`). The review scheduler is a clamped interval table, a due test on whole elapsed days, a due filter, an urgency order and statistics (`SpacedRepetition`). The records and the interval table are in `Types`.
- **Widgets.** The checkpoint checklist (`Checkpoint`), the review session and the review prompt (`ReviewSession`, `ReviewPrompt`), and the bookmarks page (`BookmarksList`). Also the slot extraction of the question and try widgets (`Slots`) and the roving tabindex (`A11y`).
- **Content pipeline.** The pedagogical-directive transformer (`RemarkPedagogical`, with the `JSON.stringify` of checklist items in `Json`) and the table-of-contents extractor (`RehypeToc`). Also the search-index builder (`SearchIndex`) and the search dialog that consumes the index (`SearchModal`), and the content-sync scripts of the three courses (`SyncContent`).
- **Catalogues and helpers.** The shared catalogue helpers (`ChaptersContext`) and each course's catalogue (`ChaptersLlm`, `ChaptersSwe`, `ChaptersMbs`). Also the base-path URL helper (`Url`).
- **JavaScript semantics.** Three modules give the behaviour the code relies on: string operations (`Text`), objects used as ordered dictionaries (`Records`) and the stable comparator sort (`Sorting`).

Where the source updates state in place, the model does too:
- the progress store, the checkpoint and review-session components, the roving tabindex, the URL cache, the transformer's id counter and the TOC annotation are classes or arrays updated by methods;
- the loops of the source are `while` loops whose postconditions tie them to specification functions.

Modelling choices:
- Time is an integer count of milliseconds, and the current time is an explicit parameter `now`.
- JavaScript's `Math.floor` of a division by a positive number is Dafny's `/`.
- The retention-strength heuristic, the slugger and the markup-removal regular expressions are parameters.

## Model

| member | source | states |
|---|---|---|
| Url.StripTrailingSlash | packages/book-viewer/src/lib/url.ts:16 | one trailing slash is dropped (the result plus "/" is the input); a path without one is kept |
| Url.NormalizePath | packages/book-viewer/src/lib/url.ts:47-48 | the result always starts with "/"; a path already starting with one is kept, any other gets one prepended |
| Url.ResolveBasePath | packages/book-viewer/src/lib/url.ts:23-39 | a cached base wins and stays cached; else a non-empty DOM base is stripped of its slash, returned and cached; else "" and nothing cached |
| Url.UrlHelper.constructor | packages/book-viewer/src/lib/url.ts:9 | the module starts with no cached base path |
| Url.UrlHelper.InitUrl | packages/book-viewer/src/lib/url.ts:15-17 | the cache holds the given base without its trailing slash |
| Url.UrlHelper.GetBasePath | packages/book-viewer/src/lib/url.ts:23-39 | returns the resolved base and leaves the cache as the resolution says |
| Url.UrlHelper.Url | packages/book-viewer/src/lib/url.ts:45-50 | the URL is the resolved base followed by the normalised path; the cache is updated as by getBasePath |
| Url.UrlHelper.GetUrl | packages/book-viewer/src/lib/url.ts:56-58 | the same URL and cache effect as `url` |
| Url.StripTrailingSlashOnce | packages/book-viewer/src/lib/url.ts:16 | stripping removes at most one character and leaves a prefix of the input |
| Url.StripTrailingSlashAbsorbs | packages/book-viewer/src/lib/url.ts:16 | a base given with or without its trailing slash is cached the same |
| Url.NormalizePathIdempotent | packages/book-viewer/src/lib/url.ts:48 | normalising a path twice is normalising it once |
| Url.CachedBaseIsStable | packages/book-viewer/src/lib/url.ts:24-35 | once a base is cached, later calls return it whatever the DOM then says |
| Types.ReviewIntervalsAscending | course/swe/book-viewer/src/lib/types.ts:84 | the five review intervals are positive and strictly increasing |
| SpacedRepetition.NextInterval | course/swe/book-viewer/src/lib/spaced-repetition.ts:15-18 | the interval is one of the five, the one at the review count while it is in range, and 30 days from the last index on |
| SpacedRepetition.NextIntervalMonotone | course/swe/book-viewer/src/lib/spaced-repetition.ts:15-18 | more reviews never shorten the interval, which stays between 1 and 30 days |
| SpacedRepetition.IsConceptDue | course/swe/book-viewer/src/lib/spaced-repetition.ts:23-35 | a concept never reviewed is not due |
| SpacedRepetition.DueIff | course/swe/book-viewer/src/lib/spaced-repetition.ts:29-34 | due exactly when the whole interval, in milliseconds, has elapsed since the last review (floored day count) |
| SpacedRepetition.DueStaysDue | course/swe/book-viewer/src/lib/spaced-repetition.ts:23-35 | a due concept stays due as time passes |
| SpacedRepetition.DueConcepts | course/swe/book-viewer/src/lib/spaced-repetition.ts:40-62 | no longer than the input, and every listed concept is one of the input concepts and is due |
| SpacedRepetition.DueConceptsMembers | course/swe/book-viewer/src/lib/spaced-repetition.ts:40-62 | the due list holds exactly the given concepts that have a non-empty history and are due, and is no longer than the input |
| SpacedRepetition.NoHistoryNeverDue | course/swe/book-viewer/src/lib/spaced-repetition.ts:47-51 | a concept whose chapter has no progress is never listed |
| SpacedRepetition.GetConceptsDueForReview | course/swe/book-viewer/src/lib/spaced-repetition.ts:40-62 | the loop builds the due list in input order; its members are exactly the due concepts |
| SpacedRepetition.SortByUrgency | course/swe/book-viewer/src/lib/spaced-repetition.ts:87-104 | a permutation of the input ordered by ascending retention strength |
| SpacedRepetition.TallyHistoriesConsistent | course/swe/book-viewer/src/lib/spaced-repetition.ts:116-122 | every concept history is counted once, and reviewed concepts never exceed concepts or reviews |
| SpacedRepetition.TallyChaptersConsistent | course/swe/book-viewer/src/lib/spaced-repetition.ts:114-124 | tallying all chapters keeps the same consistency |
| SpacedRepetition.StatsOf | course/swe/book-viewer/src/lib/spaced-repetition.ts:109-132 | reviewed concepts never exceed all concepts or all reviews, and the average is 0 with no reviewed concept |
| SpacedRepetition.StatsConsistent | course/swe/book-viewer/src/lib/spaced-repetition.ts:126-131 | reviewed <= total concepts and <= total reviews; the average is 0 with no reviewed concept and at least 1 otherwise |
| SpacedRepetition.GetReviewStats | course/swe/book-viewer/src/lib/spaced-repetition.ts:109-132 | the nested loops compute the statistics of the whole progress, with the same bounds |
| Progress.UpdateChapter | course/swe/book-viewer/src/lib/progress.ts:77-100 | the chapter's record becomes the old record (or a fresh one) overridden by the fields sent; every other chapter, the settings, bookmarks and start date are kept; lastVisited is the chapter; one record is added only when the chapter was new |
| Progress.Merge | course/swe/book-viewer/src/lib/progress.ts:94-97 | every field the update sends overrides the old value, the scroll position included; every field it does not send keeps its old value, so a patch with no fields leaves the record as it was |
| Progress.MergeIdempotent | course/swe/book-viewer/src/lib/progress.ts:94-97 | applying the same update twice is applying it once |
| Progress.GetWellFormed | course/swe/book-viewer/src/lib/progress.ts:82-87 | the record read for a chapter (stored or fresh) has distinct checkpoint and concept keys |
| Progress.UpdateChapterWellFormed | course/swe/book-viewer/src/lib/progress.ts:89-99 | an update keeps every dictionary's keys distinct |
| Progress.WithChapterStarted | course/swe/book-viewer/src/lib/progress.ts:105-120 | a chapter already started is left alone (chapters and lastVisited unchanged); otherwise its record becomes the old one with started = now and lastVisited is the chapter; every other chapter, the settings and bookmarks are kept; the course start date is set to now only when unset |
| Progress.StartChapterIdempotent | course/swe/book-viewer/src/lib/progress.ts:105-120 | after startChapter the chapter has a start date, and a second call at any later time changes nothing |
| Progress.WithChapterCompleted | course/swe/book-viewer/src/lib/progress.ts:125-130 | the chapter's record becomes the old one (or a fresh one) with completed = now and readProgress = 100; lastVisited is the chapter; every other chapter, the settings, bookmarks and course start date are kept |
| Progress.Clamp | course/swe/book-viewer/src/lib/progress.ts:137 | the value is kept when in 0..100, raised to 0 below and lowered to 100 above |
| Progress.WithReadProgress | course/swe/book-viewer/src/lib/progress.ts:135-139 | the chapter's record becomes the old one with readProgress = Clamp(progress): the value sent when in 0..100, 0 below and 100 above; lastVisited is the chapter; every other chapter, the settings, bookmarks and course start date are kept |
| Progress.ReadProgressPreserved | course/swe/book-viewer/src/lib/progress.ts:77-100 | an update sending an in-range percentage (or none) keeps every chapter's percentage in range |
| Progress.WithQuestionRevealed | course/swe/book-viewer/src/lib/progress.ts:144-154 | a question already revealed leaves the snapshot unchanged; a new one is appended to the chapter's list, the rest of its record kept; either way it is revealed afterwards; every other chapter, the settings, bookmarks and course start date are kept |
| Progress.RevealQuestionTwice | course/swe/book-viewer/src/lib/progress.ts:144-154 | revealing twice is revealing once, and a newly revealed id then occurs exactly once in the list |
| Progress.WithCheckpoint | course/swe/book-viewer/src/lib/progress.ts:159-182 | the checkpoint takes the confidence and items sent (else keeps the old ones); completedAt is now exactly when a non-zero confidence is sent, else the old value; other checkpoints and the rest of the chapter's record are unchanged; lastVisited is the chapter; every other chapter, the settings, bookmarks and course start date are kept |
| Progress.WithConceptReviewed | course/swe/book-viewer/src/lib/progress.ts:187-199 | the concept's history gains exactly one date, now, at the end; other concepts' histories and the rest of the chapter's record are unchanged; lastVisited is the chapter; every other chapter, the settings, bookmarks and course start date are kept |
| Progress.ReviewHistoryAppendOnly | course/swe/book-viewer/src/lib/progress.ts:187-199 | the history grows by one and keeps the old dates as a prefix |
| Progress.WithSettings | course/swe/book-viewer/src/lib/progress.ts:204-213 | each setting takes the value sent or keeps its old one; nothing outside the settings changes |
| Progress.CountCompleted | course/swe/book-viewer/src/lib/progress.ts:229-231 | the completed count never exceeds the number of chapter records; it is 0 exactly when no record is completed and the number of records exactly when all are |
| Progress.ChaptersCompleted | course/swe/book-viewer/src/lib/progress.ts:229-231 | no more than the number of chapter records, and 0 exactly when none is completed |
| Progress.CountCompletedPut | course/swe/book-viewer/src/lib/progress.ts:89-99 | replacing or adding one chapter record changes the completed count by that record's completion alone |
| Progress.CompleteChapterCount | course/swe/book-viewer/src/lib/progress.ts:125-130 | completing a chapter raises the completed count by one exactly when it was not yet complete |
| Progress.CourseProgress | course/swe/book-viewer/src/lib/progress.ts:218-224 | 0 with no chapter records; otherwise the percentage sum over 16 rounded half up (16r - 8 <= sum < 16r + 8) |
| Progress.SumReadProgressBounds | course/swe/book-viewer/src/lib/progress.ts:222 | with percentages in range the sum is between 0 and 100 per record, and exactly 100 per record when all are complete |
| Progress.CourseProgressBounded | course/swe/book-viewer/src/lib/progress.ts:218-224 | with at most 16 records in range the course progress is in 0..100, and 16 completed records give 100 |
| Progress.ProgressStore.constructor | course/swe/book-viewer/src/lib/progress.ts:11-23 | the store starts with the default progress and settings |
| Progress.ProgressStore.UpdateChapterProgress | course/swe/book-viewer/src/lib/progress.ts:77-100 | the new snapshot is UpdateChapter of the old one; keys stay distinct |
| Progress.ProgressStore.StartChapter | course/swe/book-viewer/src/lib/progress.ts:105-120 | the new snapshot is WithChapterStarted of the old one |
| Progress.ProgressStore.CompleteChapter | course/swe/book-viewer/src/lib/progress.ts:125-130 | the new snapshot is WithChapterCompleted of the old one |
| Progress.ProgressStore.UpdateReadProgress | course/swe/book-viewer/src/lib/progress.ts:135-139 | the new snapshot is WithReadProgress of the old one, and percentages in range stay in range |
| Progress.ProgressStore.RevealQuestion | course/swe/book-viewer/src/lib/progress.ts:144-154 | the new snapshot is WithQuestionRevealed of the old one |
| Progress.ProgressStore.UpdateCheckpoint | course/swe/book-viewer/src/lib/progress.ts:159-182 | the new snapshot is WithCheckpoint of the old one |
| Progress.ProgressStore.ReviewConcept | course/swe/book-viewer/src/lib/progress.ts:187-199 | the new snapshot is WithConceptReviewed of the old one |
| Progress.ProgressStore.UpdateSettings | course/swe/book-viewer/src/lib/progress.ts:204-213 | the new snapshot is WithSettings of the old one |
| Progress.ProgressStore.ResetProgress | course/swe/book-viewer/src/lib/progress.ts:261-266 | the snapshot is the default progress again |
| Checkpoint.AllFalse | course/swe/book-viewer/src/components/Checkpoint.tsx:29 | one cleared box per item |
| Checkpoint.SavedCheckpoint | course/swe/book-viewer/src/components/Checkpoint.tsx:35 | a saved checkpoint found is the one the progress snapshot stores for the chapter and id |
| Checkpoint.Restore | course/swe/book-viewer/src/components/Checkpoint.tsx:34-41 | with a saved checkpoint: its confidence, submitted exactly when that is positive, its boxes when there is one per item and all cleared otherwise; without one the state is kept |
| Checkpoint.Toggled | course/swe/book-viewer/src/components/Checkpoint.tsx:43-47 | box k is flipped and every other box kept |
| Checkpoint.CountTrue | course/swe/book-viewer/src/components/Checkpoint.tsx:61 | the checked count never exceeds the number of boxes |
| Checkpoint.SubmitPatch | course/swe/book-viewer/src/components/Checkpoint.tsx:54-57 | submitting sends the boxes and the confidence as they stand |
| Checkpoint.CheckpointWidget.constructor | course/swe/book-viewer/src/components/Checkpoint.tsx:29-31 | all boxes cleared, confidence 0, not submitted |
| Checkpoint.CheckpointWidget.Load | course/swe/book-viewer/src/components/Checkpoint.tsx:34-41 | the new state is Restore of the old state with the snapshot's checkpoint |
| Checkpoint.CheckpointWidget.HandleItemChange | course/swe/book-viewer/src/components/Checkpoint.tsx:43-47 | the boxes become Toggled at the index; confidence and submitted flag are kept |
| Checkpoint.CheckpointWidget.HandleConfidenceChange | course/swe/book-viewer/src/components/Checkpoint.tsx:49-51 | only the confidence changes, to the level chosen |
| Checkpoint.CheckpointWidget.HandleSubmit | course/swe/book-viewer/src/components/Checkpoint.tsx:53-59 | the store receives updateCheckpoint with SubmitPatch; the widget is then submitted with its boxes and confidence kept |
| Checkpoint.ToggleTwice | course/swe/book-viewer/src/components/Checkpoint.tsx:43-47 | flipping a box twice restores the boxes |
| Checkpoint.CountTrueAppend | course/swe/book-viewer/src/components/Checkpoint.tsx:61 | the count of a concatenation is the sum of the counts |
| Checkpoint.CountTrueToggled | course/swe/book-viewer/src/components/Checkpoint.tsx:61 | checking a box raises the count by one and clearing it lowers it by one |
| Checkpoint.AllCheckedIff | course/swe/book-viewer/src/components/Checkpoint.tsx:62 | "all items checked" holds exactly when every box is checked |
| Checkpoint.SubmitThenRestore | course/swe/book-viewer/src/components/Checkpoint.tsx:34-59 | a widget loaded from the snapshot its own submission produced shows the same boxes and confidence, submitted exactly when the confidence is positive |
| Checkpoint.EnabledSubmitCompletes | course/swe/book-viewer/src/components/Checkpoint.tsx:144 | a submission the button allows (confidence chosen) stamps the checkpoint's completion time |
| BookmarksList.InChapter | packages/book-viewer/src/components/BookmarksList.tsx:44-49 | a chapter's bookmarks are no more than all bookmarks |
| BookmarksList.GroupOf | packages/book-viewer/src/components/BookmarksList.tsx:42-49 | no chapter has two groups, and there are no more groups than bookmarks |
| BookmarksList.GroupBookmarks | packages/book-viewer/src/components/BookmarksList.tsx:42-49 | the grouping loop builds GroupOf of the bookmarks |
| BookmarksList.AddToGroup | packages/book-viewer/src/components/BookmarksList.tsx:45-48 | one iteration puts the chapter's list (or a new empty one) grown by the bookmark |
| BookmarksList.GroupOfStep | packages/book-viewer/src/components/BookmarksList.tsx:44-49 | the grouping of one more bookmark is one AddToGroup step |
| BookmarksList.PushStep | packages/book-viewer/src/components/BookmarksList.tsx:45-48 | creating an empty group and then pushing onto it is one put of the grown group |
| BookmarksList.Render | packages/book-viewer/src/components/BookmarksList.tsx:13-112 | the component renders ViewOf the snapshot and the catalogue |
| BookmarksList.InChapterEmptyIff | packages/book-viewer/src/components/BookmarksList.tsx:44-49 | a chapter has no bookmarks exactly when no bookmark names it |
| BookmarksList.GroupGet | packages/book-viewer/src/components/BookmarksList.tsx:42-49 | each chapter's group holds exactly its bookmarks in saved order; a chapter without bookmarks has no group |
| Records.KeysAppend | packages/book-viewer/src/components/BookmarksList.tsx:57 | appending an entry appends its key to the key order |
| Records.HasKeyInKeys | packages/book-viewer/src/components/BookmarksList.tsx:45 | a group exists exactly when its key is among the keys |
| BookmarksList.GroupOrder | packages/book-viewer/src/components/BookmarksList.tsx:57 | the groups come in the order in which their chapters first appear among the bookmarks |
| BookmarksList.TotalSizePut | packages/book-viewer/src/components/BookmarksList.tsx:45-48 | replacing a group changes the total by the difference of the two sizes |
| BookmarksList.GroupSizes | packages/book-viewer/src/components/BookmarksList.tsx:42-49 | every bookmark is listed exactly once: the groups hold as many as were saved |
| BookmarksList.EmptyStateIff | packages/book-viewer/src/components/BookmarksList.tsx:13-15 | the empty state shows exactly when the list is absent or empty |
| BookmarksList.ListingShape | packages/book-viewer/src/components/BookmarksList.tsx:51-110 | otherwise the count of all bookmarks heads one section per chapter, in first-appearance order, each with that chapter's bookmarks |
| BookmarksList.GroupEntries | packages/book-viewer/src/components/BookmarksList.tsx:57 | the i-th group is the i-th chapter of first appearance with exactly its bookmarks |
| BookmarksList.CountLabelPlural | packages/book-viewer/src/components/BookmarksList.tsx:54 | the label reads "1 bookmark" for one and ends in "s" for every other count |
| BookmarksList.CountLabelCount | packages/book-viewer/src/components/BookmarksList.tsx:54 | the digits before the label's first space give back the count |
| BookmarksList.HeaderOfCatalogued | packages/book-viewer/src/components/BookmarksList.tsx:58-73 | a catalogued chapter with a title is headed by its title and number |
| BookmarksList.HeaderOfUnknown | packages/book-viewer/src/components/BookmarksList.tsx:58-73 | a chapter the catalogue does not know is headed by its slug and shows no number |
| BookmarksList.BookmarkLinkSplits | packages/book-viewer/src/components/BookmarksList.tsx:85 | a bookmark's link splits at its first "#" into the chapter link and the heading anchor |
| BookmarksList.FormatDate | packages/book-viewer/src/components/BookmarksList.tsx:115-125 | under a day "Today", under two "Yesterday", under a week "<n> days ago", else the locale date; a future date shows a negative count |
| A11y.Forward | course/swe/book-viewer/src/lib/a11y.ts:102 | the next position: one on, and the first after the last |
| A11y.Backward | course/swe/book-viewer/src/lib/a11y.ts:108 | the previous position: one back, and the last before the first |
| A11y.NextIndex | course/swe/book-viewer/src/lib/a11y.ts:92-133 | ArrowDown/ArrowUp move one on/back (wrapping) when the orientation is vertical or both and keep the index otherwise; ArrowRight/ArrowLeft likewise for horizontal or both; Home selects 0 and End the last item; every other key is ignored; a selected index is always an item |
| A11y.TabIndices | course/swe/book-viewer/src/lib/a11y.ts:86-88 | one tabindex per item |
| A11y.RovingTabindex.constructor | course/swe/book-viewer/src/lib/a11y.ts:85-90 | the first item has tabindex 0 and every other -1; the current index is 0 |
| A11y.RovingTabindex.MoveTo | course/swe/book-viewer/src/lib/a11y.ts:135-140 | the reachable item becomes the target, and exactly one item stays reachable |
| A11y.RovingTabindex.HandleKeyDown | course/swe/book-viewer/src/lib/a11y.ts:92-141 | the current index becomes the one NextIndex selects; an ignored key changes no tabindex; exactly one item stays reachable |
| A11y.RovingTabindex.HandleFocus | course/swe/book-viewer/src/lib/a11y.ts:146-153 | focusing an item makes it the reachable one |
| A11y.UseRovingTabindex | course/swe/book-viewer/src/lib/a11y.ts:81-90 | over no items nothing is installed; otherwise the handler starts at the first item with the tabindex invariant |
| A11y.OneReachable | course/swe/book-viewer/src/lib/a11y.ts:86-88 | exactly the current item has tabindex 0 and every other -1 |
| A11y.Steps | course/swe/book-viewer/src/lib/a11y.ts:102-120 | away from the ends the arrows move by one; past the last item forward wraps to the first and before the first backward wraps to the last |
| A11y.ForwardBackward | course/swe/book-viewer/src/lib/a11y.ts:102-120 | stepping back undoes stepping forward and the other way round |
| A11y.ArrowsInverse | course/swe/book-viewer/src/lib/a11y.ts:98-122 | on an allowed axis the opposite arrow undoes an arrow; on an axis the orientation rules out both arrows keep the index |
| A11y.HomeEnd | course/swe/book-viewer/src/lib/a11y.ts:123-130 | Home selects the first item and End the last, whatever the orientation |
| ChaptersContext.FindIndex | packages/book-viewer/src/lib/chapters-context.tsx:69 | -1 exactly when no chapter has the slug; otherwise the first position holding it |
| ChaptersContext.GetChapter | packages/book-viewer/src/lib/chapters-context.tsx:66 | absent exactly when no chapter has the slug; otherwise the first chapter with that slug, the one `findIndex` finds |
| ChaptersContext.NextChapter | packages/book-viewer/src/lib/chapters-context.tsx:68-74 | a next chapter is the one right after a chapter with the slug; there is none for an unknown slug, nor for the last chapter of a catalogue of distinct slugs |
| ChaptersContext.PrevChapter | packages/book-viewer/src/lib/chapters-context.tsx:76-82 | a previous chapter is the one right before a chapter with the slug; there is none for an unknown slug, nor for the first chapter |
| ChaptersContext.InTier | packages/book-viewer/src/lib/chapters-context.tsx:43 | a tier is no longer than the catalogue |
| ChaptersContext.InTierMembers | packages/book-viewer/src/lib/chapters-context.tsx:43 | a tier lists exactly the catalogue's chapters with that tier number |
| ChaptersContext.TiersOf | packages/book-viewer/src/lib/chapters-context.tsx:37-57 | one tier per title, numbered from 1, each holding exactly its chapters in catalogue order |
| ChaptersContext.BuildTableOfContents | packages/book-viewer/src/lib/chapters-context.tsx:37-57 | exactly the tiers 1, 2 and 3, titled "Foundations", "Collaboration & Quality" and "Professional Practices", each with its chapters in catalogue order |
| ChaptersContext.NextChapterAt | packages/book-viewer/src/lib/chapters-context.tsx:68-82 | in a catalogue of distinct slugs, next is the neighbour after the chapter (none after the last) and previous the one before (none before the first) |
| ChaptersContext.UnknownSlugHasNoNeighbours | packages/book-viewer/src/lib/chapters-context.tsx:68-82 | a slug with no chapter has neither a next nor a previous chapter |
| ChaptersContext.NextOfPrev | packages/book-viewer/src/lib/chapters-context.tsx:68-82 | going back and then forward from any chapter but the first returns to it |
| ChaptersContext.PrevOfNext | packages/book-viewer/src/lib/chapters-context.tsx:68-82 | going forward and then back from any chapter but the last returns to it |
| ChaptersContext.TiersPartition | packages/book-viewer/src/lib/chapters-context.tsx:37-57 | when every chapter's tier is in 1..n, the tiers 1..n together hold every chapter once |
| ChaptersContext.TierSizesEmpty | packages/book-viewer/src/lib/chapters-context.tsx:43 | an empty catalogue fills no tier |
| ChaptersContext.TierSizesCons | packages/book-viewer/src/lib/chapters-context.tsx:43 | the first chapter adds one to the tier sizes exactly when its tier is in range |
| ChaptersContext.OutOfRangeTierOmitted | packages/book-viewer/src/lib/chapters-context.tsx:37-57 | a chapter whose tier is outside 1..3 appears in no tier of the table of contents |
| ChaptersContext.TwoDigits | course/swe/book/src/lib/chapters.ts:10-32 | chapter numbers are two characters, "00" to "99" |
| ChaptersContext.TwoDigitsInjective | course/swe/book/src/lib/chapters.ts:10-32 | distinct positions get distinct chapter numbers |
| ChaptersContext.NumberedUnique | course/swe/book/src/lib/chapters.ts:10-32 | a catalogue numbered by position, each slug led by its number, has distinct slugs |
| ChaptersContext.InTierBlock | packages/book-viewer/src/lib/chapters-context.tsx:43 | a tier whose chapters form one block of the catalogue lists exactly that block |
| ChaptersContext.TotalReadingTimePrefix | packages/book-viewer/src/lib/chapters-context.tsx:64 | extending a prefix by one chapter adds exactly that chapter's minutes |
| ChaptersContext.TotalReadingTimeAppend | packages/book-viewer/src/lib/chapters-context.tsx:64 | the total reading time is additive over concatenation |
| ChaptersContext.TotalReadingTimeBounds | packages/book-viewer/src/lib/chapters-context.tsx:64 | the total reading time is at least the minutes of every chapter, and 0 exactly when every chapter takes 0 minutes |
| ChaptersLlm.Catalogue | course/llm/book/src/lib/chapters.ts:10-36 | 18 chapters, numbered "00" upwards by position, each slug led by its number and a dash; no slug repeats |
| ChaptersLlm.GetChapter | course/llm/book/src/lib/chapters.ts:41-43 | absent exactly when no catalogued chapter has the slug; otherwise the catalogued chapter with it |
| ChaptersLlm.NextChapter | course/llm/book/src/lib/chapters.ts:48-54 | a next chapter is a catalogued chapter and exists only for a known slug; the last chapter has none |
| ChaptersLlm.PrevChapter | course/llm/book/src/lib/chapters.ts:59-65 | a previous chapter is a catalogued chapter and exists only for a known slug; the first chapter has none |
| ChaptersLlm.TableOfContents | course/llm/book/src/lib/chapters.ts:70-93 | one tier per title ("Foundations", "Practical Skills", "Agentic Development", "Judgment & Ethics"), numbered from 1, listing only catalogued chapters of that tier |
| ChaptersLlm.TotalReadingTime | course/llm/book/src/lib/chapters.ts:98 | the chapters take 505 minutes together |
| ChaptersLlm.TierAt | course/llm/book/src/lib/chapters.ts:10-36 | the tier of each chapter by position: consecutive blocks of sizes 5, 5, 5, 3 |
| ChaptersLlm.TableOfContentsTiers | course/llm/book/src/lib/chapters.ts:70-93 | each tier, with its own title, lists exactly its block of the catalogue in order (sizes 5, 5, 5, 3), so every chapter is listed once |
| ChaptersLlm.Navigation | course/llm/book/src/lib/chapters.ts:48-65 | each chapter leads to the next and back to the previous; the last has no next and the first no previous |
| ChaptersLlm.UnknownSlug | course/llm/book/src/lib/chapters.ts:41-65 | a slug outside the catalogue has no chapter, no next and no previous |
| ChaptersLlm.NextOfPrev | course/llm/book/src/lib/chapters.ts:48-65 | going back from any chapter but the first and then forward returns to it |
| ChaptersSwe.Catalogue | course/swe/book/src/lib/chapters.ts:10-32 | 16 chapters, numbered "00" upwards by position, each slug led by its number and a dash; no slug repeats |
| ChaptersSwe.GetChapter | course/swe/book/src/lib/chapters.ts:37-39 | absent exactly when no catalogued chapter has the slug; otherwise the catalogued chapter with it |
| ChaptersSwe.NextChapter | course/swe/book/src/lib/chapters.ts:44-50 | a next chapter is a catalogued chapter and exists only for a known slug; the last chapter has none |
| ChaptersSwe.PrevChapter | course/swe/book/src/lib/chapters.ts:55-61 | a previous chapter is a catalogued chapter and exists only for a known slug; the first chapter has none |
| ChaptersSwe.TableOfContents | course/swe/book/src/lib/chapters.ts:66-84 | one tier per title ("Foundations", "Collaboration & Quality", "Professional Practices"), numbered from 1, listing only catalogued chapters of that tier |
| ChaptersSwe.TotalReadingTime | course/swe/book/src/lib/chapters.ts:89 | the chapters take 410 minutes together |
| ChaptersSwe.TierAt | course/swe/book/src/lib/chapters.ts:10-32 | the tier of each chapter by position: consecutive blocks of sizes 5, 5, 6 |
| ChaptersSwe.TableOfContentsTiers | course/swe/book/src/lib/chapters.ts:66-84 | each tier, with its own title, lists exactly its block of the catalogue in order (sizes 5, 5, 6), so every chapter is listed once |
| ChaptersSwe.Navigation | course/swe/book/src/lib/chapters.ts:44-61 | each chapter leads to the next and back to the previous; the last has no next and the first no previous |
| ChaptersSwe.UnknownSlug | course/swe/book/src/lib/chapters.ts:37-61 | a slug outside the catalogue has no chapter, no next and no previous |
| ChaptersSwe.NextOfPrev | course/swe/book/src/lib/chapters.ts:44-61 | going back from any chapter but the first and then forward returns to it |
| ChaptersMbs.Catalogue | course/mbs/book/src/lib/chapters.ts:10-21 | 7 chapters, numbered "00" upwards by position, each slug led by its number and a dash; no slug repeats |
| ChaptersMbs.GetChapter | course/mbs/book/src/lib/chapters.ts:26-28 | absent exactly when no catalogued chapter has the slug; otherwise the catalogued chapter with it |
| ChaptersMbs.NextChapter | course/mbs/book/src/lib/chapters.ts:33-39 | a next chapter is a catalogued chapter and exists only for a known slug; the last chapter has none |
| ChaptersMbs.PrevChapter | course/mbs/book/src/lib/chapters.ts:44-50 | a previous chapter is a catalogued chapter and exists only for a known slug; the first chapter has none |
| ChaptersMbs.TableOfContents | course/mbs/book/src/lib/chapters.ts:55-68 | one tier per title ("Essential Foundations", "Integration & Practice"), numbered from 1, listing only catalogued chapters of that tier |
| ChaptersMbs.TotalReadingTime | course/mbs/book/src/lib/chapters.ts:73 | the chapters take 81 minutes together |
| ChaptersMbs.TierAt | course/mbs/book/src/lib/chapters.ts:10-21 | the tier of each chapter by position: consecutive blocks of sizes 5, 2 |
| ChaptersMbs.TableOfContentsTiers | course/mbs/book/src/lib/chapters.ts:55-68 | each tier, with its own title, lists exactly its block of the catalogue in order (sizes 5, 2), so every chapter is listed once |
| ChaptersMbs.Navigation | course/mbs/book/src/lib/chapters.ts:33-50 | each chapter leads to the next and back to the previous; the last has no next and the first no previous |
| ChaptersMbs.UnknownSlug | course/mbs/book/src/lib/chapters.ts:26-50 | a slug outside the catalogue has no chapter, no next and no previous |
| ChaptersMbs.NextOfPrev | course/mbs/book/src/lib/chapters.ts:33-50 | going back from any chapter but the first and then forward returns to it |
| SyncContent.ChapterNumber | course/llm/book/scripts/sync-content.mjs:47-50 | a number exactly for names starting with two digits and a dash, and then those two digits |
| SyncContent.GenerateFrontmatter | course/llm/book/scripts/sync-content.mjs:55-79 | content that opens with a closed "---" block is kept as it is; any other content gets the generated block in front |
| SyncContent.AddMdxImports | course/llm/book/scripts/sync-content.mjs:85-103 | without a "---" from index 4 on the imports go in front; otherwise a newline and the imports go in four characters past that fence (at the end when the fence ends the content) |
| SyncContent.InsertionPoint | course/llm/book/scripts/sync-content.mjs:93-98 | the insertion point never passes the end of the content, as slice clamps |
| SyncContent.MdFiles | course/llm/book/scripts/sync-content.mjs:122-125 | the filter keeps no more files than it is given |
| SyncContent.Written | course/llm/book/scripts/sync-content.mjs:129-152 | the loop writes at most one file per listed file |
| SyncContent.Sync | course/llm/book/scripts/sync-content.mjs:105-157 | a missing book directory writes nothing; otherwise exactly the outputs Written gives for the filtered list, in listing order |
| SyncContent.WrittenStep | course/llm/book/scripts/sync-content.mjs:129-152 | one more file adds its processed output, or nothing when it has no chapter number |
| SyncContent.ChapterNumberOfNumbered | course/llm/book/scripts/sync-content.mjs:47-50 | two digits and a dash in front yield exactly those digits |
| SyncContent.CatalogueFileNumber | course/llm/book/scripts/sync-content.mjs:47-50 | a catalogued chapter's file, its slug plus ".md", is numbered with the chapter's own number |
| SyncContent.NotFenced | course/llm/book/scripts/sync-content.mjs:59-66 | content not starting with "-" never counts as having frontmatter |
| SyncContent.LeadingWhitespaceDefeats | course/llm/book/scripts/sync-content.mjs:59-66 | a block preceded by whitespace passes the trimmed check but fails the anchored match, so a second block is generated in front |
| SyncContent.FrontmatterRecognised | course/llm/book/scripts/sync-content.mjs:59-78 | a generated block is recognised as frontmatter whatever follows it |
| SyncContent.GenerateFrontmatterIdempotent | course/llm/book/scripts/sync-content.mjs:55-79 | running generateFrontmatter again, for any chapter number, changes nothing |
| SyncContent.UnlistedChapterDefaults | course/llm/book/scripts/sync-content.mjs:56-76 | a chapter the table does not list gets "Untitled", tier 1 and the course's default reading time |
| SyncContent.ListedChapterFields | course/llm/book/scripts/sync-content.mjs:56-76 | a listed chapter with non-empty fields gets its own title, tier and reading time |
| SyncContent.CourseDefaults | course/mbs/book/scripts/sync-content.mjs:62 | the default reading time is 20 minutes for the llm and swe courses and 10 for mbs; only mbs filters names by number |
| SyncContent.InsertPos | course/llm/book/scripts/sync-content.mjs:91-102 | the insertion position never passes the end of the content |
| SyncContent.AddMdxImportsInsertsOnly | course/llm/book/scripts/sync-content.mjs:85-103 | the imports only add text: cutting the inserted piece back out restores the content |
| SyncContent.CutOut | course/llm/book/scripts/sync-content.mjs:94-99 | removing an inserted piece from a concatenation restores the rest |
| SyncContent.MdFilesMembers | course/llm/book/scripts/sync-content.mjs:123-125 | the filter keeps exactly the ".md" files not starting with "README" (and, for mbs, named with a number) |
| SyncContent.DestNameAppendsX | course/llm/book/scripts/sync-content.mjs:147 | a ".md" name is renamed by appending "x", ending in ".mdx" |
| SyncContent.WrittenFromNumbered | course/llm/book/scripts/sync-content.mjs:129-152 | every output comes from a numbered file of the list, processed |
| SyncContent.NumberedWritten | course/llm/book/scripts/sync-content.mjs:129-152 | every numbered file of the list is written |
| SyncContent.StrictFilterWritesAll | course/mbs/book/scripts/sync-content.mjs:104-134 | with the numbered filter no file is skipped: one output per file that passes |
| SyncContent.StrictWritten | course/mbs/book/scripts/sync-content.mjs:111-134 | a list of files that all pass the numbered filter is written in full |
| SyncContent.FrontmatterSplit | course/llm/book/scripts/sync-content.mjs:70-76 | the generated block is the opening fence and title followed by the tail of tier and minutes |
| SyncContent.TailHasNoDash | course/llm/book/scripts/sync-content.mjs:72-74 | before the closing fence the block's tail holds no dash |
| SyncContent.NoFenceBeforeClosing | course/llm/book/scripts/sync-content.mjs:91 | a title without "---" puts no fence in the generated block before its closing one |
| SyncContent.NoFenceAt | course/llm/book/scripts/sync-content.mjs:91 | no fence starts at any one position between the opening and closing fences |
| SyncContent.OnlyClosingFence | course/llm/book/scripts/sync-content.mjs:91 | the first fence from index 4 on is the block's closing "---" |
| SyncContent.ImportsFollowGeneratedBlock | course/llm/book/scripts/sync-content.mjs:141-144 | after a generated block, the imports land right after the block's closing line and its blank line, followed by a newline and the chapter text |
| RehypeToc.HeadingDepth | course/swe/book-viewer/src/lib/rehype-toc.ts:42-44 | the depth of an h1..h6 tag is its digit, between 1 and 6 |
| RehypeToc.IsHeading | course/swe/book-viewer/src/lib/rehype-toc.ts:35-37 | true exactly for the tags h1 to h6 |
| RehypeToc.KeptTexts | course/swe/book-viewer/src/lib/rehype-toc.ts:63-76 | the slugger is handed at most one text per element |
| RehypeToc.Annotate | course/swe/book-viewer/src/lib/rehype-toc.ts:79-88 | the heading gets its slug as id and "heading-anchor" appended to an array className (a className that is not an array is replaced); tag and text are kept |
| RehypeToc.TocOf | course/swe/book-viewer/src/lib/rehype-toc.ts:59-96 | one entry per heading handed to the slugger |
| RehypeToc.VFile.constructor | course/swe/book-viewer/src/lib/rehype-toc.ts:95 | a file starts with no table of contents |
| RehypeToc.Run | course/swe/book-viewer/src/lib/rehype-toc.ts:56-96 | with depths defaulting to 2 and 3, the file's table of contents is TocOf the original elements, and each element is replaced by its visited form in place |
| RehypeToc.VisitedUpTo | course/swe/book-viewer/src/lib/rehype-toc.ts:63-92 | the visit keeps the number of elements |
| RehypeToc.VisitedUpToStep | course/swe/book-viewer/src/lib/rehype-toc.ts:63-92 | visiting position i changes that position alone |
| RehypeToc.RunStep | course/swe/book-viewer/src/lib/rehype-toc.ts:63-92 | one more element adds its trimmed text and its entry exactly when it is a kept heading, and nothing otherwise |
| RehypeToc.TocOfPrefix | course/swe/book-viewer/src/lib/rehype-toc.ts:91 | entries are only ever appended: the table of a prefix is a prefix of the table |
| RehypeToc.TocEntryOfHeading | course/swe/book-viewer/src/lib/rehype-toc.ts:66-91 | each kept heading has exactly the entry at its rank among kept headings, with its depth, trimmed text and the slug written to its id |
| RehypeToc.TocOfLastKept | course/swe/book-viewer/src/lib/rehype-toc.ts:91 | a kept heading at the end adds exactly its entry at the end |
| RehypeToc.UnkeptUntouched | course/swe/book-viewer/src/lib/rehype-toc.ts:64-73 | non-headings, headings outside the range and headings with blank text get neither an entry nor an id |
| RehypeToc.TocEntriesInRange | course/swe/book-viewer/src/lib/rehype-toc.ts:64-73 | every entry's depth is within the range and 1..6, and its text is not empty |
| RemarkPedagogical.ExtractText | course/swe/book-viewer/src/lib/remark-pedagogical.ts:117-125 | a text node gives its value, and a tree without text nodes (literals such as inline code included) has no text |
| RemarkPedagogical.ExtractTextAll | course/swe/book-viewer/src/lib/remark-pedagogical.ts:122 | nodes without text nodes have no text together |
| RemarkPedagogical.ExtractTextAllAppend | course/swe/book-viewer/src/lib/remark-pedagogical.ts:121-123 | the text of a list of nodes is additive over concatenation |
| RemarkPedagogical.ListItemTexts | course/swe/book-viewer/src/lib/remark-pedagogical.ts:99-107 | at most one text per item, none of them empty |
| RemarkPedagogical.ChecklistItems | course/swe/book-viewer/src/lib/remark-pedagogical.ts:94-112 | every checklist item text is non-empty |
| RemarkPedagogical.ChecklistItemsAppend | course/swe/book-viewer/src/lib/remark-pedagogical.ts:97-109 | the items of consecutive parts of the children concatenate |
| RemarkPedagogical.ExtractChecklistItems | course/swe/book-viewer/src/lib/remark-pedagogical.ts:94-112 | the loop over the top-level lists collects exactly ChecklistItems, with no empty text |
| RemarkPedagogical.ListItemsOf | course/swe/book-viewer/src/lib/remark-pedagogical.ts:99-107 | the inner loop over one list collects exactly the non-empty texts of its list items |
| RemarkPedagogical.FirstLeaf | course/swe/book-viewer/src/lib/remark-pedagogical.ts:139 | the position found holds a leaf directive with the name and no earlier position does; none found means none has it |
| RemarkPedagogical.SplitAt | course/swe/book-viewer/src/lib/remark-pedagogical.ts:130-153 | without the marker everything is before; with it, before is what precedes the first marker, after is its children followed by what follows it |
| RemarkPedagogical.SplitAtKeepsNodes | course/swe/book-viewer/src/lib/remark-pedagogical.ts:130-153 | no node is dropped or duplicated: the first marker is traded for its own children |
| RemarkPedagogical.SliceKeepsNodes | course/swe/book-viewer/src/lib/remark-pedagogical.ts:141-146 | replacing a directive by its children keeps every other node |
| RemarkPedagogical.EmptyBeforeMeansMarkerFirst | course/swe/book-viewer/src/lib/remark-pedagogical.ts:193 | an empty "before" part means the children are empty or the marker comes first |
| RemarkPedagogical.SplitAtDirective | course/swe/book-viewer/src/lib/remark-pedagogical.ts:130-153 | the loop with its found flag returns exactly SplitAt |
| RemarkPedagogical.FirstLeafNone | course/swe/book-viewer/src/lib/remark-pedagogical.ts:139 | appending a node other than the marker keeps the marker absent |
| RemarkPedagogical.FirstLeafOfPrefix | course/swe/book-viewer/src/lib/remark-pedagogical.ts:139 | a marker with no marker before it is the first one |
| RemarkPedagogical.FirstLeafUnique | course/swe/book-viewer/src/lib/remark-pedagogical.ts:139-140 | the first marker is unique: later markers do not count |
| RemarkPedagogical.SlotChildren | course/swe/book-viewer/src/lib/remark-pedagogical.ts:203-208 | a question or try block has its first slot and at most one more |
| RemarkPedagogical.Replacement | course/swe/book-viewer/src/lib/remark-pedagogical.ts:174-270 | a directive is replaced exactly when its name is one of the seven handled names, always by a JSX element; a concept becomes a ConceptCard with its id and chapter and its own children; reveal and hint become a plain div with their children |
| RemarkPedagogical.QuestionSlots | course/swe/book-viewer/src/lib/remark-pedagogical.ts:184-211 | a question becomes a QuestionBlock with its id and chapter, a question slot holding the content before "::reveal" (all children when that is empty), and an answer slot exactly when there is answer content |
| RemarkPedagogical.TrySlots | course/swe/book-viewer/src/lib/remark-pedagogical.ts:230-248 | a try block is flagged hasHint exactly when there is hint content; the exercise slot comes first, and the second child, present exactly then, is the hint slot holding the content after "::hint" |
| RemarkPedagogical.CheckpointItems | course/swe/book-viewer/src/lib/remark-pedagogical.ts:213-228 | a checkpoint has no children and carries its checklist items as a JSON array that parses back to those items |
| RemarkPedagogical.CalloutType | course/swe/book-viewer/src/lib/remark-pedagogical.ts:250-258 | a callout keeps its children and has the type attribute given, or "info" when it is absent or empty |
| RemarkPedagogical.Range | course/swe/book-viewer/src/lib/remark-pedagogical.ts:170 | the consecutive counter values lo, lo+1, ..., hi-1 |
| RemarkPedagogical.IdFor | course/swe/book-viewer/src/lib/remark-pedagogical.ts:170 | the id attribute is used exactly when it is present and non-empty; otherwise the id is the name, a dash and the current counter value |
| RemarkPedagogical.IndicesAppend | course/swe/book-viewer/src/lib/remark-pedagogical.ts:170 | the counter values taken by consecutive walks concatenate |
| RemarkPedagogical.RangeAppend | course/swe/book-viewer/src/lib/remark-pedagogical.ts:170 | two adjacent ranges join into one |
| RemarkPedagogical.WalkNode | course/swe/book-viewer/src/lib/remark-pedagogical.ts:166-276 | a node is replaced by exactly one node, and its fallback ids take exactly the consecutive counter values from the old counter on |
| RemarkPedagogical.WalkList | course/swe/book-viewer/src/lib/remark-pedagogical.ts:166-276 | siblings keep their number, and their fallback ids take exactly the consecutive counter values from the old counter on |
| RemarkPedagogical.FallbackIdsDistinct | course/swe/book-viewer/src/lib/remark-pedagogical.ts:155-170 | every fallback id issued in one walk differs from every other |
| RemarkPedagogical.IndicesOrder | course/swe/book-viewer/src/lib/remark-pedagogical.ts:170 | counter values are taken in increasing order |
| RemarkPedagogical.IndexAt | course/swe/book-viewer/src/lib/remark-pedagogical.ts:170 | a fallback id's counter value sits after those of the ids before it |
| RemarkPedagogical.IndicesPrefixGrows | course/swe/book-viewer/src/lib/remark-pedagogical.ts:170 | a fallback id adds a counter value to every longer prefix |
| RemarkPedagogical.UnknownUntouched | course/swe/book-viewer/src/lib/remark-pedagogical.ts:267-269 | a tree with no handled directive comes out unchanged (each directive still takes an id) |
| RemarkPedagogical.UnknownUntouchedList | course/swe/book-viewer/src/lib/remark-pedagogical.ts:267-269 | siblings with no handled directive come out unchanged |
| RemarkPedagogical.ReplacedNotDescended | course/swe/book-viewer/src/lib/remark-pedagogical.ts:272-275 | a handled directive is replaced in place and its content is not visited: only its own id is taken |
| RemarkPedagogical.PedagogicalPlugin.constructor | course/swe/book-viewer/src/lib/remark-pedagogical.ts:155 | the module counter starts at 0 |
| RemarkPedagogical.PedagogicalPlugin.Transform | course/swe/book-viewer/src/lib/remark-pedagogical.ts:160-278 | the root keeps its number of children, each walked with the chapter slug (default "unknown"); the counter carries over to later documents and never decreases |
| Json.EscapeChar | course/swe/book-viewer/src/lib/remark-pedagogical.ts:223 | a character is written as itself exactly when it needs no escape (not a quote, backslash or control character); otherwise as a backslash escape |
| Json.StringifyArray | course/swe/book-viewer/src/lib/remark-pedagogical.ts:223 | the array text is bracketed, and is "[]" exactly for no items |
| Json.Elements | course/swe/book-viewer/src/lib/remark-pedagogical.ts:223 | the elements after the first end with the closing bracket |
| Json.UnescapeOfEscape | course/swe/book-viewer/src/lib/remark-pedagogical.ts:223 | decoding an escape gives back the character and leaves the rest |
| Json.DecodeBodyOfEscape | course/swe/book-viewer/src/lib/remark-pedagogical.ts:223 | decoding an escaped string body up to its closing quote gives back the string and the rest |
| Json.DecodeTailStep | course/swe/book-viewer/src/lib/remark-pedagogical.ts:223 | one more comma-separated string prepends its value to the decoded tail |
| Json.ParseArrayStep | course/swe/book-viewer/src/lib/remark-pedagogical.ts:223 | an opening bracket, a string and a decoded tail parse to the whole list |
| Json.ElementsCons | course/swe/book-viewer/src/lib/remark-pedagogical.ts:223 | the elements text is a comma, the quoted first string, then the rest |
| Json.DecodeTailOfElements | course/swe/book-viewer/src/lib/remark-pedagogical.ts:223 | the elements text decodes back to the strings |
| Json.ParseStringifyArray | course/swe/book-viewer/src/lib/remark-pedagogical.ts:223 | parsing the items attribute gives back exactly the checklist items (round trip) |
| Json.ParseArray | packages/book-viewer/src/components/Checkpoint.tsx:19-21 | the empty array is parsed exactly from "[]", and any parsed text starts with "[" |
| Json.StringifyArrayCons | course/swe/book-viewer/src/lib/remark-pedagogical.ts:223 | a non-empty array text is a bracket, the quoted first string, then the elements |
| Slots.SlotValue | course/swe/book-viewer/src/components/QuestionBlock.tsx:33 | a slot's value is truthy: the element's children, or the element itself when it has none |
| Slots.ExtractSlots | course/swe/book-viewer/src/components/QuestionBlock.tsx:24-49 | the forEach loop returns exactly ExtractSlotsOf (the question and answer slots, or exercise and hint) |
| Slots.LastWithSlot | course/swe/book-viewer/src/components/QuestionBlock.tsx:29-42 | the position found carries the slot and no later one does; none found means no child carries it |
| Slots.ScanCharacterised | course/swe/book-viewer/src/components/QuestionBlock.tsx:29-42 | the scan keeps the value of the last child of each slot and every other child, in order |
| Slots.ExtractSlotsLastWins | course/swe/book-viewer/src/components/QuestionBlock.tsx:24-49 | the first slot is the last child carrying it, else the unslotted children when there are any; the second slot has no fallback |
| Slots.QuestionBlock | course/swe/book-viewer/src/components/QuestionBlock.tsx:51-103 | a truthy prop overrides its slot and a falsy one leaves the slot's value; the answer section is shown exactly when the answer is truthy |
| Slots.TryBlock | course/swe/book-viewer/src/components/TryBlock.tsx:49-93 | a truthy hint prop overrides the hint slot and a falsy one leaves the slot's value; the exercise is the exercise slot when truthy, else the children; hasHintContent is a truthy hint or the flag "true"/true; the hint section needs a truthy hint, the flag alone shows none |
| Slots.ToReactAll | course/swe/book-viewer/src/components/QuestionBlock.tsx:29 | compiling keeps one React child per node |
| Slots.QuestionPairsWithTransformer | course/swe/book-viewer/src/components/QuestionBlock.tsx:24-60 | a compiled question directive shows its question slot, and an answer section exactly when the Markdown had content after "::reveal" |
| Slots.TryPairsWithTransformer | course/swe/book-viewer/src/components/TryBlock.tsx:22-69 | in a compiled try directive the flag agrees with the hint section, shown exactly when the Markdown had content after "::hint" |
| Slots.PairedScan | course/swe/book-viewer/src/components/QuestionBlock.tsx:24-49 | the one or two slot divs the transformer emits are found as the two slots |
| SearchIndex.StripMarkdown | course/swe/book/scripts/generate-search-index.mjs:18-54 | the plain text is whitespace-normalised: no leading or trailing space and no run of two whitespace characters |
| Text.LeadingRun | course/swe/book/scripts/generate-search-index.mjs:66 | the length of the run of one character at the start of a string (the `#` of a heading, the newlines of a blank-line run): all those characters are that one and the next is not |
| SearchIndex.HasLineTerminatorIff | course/swe/book/scripts/generate-search-index.mjs:66 | a text has a line terminator exactly when it is not free of them |
| SearchIndex.TailMatchesIff | course/swe/book/scripts/generate-search-index.mjs:66 | the tail after the hashes matches exactly when it splits into a non-empty whitespace run and a non-empty rest with no line terminator |
| SearchIndex.HeadingText | course/swe/book/scripts/generate-search-index.mjs:66-78 | a heading line has exactly two or three leading "#", and its text is the trimmed rest of the line |
| SearchIndex.OtherLevelsAreBody | course/swe/book/scripts/generate-search-index.mjs:66 | a line with one or with four or more "#" is never a heading |
| SearchIndex.Dashify | course/swe/book/scripts/generate-search-index.mjs:81 | only letters, digits and single dashes remain; no two dashes in a row |
| SearchIndex.HeadingSlug | course/swe/book/scripts/generate-search-index.mjs:79-82 | the slug holds only lower-case letters, digits and single dashes, and neither starts nor ends with a dash |
| SearchIndex.SlugShape | course/swe/book/scripts/generate-search-index.mjs:82 | dropping a dash at either end keeps the slug's alphabet and single dashes and leaves no dash at the ends |
| SearchIndex.Section | course/swe/book/scripts/generate-search-index.mjs:71-74 | a section's record keeps its heading text |
| SearchIndex.Records | course/swe/book/scripts/generate-search-index.mjs:59-100 | one record per section |
| SearchIndex.ExtractHeadings | course/swe/book/scripts/generate-search-index.mjs:59-100 | the loop over the lines returns exactly the records of the document's sections |
| SearchIndex.ScanSections | course/swe/book/scripts/generate-search-index.mjs:60-99 | for any heading matcher, the loop keeping the current heading and its body lines returns exactly the records of the sections |
| SearchIndex.RecordsAppend | course/swe/book/scripts/generate-search-index.mjs:92-97 | one more section appends its record |
| SearchIndex.RunUnfold | course/swe/book/scripts/generate-search-index.mjs:65-89 | the scan of the rest of the lines is one step then the scan of the lines after |
| SearchIndex.ScanComputesSections | course/swe/book/scripts/generate-search-index.mjs:59-100 | finishing the scan of a document yields exactly its sections |
| SearchIndex.BodyLength | course/swe/book/scripts/generate-search-index.mjs:86-88 | the body is a prefix of the lines, ended by a heading line when it stops before the end |
| SearchIndex.BodyLinesAreNotHeadings | course/swe/book/scripts/generate-search-index.mjs:86-88 | every line of a body is not a heading line |
| SearchIndex.ExtractHeadingsCharacterised | course/swe/book/scripts/generate-search-index.mjs:65-97 | from any state, the scan closes the open section with the body lines up to the next heading and then yields one section per later heading |
| SearchIndex.HeadingLineStep | course/swe/book/scripts/generate-search-index.mjs:68-85 | a heading line closes the open section and opens its own |
| SearchIndex.BodyLineStep | course/swe/book/scripts/generate-search-index.mjs:86-88 | a body line joins the open section's body, or is dropped before the first heading |
| SearchIndex.BodyGrows | course/swe/book/scripts/generate-search-index.mjs:87 | appending a line to the body extends it by the next line |
| SearchIndex.TextsOf | course/swe/book/scripts/generate-search-index.mjs:71-74 | one text per section, in order |
| SearchIndex.HeadingTextsAppend | course/swe/book/scripts/generate-search-index.mjs:65-89 | the heading texts of consecutive parts concatenate |
| SearchIndex.NoHeadingTexts | course/swe/book/scripts/generate-search-index.mjs:86-88 | lines with no heading line contribute no heading text |
| SearchIndex.SectionsFromTexts | course/swe/book/scripts/generate-search-index.mjs:65-97 | the sections' texts are the heading lines' texts |
| SearchIndex.TextsOfCons | course/swe/book/scripts/generate-search-index.mjs:71-74 | the texts of a section followed by others start with its text |
| SearchIndex.HeadingTextsOfSection | course/swe/book/scripts/generate-search-index.mjs:65-89 | a heading line and its body contribute the heading's text alone |
| SearchIndex.OneSectionPerHeadingLine | course/swe/book/scripts/generate-search-index.mjs:59-100 | one section per heading line, in document order, carrying that line's text; lines before the first heading are dropped |
| SearchIndex.LeadingDigits | course/swe/book/scripts/generate-search-index.mjs:106 | the leading run of digits, ended by a non-digit |
| SearchIndex.ChapterNumber | course/swe/book/scripts/generate-search-index.mjs:105-108 | the chapter number is one or more digits: exactly the digits leading the name when a dash follows them, and "00" otherwise |
| SearchIndex.ChapterOf | course/swe/book/scripts/generate-search-index.mjs:129-148 | the slug is the file name without its first ".mdx"; the title is the trimmed frontmatter title, else the slug; the chapter is "Ch. " and the file's number; the content is the first min(5000, length) characters of the stripped text and the headings the first min(20, count) section records |
| SearchIndex.ChapterKeyOfFile | course/swe/book/scripts/generate-search-index.mjs:137-155 | for a file named with digits and a dash, the sort key read back from the record's slug is the file's own chapter number |
| SearchIndex.BuildIndex | course/swe/book/scripts/generate-search-index.mjs:110-162 | an unreadable directory gives an empty index; otherwise the records of the ".mdx" files, stably sorted by chapter number, a permutation of them |
| SearchIndex.ChaptersOfMdx | course/swe/book/scripts/generate-search-index.mjs:126-149 | every indexed chapter comes from an ".mdx" file, and every ".mdx" file is indexed |
| SearchModal.Window | course/swe/book-viewer/src/components/SearchModal.tsx:331-333 | the excerpt is the trimmed text from 50 characters before the hit (or the start) to 100 after it (or the end), with "..." in front exactly when text before was cut and "..." behind exactly when text after was cut; never longer than 156 characters |
| SearchModal.Ellipsised | course/swe/book-viewer/src/components/SearchModal.tsx:325 | "..." leads exactly when the start was cut and trails when the end was cut; with neither cut the middle is returned unchanged |
| SearchModal.WindowMiddle | course/swe/book-viewer/src/components/SearchModal.tsx:323-325 | the trimmed middle of a window of at most 150 characters is at most 150 long, and the whole-content window is the trimmed content |
| SearchModal.Framed | course/swe/book-viewer/src/components/SearchModal.tsx:325 | a framed middle starts with its prefix, ends with its suffix and its length is the sum of the three |
| SearchModal.FirstWordHit | course/swe/book-viewer/src/components/SearchModal.tsx:319-327 | none of the query words occurs exactly when the result is None; otherwise the result is the position of the first word, in query order, that occurs, every earlier word being absent |
| SearchModal.ExcerptOf | course/swe/book-viewer/src/components/SearchModal.tsx:313-334 | when the whole query occurs the excerpt is the window around its first occurrence; it is never longer than 156 characters |
| SearchModal.GetExcerpt | course/swe/book-viewer/src/components/SearchModal.tsx:313-334 | the loop over the query words returns the specification excerpt: the window around the whole query's first occurrence, else around the first word that occurs, else the opening 150 characters trimmed and followed by "..." |
| SearchModal.ExcerptOfHit | course/swe/book-viewer/src/components/SearchModal.tsx:315-333 | when the lower-cased content contains the query, the excerpt is the window around its first occurrence |
| SearchModal.ExcerptWithoutHit | course/swe/book-viewer/src/components/SearchModal.tsx:317-328 | when neither the query nor any of its words occurs, the excerpt is the opening 150 characters trimmed, and it always ends with "..." |
| SearchModal.LongWords | course/swe/book-viewer/src/components/SearchModal.tsx:88 | the kept words are exactly the words longer than one character: each kept word is one of them, and none of them is dropped |
| SearchModal.AllIncluded | course/swe/book-viewer/src/components/SearchModal.tsx:105 | true exactly when every word occurs in the content |
| SearchModal.FirstHeadingHit | course/swe/book-viewer/src/components/SearchModal.tsx:118-133 | None exactly when no heading's text or body contains the query; otherwise the position of a matching heading with no earlier match |
| SearchModal.FirstHeadingHitFrom | course/swe/book-viewer/src/components/SearchModal.tsx:118-133 | the same first-match property for the headings from a given position on |
| SearchModal.FirstHeadingHitAt | course/swe/book-viewer/src/components/SearchModal.tsx:122-131 | a matching heading with no earlier match is the one the first-match search finds |
| SearchModal.Found | course/swe/book-viewer/src/components/SearchModal.tsx:89-134 | the chapter loop contributes at most one result per chapter |
| SearchModal.FoundStep | course/swe/book-viewer/src/components/SearchModal.tsx:91-134 | one more chapter appends exactly that chapter's result, if it has one, to the results so far |
| SearchModal.Limit | course/swe/book-viewer/src/components/SearchModal.tsx:136 | the shown results are the prefix of the found ones of length exactly min(10, found): the first ten, or all of them when there are fewer |
| SearchModal.Search | course/swe/book-viewer/src/components/SearchModal.tsx:81-138 | without a loaded index or for a query shorter than two characters there are no results and the selection is left where it was; otherwise the results are each chapter's result for the lower-cased query, in chapter order, capped at ten, and the selection goes back to 0, so Enter opens the first result whenever there is one; with no results Enter opens nothing |
| SearchModal.SearchChapter | course/swe/book-viewer/src/components/SearchModal.tsx:92-133 | one pass of the chapter loop, with its early `continue`s and `break`, yields exactly the chapter's specified result |
| SearchModal.SearchHeadings | course/swe/book-viewer/src/components/SearchModal.tsx:118-133 | the heading loop yields the result for the first matching heading, with that heading's slug, text and excerpt, or none |
| SearchModal.ChapterLevelResult | course/swe/book-viewer/src/components/SearchModal.tsx:93-115 | a title or content hit gives a chapter-level result with no heading and the excerpt of the chapter content |
| SearchModal.ResultPriority | course/swe/book-viewer/src/components/SearchModal.tsx:92-133 | a title or content hit wins over the headings; a result carries a heading exactly when neither hit and some heading matched, and then it is the first matching heading; there is no result exactly when nothing matched; every result keeps the chapter's slug, title and number |
| SearchModal.NoLongWordsMatchesAll | course/swe/book-viewer/src/components/SearchModal.tsx:88-107 | a query with no word longer than one character matches every chapter, because `every` over no words is true |
| SearchModal.FoundFromChapters | course/swe/book-viewer/src/components/SearchModal.tsx:89-134 | every found result is the result of some chapter of the index |
| SearchModal.FoundPrefix | course/swe/book-viewer/src/components/SearchModal.tsx:91-134 | the results of the first chapters are a prefix of the results of all of them, so the loop preserves chapter order |
| SearchModal.SelectionAfter | course/swe/book-viewer/src/components/SearchModal.tsx:159-167 | ArrowDown moves to the next result and stays on the last one (Math.min with count - 1, so -1 with no results); ArrowUp moves to the previous result and stays at 0 (Math.max with 0); other keys keep the selection |
| SearchModal.DownThenUp | course/swe/book-viewer/src/components/SearchModal.tsx:160-166 | ArrowDown then ArrowUp returns to the same result when it is not the last |
| SearchModal.UpThenDown | course/swe/book-viewer/src/components/SearchModal.tsx:160-166 | ArrowUp then ArrowDown returns to the same result when it is not the first |
| SearchModal.ResultUrl | course/swe/book-viewer/src/components/SearchModal.tsx:195-198 | the address starts with the chapter page; it ends with "#" and the heading slug exactly when the result has a non-empty heading slug, with no "#" otherwise when the slug has none |
| SearchModal.EnterTarget | course/swe/book-viewer/src/components/SearchModal.tsx:168-173 | Enter opens something exactly when the selection is on a result, and then opens that result's address |
| ReviewSession.ItemFor | packages/book-viewer/src/components/ReviewSession.tsx:44-55 | an item records the history's length as its review count, its final entry as its last review, and the interval for that count as its next interval |
| ReviewSession.GatherDueItems | packages/book-viewer/src/components/ReviewSession.tsx:33-58 | the loop over the chapter records, skipping chapters the catalogue lacks, yields the specified due items in record order |
| ReviewSession.ItemsOf | packages/book-viewer/src/components/ReviewSession.tsx:41-51 | at most one item per concept history, each due now, with the next interval for its count, and of the chapter given |
| ReviewSession.GatherDue | packages/book-viewer/src/components/ReviewSession.tsx:33-58 | every gathered item is due now with the next interval for its count; an empty catalogue yields nothing |
| ReviewSession.ChapterDueItems | packages/book-viewer/src/components/ReviewSession.tsx:41-57 | the loop over one chapter's concept histories, skipping empty and not-yet-due ones, yields that chapter's specified items in history order |
| ReviewSession.GatherSession | packages/book-viewer/src/components/ReviewSession.tsx:32-72 | the session list is the gathered items ordered by ascending retention strength with ties kept in gathering order; it is sorted by that key and a permutation of the gathered items |
| ReviewSession.ItemsOfMembers | packages/book-viewer/src/components/ReviewSession.tsx:41-57 | an item is among a chapter's items exactly when some non-empty, due concept history of the chapter yields it |
| ReviewSession.GatherDueMembers | packages/book-viewer/src/components/ReviewSession.tsx:35-58 | an item is gathered exactly when some chapter record contributes it |
| ReviewSession.GatheredItemSound | packages/book-viewer/src/components/ReviewSession.tsx:35-58 | every gathered item comes from a catalogued chapter, carries that chapter's catalogue title, and comes from a due, non-empty history of that chapter in the snapshot; its count is positive and its next interval the one for its count |
| ReviewSession.GatheredItemComplete | packages/book-viewer/src/components/ReviewSession.tsx:35-58 | every due, non-empty history of a catalogued chapter yields its item among the gathered ones |
| ReviewSession.UncataloguedChapterSkipped | packages/book-viewer/src/components/ReviewSession.tsx:38-39 | a chapter the catalogue does not list contributes no item |
| ReviewSession.CurrentItem | packages/book-viewer/src/components/ReviewSession.tsx:74 | there is a current item exactly when the index is within the list |
| ReviewSession.Advance | packages/book-viewer/src/components/ReviewSession.tsx:84-91 | before the last item the index moves on by one and the answer is hidden; on the last item (or with none) the session completes with the index kept; the list and the count are kept |
| ReviewSession.AfterReviewed | packages/book-viewer/src/components/ReviewSession.tsx:76-92 | with no current item nothing changes; otherwise the reviewed count rises by one and the session advances |
| ReviewSession.RecordReview | packages/book-viewer/src/components/ReviewSession.tsx:76-80 | with no current item the snapshot is kept; otherwise the current concept's history gains exactly one entry, the time of the review |
| ReviewSession.AfterSkip | packages/book-viewer/src/components/ReviewSession.tsx:94-103 | skipping advances exactly as reviewing does, but counts nothing |
| ReviewSession.NextReviewIn | packages/book-viewer/src/components/ReviewSession.tsx:255 | the interval shown is the one for one more review, and is at least the item's current interval |
| ReviewSession.ReviewSessionView.constructor | packages/book-viewer/src/components/ReviewSession.tsx:25-29 | the view starts with no items, at index 0, answer hidden, session open, nothing reviewed |
| ReviewSession.ReviewSessionView.Gather | packages/book-viewer/src/components/ReviewSession.tsx:32-72 | the gathering effect replaces the list with the sorted due items and keeps the rest of the state |
| ReviewSession.ReviewSessionView.RevealAnswer | packages/book-viewer/src/components/ReviewSession.tsx:219 | "Show answer" shows the answer and changes nothing else |
| ReviewSession.ReviewSessionView.HandleReviewed | packages/book-viewer/src/components/ReviewSession.tsx:76-92 | the state steps as AfterReviewed says and the store records exactly the one review RecordReview describes |
| ReviewSession.ReviewSessionView.HandleSkip | packages/book-viewer/src/components/ReviewSession.tsx:94-103 | the state steps as AfterSkip says |
| ReviewSession.StepsKeepIndexInRange | packages/book-viewer/src/components/ReviewSession.tsx:84-101 | both buttons keep the index on an item (or at 0 when there is none) and move it by at most one |
| ReviewSession.SessionWalk | packages/book-viewer/src/components/ReviewSession.tsx:74-103 | on a fixed list of n items, after k < n presses the k-th item is on screen with the session open, after n presses the session is complete on the last item, and the reviewed count equals the "I Reviewed This" presses: every item is shown once, in order |
| ReviewSession.ReviewedThenRegathered | packages/book-viewer/src/components/ReviewSession.tsx:32-92 | reviewing as the component runs it (the store update re-runs the gathering effect) advances the index and count exactly as AfterReviewed does, but over a freshly gathered list |
| ReviewSession.RegatherLosesCurrentItem | packages/book-viewer/src/components/ReviewSession.tsx:32-92 | with two due concepts, reviewing the first leaves the session open at index 1 of a re-gathered list that has no item there |
| ReviewSession.SampleGathered | packages/book-viewer/src/components/ReviewSession.tsx:35-58 | one chapter with two concepts first reviewed at time 0 has both due three days later, in history order |
| ReviewSession.RegatheredHasOne | packages/book-viewer/src/components/ReviewSession.tsx:35-58 | after either sample concept is reviewed, at most one item is still due |
| ReviewPrompt.ToDueConcept | packages/book-viewer/src/components/ReviewPrompt.tsx:46-51 | a due concept keeps the item's chapter slug, chapter title and concept id |
| ReviewPrompt.DaysSinceReviewBounds | packages/book-viewer/src/components/ReviewPrompt.tsx:42-44 | the days since the review are the whole days that have fully passed: that many days fit in the elapsed time and one more does not |
| ReviewPrompt.DueList | packages/book-viewer/src/components/ReviewPrompt.tsx:46-51 | one due concept per gathered item |
| ReviewPrompt.DueListAt | packages/book-viewer/src/components/ReviewPrompt.tsx:46-51 | the k-th due concept is the conversion of the k-th gathered item |
| ReviewPrompt.DueListStep | packages/book-viewer/src/components/ReviewPrompt.tsx:46-51 | one more item appends exactly its due concept |
| ReviewPrompt.DueListAppend | packages/book-viewer/src/components/ReviewPrompt.tsx:29-54 | converting two lists of items one after the other is converting their concatenation |
| ReviewPrompt.ChapterDueConcepts | packages/book-viewer/src/components/ReviewPrompt.tsx:35-53 | the loop over one chapter's histories yields the due concepts of the same items the review session gathers for that chapter, in history order |
| ReviewPrompt.GatherDueConcepts | packages/book-viewer/src/components/ReviewPrompt.tsx:27-54 | the gathering loop applies the review session's filters (catalogued chapter, non-empty, due) and yields their due concepts in record order |
| ReviewPrompt.DueForPrompt | packages/book-viewer/src/components/ReviewPrompt.tsx:26-59 | the prompt's list is a permutation of the gathered due concepts, ordered most overdue first, ties in gathering order |
| ReviewPrompt.Bumped | packages/book-viewer/src/components/ReviewPrompt.tsx:83-89 | a chapter seen for the first time gets a group of count one with this concept's title; a known chapter's group keeps its title and counts one more |
| ReviewPrompt.GroupByChapter | packages/book-viewer/src/components/ReviewPrompt.tsx:82-91 | the reduce over the due concepts builds the specified chapter groups |
| ReviewPrompt.CountConcept | packages/book-viewer/src/components/ReviewPrompt.tsx:83-89 | the reduce's callback writes the chapter's group bumped by one: a new group of count 1 with this concept's title, or the old group with one more |
| ReviewPrompt.ByChapter | packages/book-viewer/src/components/ReviewPrompt.tsx:82-91 | no chapter has two groups, and there are no more groups than due concepts; ByChapterGet gives each group's contents and ByChapterOrder their order |
| ReviewPrompt.ByChapterStep | packages/book-viewer/src/components/ReviewPrompt.tsx:83-89 | one more concept bumps its chapter's group: a new group for a new chapter, one more in the count otherwise |
| ReviewPrompt.ByChapterOrder | packages/book-viewer/src/components/ReviewPrompt.tsx:82-91 | the groups come in insertion order: the chapters in the order of their first due concept, so with the list sorted most overdue first the chapter of the most overdue concept leads |
| ReviewPrompt.ChapterSlugsMembers | packages/book-viewer/src/components/ReviewPrompt.tsx:82-91 | a chapter is among the grouped chapters exactly when it has a due concept |
| ReviewPrompt.Visible | packages/book-viewer/src/components/ReviewPrompt.tsx:77 | hidden when dismissed or when nothing is due, shown otherwise |
| ReviewPrompt.Shown | packages/book-viewer/src/components/ReviewPrompt.tsx:124 | the listed groups are the prefix of the groups of length exactly min(3, groups): the first three, or all of them when there are fewer |
| ReviewPrompt.ShownFirstThree | packages/book-viewer/src/components/ReviewPrompt.tsx:82-124 | the prompt lists the first three chapters to appear among the due concepts, or all of them when there are fewer |
| ReviewPrompt.FirstOf | packages/book-viewer/src/components/ReviewPrompt.tsx:82-91 | a chapter has a first due concept exactly when it has any, and that concept belongs to the chapter |
| ReviewPrompt.ByChapterGet | packages/book-viewer/src/components/ReviewPrompt.tsx:82-91 | each chapter's group counts exactly its due concepts and carries the title of the first of them; a chapter with none has no group |
| ReviewPrompt.ByChapterGetSame | packages/book-viewer/src/components/ReviewPrompt.tsx:83-89 | one more concept of a chapter leaves that chapter's group equal to the directly counted one |
| ReviewPrompt.BumpedExpected | packages/book-viewer/src/components/ReviewPrompt.tsx:83-89 | bumping the directly counted group of the last concept's chapter gives the directly counted group after it |
| ReviewPrompt.ByChapterGetOther | packages/book-viewer/src/components/ReviewPrompt.tsx:83-89 | one more concept of another chapter leaves this chapter's group unchanged |
| ReviewPrompt.SumCountsPut | packages/book-viewer/src/components/ReviewPrompt.tsx:84-89 | replacing one group's entry changes the total count by the difference between the new and the old count |
| ReviewPrompt.ByChapterCountsSum | packages/book-viewer/src/components/ReviewPrompt.tsx:82-91 | the group counts add up to the number of due concepts |
| ReviewPrompt.GroupTitleFromCatalogue | packages/book-viewer/src/components/ReviewPrompt.tsx:26-91 | in the prompt's pipeline every group belongs to a catalogued chapter and is titled with that chapter's catalogue title |
| Text.TrimStart | course/llm/book/scripts/sync-content.mjs:59 | `trimStart()` returns a suffix of its input that does not start with whitespace |
| Text.TrimStartRemovesSpaces | course/llm/book/scripts/sync-content.mjs:59 | everything `trimStart()` removes is whitespace |
| Text.TrimEnd | course/swe/book/scripts/generate-search-index.mjs:53 | `trimEnd()` returns a prefix of its input that does not end with whitespace |
| Text.TrimEndRemovesSpaces | course/swe/book/scripts/generate-search-index.mjs:53 | everything `trimEnd()` removes is whitespace |
| Text.Trim | course/swe/book/scripts/generate-search-index.mjs:53 | `trim()` returns text no longer than its input with no whitespace at either end |
| Text.TrimIsSlice | course/swe/book/scripts/generate-search-index.mjs:53 | `trim()` keeps one contiguous piece of its input, starting where the leading whitespace ends |
| Text.TrimOfTrimmed | course/swe/book/scripts/generate-search-index.mjs:53 | trimming text without whitespace at its ends changes nothing |
| Text.IndexOfFrom | course/swe/book-viewer/src/components/SearchModal.tsx:315 | `indexOf(sub, from)` is -1 exactly when the piece occurs nowhere at or after `from`; otherwise the first position at or after `from` where it occurs |
| Text.IndexOf | course/swe/book-viewer/src/components/SearchModal.tsx:315 | `indexOf` is -1 exactly when the piece occurs nowhere; otherwise it is the first position where it occurs |
| Text.IncludesIff | course/swe/book-viewer/src/components/SearchModal.tsx:93 | `includes` holds exactly when the piece occurs somewhere |
| Text.EmptyOccursAtZero | course/swe/book-viewer/src/components/SearchModal.tsx:319-321 | the empty string, which splitting a query with leading whitespace produces, is found at position 0 |
| Text.Slice | course/swe/book-viewer/src/components/SearchModal.tsx:328 | `slice(start, end)` clamps both bounds to the length: the piece between them when they are in order, empty when end is not after start |
| Text.ReplaceFirst | course/swe/book/scripts/generate-search-index.mjs:137 | `replace` with a string pattern changes nothing without an occurrence and otherwise replaces only the first occurrence |
| Text.ToLower | course/swe/book-viewer/src/components/SearchModal.tsx:87 | lower-casing keeps the length and maps each character by itself |
| Text.Split | course/swe/book/scripts/generate-search-index.mjs:61 | `split` on one character yields at least one piece and no piece contains the separator |
| Text.JoinSplit | course/swe/book/scripts/generate-search-index.mjs:61 | joining the pieces of a split with the separator gives back the original text |
| Text.SplitWs | course/swe/book-viewer/src/components/SearchModal.tsx:319 | `split(/\s+/)` yields at least one piece and no piece contains whitespace |
| Text.JoinSplitWs | course/swe/book-viewer/src/components/SearchModal.tsx:319 | joining the pieces with single spaces gives the text with every whitespace run collapsed to one space, so the pieces are exactly the text between whitespace runs, in order |
| Text.CollapseSpacesShape | course/swe/book/scripts/generate-search-index.mjs:52 | after `replace(/\s+/g, ' ')` the only whitespace is single spaces, never two in a row |
| Text.NormalizeWhitespaceIsNormalized | course/swe/book/scripts/generate-search-index.mjs:51-53 | the search text has no newline, only single spaces as whitespace, and no whitespace at its ends |
| Text.NormalizeWhitespaceIdempotent | course/swe/book/scripts/generate-search-index.mjs:51-53 | normalising whitespace twice gives the same text as once |
| Text.NatToString | course/swe/book-viewer/src/lib/remark-pedagogical.ts:170 | `String(n)` of a natural number is a non-empty run of decimal digits |
| Text.NatToStringRoundTrip | course/swe/book-viewer/src/lib/remark-pedagogical.ts:170 | reading the decimal digits back gives the number |
| Text.NatToStringInjective | course/swe/book-viewer/src/lib/remark-pedagogical.ts:170 | different numbers have different decimal strings |
| Text.DashNumberInjective | course/swe/book-viewer/src/lib/remark-pedagogical.ts:170 | a name, a dash and a number determine both the name and the number |
| Records.Keys | course/swe/book-viewer/src/lib/progress.ts:93 | the keys of a record, in entry order |
| Records.Get | course/swe/book-viewer/src/lib/progress.ts:82 | a lookup finds a value exactly when the key is present |
| Records.GetFound | course/swe/book-viewer/src/lib/progress.ts:82 | a value found under a key is the value of an entry with that key |
| Records.GetAt | course/swe/book-viewer/src/lib/progress.ts:82 | in a record without repeated keys, looking up an entry's key gives that entry's value |
| Records.Put | course/swe/book-viewer/src/lib/progress.ts:92-98 | a spread with a computed key keeps the size for a present key and appends the entry for a new one |
| Records.PutGet | course/swe/book-viewer/src/lib/progress.ts:92-98 | after the spread, the written key gives the new value and every other key its old one |
| Records.PutPut | course/swe/book-viewer/src/lib/progress.ts:92-98 | a second write under the same key overwrites the first |
| Records.PutKeepsKeys | course/swe/book-viewer/src/lib/progress.ts:92-98 | writing a present key keeps the key order |
| Records.PutKeys | course/swe/book-viewer/src/lib/progress.ts:92-98 | the spread leaves the key order unchanged when the key is present and appends the key when it is new |
| Records.PutUnique | course/swe/book-viewer/src/lib/progress.ts:92-98 | the spread never repeats a key |
| Records.PutAll | course/swe/book-viewer/src/lib/progress.ts:92-98 | a property of every value survives writing a value that has it |
| Records.Values | course/swe/book-viewer/src/lib/progress.ts:92-98 | the values of a record, in entry order |
| Sorting.SortBy | course/swe/book-viewer/src/lib/spaced-repetition.ts:91-100 | the comparator sort keeps the length and the elements, as a permutation |
| Sorting.SortBySorted | course/swe/book-viewer/src/lib/spaced-repetition.ts:91-100 | the sorted list is in ascending order of the key |
| Sorting.SortByStable | course/swe/book-viewer/src/lib/spaced-repetition.ts:91-100 | the sort is stable: elements with equal keys keep their relative order |
| Sorting.Insert | course/swe/book-viewer/src/lib/spaced-repetition.ts:91-100 | inserting one element adds exactly that element |
| Sorting.InsertSorted | course/swe/book-viewer/src/lib/spaced-repetition.ts:91-100 | inserting into a sorted list keeps it sorted |
| Sorting.WithKeyMembers | course/swe/book-viewer/src/lib/spaced-repetition.ts:91-100 | the elements with a given key are exactly the list's elements carrying that key |

## Left out

- `loadProgress`, `saveProgress`, `initProgress`, `exportProgress` and `importProgress` are not modelled. They are localStorage and JSON I/O plus the nanostores subscription (course/swe/book-viewer/src/lib/progress.ts:28-72, 236-256). The store is a class holding one snapshot.
- `calculateRetentionStrength` is not modelled because it computes a floating-point exponential decay. Where the order matters, it is a parameter key function.
- Floating-point rounding of JavaScript numbers is not modelled. The average number of reviews in the statistics is an exact `real`, and `courseProgress`'s `Math.round(sum / 16)` is the exact integer rounding `(sum + 8) / 16`.
- `courseProgress` divides by the fixed 16, which is the size of the swe catalogue. The model keeps that constant rather than the catalogue size.
- `Date` parsing, ISO-8601 strings and `Date.now()` are not modelled. Instants are integer milliseconds and the current time is the parameter `now`.
- `toLocaleDateString` is not modelled; the date label of an older bookmark is a parameter.
- The review prompt's dismissal stored under a date in localStorage is not modelled (packages/book-viewer/src/components/ReviewPrompt.tsx:62-75). Visibility takes the dismissed flag as input.
- `addBookmark`, `removeBookmark` and `isBookmarked` are not modelled. They live in packages/book-viewer/src/lib/progress.ts, which is not part of this model.
- The regular-expression markup removal of `stripMarkdown` (course/swe/book/scripts/generate-search-index.mjs:20-50) is a parameter. The whitespace normalisation that follows it is modelled exactly.
- The frontmatter title regular expression of the search-index builder is a parameter, `titleMatch`.
- `GithubSlugger` is a parameter: the slug of a text given the texts already slugged in the same document.
- `hast-util-to-string`, `unist-util-visit` and React's `Children`/`isValidElement` are external libraries. The text of a heading is an input, the visit is a preorder walk, and React children are a datatype.
- File-system reads and writes in the sync and search-index scripts are not modelled. The directory listing and the file contents are inputs, and the files written are the returned outputs.
- The swe and mbs sync scripts (course/swe/book-viewer/scripts/sync-content.mjs and course/mbs/book/scripts/sync-content.mjs) have no check that the book directory exists; in both, a failing directory read is modelled as `None`, the same result as the llm script's early return.
- The console logging of every script is not modelled.
- The DOM behaviour is not modelled: `focus()`, `preventDefault()`, the event listeners and their cleanup, `scrollIntoView`, the focus trap (course/swe/book-viewer/src/lib/a11y.ts:27-69) and the screen-reader announcements (a11y.ts:161-197).
- The search dialog's `fetch` of the index, its 150 ms debounce timer and its open/close reset are not modelled (course/swe/book-viewer/src/components/SearchModal.tsx:44-78, 148-152). The loaded index is an `Option`.
- Rendering is not modelled: markup, class names, progress-bar widths, the confidence-level labels and the tier descriptions and course configuration of the catalogues.
- `toLowerCase` is modelled on ASCII letters only. Other letters are left unchanged.
- Characters outside the Basic Multilingual Plane are one character here, but two UTF-16 code units in JavaScript. Lengths and `slice` positions differ for such text.
- `Object.entries` lists integer-like keys first in JavaScript, while the model keeps insertion order throughout. Chapter slugs and concept ids are not integer-like.
- The metadata tables of the sync scripts are not cross-checked against the course catalogues.

## Findings

| source | as written | input that shows it | evidently intended | confidence | as-written member | corrected member |
|---|---|---|---|---|---|---|
| packages/book-viewer/src/components/ReviewSession.tsx:32-92 | `handleReviewed` records the review in the progress store and advances `currentIndex`. The store update re-runs the gathering effect, whose list no longer holds the reviewed concept, so the advanced index lands on a shorter list. Items are skipped, and the view can stay open with no current item, which the render then dereferences (line 193). | One catalogued chapter with two concepts, each reviewed once at time 0, opened three days later. Both are due. After "I Reviewed This" on the first, the index is 1 but the re-gathered list has one item. | Step through the list gathered when the session started: each item is shown once, in order, and the session completes after the last. | high, not executed | ReviewSession.ReviewedThenRegathered, ReviewSession.RegatherLosesCurrentItem | ReviewSession.SessionWalk |

=== FILE: a11y.dfy ===
/**
 * The roving tabindex of a list of items: exactly one item is reachable
 * with Tab (tabindex 0), the others are skipped (tabindex -1), and the
 * arrow keys, Home and End move that one position. An item list is an
 * array of tabindex values; the DOM query that yields it, `focus()`,
 * `preventDefault()` and the listener bookkeeping are not modelled.
 */
module A11y {
  import opened Wrappers

  datatype Orientation = Horizontal | Vertical | Both

  /** The keys the handler distinguishes; `Other` stands for every other key. */
  datatype Key = ArrowDown | ArrowUp | ArrowRight | ArrowLeft | Home | End | Other

  predicate IsVertical(o: Orientation) {
    o == Vertical || o == Both
  }

  predicate IsHorizontal(o: Orientation) {
    o == Horizontal || o == Both
  }

  /** The position after `current`, wrapping from the last item to the first. */
  function Forward(current: nat, n: nat): (r: nat)
    requires current < n
    ensures r < n
    ensures r == if current + 1 < n then current + 1 else 0
  {
    (current + 1) % n
  }

  /** The position before `current`, wrapping from the first item to the last. */
  function Backward(current: nat, n: nat): (r: nat)
    requires current < n
    ensures r < n
    ensures r == if current > 0 then current - 1 else n - 1
  {
    (current - 1 + n) % n
  }

  /**
   * The index a key selects among `n` items, or `None` for a key the
   * handler ignores. An arrow on an axis the orientation does not allow
   * keeps the current index.
   */
  function NextIndex(current: nat, n: nat, key: Key, orientation: Orientation): (r: Option<nat>)
    requires current < n
    ensures r.Some? ==> r.value < n
    ensures r.None? <==> key == Other
    ensures key == ArrowDown ==>
              r == Some(if !IsVertical(orientation) then current else if current + 1 < n then current + 1 else 0)
    ensures key == ArrowUp ==>
              r == Some(if !IsVertical(orientation) then current else if current > 0 then current - 1 else n - 1)
    ensures key == ArrowRight ==>
              r == Some(if !IsHorizontal(orientation) then current else if current + 1 < n then current + 1 else 0)
    ensures key == ArrowLeft ==>
              r == Some(if !IsHorizontal(orientation) then current else if current > 0 then current - 1 else n - 1)
    ensures key == Home ==> r == Some(0)
    ensures key == End ==> r == Some(n - 1)
  {
    match key
    case ArrowDown => Some(if IsVertical(orientation) then Forward(current, n) else current)
    case ArrowUp => Some(if IsVertical(orientation) then Backward(current, n) else current)
    case ArrowRight => Some(if IsHorizontal(orientation) then Forward(current, n) else current)
    case ArrowLeft => Some(if IsHorizontal(orientation) then Backward(current, n) else current)
    case Home => Some(0)
    case End => Some(n - 1)
    case Other => None
  }

  /** The tabindex values when the item at `current` is the reachable one. */
  function TabIndices(n: nat, current: nat): (t: seq<int>)
    ensures |t| == n
  {
    seq(n, k => if k == current then 0 else -1)
  }

  /** `useRovingTabindex` once installed over a non-empty item list. */
  class RovingTabindex {
    const orientation: Orientation
    const items: array<int>
    var currentIndex: nat

    ghost predicate Valid()
      reads this, items
    {
      currentIndex < items.Length && items[..] == TabIndices(items.Length, currentIndex)
    }

    /** The first item gets tabindex 0 and every other -1. */
    constructor(n: nat, orientation: Orientation)
      requires n > 0
      ensures this.orientation == orientation && items.Length == n && fresh(items)
      ensures currentIndex == 0
      ensures Valid()
    {
      this.orientation := orientation;
      var a := new int[n];
      var i := 0;
      while i < n
        invariant 0 <= i <= n
        invariant forall k :: 0 <= k < i ==> a[k] == if k == 0 then 0 else -1
      {
        a[i] := if i == 0 then 0 else -1;
        i := i + 1;
      }
      items := a;
      currentIndex := 0;
      new;
      assert items[..] == TabIndices(n, 0);
    }

    /** Moves the reachable item from `currentIndex` to `next`, when they differ. */
    method MoveTo(next: nat)
      requires Valid() && next < items.Length
      modifies this, items
      ensures currentIndex == next
      ensures Valid()
    {
      if next != currentIndex {
        items[currentIndex] := -1;
        items[next] := 0;
        currentIndex := next;
        assert items[..] == TabIndices(items.Length, currentIndex);
      }
    }

    /** The keydown handler. */
    method HandleKeyDown(key: Key)
      requires Valid()
      modifies this, items
      ensures var next := NextIndex(old(currentIndex), items.Length, key, orientation);
        currentIndex == if next.Some? then next.value else old(currentIndex)
      ensures key == Other ==> items[..] == old(items[..])
      ensures Valid()
    {
      var next := NextIndex(currentIndex, items.Length, key, orientation);
      if next.None? {
        return;
      }
      MoveTo(next.value);
    }

    /** The focus listener of item `index`: focusing an item by pointer makes it the reachable one. */
    method HandleFocus(index: nat)
      requires Valid() && index < items.Length
      modifies this, items
      ensures currentIndex == index
      ensures Valid()
    {
      MoveTo(index);
    }
  }

  /** Installing over an empty list does nothing; otherwise the handler starts at the first item. */
  method UseRovingTabindex(n: nat, orientation: Orientation) returns (r: Option<RovingTabindex>)
    ensures r.None? <==> n == 0
    ensures r.Some? ==> fresh(r.value) && fresh(r.value.items) && r.value.Valid()
                        && r.value.items.Length == n && r.value.currentIndex == 0
  {
    if n == 0 {
      return None;
    }
    var roving := new RovingTabindex(n, orientation);
    return Some(roving);
  }

  // ------------------------------------------------------------------ lemmas

  /** Exactly one item is reachable with Tab, the one at the current index. */
  lemma OneReachable(n: nat, current: nat)
    requires current < n
    ensures forall k :: 0 <= k < n ==> (TabIndices(n, current)[k] == 0 <==> k == current)
    ensures forall k :: 0 <= k < n ==> TabIndices(n, current)[k] in {0, -1}
  {
  }

  lemma ModSmall(a: int, n: int)
    requires 0 <= a < n
    ensures a % n == a
  {
  }

  lemma ModShift(a: int, n: int)
    requires 0 <= a < n
    ensures (a + n) % n == a
  {
    ModSmall(a, n);
  }

  /** Away from the ends, forward and back move by one; past either end they wrap. */
  lemma Steps(current: nat, n: nat)
    requires current < n
    ensures Forward(current, n) == if current + 1 < n then current + 1 else 0
    ensures Backward(current, n) == if current > 0 then current - 1 else n - 1
  {
    if current + 1 < n {
      ModSmall(current + 1, n);
    } else {
      ModShift(0, n);
    }
    if current > 0 {
      ModShift(current - 1, n);
    } else {
      ModSmall(n - 1, n);
    }
  }

  /** Stepping back undoes stepping forward, and the other way round. */
  lemma ForwardBackward(current: nat, n: nat)
    requires current < n
    ensures Backward(Forward(current, n), n) == current
    ensures Forward(Backward(current, n), n) == current
  {
    Steps(current, n);
    Steps(Forward(current, n), n);
    Steps(Backward(current, n), n);
  }

  /**
   * On an allowed axis the opposite arrow undoes an arrow; on an axis the
   * orientation rules out, an arrow keeps the index.
   */
  lemma ArrowsInverse(current: nat, n: nat, orientation: Orientation)
    requires current < n
    ensures IsVertical(orientation) ==>
      NextIndex(NextIndex(current, n, ArrowDown, orientation).value, n, ArrowUp, orientation) == Some(current)
    ensures IsHorizontal(orientation) ==>
      NextIndex(NextIndex(current, n, ArrowRight, orientation).value, n, ArrowLeft, orientation) == Some(current)
    ensures !IsVertical(orientation) ==>
      NextIndex(current, n, ArrowDown, orientation) == NextIndex(current, n, ArrowUp, orientation) == Some(current)
    ensures !IsHorizontal(orientation) ==>
      NextIndex(current, n, ArrowRight, orientation) == NextIndex(current, n, ArrowLeft, orientation) == Some(current)
  {
    ForwardBackward(current, n);
  }

  /** Home and End select the ends whatever the orientation and the current index. */
  lemma HomeEnd(current: nat, n: nat, orientation: Orientation)
    requires current < n
    ensures NextIndex(current, n, Home, orientation) == Some(0)
    ensures NextIndex(current, n, End, orientation) == Some(n - 1)
    ensures NextIndex(n - 1, n, End, orientation) == Some(n - 1)
  {
  }
}

=== FILE: bookmarks_list.dfy ===
/**
 * The bookmarks page: every saved bookmark, grouped by chapter in the
 * order the chapters first appear, under a count, with a header per
 * chapter and a relative date per bookmark. The current time and the
 * locale's short date format are parameters; every link is the path the
 * page hands to `getUrl`.
 */
module BookmarksList {
  import opened Wrappers
  import opened Records
  import opened Types
  import opened Text
  import opened ChaptersContext

  /** `progress.bookmarks || []`. */
  function BookmarksOf(p: UserProgress): seq<Bookmark> {
    if p.bookmarks.Some? then p.bookmarks.value else []
  }

  // --------------------------------------------------------------- grouping

  /** The bookmarks saved in one chapter, in saved order. */
  function InChapter(bs: seq<Bookmark>, slug: string): (r: seq<Bookmark>)
    ensures |r| <= |bs|
  {
    if bs == [] then []
    else
      var b := bs[|bs| - 1];
      InChapter(bs[..|bs| - 1], slug) + (if b.chapterSlug == slug then [b] else [])
  }

  /** The chapter slugs in order of first appearance. */
  function Slugs(bs: seq<Bookmark>): seq<string> {
    if bs == [] then []
    else
      var s := Slugs(bs[..|bs| - 1]);
      var slug := bs[|bs| - 1].chapterSlug;
      if slug in s then s else s + [slug]
  }

  function GroupOrEmpty(byChapter: Record<seq<Bookmark>>, slug: string): seq<Bookmark> {
    match Get(byChapter, slug)
    case Some(g) => g
    case None => []
  }

  /** What the grouping loop builds from the first bookmarks: no chapter has two groups. */
  function GroupOf(bs: seq<Bookmark>): (r: Record<seq<Bookmark>>)
    ensures UniqueKeys(r)
    ensures |r| <= |bs|
  {
    if bs == [] then []
    else
      var acc := GroupOf(bs[..|bs| - 1]);
      var b := bs[|bs| - 1];
      PutUnique(acc, b.chapterSlug, GroupOrEmpty(acc, b.chapterSlug) + [b]);
      Put(acc, b.chapterSlug, GroupOrEmpty(acc, b.chapterSlug) + [b])
  }

  /** The grouping loop. */
  method GroupBookmarks(bookmarks: seq<Bookmark>) returns (byChapter: Record<seq<Bookmark>>)
    ensures byChapter == GroupOf(bookmarks)
  {
    byChapter := [];
    var i := 0;
    while i < |bookmarks|
      invariant 0 <= i <= |bookmarks|
      invariant byChapter == GroupOf(bookmarks[..i])
    {
      GroupOfStep(bookmarks, i);
      byChapter := AddToGroup(byChapter, bookmarks[i]);
      i := i + 1;
    }
    assert bookmarks[..i] == bookmarks;
  }

  /** One iteration: an empty list for a chapter seen first, then a push onto the chapter's list. */
  method AddToGroup(byChapter: Record<seq<Bookmark>>, bookmark: Bookmark) returns (r: Record<seq<Bookmark>>)
    ensures r == Put(byChapter, bookmark.chapterSlug, GroupOrEmpty(byChapter, bookmark.chapterSlug) + [bookmark])
  {
    r := byChapter;
    if Get(r, bookmark.chapterSlug).None? {
      r := Put(r, bookmark.chapterSlug, []);
    }
    PushStep(byChapter, r, bookmark);
    r := Put(r, bookmark.chapterSlug, Get(r, bookmark.chapterSlug).value + [bookmark]);
  }

  lemma GroupOfStep(bs: seq<Bookmark>, i: nat)
    requires i < |bs|
    ensures var acc := GroupOf(bs[..i]);
      GroupOf(bs[..i + 1]) == Put(acc, bs[i].chapterSlug, GroupOrEmpty(acc, bs[i].chapterSlug) + [bs[i]])
  {
    assert bs[..i + 1][..i] == bs[..i];
  }

  /** Creating an empty group first and then pushing onto it is one `Put` of the grown group. */
  lemma PushStep(before: Record<seq<Bookmark>>, created: Record<seq<Bookmark>>, b: Bookmark)
    requires created == if Get(before, b.chapterSlug).None? then Put(before, b.chapterSlug, []) else before
    ensures Get(created, b.chapterSlug).Some?
    ensures Put(created, b.chapterSlug, Get(created, b.chapterSlug).value + [b])
         == Put(before, b.chapterSlug, GroupOrEmpty(before, b.chapterSlug) + [b])
  {
    var slug := b.chapterSlug;
    if Get(before, slug).None? {
      PutGet(before, slug, [], slug);
      PutPut(before, slug, [], [b]);
      assert [] + [b] == [b];
    }
  }

  /** How many bookmarks the groups hold together. */
  function TotalSize(byChapter: Record<seq<Bookmark>>): nat {
    if byChapter == [] then 0 else |byChapter[0].value| + TotalSize(byChapter[1..])
  }

  // ------------------------------------------------------------- rendering

  /** `${n} bookmark${n !== 1 ? 's' : ''}`. */
  function CountLabel(n: nat): string {
    NatToString(n) + " bookmark" + (if n != 1 then "s" else "")
  }

  /** `chapter?.title || chapterSlug`: the catalogue title, or the slug when it is unknown or empty. */
  function HeaderTitle(chapters: seq<ChapterMeta>, slug: string): string {
    match GetChapter(chapters, slug)
    case Some(c) => if c.title != "" then c.title else slug
    case None => slug
  }

  /** `chapter?.number`: absent for a chapter the catalogue does not know. */
  function HeaderNumber(chapters: seq<ChapterMeta>, slug: string): Option<string> {
    match GetChapter(chapters, slug)
    case Some(c) => Some(c.number)
    case None => None
  }

  function ChapterLink(slug: string): string {
    "/chapters/" + slug
  }

  /** `/chapters/${chapterSlug}#${headingSlug}`. */
  function BookmarkLink(b: Bookmark): string {
    ChapterLink(b.chapterSlug) + "#" + b.headingSlug
  }

  /**
   * `formatDate`: whole days elapsed, rounded down, as "Today",
   * "Yesterday", "<n> days ago" below a week (a bookmark dated in the
   * future gives a negative count) and the locale's short date otherwise.
   */
  function FormatDate(createdAt: Instant, now: Instant, localeDate: Instant -> string): (r: string)
    ensures var d := now - createdAt;
      (0 <= d < MS_PER_DAY ==> r == "Today")
      && (MS_PER_DAY <= d < 2 * MS_PER_DAY ==> r == "Yesterday")
      && (2 * MS_PER_DAY <= d < 7 * MS_PER_DAY ==> r == NatToString(d / MS_PER_DAY) + " days ago")
      && (7 * MS_PER_DAY <= d ==> r == localeDate(createdAt))
      && (d < 0 ==> r == "-" + NatToString(-(d / MS_PER_DAY)) + " days ago" && d / MS_PER_DAY <= -1)
  {
    var diffDays := (now - createdAt) / MS_PER_DAY;
    if diffDays == 0 then "Today"
    else if diffDays == 1 then "Yesterday"
    else if diffDays < 7 then IntToString(diffDays) + " days ago"
    else localeDate(createdAt)
  }

  datatype ItemView = ItemView(link: string, text: string, date: string)

  datatype GroupView = GroupView(
    slug: string,
    link: string,
    title: string,
    number: Option<string>,
    items: seq<ItemView>)

  datatype View = NoBookmarks | Listing(countLabel: string, groups: seq<GroupView>)

  function ItemOf(b: Bookmark, now: Instant, localeDate: Instant -> string): ItemView {
    ItemView(BookmarkLink(b), b.headingText, FormatDate(b.createdAt, now, localeDate))
  }

  function GroupViewOf(e: Entry<seq<Bookmark>>, chapters: seq<ChapterMeta>, now: Instant,
                       localeDate: Instant -> string): GroupView
  {
    GroupView(e.key, ChapterLink(e.key), HeaderTitle(chapters, e.key), HeaderNumber(chapters, e.key),
              seq(|e.value|, j requires 0 <= j < |e.value| => ItemOf(e.value[j], now, localeDate)))
  }

  /** What the component renders for a progress snapshot and a catalogue. */
  function ViewOf(p: UserProgress, chapters: seq<ChapterMeta>, now: Instant, localeDate: Instant -> string): View {
    var bs := BookmarksOf(p);
    if |bs| == 0 then NoBookmarks
    else
      var byChapter := GroupOf(bs);
      Listing(CountLabel(|bs|),
              seq(|byChapter|, i requires 0 <= i < |byChapter| => GroupViewOf(byChapter[i], chapters, now, localeDate)))
  }

  /** `BookmarksList`: the empty state, or the count and one section per chapter. */
  method Render(p: UserProgress, chapters: seq<ChapterMeta>, now: Instant, localeDate: Instant -> string)
    returns (v: View)
    ensures v == ViewOf(p, chapters, now, localeDate)
  {
    var bookmarks := if p.bookmarks.Some? then p.bookmarks.value else [];
    if |bookmarks| == 0 {
      return NoBookmarks;
    }
    var byChapter := GroupBookmarks(bookmarks);
    v := Listing(CountLabel(|bookmarks|),
                 seq(|byChapter|, i requires 0 <= i < |byChapter| => GroupViewOf(byChapter[i], chapters, now, localeDate)));
  }

  // ------------------------------------------------------------------ lemmas

  lemma {:induction false} InChapterEmptyIff(bs: seq<Bookmark>, slug: string)
    ensures InChapter(bs, slug) == [] <==> forall i :: 0 <= i < |bs| ==> bs[i].chapterSlug != slug
  {
    if bs != [] {
      var init := bs[..|bs| - 1];
      InChapterEmptyIff(init, slug);
      assert forall i :: 0 <= i < |init| ==> init[i] == bs[i];
    }
  }

  /** Each group holds exactly its chapter's bookmarks in saved order; other slugs have no group. */
  lemma {:induction false} GroupGet(bs: seq<Bookmark>, slug: string)
    ensures Get(GroupOf(bs), slug) == if InChapter(bs, slug) == [] then None else Some(InChapter(bs, slug))
  {
    if bs != [] {
      var init := bs[..|bs| - 1];
      var b := bs[|bs| - 1];
      var acc := GroupOf(init);
      GroupGet(init, slug);
      PutGet(acc, b.chapterSlug, GroupOrEmpty(acc, b.chapterSlug) + [b], slug);
      assert InChapter(bs, slug) == InChapter(init, slug) + (if b.chapterSlug == slug then [b] else []);
      if b.chapterSlug == slug {
        assert GroupOrEmpty(acc, slug) == InChapter(init, slug);
        assert InChapter(bs, slug) != [];
      } else {
        assert InChapter(bs, slug) == InChapter(init, slug);
      }
    }
  }

  /** The groups come in the order in which their chapters first appear among the bookmarks. */
  lemma {:induction false} GroupOrder(bs: seq<Bookmark>)
    ensures Keys(GroupOf(bs)) == Slugs(bs)
  {
    if bs != [] {
      var init := bs[..|bs| - 1];
      var b := bs[|bs| - 1];
      var acc := GroupOf(init);
      var v := GroupOrEmpty(acc, b.chapterSlug) + [b];
      GroupOrder(init);
      HasKeyInKeys(acc, b.chapterSlug);
      if HasKey(acc, b.chapterSlug) {
        PutKeepsKeys(acc, b.chapterSlug, v);
      } else {
        KeysAppend(acc, Entry(b.chapterSlug, v));
      }
    }
  }

  lemma {:induction false} TotalSizePut(r: Record<seq<Bookmark>>, k: string, v: seq<Bookmark>)
    ensures TotalSize(Put(r, k, v)) + |GroupOrEmpty(r, k)| == TotalSize(r) + |v|
  {
    if r != [] && r[0].key != k {
      TotalSizePut(r[1..], k, v);
      assert Put(r, k, v)[1..] == Put(r[1..], k, v);
    }
  }

  /** Every bookmark is listed exactly once: the groups hold as many as were saved. */
  lemma {:induction false} GroupSizes(bs: seq<Bookmark>)
    ensures TotalSize(GroupOf(bs)) == |bs|
  {
    if bs != [] {
      var init := bs[..|bs| - 1];
      var b := bs[|bs| - 1];
      var acc := GroupOf(init);
      GroupSizes(init);
      TotalSizePut(acc, b.chapterSlug, GroupOrEmpty(acc, b.chapterSlug) + [b]);
    }
  }

  /** The empty state shows exactly when no bookmark is saved, or the list is absent. */
  lemma EmptyStateIff(p: UserProgress, chapters: seq<ChapterMeta>, now: Instant, localeDate: Instant -> string)
    ensures ViewOf(p, chapters, now, localeDate).NoBookmarks? <==> p.bookmarks.None? || p.bookmarks.value == []
  {
  }

  /**
   * A listing has one section per chapter that has bookmarks, in order of
   * first appearance, each linking to its chapter and listing that
   * chapter's bookmarks in saved order, under the count of all bookmarks.
   */
  lemma ListingShape(p: UserProgress, chapters: seq<ChapterMeta>, now: Instant, localeDate: Instant -> string)
    requires BookmarksOf(p) != []
    ensures var bs := BookmarksOf(p);
      var v := ViewOf(p, chapters, now, localeDate);
      v.Listing? && v.countLabel == CountLabel(|bs|)
      && |v.groups| == |Slugs(bs)|
      && forall i :: 0 <= i < |v.groups| ==>
           v.groups[i] == GroupViewOf(Entry(Slugs(bs)[i], InChapter(bs, Slugs(bs)[i])), chapters, now, localeDate)
  {
    GroupEntries(BookmarksOf(p));
  }

  /** The group record lists, per chapter in order of first appearance, that chapter's bookmarks. */
  lemma GroupEntries(bs: seq<Bookmark>)
    ensures |GroupOf(bs)| == |Slugs(bs)|
    ensures forall i :: 0 <= i < |GroupOf(bs)| ==> GroupOf(bs)[i] == Entry(Slugs(bs)[i], InChapter(bs, Slugs(bs)[i]))
  {
    var byChapter := GroupOf(bs);
    GroupOrder(bs);
    forall i | 0 <= i < |byChapter|
      ensures byChapter[i] == Entry(Slugs(bs)[i], InChapter(bs, Slugs(bs)[i]))
    {
      assert Keys(byChapter)[i] == byChapter[i].key;
      GetAt(byChapter, i);
      GroupGet(bs, byChapter[i].key);
    }
  }

  /** The count reads "1 bookmark" for one and takes a plural "s" for every other count. */
  lemma CountLabelPlural(n: nat)
    ensures EndsWith(CountLabel(n), "s") <==> n != 1
    ensures n == 1 ==> CountLabel(n) == "1 bookmark"
  {
    var d := NatToString(n);
    var shown := CountLabel(n);
    if n == 1 {
      assert d == "1";
      assert shown == "1 bookmark";
      assert shown[|shown| - 1] == 'k';
    } else {
      assert shown[|shown| - 1] == 's';
    }
  }

  /** The digits before the first space of the count shown give back the count. */
  lemma CountLabelCount(n: nat)
    ensures var shown := CountLabel(n);
      var k := FirstIndexOfChar(shown, ' ');
      k < |shown| && AllDigits(shown[..k]) && DigitsValue(shown[..k]) == n
  {
    var d := NatToString(n);
    var shown := CountLabel(n);
    assert shown[|d|] == ' ';
    assert forall i :: 0 <= i < |d| ==> shown[i] == d[i] && IsDigit(d[i]);
    assert FirstIndexOfChar(shown, ' ') == |d|;
    assert shown[..|d|] == d;
    NatToStringRoundTrip(n);
  }

  /** A catalogued chapter with a title is headed by that title. */
  lemma HeaderOfCatalogued(chapters: seq<ChapterMeta>, i: nat)
    requires UniqueSlugs(chapters) && i < |chapters| && chapters[i].title != ""
    ensures HeaderTitle(chapters, chapters[i].slug) == chapters[i].title
    ensures HeaderNumber(chapters, chapters[i].slug) == Some(chapters[i].number)
  {
    var r := FindIndex(chapters, chapters[i].slug);
    assert chapters[r].slug == chapters[i].slug;
  }

  /** A chapter the catalogue does not know is headed by its slug and has no number. */
  lemma HeaderOfUnknown(chapters: seq<ChapterMeta>, slug: string)
    requires forall i :: 0 <= i < |chapters| ==> chapters[i].slug != slug
    ensures HeaderTitle(chapters, slug) == slug && HeaderNumber(chapters, slug).None?
  {
  }

  /** A bookmark's link splits at its first '#' into the chapter link and the heading's anchor. */
  lemma BookmarkLinkSplits(b: Bookmark)
    requires '#' !in b.chapterSlug
    ensures var link := BookmarkLink(b);
      var k := FirstIndexOfChar(link, '#');
      k < |link| && link[..k] == ChapterLink(b.chapterSlug) && link[k + 1..] == b.headingSlug
  {
    var link := BookmarkLink(b);
    var prefix := ChapterLink(b.chapterSlug);
    assert link[|prefix|] == '#';
    assert forall i :: 0 <= i < |prefix| ==> link[i] == prefix[i];
    assert '#' !in "/chapters/";
    assert forall i :: 0 <= i < |prefix| ==> prefix[i] != '#';
    assert FirstIndexOfChar(link, '#') == |prefix|;
    assert link[..|prefix|] == prefix;
    assert link[|prefix| + 1..] == b.headingSlug;
  }
}

=== FILE: chapters_context.dfy ===
/**
 * The chapter catalogue helpers shared by every course: lookup by slug,
 * next and previous chapter, the table of contents grouped by tier, and
 * the total reading time. The chapters context builds them over the
 * catalogue it is given; each course's `chapters.ts` builds them over its
 * own constant catalogue.
 */
module ChaptersContext {
  import opened Wrappers
  import opened Types

  /** No two chapters share a slug. */
  ghost predicate UniqueSlugs(chapters: seq<ChapterMeta>) {
    forall i, j :: 0 <= i < j < |chapters| ==> chapters[i].slug != chapters[j].slug
  }

  /** `chapters.findIndex(ch => ch.slug === slug)`. */
  function FindIndex(chapters: seq<ChapterMeta>, slug: string): (r: int)
    ensures -1 <= r < |chapters|
    ensures r == -1 <==> forall i :: 0 <= i < |chapters| ==> chapters[i].slug != slug
    ensures r >= 0 ==> chapters[r].slug == slug && forall i :: 0 <= i < r ==> chapters[i].slug != slug
  {
    if chapters == [] then -1
    else if chapters[0].slug == slug then 0
    else
      var r := FindIndex(chapters[1..], slug);
      assert forall i :: 1 <= i < |chapters| ==> chapters[i] == chapters[1..][i - 1];
      if r == -1 then -1 else r + 1
  }

  /** `getChapter`: `chapters.find(ch => ch.slug === slug)`. */
  function GetChapter(chapters: seq<ChapterMeta>, slug: string): (r: Option<ChapterMeta>)
    ensures r.None? <==> forall i :: 0 <= i < |chapters| ==> chapters[i].slug != slug
    ensures r.Some? ==> r.value.slug == slug && r.value in chapters
    ensures r.Some? ==> 0 <= FindIndex(chapters, slug) && r.value == chapters[FindIndex(chapters, slug)]
  {
    var i := FindIndex(chapters, slug);
    if i == -1 then None else Some(chapters[i])
  }

  /** `getNextChapter`: the chapter after the one with this slug, if there is one. */
  function NextChapter(chapters: seq<ChapterMeta>, slug: string): (r: Option<ChapterMeta>)
    ensures r.Some? ==> exists i :: 0 <= i < |chapters| - 1 && chapters[i].slug == slug && r.value == chapters[i + 1]
    ensures GetChapter(chapters, slug).None? ==> r.None?
    ensures |chapters| > 0 && GetChapter(chapters, slug) == Some(chapters[|chapters| - 1]) && UniqueSlugs(chapters) ==> r.None?
  {
    var i := FindIndex(chapters, slug);
    if i >= 0 && i < |chapters| - 1 then Some(chapters[i + 1]) else None
  }

  /** `getPrevChapter`: the chapter before the one with this slug, if there is one. */
  function PrevChapter(chapters: seq<ChapterMeta>, slug: string): (r: Option<ChapterMeta>)
    ensures r.Some? ==> exists i :: 0 < i < |chapters| && chapters[i].slug == slug && r.value == chapters[i - 1]
    ensures GetChapter(chapters, slug).None? ==> r.None?
    ensures |chapters| > 0 && chapters[0].slug == slug ==> r.None?
  {
    var i := FindIndex(chapters, slug);
    if i > 0 then Some(chapters[i - 1]) else None
  }

  /** `chapters.filter(ch => ch.tier === tier)`. */
  function InTier(chapters: seq<ChapterMeta>, tier: int): (r: seq<ChapterMeta>)
    ensures |r| <= |chapters|
  {
    if chapters == [] then []
    else (if chapters[0].tier == tier then [chapters[0]] else []) + InTier(chapters[1..], tier)
  }

  /** A tier lists exactly the catalogue's chapters with that tier number. */
  lemma {:induction false} InTierMembers(chapters: seq<ChapterMeta>, tier: int)
    ensures forall c :: c in InTier(chapters, tier) <==> c in chapters && c.tier == tier
  {
    if chapters != [] {
      InTierMembers(chapters[1..], tier);
      assert chapters == [chapters[0]] + chapters[1..];
    }
  }

  /** One tier per title, numbered from 1, each holding its chapters in catalogue order. */
  function TiersOf(chapters: seq<ChapterMeta>, titles: seq<string>): (tiers: seq<Tier>)
    ensures |tiers| == |titles|
    ensures forall k :: 0 <= k < |tiers| ==>
              tiers[k] == Tier(k + 1, titles[k], InTier(chapters, k + 1))
  {
    seq(|titles|, k requires 0 <= k < |titles| => Tier(k + 1, titles[k], InTier(chapters, k + 1)))
  }

  const CONTEXT_TIER_TITLES: seq<string> := ["Foundations", "Collaboration & Quality", "Professional Practices"]

  /** `buildTableOfContents`: exactly the tiers 1, 2 and 3. */
  function BuildTableOfContents(chapters: seq<ChapterMeta>): (tiers: seq<Tier>)
    ensures |tiers| == 3
    ensures forall k :: 0 <= k < 3 ==> tiers[k].number == k + 1 && tiers[k].chapters == InTier(chapters, k + 1)
    ensures tiers[0].title == "Foundations" && tiers[1].title == "Collaboration & Quality"
            && tiers[2].title == "Professional Practices"
  {
    TiersOf(chapters, CONTEXT_TIER_TITLES)
  }

  /** `chapters.reduce((sum, ch) => sum + ch.estimatedMinutes, 0)`. */
  function TotalReadingTime(chapters: seq<ChapterMeta>): nat {
    if chapters == [] then 0
    else TotalReadingTime(chapters[..|chapters| - 1]) + chapters[|chapters| - 1].estimatedMinutes
  }

  /** The total is at least the minutes of every chapter, and 0 exactly when every chapter takes 0 minutes. */
  lemma {:induction false} TotalReadingTimeBounds(chapters: seq<ChapterMeta>)
    ensures forall i :: 0 <= i < |chapters| ==> chapters[i].estimatedMinutes <= TotalReadingTime(chapters)
    ensures TotalReadingTime(chapters) == 0 <==> forall i :: 0 <= i < |chapters| ==> chapters[i].estimatedMinutes == 0
  {
    if chapters != [] {
      var init := chapters[..|chapters| - 1];
      TotalReadingTimeBounds(init);
      assert forall i :: 0 <= i < |init| ==> init[i] == chapters[i];
    }
  }

  // ------------------------------------------------------------------ lemmas

  /** The next chapter is the neighbour after the slug's position, and none after the last. */
  lemma NextChapterAt(chapters: seq<ChapterMeta>, i: nat)
    requires UniqueSlugs(chapters) && i < |chapters|
    ensures NextChapter(chapters, chapters[i].slug) == if i + 1 < |chapters| then Some(chapters[i + 1]) else None
    ensures PrevChapter(chapters, chapters[i].slug) == if i > 0 then Some(chapters[i - 1]) else None
  {
    var r := FindIndex(chapters, chapters[i].slug);
    assert chapters[r].slug == chapters[i].slug;
  }

  /** Unknown slugs have neither a next nor a previous chapter. */
  lemma UnknownSlugHasNoNeighbours(chapters: seq<ChapterMeta>, slug: string)
    requires GetChapter(chapters, slug).None?
    ensures NextChapter(chapters, slug).None? && PrevChapter(chapters, slug).None?
  {
  }

  /** Going back and then forward from any chapter but the first returns to it. */
  lemma NextOfPrev(chapters: seq<ChapterMeta>, i: nat)
    requires UniqueSlugs(chapters) && 0 < i < |chapters|
    ensures PrevChapter(chapters, chapters[i].slug).Some?
    ensures NextChapter(chapters, PrevChapter(chapters, chapters[i].slug).value.slug) == Some(chapters[i])
  {
    NextChapterAt(chapters, i);
    NextChapterAt(chapters, i - 1);
  }

  /** Going forward and then back from any chapter but the last returns to it. */
  lemma PrevOfNext(chapters: seq<ChapterMeta>, i: nat)
    requires UniqueSlugs(chapters) && i + 1 < |chapters|
    ensures NextChapter(chapters, chapters[i].slug).Some?
    ensures PrevChapter(chapters, NextChapter(chapters, chapters[i].slug).value.slug) == Some(chapters[i])
  {
    NextChapterAt(chapters, i);
    NextChapterAt(chapters, i + 1);
  }

  /** How many chapters the tiers 1..n hold together. */
  function TierSizes(chapters: seq<ChapterMeta>, n: nat): nat {
    if n == 0 then 0 else TierSizes(chapters, n - 1) + |InTier(chapters, n)|
  }

  /**
   * When every tier number lies in 1..n, the tiers 1..n together hold as
   * many chapters as the catalogue: with the membership property of
   * `InTier`, each chapter is listed in exactly one tier, once.
   */
  lemma {:induction false} TiersPartition(chapters: seq<ChapterMeta>, n: nat)
    requires forall i :: 0 <= i < |chapters| ==> 1 <= chapters[i].tier <= n
    ensures TierSizes(chapters, n) == |chapters|
  {
    if chapters == [] {
      TierSizesEmpty(n);
    } else {
      var rest := chapters[1..];
      assert forall i :: 0 <= i < |rest| ==> rest[i] == chapters[i + 1];
      TiersPartition(rest, n);
      TierSizesCons(chapters, n);
    }
  }

  lemma {:induction false} TierSizesEmpty(n: nat)
    ensures TierSizes([], n) == 0
  {
    if n > 0 {
      TierSizesEmpty(n - 1);
    }
  }

  lemma {:induction false} TierSizesCons(chapters: seq<ChapterMeta>, n: nat)
    requires chapters != []
    ensures TierSizes(chapters, n) == TierSizes(chapters[1..], n) + (if 1 <= chapters[0].tier <= n then 1 else 0)
  {
    if n > 0 {
      var t, rest := chapters[0].tier, chapters[1..];
      TierSizesCons(chapters, n - 1);
      var own := if t == n then 1 else 0;
      assert |InTier(chapters, n)| == |InTier(rest, n)| + own by {
        assert InTier(chapters, n) == (if t == n then [chapters[0]] else []) + InTier(rest, n);
      }
      assert (if 1 <= t <= n then 1 else 0) == (if 1 <= t <= n - 1 then 1 else 0) + own;
    }
  }

  /** A chapter whose tier is outside 1..3 appears in no tier of the table of contents. */
  lemma OutOfRangeTierOmitted(chapters: seq<ChapterMeta>, c: ChapterMeta)
    requires c.tier < 1 || c.tier > 3
    ensures forall k :: 0 <= k < 3 ==> c !in BuildTableOfContents(chapters)[k].chapters
  {
    InTierMembers(chapters, 1);
    InTierMembers(chapters, 2);
    InTierMembers(chapters, 3);
  }

  /** A two-digit chapter number, "00" to "99". */
  function TwoDigits(n: nat): (d: string)
    requires n < 100
    ensures |d| == 2
  {
    [('0' as int + n / 10) as char, ('0' as int + n % 10) as char]
  }

  lemma TwoDigitsInjective(a: nat, b: nat)
    requires a < 100 && b < 100 && TwoDigits(a) == TwoDigits(b)
    ensures a == b
  {
    assert TwoDigits(a)[0] == TwoDigits(b)[0] && TwoDigits(a)[1] == TwoDigits(b)[1];
  }

  /** Chapter `c` is numbered with the two digits of `i`, and its slug starts with that number and a dash. */
  predicate NumberedAt(c: ChapterMeta, i: nat) {
    i < 100 && c.number == TwoDigits(i)
    && |c.slug| >= 3 && c.slug[0] == c.number[0] && c.slug[1] == c.number[1] && c.slug[2] == '-'
  }

  /** Every chapter is numbered with its own position. */
  ghost predicate NumberedInOrder(chapters: seq<ChapterMeta>) {
    forall i :: 0 <= i < |chapters| ==> NumberedAt(chapters[i], i)
  }

  /** Numbered slugs are distinct: each starts with a different number. */
  lemma NumberedUnique(chapters: seq<ChapterMeta>)
    requires NumberedInOrder(chapters)
    ensures UniqueSlugs(chapters)
  {
    forall i, j | 0 <= i < j < |chapters| ensures chapters[i].slug != chapters[j].slug {
      if chapters[i].slug == chapters[j].slug {
        TwoDigitsInjective(i, j);
      }
    }
  }

  /** A tier whose chapters form the block `lo..hi` of the catalogue lists exactly that block. */
  lemma {:induction false} InTierBlock(chapters: seq<ChapterMeta>, lo: nat, hi: nat, tier: int)
    requires lo <= hi <= |chapters|
    requires forall i :: 0 <= i < |chapters| ==> (chapters[i].tier == tier <==> lo <= i < hi)
    ensures InTier(chapters, tier) == chapters[lo..hi]
    decreases |chapters|
  {
    if chapters != [] {
      var rest := chapters[1..];
      assert forall i :: 0 <= i < |rest| ==> rest[i] == chapters[i + 1];
      if lo == 0 && hi > 0 {
        InTierBlock(rest, 0, hi - 1, tier);
        assert chapters[lo..hi] == [chapters[0]] + rest[0..hi - 1];
      } else if lo == 0 {
        InTierBlock(rest, 0, 0, tier);
      } else {
        InTierBlock(rest, lo - 1, hi - 1, tier);
        assert chapters[lo..hi] == rest[lo - 1..hi - 1];
      }
    }
  }

  /** Extending a prefix by one chapter adds that chapter's minutes. */
  lemma TotalReadingTimePrefix(chapters: seq<ChapterMeta>, k: nat)
    requires k < |chapters|
    ensures TotalReadingTime(chapters[..k + 1]) == TotalReadingTime(chapters[..k]) + chapters[k].estimatedMinutes
  {
    assert chapters[..k + 1][..k] == chapters[..k];
  }

  /** The total reading time is additive over concatenation. */
  lemma {:induction false} TotalReadingTimeAppend(a: seq<ChapterMeta>, b: seq<ChapterMeta>)
    ensures TotalReadingTime(a + b) == TotalReadingTime(a) + TotalReadingTime(b)
    decreases |b|
  {
    if b == [] {
      assert a + b == a;
    } else {
      var init := b[..|b| - 1];
      TotalReadingTimeAppend(a, init);
      assert (a + b)[..|a + b| - 1] == a + init;
    }
  }
}

=== FILE: chapters_llm.dfy ===
/**
 * The LLM course's chapter catalogue: 18 chapters in four tiers, with the shared
 * lookup and navigation helpers over it.
 */
module ChaptersLlm {
  import opened Wrappers
  import opened Types
  import CC = ChaptersContext

  const CH00 := ChapterMeta("00-what-is-machine-intelligence", "00", "What Is Machine Intelligence?", 1, 25)
  const CH01 := ChapterMeta("01-how-llms-work-conceptually", "01", "How LLMs Work (Conceptually)", 1, 30)
  const CH02 := ChapterMeta("02-the-capability-inflection-point", "02", "The Capability Inflection Point", 1, 20)
  const CH03 := ChapterMeta("03-capabilities-and-limitations", "03", "Capabilities & Limitations", 1, 25)
  const CH04 := ChapterMeta("04-your-first-conversation", "04", "Your First Conversation", 1, 35)
  const CH05 := ChapterMeta("05-reading-ai-generated-code", "05", "Reading AI-Generated Code", 2, 30)
  const CH06 := ChapterMeta("06-prompting-fundamentals", "06", "Prompting Fundamentals", 2, 35)
  const CH07 := ChapterMeta("07-multi-modal-models", "07", "Multi-Modal Models", 2, 25)
  const CH08 := ChapterMeta("08-reasoning-models", "08", "Reasoning Models", 2, 25)
  const CH09 := ChapterMeta("09-context-and-memory", "09", "Context & Memory", 2, 20)
  const CH10 := ChapterMeta("10-prompt-injection-and-ai-security", "10", "Prompt Injection & AI Security", 3, 40)
  const CH11 := ChapterMeta("11-agentic-loops", "11", "Agentic Loops", 3, 30)
  const CH12 := ChapterMeta("12-developer-workflows", "12", "Developer Workflows", 3, 25)
  const CH13 := ChapterMeta("13-the-human-ai-partnership", "13", "The Human-AI Partnership", 3, 30)
  const CH14 := ChapterMeta("14-iterating-with-ai", "14", "Iterating with AI", 3, 25)
  const CH15 := ChapterMeta("15-bias-and-fairness", "15", "Bias & Fairness", 4, 30)
  const CH16 := ChapterMeta("16-privacy-and-data", "16", "Privacy & Data", 4, 25)
  const CH17 := ChapterMeta("17-the-future-of-work", "17", "The Future of Work", 4, 30)

  /** The catalogue, in reading order. */
  const CHAPTERS: seq<ChapterMeta> := [
    CH00, CH01, CH02, CH03, CH04, CH05,
    CH06, CH07, CH08, CH09, CH10, CH11,
    CH12, CH13, CH14, CH15, CH16, CH17
  ]

  const TIER_TITLES: seq<string> := ["Foundations", "Practical Skills", "Agentic Development", "Judgment & Ethics"]

  /** `getChapter`: the catalogued chapter with this slug, if any. */
  function GetChapter(slug: string): (r: Option<ChapterMeta>)
    ensures r.None? <==> forall i :: 0 <= i < |CHAPTERS| ==> CHAPTERS[i].slug != slug
    ensures r.Some? ==> r.value.slug == slug && r.value in CHAPTERS
  {
    CC.GetChapter(CHAPTERS, slug)
  }

  /** `getNextChapter`: a catalogued chapter directly after the one with this slug; none after the last. */
  function NextChapter(slug: string): (r: Option<ChapterMeta>)
    ensures r.Some? ==> GetChapter(slug).Some? && r.value in CHAPTERS
    ensures slug == CHAPTERS[|CHAPTERS| - 1].slug ==> r.None?
  {
    Catalogue();
    CC.NextChapter(CHAPTERS, slug)
  }

  /** `getPrevChapter`: a catalogued chapter directly before the one with this slug; none before the first. */
  function PrevChapter(slug: string): (r: Option<ChapterMeta>)
    ensures r.Some? ==> GetChapter(slug).Some? && r.value in CHAPTERS
    ensures slug == CHAPTERS[0].slug ==> r.None?
  {
    CC.PrevChapter(CHAPTERS, slug)
  }

  /** `getTableOfContents`: one tier per title, numbered from 1, listing only catalogued chapters of that tier. */
  function TableOfContents(): (tiers: seq<Tier>)
    ensures |tiers| == |TIER_TITLES|
    ensures forall k :: 0 <= k < |tiers| ==> tiers[k].number == k + 1 && tiers[k].title == TIER_TITLES[k]
    ensures forall k, c :: 0 <= k < |tiers| && c in tiers[k].chapters ==> c in CHAPTERS && c.tier == k + 1
  {
    forall k | 1 <= k <= |TIER_TITLES| {
      CC.InTierMembers(CHAPTERS, k);
    }
    CC.TiersOf(CHAPTERS, TIER_TITLES)
  }

  /** `getTotalReadingTime`: the chapters take 505 minutes together. */
  function TotalReadingTime(): (r: nat)
    ensures r == 505
  {
    MinutesTo18();
    assert CHAPTERS[..18] == CHAPTERS;
    CC.TotalReadingTime(CHAPTERS)
  }

  // ------------------------------------------------------------------ lemmas

  /** Chapters 0 to 2 are numbered by position (the catalogue is checked a few entries at a time). */
  lemma NumberedBlock0()
    ensures forall i :: 0 <= i < 3 ==> CC.NumberedAt(CHAPTERS[i], i)
  {
  }

  /** Chapters 3 to 5 are numbered by position (the catalogue is checked a few entries at a time). */
  lemma NumberedBlock1()
    ensures forall i :: 3 <= i < 6 ==> CC.NumberedAt(CHAPTERS[i], i)
  {
  }

  /** Chapters 6 to 8 are numbered by position (the catalogue is checked a few entries at a time). */
  lemma NumberedBlock2()
    ensures forall i :: 6 <= i < 9 ==> CC.NumberedAt(CHAPTERS[i], i)
  {
  }

  /** Chapters 9 to 11 are numbered by position (the catalogue is checked a few entries at a time). */
  lemma NumberedBlock3()
    ensures forall i :: 9 <= i < 12 ==> CC.NumberedAt(CHAPTERS[i], i)
  {
  }

  /** Chapters 12 to 14 are numbered by position (the catalogue is checked a few entries at a time). */
  lemma NumberedBlock4()
    ensures forall i :: 12 <= i < 15 ==> CC.NumberedAt(CHAPTERS[i], i)
  {
  }

  /** Chapters 15 to 17 are numbered by position (the catalogue is checked a few entries at a time). */
  lemma NumberedBlock5()
    ensures forall i :: 15 <= i < 18 ==> CC.NumberedAt(CHAPTERS[i], i)
  {
  }

  /** 18 chapters, numbered "00" to "17" in order, each slug led by its number and a dash; no slug repeats. */
  lemma Catalogue()
    ensures |CHAPTERS| == 18
    ensures CC.NumberedInOrder(CHAPTERS)
    ensures CC.UniqueSlugs(CHAPTERS)
  {
    NumberedBlock0();
    NumberedBlock1();
    NumberedBlock2();
    NumberedBlock3();
    NumberedBlock4();
    NumberedBlock5();
    CC.NumberedUnique(CHAPTERS);
  }

  /** The tier of each chapter, by position. */
  lemma TierAt(i: nat)
    requires i < |CHAPTERS|
    ensures CHAPTERS[i].tier == if i < 5 then 1 else if i < 10 then 2 else if i < 15 then 3 else 4
  {
  }

  /** Tier k lists its block of chapters in catalogue order (sizes 5, 5, 5, 3); every chapter is listed once. */
  lemma TableOfContentsTiers()
    ensures |TableOfContents()| == 4
    ensures TableOfContents()[0] == Tier(1, "Foundations", CHAPTERS[0..5])
    ensures TableOfContents()[1] == Tier(2, "Practical Skills", CHAPTERS[5..10])
    ensures TableOfContents()[2] == Tier(3, "Agentic Development", CHAPTERS[10..15])
    ensures TableOfContents()[3] == Tier(4, "Judgment & Ethics", CHAPTERS[15..18])
    ensures CC.TierSizes(CHAPTERS, 4) == |CHAPTERS|
  {
    TierBlocks();
    forall i | 0 <= i < |CHAPTERS| ensures 1 <= CHAPTERS[i].tier <= 4 {
      TierAt(i);
    }
    CC.TiersPartition(CHAPTERS, 4);
  }

  /** Each tier is its block of consecutive chapters. */
  lemma TierBlocks()
    ensures CC.InTier(CHAPTERS, 1) == CHAPTERS[0..5]
    ensures CC.InTier(CHAPTERS, 2) == CHAPTERS[5..10]
    ensures CC.InTier(CHAPTERS, 3) == CHAPTERS[10..15]
    ensures CC.InTier(CHAPTERS, 4) == CHAPTERS[15..18]
  {
    forall i | 0 <= i < |CHAPTERS| ensures CHAPTERS[i].tier == if i < 5 then 1 else if i < 10 then 2 else if i < 15 then 3 else 4 {
      TierAt(i);
    }
    CC.InTierBlock(CHAPTERS, 0, 5, 1);
    CC.InTierBlock(CHAPTERS, 5, 10, 2);
    CC.InTierBlock(CHAPTERS, 10, 15, 3);
    CC.InTierBlock(CHAPTERS, 15, 18, 4);
  }

  /** The minutes of the first 6 chapters. */
  lemma MinutesTo6()
    ensures CC.TotalReadingTime(CHAPTERS[..6]) == 165
  {
    CC.TotalReadingTimePrefix(CHAPTERS, 0);
    CC.TotalReadingTimePrefix(CHAPTERS, 1);
    CC.TotalReadingTimePrefix(CHAPTERS, 2);
    CC.TotalReadingTimePrefix(CHAPTERS, 3);
    CC.TotalReadingTimePrefix(CHAPTERS, 4);
    CC.TotalReadingTimePrefix(CHAPTERS, 5);
  }

  /** The minutes of the first 12 chapters. */
  lemma MinutesTo12()
    ensures CC.TotalReadingTime(CHAPTERS[..12]) == 340
  {
    MinutesTo6();
    CC.TotalReadingTimePrefix(CHAPTERS, 6);
    CC.TotalReadingTimePrefix(CHAPTERS, 7);
    CC.TotalReadingTimePrefix(CHAPTERS, 8);
    CC.TotalReadingTimePrefix(CHAPTERS, 9);
    CC.TotalReadingTimePrefix(CHAPTERS, 10);
    CC.TotalReadingTimePrefix(CHAPTERS, 11);
  }

  /** The minutes of the first 18 chapters. */
  lemma MinutesTo18()
    ensures CC.TotalReadingTime(CHAPTERS[..18]) == 505
  {
    MinutesTo12();
    CC.TotalReadingTimePrefix(CHAPTERS, 12);
    CC.TotalReadingTimePrefix(CHAPTERS, 13);
    CC.TotalReadingTimePrefix(CHAPTERS, 14);
    CC.TotalReadingTimePrefix(CHAPTERS, 15);
    CC.TotalReadingTimePrefix(CHAPTERS, 16);
    CC.TotalReadingTimePrefix(CHAPTERS, 17);
  }

  /** Each chapter leads to the next and back to the previous; the last has no next and the first no previous. */
  lemma Navigation(i: nat)
    requires i < |CHAPTERS|
    ensures NextChapter(CHAPTERS[i].slug) == if i + 1 < |CHAPTERS| then Some(CHAPTERS[i + 1]) else None
    ensures PrevChapter(CHAPTERS[i].slug) == if i > 0 then Some(CHAPTERS[i - 1]) else None
  {
    Catalogue();
    CC.NextChapterAt(CHAPTERS, i);
  }

  /** A slug outside the catalogue has no chapter and no neighbours. */
  lemma UnknownSlug(slug: string)
    requires forall i :: 0 <= i < |CHAPTERS| ==> CHAPTERS[i].slug != slug
    ensures GetChapter(slug).None? && NextChapter(slug).None? && PrevChapter(slug).None?
  {
    CC.UnknownSlugHasNoNeighbours(CHAPTERS, slug);
  }

  /** Going back from any chapter but the first and then forward returns to it. */
  lemma NextOfPrev(i: nat)
    requires 0 < i < |CHAPTERS|
    ensures PrevChapter(CHAPTERS[i].slug).Some?
    ensures NextChapter(PrevChapter(CHAPTERS[i].slug).value.slug) == Some(CHAPTERS[i])
  {
    Catalogue();
    CC.NextOfPrev(CHAPTERS, i);
  }
}

=== FILE: chapters_mbs.dfy ===
/**
 * The mind-body course's chapter catalogue: 7 chapters in two tiers, with the shared
 * lookup and navigation helpers over it.
 */
module ChaptersMbs {
  import opened Wrappers
  import opened Types
  import CC = ChaptersContext

  const CH00 := ChapterMeta("00-the-sustainable-developer", "00", "The Sustainable Developer", 1, 5)
  const CH01 := ChapterMeta("01-your-physical-setup", "01", "Your Physical Setup", 1, 12)
  const CH02 := ChapterMeta("02-the-breath-as-tool", "02", "The Breath as Tool", 1, 10)
  const CH03 := ChapterMeta("03-movement-for-the-mind", "03", "Movement for the Mind", 1, 15)
  const CH04 := ChapterMeta("04-rhythm-of-deep-work", "04", "Rhythm of Deep Work", 1, 12)
  const CH05 := ChapterMeta("05-presence-in-collaboration", "05", "Presence in Collaboration", 2, 12)
  const CH06 := ChapterMeta("06-facilitators-guide", "06", "Facilitator's Guide", 2, 15)

  /** The catalogue, in reading order. */
  const CHAPTERS: seq<ChapterMeta> := [
    CH00, CH01, CH02, CH03, CH04, CH05, CH06
  ]

  const TIER_TITLES: seq<string> := ["Essential Foundations", "Integration & Practice"]

  /** `getChapter`: the catalogued chapter with this slug, if any. */
  function GetChapter(slug: string): (r: Option<ChapterMeta>)
    ensures r.None? <==> forall i :: 0 <= i < |CHAPTERS| ==> CHAPTERS[i].slug != slug
    ensures r.Some? ==> r.value.slug == slug && r.value in CHAPTERS
  {
    CC.GetChapter(CHAPTERS, slug)
  }

  /** `getNextChapter`: a catalogued chapter directly after the one with this slug; none after the last. */
  function NextChapter(slug: string): (r: Option<ChapterMeta>)
    ensures r.Some? ==> GetChapter(slug).Some? && r.value in CHAPTERS
    ensures slug == CHAPTERS[|CHAPTERS| - 1].slug ==> r.None?
  {
    Catalogue();
    CC.NextChapter(CHAPTERS, slug)
  }

  /** `getPrevChapter`: a catalogued chapter directly before the one with this slug; none before the first. */
  function PrevChapter(slug: string): (r: Option<ChapterMeta>)
    ensures r.Some? ==> GetChapter(slug).Some? && r.value in CHAPTERS
    ensures slug == CHAPTERS[0].slug ==> r.None?
  {
    CC.PrevChapter(CHAPTERS, slug)
  }

  /** `getTableOfContents`: one tier per title, numbered from 1, listing only catalogued chapters of that tier. */
  function TableOfContents(): (tiers: seq<Tier>)
    ensures |tiers| == |TIER_TITLES|
    ensures forall k :: 0 <= k < |tiers| ==> tiers[k].number == k + 1 && tiers[k].title == TIER_TITLES[k]
    ensures forall k, c :: 0 <= k < |tiers| && c in tiers[k].chapters ==> c in CHAPTERS && c.tier == k + 1
  {
    forall k | 1 <= k <= |TIER_TITLES| {
      CC.InTierMembers(CHAPTERS, k);
    }
    CC.TiersOf(CHAPTERS, TIER_TITLES)
  }

  /** `getTotalReadingTime`: the chapters take 81 minutes together. */
  function TotalReadingTime(): (r: nat)
    ensures r == 81
  {
    MinutesTo7();
    assert CHAPTERS[..7] == CHAPTERS;
    CC.TotalReadingTime(CHAPTERS)
  }

  // ------------------------------------------------------------------ lemmas

  /** Chapters 0 to 2 are numbered by position (the catalogue is checked a few entries at a time). */
  lemma NumberedBlock0()
    ensures forall i :: 0 <= i < 3 ==> CC.NumberedAt(CHAPTERS[i], i)
  {
  }

  /** Chapters 3 to 6 are numbered by position (the catalogue is checked a few entries at a time). */
  lemma NumberedBlock1()
    ensures forall i :: 3 <= i < 7 ==> CC.NumberedAt(CHAPTERS[i], i)
  {
  }

  /** 7 chapters, numbered "00" to "06" in order, each slug led by its number and a dash; no slug repeats. */
  lemma Catalogue()
    ensures |CHAPTERS| == 7
    ensures CC.NumberedInOrder(CHAPTERS)
    ensures CC.UniqueSlugs(CHAPTERS)
  {
    NumberedBlock0();
    NumberedBlock1();
    CC.NumberedUnique(CHAPTERS);
  }

  /** The tier of each chapter, by position. */
  lemma TierAt(i: nat)
    requires i < |CHAPTERS|
    ensures CHAPTERS[i].tier == if i < 5 then 1 else 2
  {
  }

  /** Tier k lists its block of chapters in catalogue order (sizes 5, 2); every chapter is listed once. */
  lemma TableOfContentsTiers()
    ensures |TableOfContents()| == 2
    ensures TableOfContents()[0] == Tier(1, "Essential Foundations", CHAPTERS[0..5])
    ensures TableOfContents()[1] == Tier(2, "Integration & Practice", CHAPTERS[5..7])
    ensures CC.TierSizes(CHAPTERS, 2) == |CHAPTERS|
  {
    forall i | 0 <= i < |CHAPTERS| ensures CHAPTERS[i].tier == if i < 5 then 1 else 2 {
      TierAt(i);
    }
    CC.InTierBlock(CHAPTERS, 0, 5, 1);
    CC.InTierBlock(CHAPTERS, 5, 7, 2);
    CC.TiersPartition(CHAPTERS, 2);
  }

  /** The minutes of the first 7 chapters. */
  lemma MinutesTo7()
    ensures CC.TotalReadingTime(CHAPTERS[..7]) == 81
  {
    CC.TotalReadingTimePrefix(CHAPTERS, 0);
    CC.TotalReadingTimePrefix(CHAPTERS, 1);
    CC.TotalReadingTimePrefix(CHAPTERS, 2);
    CC.TotalReadingTimePrefix(CHAPTERS, 3);
    CC.TotalReadingTimePrefix(CHAPTERS, 4);
    CC.TotalReadingTimePrefix(CHAPTERS, 5);
    CC.TotalReadingTimePrefix(CHAPTERS, 6);
  }

  /** Each chapter leads to the next and back to the previous; the last has no next and the first no previous. */
  lemma Navigation(i: nat)
    requires i < |CHAPTERS|
    ensures NextChapter(CHAPTERS[i].slug) == if i + 1 < |CHAPTERS| then Some(CHAPTERS[i + 1]) else None
    ensures PrevChapter(CHAPTERS[i].slug) == if i > 0 then Some(CHAPTERS[i - 1]) else None
  {
    Catalogue();
    CC.NextChapterAt(CHAPTERS, i);
  }

  /** A slug outside the catalogue has no chapter and no neighbours. */
  lemma UnknownSlug(slug: string)
    requires forall i :: 0 <= i < |CHAPTERS| ==> CHAPTERS[i].slug != slug
    ensures GetChapter(slug).None? && NextChapter(slug).None? && PrevChapter(slug).None?
  {
    CC.UnknownSlugHasNoNeighbours(CHAPTERS, slug);
  }

  /** Going back from any chapter but the first and then forward returns to it. */
  lemma NextOfPrev(i: nat)
    requires 0 < i < |CHAPTERS|
    ensures PrevChapter(CHAPTERS[i].slug).Some?
    ensures NextChapter(PrevChapter(CHAPTERS[i].slug).value.slug) == Some(CHAPTERS[i])
  {
    Catalogue();
    CC.NextOfPrev(CHAPTERS, i);
  }
}

=== FILE: chapters_swe.dfy ===
/**
 * The software-engineering course's chapter catalogue: 16 chapters in three tiers, with the shared
 * lookup and navigation helpers over it.
 */
module ChaptersSwe {
  import opened Wrappers
  import opened Types
  import CC = ChaptersContext

  const CH00 := ChapterMeta("00-your-development-environment", "00", "Your Development Environment", 1, 20)
  const CH01 := ChapterMeta("01-what-is-source-code", "01", "What is Source Code?", 1, 20)
  const CH02 := ChapterMeta("02-github-setup-guide", "02", "GitHub Setup Guide", 1, 30)
  const CH03 := ChapterMeta("03-understanding-diffs", "03", "Understanding Diffs", 1, 25)
  const CH04 := ChapterMeta("04-your-first-commit", "04", "Your First Commit", 1, 30)
  const CH05 := ChapterMeta("05-branches-and-merging", "05", "Branches and Merging", 2, 30)
  const CH06 := ChapterMeta("06-pull-requests", "06", "Pull Requests", 2, 30)
  const CH07 := ChapterMeta("07-testing-fundamentals", "07", "Testing Fundamentals", 2, 25)
  const CH08 := ChapterMeta("08-debugging-techniques", "08", "Debugging Techniques", 2, 25)
  const CH09 := ChapterMeta("09-dependencies-packages", "09", "Dependencies & Packages", 2, 20)
  const CH10 := ChapterMeta("10-build-pipelines", "10", "Build Pipelines", 3, 20)
  const CH11 := ChapterMeta("11-o11y-understanding-your-code", "11", "O11y: Understanding Your Code", 3, 25)
  const CH12 := ChapterMeta("12-iterative-design", "12", "Iterative Design", 3, 20)
  const CH13 := ChapterMeta("13-timeless-principles", "13", "Timeless Principles", 3, 25)
  const CH14 := ChapterMeta("14-communication", "14", "Communication", 3, 20)
  const CH15 := ChapterMeta("15-ethics-in-software", "15", "Ethics in Software", 3, 45)

  /** The catalogue, in reading order. */
  const CHAPTERS: seq<ChapterMeta> := [
    CH00, CH01, CH02, CH03, CH04, CH05,
    CH06, CH07, CH08, CH09, CH10, CH11,
    CH12, CH13, CH14, CH15
  ]

  const TIER_TITLES: seq<string> := ["Foundations", "Collaboration & Quality", "Professional Practices"]

  /** `getChapter`: the catalogued chapter with this slug, if any. */
  function GetChapter(slug: string): (r: Option<ChapterMeta>)
    ensures r.None? <==> forall i :: 0 <= i < |CHAPTERS| ==> CHAPTERS[i].slug != slug
    ensures r.Some? ==> r.value.slug == slug && r.value in CHAPTERS
  {
    CC.GetChapter(CHAPTERS, slug)
  }

  /** `getNextChapter`: a catalogued chapter directly after the one with this slug; none after the last. */
  function NextChapter(slug: string): (r: Option<ChapterMeta>)
    ensures r.Some? ==> GetChapter(slug).Some? && r.value in CHAPTERS
    ensures slug == CHAPTERS[|CHAPTERS| - 1].slug ==> r.None?
  {
    Catalogue();
    CC.NextChapter(CHAPTERS, slug)
  }

  /** `getPrevChapter`: a catalogued chapter directly before the one with this slug; none before the first. */
  function PrevChapter(slug: string): (r: Option<ChapterMeta>)
    ensures r.Some? ==> GetChapter(slug).Some? && r.value in CHAPTERS
    ensures slug == CHAPTERS[0].slug ==> r.None?
  {
    CC.PrevChapter(CHAPTERS, slug)
  }

  /** `getTableOfContents`: one tier per title, numbered from 1, listing only catalogued chapters of that tier. */
  function TableOfContents(): (tiers: seq<Tier>)
    ensures |tiers| == |TIER_TITLES|
    ensures forall k :: 0 <= k < |tiers| ==> tiers[k].number == k + 1 && tiers[k].title == TIER_TITLES[k]
    ensures forall k, c :: 0 <= k < |tiers| && c in tiers[k].chapters ==> c in CHAPTERS && c.tier == k + 1
  {
    forall k | 1 <= k <= |TIER_TITLES| {
      CC.InTierMembers(CHAPTERS, k);
    }
    CC.TiersOf(CHAPTERS, TIER_TITLES)
  }

  /** `getTotalReadingTime`: the chapters take 410 minutes together. */
  function TotalReadingTime(): (r: nat)
    ensures r == 410
  {
    MinutesTo16();
    assert CHAPTERS[..16] == CHAPTERS;
    CC.TotalReadingTime(CHAPTERS)
  }

  // ------------------------------------------------------------------ lemmas

  /** Chapters 0 to 2 are numbered by position (the catalogue is checked a few entries at a time). */
  lemma NumberedBlock0()
    ensures forall i :: 0 <= i < 3 ==> CC.NumberedAt(CHAPTERS[i], i)
  {
  }

  /** Chapters 3 to 5 are numbered by position (the catalogue is checked a few entries at a time). */
  lemma NumberedBlock1()
    ensures forall i :: 3 <= i < 6 ==> CC.NumberedAt(CHAPTERS[i], i)
  {
  }

  /** Chapters 6 to 8 are numbered by position (the catalogue is checked a few entries at a time). */
  lemma NumberedBlock2()
    ensures forall i :: 6 <= i < 9 ==> CC.NumberedAt(CHAPTERS[i], i)
  {
  }

  /** Chapters 9 to 11 are numbered by position (the catalogue is checked a few entries at a time). */
  lemma NumberedBlock3()
    ensures forall i :: 9 <= i < 12 ==> CC.NumberedAt(CHAPTERS[i], i)
  {
  }

  /** Chapters 12 to 14 are numbered by position (the catalogue is checked a few entries at a time). */
  lemma NumberedBlock4()
    ensures forall i :: 12 <= i < 15 ==> CC.NumberedAt(CHAPTERS[i], i)
  {
  }

  /** Chapters 15 to 15 are numbered by position (the catalogue is checked a few entries at a time). */
  lemma NumberedBlock5()
    ensures forall i :: 15 <= i < 16 ==> CC.NumberedAt(CHAPTERS[i], i)
  {
  }

  /** 16 chapters, numbered "00" to "15" in order, each slug led by its number and a dash; no slug repeats. */
  lemma Catalogue()
    ensures |CHAPTERS| == 16
    ensures CC.NumberedInOrder(CHAPTERS)
    ensures CC.UniqueSlugs(CHAPTERS)
  {
    NumberedBlock0();
    NumberedBlock1();
    NumberedBlock2();
    NumberedBlock3();
    NumberedBlock4();
    NumberedBlock5();
    CC.NumberedUnique(CHAPTERS);
  }

  /** The tier of each chapter, by position. */
  lemma TierAt(i: nat)
    requires i < |CHAPTERS|
    ensures CHAPTERS[i].tier == if i < 5 then 1 else if i < 10 then 2 else 3
  {
  }

  /** Tier k lists its block of chapters in catalogue order (sizes 5, 5, 6); every chapter is listed once. */
  lemma TableOfContentsTiers()
    ensures |TableOfContents()| == 3
    ensures TableOfContents()[0] == Tier(1, "Foundations", CHAPTERS[0..5])
    ensures TableOfContents()[1] == Tier(2, "Collaboration & Quality", CHAPTERS[5..10])
    ensures TableOfContents()[2] == Tier(3, "Professional Practices", CHAPTERS[10..16])
    ensures CC.TierSizes(CHAPTERS, 3) == |CHAPTERS|
  {
    forall i | 0 <= i < |CHAPTERS| ensures CHAPTERS[i].tier == if i < 5 then 1 else if i < 10 then 2 else 3 {
      TierAt(i);
    }
    CC.InTierBlock(CHAPTERS, 0, 5, 1);
    CC.InTierBlock(CHAPTERS, 5, 10, 2);
    CC.InTierBlock(CHAPTERS, 10, 16, 3);
    CC.TiersPartition(CHAPTERS, 3);
  }

  /** The minutes of the first 6 chapters. */
  lemma MinutesTo6()
    ensures CC.TotalReadingTime(CHAPTERS[..6]) == 155
  {
    CC.TotalReadingTimePrefix(CHAPTERS, 0);
    CC.TotalReadingTimePrefix(CHAPTERS, 1);
    CC.TotalReadingTimePrefix(CHAPTERS, 2);
    CC.TotalReadingTimePrefix(CHAPTERS, 3);
    CC.TotalReadingTimePrefix(CHAPTERS, 4);
    CC.TotalReadingTimePrefix(CHAPTERS, 5);
  }

  /** The minutes of the first 12 chapters. */
  lemma MinutesTo12()
    ensures CC.TotalReadingTime(CHAPTERS[..12]) == 300
  {
    MinutesTo6();
    CC.TotalReadingTimePrefix(CHAPTERS, 6);
    CC.TotalReadingTimePrefix(CHAPTERS, 7);
    CC.TotalReadingTimePrefix(CHAPTERS, 8);
    CC.TotalReadingTimePrefix(CHAPTERS, 9);
    CC.TotalReadingTimePrefix(CHAPTERS, 10);
    CC.TotalReadingTimePrefix(CHAPTERS, 11);
  }

  /** The minutes of the first 16 chapters. */
  lemma MinutesTo16()
    ensures CC.TotalReadingTime(CHAPTERS[..16]) == 410
  {
    MinutesTo12();
    CC.TotalReadingTimePrefix(CHAPTERS, 12);
    CC.TotalReadingTimePrefix(CHAPTERS, 13);
    CC.TotalReadingTimePrefix(CHAPTERS, 14);
    CC.TotalReadingTimePrefix(CHAPTERS, 15);
  }

  /** Each chapter leads to the next and back to the previous; the last has no next and the first no previous. */
  lemma Navigation(i: nat)
    requires i < |CHAPTERS|
    ensures NextChapter(CHAPTERS[i].slug) == if i + 1 < |CHAPTERS| then Some(CHAPTERS[i + 1]) else None
    ensures PrevChapter(CHAPTERS[i].slug) == if i > 0 then Some(CHAPTERS[i - 1]) else None
  {
    Catalogue();
    CC.NextChapterAt(CHAPTERS, i);
  }

  /** A slug outside the catalogue has no chapter and no neighbours. */
  lemma UnknownSlug(slug: string)
    requires forall i :: 0 <= i < |CHAPTERS| ==> CHAPTERS[i].slug != slug
    ensures GetChapter(slug).None? && NextChapter(slug).None? && PrevChapter(slug).None?
  {
    CC.UnknownSlugHasNoNeighbours(CHAPTERS, slug);
  }

  /** Going back from any chapter but the first and then forward returns to it. */
  lemma NextOfPrev(i: nat)
    requires 0 < i < |CHAPTERS|
    ensures PrevChapter(CHAPTERS[i].slug).Some?
    ensures NextChapter(PrevChapter(CHAPTERS[i].slug).value.slug) == Some(CHAPTERS[i])
  {
    Catalogue();
    CC.NextOfPrev(CHAPTERS, i);
  }
}

=== FILE: checkpoint_widget.dfy ===
/**
 * The checkpoint component: a checklist with one box per item, a 1-5
 * confidence rating and a submit button. Its React state is the mutable
 * part of a `CheckpointWidget`; the progress snapshot it restores from is
 * a parameter, and submitting writes through a `ProgressStore`.
 */
module Checkpoint {
  import opened Wrappers
  import opened Records
  import opened Types
  import opened Progress

  /** The component's three pieces of state. */
  datatype WidgetState = WidgetState(checkedItems: seq<bool>, confidence: int, isSubmitted: bool)

  function AllFalse(n: nat): (r: seq<bool>)
    ensures |r| == n && forall i :: 0 <= i < n ==> !r[i]
  {
    seq(n, _ => false)
  }

  /** `progress.chapters[chapterSlug]?.checkpoints?.[id]`. */
  function SavedCheckpoint(p: UserProgress, chapterSlug: string, checkpointId: string): (r: Option<CheckpointProgress>)
    ensures r.Some? ==> r.value == CheckpointOf(p, chapterSlug, checkpointId)
  {
    Get(CheckpointsOf(p, chapterSlug), checkpointId)
  }

  /**
   * The state after loading a saved checkpoint: the saved boxes when there
   * is one per item (all clear otherwise), the saved confidence, and
   * submitted exactly when that confidence is positive. Without a saved
   * checkpoint the state is kept.
   */
  function Restore(s: WidgetState, itemCount: nat, saved: Option<CheckpointProgress>): (r: WidgetState)
    ensures saved.None? ==> r == s
    ensures saved.Some? ==>
              r.confidence == saved.value.confidence
              && (r.isSubmitted <==> saved.value.confidence > 0)
              && |r.checkedItems| == itemCount
              && (|saved.value.items| == itemCount ==> r.checkedItems == saved.value.items)
              && (|saved.value.items| != itemCount ==> forall i :: 0 <= i < itemCount ==> !r.checkedItems[i])
  {
    match saved
    case None => s
    case Some(cp) =>
      WidgetState(if |cp.items| == itemCount then cp.items else AllFalse(itemCount),
                  cp.confidence, cp.confidence > 0)
  }

  /** The boxes with box `k` flipped. */
  function Toggled(checked: seq<bool>, k: nat): (r: seq<bool>)
    requires k < |checked|
    ensures |r| == |checked| && r[k] == !checked[k]
    ensures forall i :: 0 <= i < |checked| && i != k ==> r[i] == checked[i]
  {
    checked[k := !checked[k]]
  }

  /** `checkedItems.filter(Boolean).length`. */
  function CountTrue(checked: seq<bool>): (n: nat)
    ensures n <= |checked|
  {
    if checked == [] then 0
    else CountTrue(checked[..|checked| - 1]) + (if checked[|checked| - 1] then 1 else 0)
  }

  /** `checkedCount === items.length`. */
  predicate AllChecked(checked: seq<bool>, itemCount: nat) {
    CountTrue(checked) == itemCount
  }

  /** The submit button is enabled once a confidence level is chosen. */
  predicate SubmitEnabled(s: WidgetState) {
    s.confidence != 0
  }

  /** What submitting sends to `updateCheckpoint`: the boxes and confidence as they stand. */
  function SubmitPatch(s: WidgetState): (u: CheckpointPatch)
    ensures u.items == Some(s.checkedItems) && u.confidence == Some(s.confidence)
  {
    CheckpointPatch(Some(s.confidence), Some(s.checkedItems))
  }

  class CheckpointWidget {
    const chapterSlug: string
    const checkpointId: string
    const itemCount: nat
    var checkedItems: seq<bool>
    var confidence: int
    var isSubmitted: bool

    /** One box per checklist item. */
    ghost predicate Valid()
      reads this
    {
      |checkedItems| == itemCount
    }

    function State(): WidgetState
      reads this
    {
      WidgetState(checkedItems, confidence, isSubmitted)
    }

    constructor(chapterSlug: string, checkpointId: string, itemCount: nat)
      ensures this.chapterSlug == chapterSlug && this.checkpointId == checkpointId && this.itemCount == itemCount
      ensures State() == WidgetState(AllFalse(itemCount), 0, false)
      ensures Valid()
    {
      this.chapterSlug := chapterSlug;
      this.checkpointId := checkpointId;
      this.itemCount := itemCount;
      checkedItems := seq(itemCount, _ => false);
      confidence := 0;
      isSubmitted := false;
    }

    /** The effect that loads the saved state from a progress snapshot. */
    method Load(p: UserProgress)
      requires Valid()
      modifies this
      ensures State() == Restore(old(State()), itemCount, SavedCheckpoint(p, chapterSlug, checkpointId))
      ensures Valid()
    {
      var checkpoint := Get(CheckpointsOf(p, chapterSlug), checkpointId);
      if checkpoint.Some? {
        var cp := checkpoint.value;
        checkedItems := if |cp.items| == itemCount then cp.items else seq(itemCount, _ => false);
        confidence := cp.confidence;
        isSubmitted := cp.confidence > 0;
      }
    }

    /** `handleItemChange`: flips one box. */
    method HandleItemChange(index: nat)
      requires Valid() && index < itemCount
      modifies this
      ensures checkedItems == Toggled(old(checkedItems), index)
      ensures confidence == old(confidence) && isSubmitted == old(isSubmitted)
      ensures Valid()
    {
      var newChecked := checkedItems;
      newChecked := newChecked[index := !newChecked[index]];
      checkedItems := newChecked;
    }

    /** `handleConfidenceChange`. */
    method HandleConfidenceChange(level: int)
      modifies this
      ensures State() == old(State()).(confidence := level)
    {
      confidence := level;
    }

    /** `handleSubmit`: saves the boxes and the confidence, then shows the submitted state. */
    method HandleSubmit(store: ProgressStore, now: Instant)
      requires store.Valid()
      modifies this, store
      ensures store.progress
           == WithCheckpoint(old(store.progress), chapterSlug, checkpointId, SubmitPatch(old(State())), now)
      ensures State() == old(State()).(isSubmitted := true)
      ensures store.Valid()
    {
      store.UpdateCheckpoint(chapterSlug, checkpointId, CheckpointPatch(Some(confidence), Some(checkedItems)), now);
      isSubmitted := true;
    }
  }

  // ------------------------------------------------------------------ lemmas

  /** Flipping the same box twice restores the boxes. */
  lemma ToggleTwice(checked: seq<bool>, k: nat)
    requires k < |checked|
    ensures Toggled(Toggled(checked, k), k) == checked
  {
  }

  lemma {:induction false} CountTrueAppend(a: seq<bool>, b: seq<bool>)
    ensures CountTrue(a + b) == CountTrue(a) + CountTrue(b)
    decreases |b|
  {
    if b == [] {
      assert a + b == a;
    } else {
      CountTrueAppend(a, b[..|b| - 1]);
      assert (a + b)[..|a + b| - 1] == a + b[..|b| - 1];
    }
  }

  /** Checking a box raises the count by one; clearing it lowers the count by one. */
  lemma {:induction false} CountTrueToggled(checked: seq<bool>, k: nat)
    requires k < |checked|
    ensures CountTrue(Toggled(checked, k)) == CountTrue(checked) + (if checked[k] then -1 else 1)
  {
    var t := Toggled(checked, k);
    var n := |checked|;
    if k == n - 1 {
      assert t[..n - 1] == checked[..n - 1];
    } else {
      CountTrueToggled(checked[..n - 1], k);
      assert t[..n - 1] == Toggled(checked[..n - 1], k);
    }
  }

  /** The count reaches the item count exactly when every box is checked. */
  lemma {:induction false} AllCheckedIff(checked: seq<bool>)
    ensures AllChecked(checked, |checked|) <==> forall i :: 0 <= i < |checked| ==> checked[i]
  {
    if checked != [] {
      var init := checked[..|checked| - 1];
      AllCheckedIff(init);
      assert forall i :: 0 <= i < |init| ==> init[i] == checked[i];
    }
  }

  /**
   * Submitting and reloading round-trips: a component restored from the
   * snapshot its submission produced shows the same boxes and confidence,
   * submitted exactly when that confidence is positive.
   */
  lemma SubmitThenRestore(p: UserProgress, chapterSlug: string, checkpointId: string,
                          s: WidgetState, other: WidgetState, now: Instant)
    ensures var q := WithCheckpoint(p, chapterSlug, checkpointId, SubmitPatch(s), now);
      Restore(other, |s.checkedItems|, SavedCheckpoint(q, chapterSlug, checkpointId))
      == WidgetState(s.checkedItems, s.confidence, s.confidence > 0)
  {
  }

  /** Submitting a chosen confidence stamps the checkpoint's completion time. */
  lemma EnabledSubmitCompletes(p: UserProgress, chapterSlug: string, checkpointId: string,
                               s: WidgetState, now: Instant)
    requires SubmitEnabled(s)
    ensures CheckpointOf(WithCheckpoint(p, chapterSlug, checkpointId, SubmitPatch(s), now),
                         chapterSlug, checkpointId).completedAt == Some(now)
  {
  }
}

=== FILE: json.dfy ===
/**
 * `JSON.stringify` of an array of strings (ECMAScript `QuoteJSONString`:
 * the quote and backslash are escaped, the five named control characters
 * use their short escapes, other characters below U+0020 become `\u00hh`),
 * and the matching decoder that `JSON.parse` applies to that output.
 */
module Json {
  import opened Wrappers

  const HEX: string := "0123456789abcdef"

  function EscapeChar(c: char): (r: string)
    ensures |r| >= 1
    ensures |r| == 1 ==> r == [c] && c != '"' && c != '\\' && (c as int) >= 0x20
    ensures |r| > 1 ==> r[0] == '\\'
  {
    if c == '"' then "\\\""
    else if c == '\\' then "\\\\"
    else if c == '\U{0008}' then "\\b"
    else if c == '\U{000C}' then "\\f"
    else if c == '\n' then "\\n"
    else if c == '\r' then "\\r"
    else if c == '\t' then "\\t"
    else if (c as int) < 0x20 then "\\u00" + [HEX[(c as int) / 16], HEX[(c as int) % 16]]
    else [c]
  }

  function Escape(s: string): string {
    if s == [] then [] else EscapeChar(s[0]) + Escape(s[1..])
  }

  /** `JSON.stringify(s)` for a string. */
  function Quote(s: string): string {
    "\"" + Escape(s) + "\""
  }

  /** `JSON.stringify(items)` for an array of strings: quoted, comma-separated, in brackets. */
  function StringifyArray(items: seq<string>): (r: string)
    ensures |r| >= 2 && r[0] == '[' && r[|r| - 1] == ']'
    ensures items == [] <==> r == "[]"
  {
    if items == [] then "[]" else "[" + Quote(items[0]) + Elements(items[1..])
  }

  /** The elements after the first, each preceded by a comma, then the closing bracket. */
  function Elements(rest: seq<string>): (r: string)
    ensures |r| >= 1 && r[|r| - 1] == ']'
  {
    if rest == [] then "]" else "," + Quote(rest[0]) + Elements(rest[1..])
  }

  function HexValue(c: char): Option<nat> {
    if '0' <= c <= '9' then Some(c as int - '0' as int)
    else if 'a' <= c <= 'f' then Some(c as int - 'a' as int + 10)
    else if 'A' <= c <= 'F' then Some(c as int - 'A' as int + 10)
    else None
  }

  /** Decodes the escape whose letter is `s[0]`; yields the character and the rest. */
  function Unescape(s: string): Option<(char, string)> {
    if s == [] then None
    else if s[0] == '"' then Some(('"', s[1..]))
    else if s[0] == '\\' then Some(('\\', s[1..]))
    else if s[0] == '/' then Some(('/', s[1..]))
    else if s[0] == 'b' then Some(('\U{0008}', s[1..]))
    else if s[0] == 'f' then Some(('\U{000C}', s[1..]))
    else if s[0] == 'n' then Some(('\n', s[1..]))
    else if s[0] == 'r' then Some(('\r', s[1..]))
    else if s[0] == 't' then Some(('\t', s[1..]))
    else if s[0] == 'u' && |s| >= 5
         && HexValue(s[1]).Some? && HexValue(s[2]).Some? && HexValue(s[3]).Some? && HexValue(s[4]).Some?
    then
      var v := HexValue(s[1]).value * 4096 + HexValue(s[2]).value * 256
             + HexValue(s[3]).value * 16 + HexValue(s[4]).value;
      // surrogate halves are not characters on their own
      if 0xD800 <= v < 0xE000 then None else Some((v as char, s[5..]))
    else None
  }

  /** The body of a string literal up to its closing quote: the text and what follows the quote. */
  function DecodeBody(s: string): Option<(string, string)>
    decreases |s|
  {
    if s == [] then None
    else if s[0] == '"' then Some(("", s[1..]))
    else if s[0] == '\\' then
      match Unescape(s[1..])
      case None => None
      case Some((c, rest)) =>
        if |rest| < |s| then
          match DecodeBody(rest)
          case None => None
          case Some((t, after)) => Some(([c] + t, after))
        else None
    else if (s[0] as int) < 0x20 then None
    else
      match DecodeBody(s[1..])
      case None => None
      case Some((t, after)) => Some(([s[0]] + t, after))
  }

  /** The elements after the first: `,"..."` repeated, then `]` at the end of the input. */
  function DecodeTail(s: string): Option<seq<string>>
    decreases |s|
  {
    if s == "]" then Some([])
    else if |s| >= 2 && s[0] == ',' && s[1] == '"' then
      match DecodeBody(s[2..])
      case None => None
      case Some((t, rest)) =>
        if |rest| < |s| then
          match DecodeTail(rest)
          case None => None
          case Some(ts) => Some([t] + ts)
        else None
    else None
  }

  /** `JSON.parse` restricted to arrays of strings without white space. */
  function ParseArray(s: string): (r: Option<seq<string>>)
    ensures r == Some([]) <==> s == "[]"
    ensures r.Some? ==> |s| >= 2 && s[0] == '['
  {
    if s == "[]" then Some([])
    else if |s| >= 2 && s[0] == '[' && s[1] == '"' then
      match DecodeBody(s[2..])
      case None => None
      case Some((t, rest)) =>
        match DecodeTail(rest)
        case None => None
        case Some(ts) => Some([t] + ts)
    else None
  }

  lemma UnescapeOfEscape(c: char, t: string)
    requires EscapeChar(c) != [c]
    ensures Unescape(EscapeChar(c)[1..] + t) == Some((c, t))
  {
    var e := EscapeChar(c);
    if (c as int) < 0x20 && c !in {'\U{0008}', '\U{000C}', '\n', '\r', '\t'} {
      var hi, lo := (c as int) / 16, (c as int) % 16;
      var s := e[1..] + t;
      assert s[0] == 'u' && s[1] == '0' && s[2] == '0' && s[3] == HEX[hi] && s[4] == HEX[lo];
      assert HexValue(HEX[hi]) == Some(hi);
      assert HexValue(HEX[lo]) == Some(lo);
      assert s[5..] == t;
    } else {
      assert (e[1..] + t)[1..] == t;
    }
  }

  lemma {:induction false} DecodeBodyOfEscape(s: string, t: string)
    ensures DecodeBody(Escape(s) + "\"" + t) == Some((s, t))
  {
    if s == [] {
      assert Escape(s) + "\"" + t == "\"" + t;
    } else {
      var e := EscapeChar(s[0]);
      var rest := Escape(s[1..]) + "\"" + t;
      assert Escape(s) + "\"" + t == e + rest by {
        assert Escape(s) == e + Escape(s[1..]);
      }
      DecodeBodyOfEscape(s[1..], t);
      if e == [s[0]] {
        DecodeBodyPlain(s[0], rest, s[1..], t);
      } else {
        DecodeBodyEscaped(s[0], rest, s[1..], t);
      }
      assert [s[0]] + s[1..] == s;
    }
  }

  lemma DecodeBodyPlain(c: char, rest: string, t: string, after: string)
    requires EscapeChar(c) == [c] && DecodeBody(rest) == Some((t, after))
    ensures DecodeBody([c] + rest) == Some(([c] + t, after))
  {
    assert ([c] + rest)[1..] == rest;
  }

  lemma DecodeBodyEscaped(c: char, rest: string, t: string, after: string)
    requires EscapeChar(c) != [c] && DecodeBody(rest) == Some((t, after))
    ensures DecodeBody(EscapeChar(c) + rest) == Some(([c] + t, after))
  {
    var e := EscapeChar(c);
    UnescapeOfEscape(c, rest);
    assert (e + rest)[0] == '\\';
    assert (e + rest)[1..] == e[1..] + rest;
  }

  lemma DecodeTailStep(s: string, t: string, rest: string, ts: seq<string>)
    requires |s| >= 2 && s[0] == ',' && s[1] == '"'
    requires DecodeBody(s[2..]) == Some((t, rest)) && |rest| < |s|
    requires DecodeTail(rest) == Some(ts)
    ensures DecodeTail(s) == Some([t] + ts)
  {
  }

  lemma ParseArrayStep(s: string, t: string, rest: string, ts: seq<string>)
    requires |s| >= 2 && s[0] == '[' && s[1] == '"'
    requires DecodeBody(s[2..]) == Some((t, rest))
    requires DecodeTail(rest) == Some(ts)
    ensures ParseArray(s) == Some([t] + ts)
  {
  }

  lemma ElementsCons(rest: seq<string>)
    requires rest != []
    ensures var s := Elements(rest);
      |s| >= 2 && s[0] == ',' && s[1] == '"'
      && s[2..] == Escape(rest[0]) + "\"" + Elements(rest[1..])
      && |Elements(rest[1..])| < |s|
  {
    assert Elements(rest) == ",\"" + (Escape(rest[0]) + "\"" + Elements(rest[1..]));
  }

  lemma {:induction false} DecodeTailOfElements(rest: seq<string>)
    ensures DecodeTail(Elements(rest)) == Some(rest)
  {
    if rest != [] {
      var y, r2 := rest[0], rest[1..];
      var s := Elements(rest);
      assert DecodeTail(s) == Some([y] + r2) by {
        ElementsCons(rest);
        DecodeBodyOfEscape(y, Elements(r2));
        DecodeTailOfElements(r2);
        DecodeTailStep(s, y, Elements(r2), r2);
      }
      assert [y] + r2 == rest;
    }
  }

  /** Parsing the `items` attribute gives back the checklist items. */
  lemma ParseStringifyArray(items: seq<string>)
    ensures ParseArray(StringifyArray(items)) == Some(items)
  {
    if items != [] {
      var x, rest := items[0], items[1..];
      StringifyArrayCons(items);
      DecodeBodyOfEscape(x, Elements(rest));
      DecodeTailOfElements(rest);
      ParseArrayStep(StringifyArray(items), x, Elements(rest), rest);
      assert items == [x] + rest;
    }
  }

  lemma StringifyArrayCons(items: seq<string>)
    requires items != []
    ensures var s := StringifyArray(items);
      |s| >= 2 && s[0] == '[' && s[1] == '"' && s[2..] == Escape(items[0]) + "\"" + Elements(items[1..])
  {
    assert StringifyArray(items) == "[\"" + (Escape(items[0]) + "\"" + Elements(items[1..]));
  }
}

=== FILE: progress.dfy ===
/**
 * The learner-progress store. The store holds one snapshot; each mutator
 * replaces it with a new snapshot built by spreading the old one. The
 * snapshot-to-snapshot functions come first, with what each promises;
 * the `ProgressStore` class then applies them to its `progress` field.
 * The current time of a mutator is the parameter `now`.
 */
module Progress {
  import opened Wrappers
  import opened Records
  import opened Types

  const DefaultSettings: UserSettings := UserSettings(System, Md, true, true)

  const DefaultProgress: UserProgress := UserProgress([], None, DefaultSettings, None, None)

  /** The record created for a chapter on its first update. */
  const NewChapter: ChapterProgress := ChapterProgress(None, None, 0, None, [], [], [])

  /** A `Partial<ChapterProgress>`: the fields present override. */
  datatype ChapterPatch = ChapterPatch(
    started: Option<Instant>,
    completed: Option<Instant>,
    readProgress: Option<int>,
    scrollPosition: Option<int>,
    checkpoints: Option<Record<CheckpointProgress>>,
    questionsRevealed: Option<seq<string>>,
    conceptsReviewed: Option<Record<seq<Instant>>>)

  const NoChange: ChapterPatch := ChapterPatch(None, None, None, None, None, None, None)

  /** A `Partial<CheckpointProgress>` as the checkpoint widget sends it. */
  datatype CheckpointPatch = CheckpointPatch(confidence: Option<int>, items: Option<seq<bool>>)

  /** A `Partial<UserSettings>`. */
  datatype SettingsPatch = SettingsPatch(
    theme: Option<Theme>,
    fontSize: Option<FontSize>,
    showReadingTime: Option<bool>,
    enableReviewPrompts: Option<bool>)

  /** All keys of the snapshot's dictionaries are distinct, as in any JavaScript object. */
  ghost predicate ChapterWellFormed(c: ChapterProgress) {
    UniqueKeys(c.checkpoints) && UniqueKeys(c.conceptsReviewed)
  }

  ghost predicate WellFormed(p: UserProgress) {
    UniqueKeys(p.chapters)
    && forall i :: 0 <= i < |p.chapters| ==> ChapterWellFormed(p.chapters[i].value)
  }

  /** `{ ...chapterProgress, ...updates }`. */
  function Merge(c: ChapterProgress, u: ChapterPatch): (r: ChapterProgress)
    ensures u == NoChange ==> r == c
    ensures u.started.Some? ==> r.started == u.started
    ensures u.completed.Some? ==> r.completed == u.completed
    ensures u.readProgress.Some? ==> r.readProgress == u.readProgress.value
    ensures u.checkpoints.Some? ==> r.checkpoints == u.checkpoints.value
    ensures u.questionsRevealed.Some? ==> r.questionsRevealed == u.questionsRevealed.value
    ensures u.conceptsReviewed.Some? ==> r.conceptsReviewed == u.conceptsReviewed.value
    ensures u.scrollPosition.Some? ==> r.scrollPosition == u.scrollPosition
    ensures u.started.None? ==> r.started == c.started
    ensures u.completed.None? ==> r.completed == c.completed
    ensures u.readProgress.None? ==> r.readProgress == c.readProgress
    ensures u.scrollPosition.None? ==> r.scrollPosition == c.scrollPosition
    ensures u.checkpoints.None? ==> r.checkpoints == c.checkpoints
    ensures u.questionsRevealed.None? ==> r.questionsRevealed == c.questionsRevealed
    ensures u.conceptsReviewed.None? ==> r.conceptsReviewed == c.conceptsReviewed
  {
    ChapterProgress(
      if u.started.Some? then u.started else c.started,
      if u.completed.Some? then u.completed else c.completed,
      u.readProgress.GetOr(c.readProgress),
      if u.scrollPosition.Some? then u.scrollPosition else c.scrollPosition,
      u.checkpoints.GetOr(c.checkpoints),
      u.questionsRevealed.GetOr(c.questionsRevealed),
      u.conceptsReviewed.GetOr(c.conceptsReviewed))
  }

  /** Applying the same patch twice is applying it once. */
  lemma MergeIdempotent(c: ChapterProgress, u: ChapterPatch)
    ensures Merge(Merge(c, u), u) == Merge(c, u)
  {
  }

  /** `current.chapters[slug] || { readProgress: 0, ... }`. */
  function ChapterOf(p: UserProgress, slug: string): ChapterProgress {
    Get(p.chapters, slug).GetOr(NewChapter)
  }

  /** Every chapter other than `slug`, the settings, the bookmarks and the course start date are as in `p`. */
  ghost predicate OthersUnchanged(p: UserProgress, q: UserProgress, slug: string) {
    q.settings == p.settings && q.bookmarks == p.bookmarks && q.startedAt == p.startedAt
    && forall s :: s != slug ==> Get(q.chapters, s) == Get(p.chapters, s)
  }

  /** `updateChapterProgress` on a snapshot. */
  function UpdateChapter(p: UserProgress, slug: string, u: ChapterPatch): (q: UserProgress)
    ensures q.lastVisited == Some(slug)
    ensures q.settings == p.settings && q.bookmarks == p.bookmarks && q.startedAt == p.startedAt
    ensures Get(q.chapters, slug) == Some(Merge(ChapterOf(p, slug), u))
    ensures forall s :: s != slug ==> Get(q.chapters, s) == Get(p.chapters, s)
    ensures |q.chapters| == |p.chapters| + (if HasKey(p.chapters, slug) then 0 else 1)
  {
    var chapters := Put(p.chapters, slug, Merge(ChapterOf(p, slug), u));
    assert forall s :: Get(chapters, s) == if s == slug then Some(Merge(ChapterOf(p, slug), u)) else Get(p.chapters, s) by {
      forall s ensures Get(chapters, s) == if s == slug then Some(Merge(ChapterOf(p, slug), u)) else Get(p.chapters, s) {
        PutGet(p.chapters, slug, Merge(ChapterOf(p, slug), u), s);
      }
    }
    p.(lastVisited := Some(slug), chapters := chapters)
  }

  lemma GetWellFormed(p: UserProgress, slug: string)
    requires WellFormed(p)
    ensures ChapterWellFormed(ChapterOf(p, slug))
  {
    if Get(p.chapters, slug).Some? {
      GetFound(p.chapters, slug);
      var i :| 0 <= i < |p.chapters| && p.chapters[i] == Entry(slug, Get(p.chapters, slug).value);
    }
  }

  /** An update keeps every dictionary's keys distinct. */
  lemma UpdateChapterWellFormed(p: UserProgress, slug: string, u: ChapterPatch)
    requires WellFormed(p)
    requires u.checkpoints.Some? ==> UniqueKeys(u.checkpoints.value)
    requires u.conceptsReviewed.Some? ==> UniqueKeys(u.conceptsReviewed.value)
    ensures WellFormed(UpdateChapter(p, slug, u))
  {
    var c := Merge(ChapterOf(p, slug), u);
    GetWellFormed(p, slug);
    PutUnique(p.chapters, slug, c);
    var q := UpdateChapter(p, slug, u);
    forall i | 0 <= i < |q.chapters| ensures ChapterWellFormed(q.chapters[i].value) {
      GetAt(q.chapters, i);
      var s := q.chapters[i].key;
      if s != slug {
        PutGet(p.chapters, slug, c, s);
        GetFound(p.chapters, s);
        var j :| 0 <= j < |p.chapters| && p.chapters[j] == Entry(s, q.chapters[i].value);
      }
    }
  }

  /** `startChapter`: stamp `started` and the course's `startedAt` only where unset. */
  function WithChapterStarted(p: UserProgress, slug: string, now: Instant): (q: UserProgress)
    ensures ChapterOf(p, slug).started.Some? ==> q.chapters == p.chapters && q.lastVisited == p.lastVisited
    ensures ChapterOf(p, slug).started.None? ==>
              q.lastVisited == Some(slug)
              && Get(q.chapters, slug) == Some(ChapterOf(p, slug).(started := Some(now)))
    ensures q.startedAt == Some(if p.startedAt.Some? then p.startedAt.value else now)
    ensures q.settings == p.settings && q.bookmarks == p.bookmarks
    ensures forall s :: s != slug ==> Get(q.chapters, s) == Get(p.chapters, s)
  {
    var q := if ChapterOf(p, slug).started.None?
             then UpdateChapter(p, slug, NoChange.(started := Some(now)))
             else p;
    if p.startedAt.None? then q.(startedAt := Some(now)) else q
  }

  /** After `startChapter` the chapter has a start date, and a second call changes nothing. */
  lemma StartChapterIdempotent(p: UserProgress, slug: string, now: Instant, later: Instant)
    ensures ChapterOf(WithChapterStarted(p, slug, now), slug).started.Some?
    ensures WithChapterStarted(WithChapterStarted(p, slug, now), slug, later) == WithChapterStarted(p, slug, now)
  {
  }

  /** `completeChapter`. */
  function WithChapterCompleted(p: UserProgress, slug: string, now: Instant): (q: UserProgress)
    ensures Get(q.chapters, slug).Some?
    ensures Get(q.chapters, slug).value.completed == Some(now)
    ensures Get(q.chapters, slug).value.readProgress == 100
    ensures Get(q.chapters, slug) == Some(ChapterOf(p, slug).(completed := Some(now), readProgress := 100))
    ensures q.lastVisited == Some(slug)
    ensures OthersUnchanged(p, q, slug)
  {
    UpdateChapter(p, slug, NoChange.(completed := Some(now), readProgress := Some(100)))
  }

  function Clamp(x: int): (r: int)
    ensures 0 <= r <= 100
    ensures 0 <= x <= 100 ==> r == x
    ensures x < 0 ==> r == 0
    ensures x > 100 ==> r == 100
  {
    if 100 < (if 0 < x then x else 0) then 100 else if 0 < x then x else 0
  }

  /** `updateReadProgress`: the stored percentage is clamped into 0..100. */
  function WithReadProgress(p: UserProgress, slug: string, progress: int): (q: UserProgress)
    ensures Get(q.chapters, slug).Some?
    ensures 0 <= Get(q.chapters, slug).value.readProgress <= 100
    ensures 0 <= progress <= 100 ==> Get(q.chapters, slug).value.readProgress == progress
    ensures progress < 0 ==> Get(q.chapters, slug).value.readProgress == 0
    ensures progress > 100 ==> Get(q.chapters, slug).value.readProgress == 100
    ensures Get(q.chapters, slug) == Some(ChapterOf(p, slug).(readProgress := Clamp(progress)))
    ensures q.lastVisited == Some(slug)
    ensures OthersUnchanged(p, q, slug)
  {
    UpdateChapter(p, slug, NoChange.(readProgress := Some(Clamp(progress))))
  }

  /** Every chapter's read progress is a percentage. */
  ghost predicate ReadProgressInRange(p: UserProgress) {
    forall i :: 0 <= i < |p.chapters| ==> 0 <= p.chapters[i].value.readProgress <= 100
  }

  lemma ReadProgressPreserved(p: UserProgress, slug: string, u: ChapterPatch)
    requires ReadProgressInRange(p)
    requires u.readProgress.Some? ==> 0 <= u.readProgress.value <= 100
    ensures ReadProgressInRange(UpdateChapter(p, slug, u))
  {
    var inRange := (c: ChapterProgress) => 0 <= c.readProgress <= 100;
    if Get(p.chapters, slug).Some? {
      GetFound(p.chapters, slug);
      var i :| 0 <= i < |p.chapters| && p.chapters[i] == Entry(slug, Get(p.chapters, slug).value);
    }
    PutAll(p.chapters, slug, Merge(ChapterOf(p, slug), u), inRange);
  }

  /** The questions already revealed in a chapter, or `[]`. */
  function Revealed(p: UserProgress, slug: string): seq<string> {
    ChapterOf(p, slug).questionsRevealed
  }

  /** `revealQuestion`: set-like append of a question id. */
  function WithQuestionRevealed(p: UserProgress, slug: string, questionId: string): (q: UserProgress)
    ensures questionId in Revealed(p, slug) ==> q == p
    ensures questionId !in Revealed(p, slug) ==>
              Revealed(q, slug) == Revealed(p, slug) + [questionId] && q.lastVisited == Some(slug)
    ensures questionId in Revealed(q, slug)
    ensures questionId !in Revealed(p, slug) ==>
              Get(q.chapters, slug) == Some(ChapterOf(p, slug).(questionsRevealed := Revealed(p, slug) + [questionId]))
    ensures OthersUnchanged(p, q, slug)
  {
    var revealed := Revealed(p, slug);
    if questionId in revealed then p
    else UpdateChapter(p, slug, NoChange.(questionsRevealed := Some(revealed + [questionId])))
  }

  /** Revealing twice is revealing once, and a fresh id appears exactly once. */
  lemma RevealQuestionTwice(p: UserProgress, slug: string, questionId: string)
    ensures WithQuestionRevealed(WithQuestionRevealed(p, slug, questionId), slug, questionId)
         == WithQuestionRevealed(p, slug, questionId)
    ensures questionId !in Revealed(p, slug) ==>
              multiset(Revealed(WithQuestionRevealed(p, slug, questionId), slug))[questionId] == 1
  {
    var revealed := Revealed(p, slug);
    if questionId !in revealed {
      assert multiset(revealed)[questionId] == 0;
    }
  }

  /** The checkpoints of a chapter, or `{}`. */
  function CheckpointsOf(p: UserProgress, slug: string): Record<CheckpointProgress> {
    ChapterOf(p, slug).checkpoints
  }

  /** `checkpoints[id] || { confidence: 0, items: [] }`. */
  function CheckpointOf(p: UserProgress, slug: string, checkpointId: string): CheckpointProgress {
    Get(CheckpointsOf(p, slug), checkpointId).GetOr(CheckpointProgress(0, [], None))
  }

  /** `updateCheckpoint`: `completedAt` is stamped exactly when a non-zero confidence is sent. */
  function WithCheckpoint(p: UserProgress, slug: string, checkpointId: string,
                            u: CheckpointPatch, now: Instant): (q: UserProgress)
    ensures CheckpointOf(q, slug, checkpointId).completedAt
         == if u.confidence.Some? && u.confidence.value != 0 then Some(now)
            else CheckpointOf(p, slug, checkpointId).completedAt
    ensures CheckpointOf(q, slug, checkpointId).confidence
         == u.confidence.GetOr(CheckpointOf(p, slug, checkpointId).confidence)
    ensures CheckpointOf(q, slug, checkpointId).items
         == u.items.GetOr(CheckpointOf(p, slug, checkpointId).items)
    ensures Get(CheckpointsOf(q, slug), checkpointId) == Some(CheckpointOf(q, slug, checkpointId))
    ensures forall id :: id != checkpointId ==>
              Get(CheckpointsOf(q, slug), id) == Get(CheckpointsOf(p, slug), id)
    ensures Get(q.chapters, slug) == Some(ChapterOf(p, slug).(checkpoints := CheckpointsOf(q, slug)))
    ensures q.lastVisited == Some(slug)
    ensures OthersUnchanged(p, q, slug)
  {
    var old_ := CheckpointOf(p, slug, checkpointId);
    var cp := CheckpointProgress(
      u.confidence.GetOr(old_.confidence),
      u.items.GetOr(old_.items),
      if u.confidence.Some? && u.confidence.value != 0 then Some(now) else old_.completedAt);
    var checkpoints := Put(CheckpointsOf(p, slug), checkpointId, cp);
    PutGet(CheckpointsOf(p, slug), checkpointId, cp, checkpointId);
    assert forall id :: id != checkpointId ==> Get(checkpoints, id) == Get(CheckpointsOf(p, slug), id) by {
      forall id | id != checkpointId ensures Get(checkpoints, id) == Get(CheckpointsOf(p, slug), id) {
        PutGet(CheckpointsOf(p, slug), checkpointId, cp, id);
      }
    }
    UpdateChapter(p, slug, NoChange.(checkpoints := Some(checkpoints)))
  }

  /** The review history of a concept, or `[]`. */
  function HistoryOf(p: UserProgress, slug: string, conceptId: string): seq<Instant> {
    Get(ChapterOf(p, slug).conceptsReviewed, conceptId).GetOr([])
  }

  /** `reviewConcept`: one review date appended to the history. */
  function WithConceptReviewed(p: UserProgress, slug: string, conceptId: string, now: Instant): (q: UserProgress)
    ensures HistoryOf(q, slug, conceptId) == HistoryOf(p, slug, conceptId) + [now]
    ensures forall id :: id != conceptId ==>
              Get(ChapterOf(q, slug).conceptsReviewed, id) == Get(ChapterOf(p, slug).conceptsReviewed, id)
    ensures q.lastVisited == Some(slug)
    ensures Get(q.chapters, slug)
         == Some(ChapterOf(p, slug).(conceptsReviewed := ChapterOf(q, slug).conceptsReviewed))
    ensures OthersUnchanged(p, q, slug)
  {
    var reviewed := ChapterOf(p, slug).conceptsReviewed;
    var history := HistoryOf(p, slug, conceptId) + [now];
    var reviewed' := Put(reviewed, conceptId, history);
    PutGet(reviewed, conceptId, history, conceptId);
    assert forall id :: id != conceptId ==> Get(reviewed', id) == Get(reviewed, id) by {
      forall id | id != conceptId ensures Get(reviewed', id) == Get(reviewed, id) {
        PutGet(reviewed, conceptId, history, id);
      }
    }
    UpdateChapter(p, slug, NoChange.(conceptsReviewed := Some(reviewed')))
  }

  /** The review history is append-only: it grows by one and keeps the old dates as a prefix. */
  lemma ReviewHistoryAppendOnly(p: UserProgress, slug: string, conceptId: string, now: Instant)
    ensures |HistoryOf(WithConceptReviewed(p, slug, conceptId, now), slug, conceptId)|
         == |HistoryOf(p, slug, conceptId)| + 1
    ensures HistoryOf(p, slug, conceptId) <= HistoryOf(WithConceptReviewed(p, slug, conceptId, now), slug, conceptId)
  {
  }

  /** `updateSettings`: only the settings change. */
  function WithSettings(p: UserProgress, u: SettingsPatch): (q: UserProgress)
    ensures q.chapters == p.chapters && q.bookmarks == p.bookmarks
    ensures q.lastVisited == p.lastVisited && q.startedAt == p.startedAt
    ensures q.settings.theme == u.theme.GetOr(p.settings.theme)
    ensures q.settings.fontSize == u.fontSize.GetOr(p.settings.fontSize)
    ensures q.settings.showReadingTime == u.showReadingTime.GetOr(p.settings.showReadingTime)
    ensures q.settings.enableReviewPrompts == u.enableReviewPrompts.GetOr(p.settings.enableReviewPrompts)
  {
    p.(settings := UserSettings(
      u.theme.GetOr(p.settings.theme),
      u.fontSize.GetOr(p.settings.fontSize),
      u.showReadingTime.GetOr(p.settings.showReadingTime),
      u.enableReviewPrompts.GetOr(p.settings.enableReviewPrompts)))
  }

  /** `chaptersCompleted`: the number of chapters with a completion date. */
  function CountCompleted(chapters: Record<ChapterProgress>): (n: nat)
    ensures n <= |chapters|
    ensures n == 0 <==> forall i :: 0 <= i < |chapters| ==> chapters[i].value.completed.None?
    ensures n == |chapters| <==> forall i :: 0 <= i < |chapters| ==> chapters[i].value.completed.Some?
  {
    if chapters == [] then 0
    else (if chapters[0].value.completed.Some? then 1 else 0) + CountCompleted(chapters[1..])
  }

  function ChaptersCompleted(p: UserProgress): (n: nat)
    ensures n <= |p.chapters|
    ensures n == 0 <==> forall i :: 0 <= i < |p.chapters| ==> p.chapters[i].value.completed.None?
  {
    CountCompleted(p.chapters)
  }

  lemma {:induction false} CountCompletedPut(r: Record<ChapterProgress>, k: string, c: ChapterProgress)
    requires UniqueKeys(r)
    ensures CountCompleted(Put(r, k, c))
         == CountCompleted(r)
            - (if Get(r, k).Some? && Get(r, k).value.completed.Some? then 1 else 0)
            + (if c.completed.Some? then 1 else 0)
  {
    if r != [] {
      if r[0].key == k {
        assert Put(r, k, c)[1..] == r[1..];
      } else {
        CountCompletedPut(r[1..], k, c);
        assert Put(r, k, c)[1..] == Put(r[1..], k, c);
      }
    }
  }

  /** Completing a chapter that was not complete raises the count by one; otherwise it is unchanged. */
  lemma CompleteChapterCount(p: UserProgress, slug: string, now: Instant)
    requires WellFormed(p)
    ensures ChaptersCompleted(WithChapterCompleted(p, slug, now))
         == ChaptersCompleted(p) + (if ChapterOf(p, slug).completed.Some? then 0 else 1)
  {
    CountCompletedPut(p.chapters, slug,
      Merge(ChapterOf(p, slug), NoChange.(completed := Some(now), readProgress := Some(100))));
  }

  /** The sum of every chapter's read progress (`readProgress || 0` adds nothing for 0). */
  function SumReadProgress(chapters: Record<ChapterProgress>): int {
    if chapters == [] then 0 else chapters[0].value.readProgress + SumReadProgress(chapters[1..])
  }

  /**
   * `courseProgress`: the summed percentages over the course's fixed 16
   * chapters, rounded half up as `Math.round` does; 0 before any chapter is
   * touched.
   */
  function CourseProgress(p: UserProgress): (r: int)
    ensures |p.chapters| == 0 ==> r == 0
    ensures |p.chapters| > 0 ==> 16 * r - 8 <= SumReadProgress(p.chapters) < 16 * r + 8
  {
    if |p.chapters| == 0 then 0 else (SumReadProgress(p.chapters) + 8) / 16
  }

  /** With percentages in range the sum is at most 100 per chapter, and exactly that when all are complete. */
  lemma {:induction false} SumReadProgressBounds(chapters: Record<ChapterProgress>)
    requires forall i :: 0 <= i < |chapters| ==> 0 <= chapters[i].value.readProgress <= 100
    ensures 0 <= SumReadProgress(chapters) <= 100 * |chapters|
    ensures (forall i :: 0 <= i < |chapters| ==> chapters[i].value.readProgress == 100)
            ==> SumReadProgress(chapters) == 100 * |chapters|
  {
    if chapters != [] {
      SumReadProgressBounds(chapters[1..]);
    }
  }

  /**
   * While at most 16 chapters have progress, the course progress is a
   * percentage; all 16 read to the end give exactly 100.
   */
  lemma CourseProgressBounded(p: UserProgress)
    requires ReadProgressInRange(p) && |p.chapters| <= 16
    ensures 0 <= CourseProgress(p) <= 100
    ensures |p.chapters| == 16 && (forall i :: 0 <= i < 16 ==> p.chapters[i].value.readProgress == 100)
            ==> CourseProgress(p) == 100
  {
    SumReadProgressBounds(p.chapters);
  }

  /** The store object: one snapshot, replaced by each mutator. */
  class ProgressStore {
    var progress: UserProgress

    ghost predicate Valid()
      reads this
    {
      WellFormed(progress)
    }

    constructor()
      ensures progress == DefaultProgress
      ensures Valid()
    {
      progress := DefaultProgress;
    }

    method UpdateChapterProgress(chapterSlug: string, updates: ChapterPatch)
      requires Valid()
      requires updates.checkpoints.Some? ==> UniqueKeys(updates.checkpoints.value)
      requires updates.conceptsReviewed.Some? ==> UniqueKeys(updates.conceptsReviewed.value)
      modifies this
      ensures progress == UpdateChapter(old(progress), chapterSlug, updates)
      ensures Valid()
    {
      UpdateChapterWellFormed(progress, chapterSlug, updates);
      progress := UpdateChapter(progress, chapterSlug, updates);
    }

    method StartChapter(chapterSlug: string, now: Instant)
      requires Valid()
      modifies this
      ensures progress == WithChapterStarted(old(progress), chapterSlug, now)
      ensures Valid()
    {
      var current := progress;
      if ChapterOf(current, chapterSlug).started.None? {
        UpdateChapterProgress(chapterSlug, NoChange.(started := Some(now)));
      }
      if current.startedAt.None? {
        progress := progress.(startedAt := Some(now));
      }
    }

    method CompleteChapter(chapterSlug: string, now: Instant)
      requires Valid()
      modifies this
      ensures progress == WithChapterCompleted(old(progress), chapterSlug, now)
      ensures Valid()
    {
      UpdateChapterProgress(chapterSlug, NoChange.(completed := Some(now), readProgress := Some(100)));
    }

    method UpdateReadProgress(chapterSlug: string, pct: int)
      requires Valid()
      modifies this
      ensures progress == WithReadProgress(old(progress), chapterSlug, pct)
      ensures Valid()
      ensures old(ReadProgressInRange(progress)) ==> ReadProgressInRange(progress)
    {
      if ReadProgressInRange(progress) {
        ReadProgressPreserved(progress, chapterSlug, NoChange.(readProgress := Some(Clamp(pct))));
      }
      UpdateChapterProgress(chapterSlug, NoChange.(readProgress := Some(Clamp(pct))));
    }

    method RevealQuestion(chapterSlug: string, questionId: string)
      requires Valid()
      modifies this
      ensures progress == WithQuestionRevealed(old(progress), chapterSlug, questionId)
      ensures Valid()
    {
      var revealed := Revealed(progress, chapterSlug);
      if questionId !in revealed {
        UpdateChapterProgress(chapterSlug, NoChange.(questionsRevealed := Some(revealed + [questionId])));
      }
    }

    method UpdateCheckpoint(chapterSlug: string, checkpointId: string, updates: CheckpointPatch, now: Instant)
      requires Valid()
      modifies this
      ensures progress == WithCheckpoint(old(progress), chapterSlug, checkpointId, updates, now)
      ensures Valid()
    {
      var checkpoints := CheckpointsOf(progress, chapterSlug);
      var checkpoint := CheckpointOf(progress, chapterSlug, checkpointId);
      var cp := CheckpointProgress(
        updates.confidence.GetOr(checkpoint.confidence),
        updates.items.GetOr(checkpoint.items),
        if updates.confidence.Some? && updates.confidence.value != 0 then Some(now) else checkpoint.completedAt);
      GetWellFormed(progress, chapterSlug);
      PutUnique(checkpoints, checkpointId, cp);
      UpdateChapterProgress(chapterSlug, NoChange.(checkpoints := Some(Put(checkpoints, checkpointId, cp))));
    }

    method ReviewConcept(chapterSlug: string, conceptId: string, now: Instant)
      requires Valid()
      modifies this
      ensures progress == WithConceptReviewed(old(progress), chapterSlug, conceptId, now)
      ensures Valid()
    {
      var conceptsReviewed := ChapterOf(progress, chapterSlug).conceptsReviewed;
      var reviews := HistoryOf(progress, chapterSlug, conceptId);
      GetWellFormed(progress, chapterSlug);
      PutUnique(conceptsReviewed, conceptId, reviews + [now]);
      UpdateChapterProgress(chapterSlug, NoChange.(conceptsReviewed := Some(Put(conceptsReviewed, conceptId, reviews + [now]))));
    }

    method UpdateSettings(updates: SettingsPatch)
      requires Valid()
      modifies this
      ensures progress == WithSettings(old(progress), updates)
      ensures Valid()
    {
      progress := WithSettings(progress, updates);
    }

    method ResetProgress()
      modifies this
      ensures progress == DefaultProgress
      ensures Valid()
    {
      progress := DefaultProgress;
    }
  }
}

=== FILE: records.dfy ===
/**
 * JavaScript objects used as dictionaries (`Record<string, V>`): an
 * insertion-ordered list of entries with distinct keys. `Object.entries`
 * and `Object.values` walk the entries in this order; the spread update
 * `{ ...r, [k]: v }` keeps an existing key where it is and appends a new
 * key at the end.
 */
module Records {
  import opened Wrappers

  datatype Entry<V> = Entry(key: string, value: V)

  type Record<V> = seq<Entry<V>>

  ghost predicate UniqueKeys<V>(r: Record<V>) {
    forall i, j :: 0 <= i < j < |r| ==> r[i].key != r[j].key
  }

  predicate HasKey<V>(r: Record<V>, k: string) {
    exists i :: 0 <= i < |r| && r[i].key == k
  }

  function Keys<V>(r: Record<V>): (ks: seq<string>)
    ensures |ks| == |r|
    ensures forall i :: 0 <= i < |r| ==> ks[i] == r[i].key
  {
    if r == [] then [] else [r[0].key] + Keys(r[1..])
  }

  /** `r[k]`: the value of the entry with key `k`, or `undefined`. */
  function Get<V>(r: Record<V>, k: string): (v: Option<V>)
    ensures v.Some? <==> HasKey(r, k)
  {
    if r == [] then None
    else if r[0].key == k then Some(r[0].value)
    else Get(r[1..], k)
  }

  /** A value found under a key is the value of an entry with that key. */
  lemma {:induction false} GetFound<V>(r: Record<V>, k: string)
    requires Get(r, k).Some?
    ensures exists i :: 0 <= i < |r| && r[i] == Entry(k, Get(r, k).value)
  {
    if r[0].key != k {
      GetFound(r[1..], k);
      var i :| 0 <= i < |r| - 1 && r[1..][i] == Entry(k, Get(r, k).value);
      assert r[i + 1] == r[1..][i];
    }
  }

  lemma GetAt<V>(r: Record<V>, i: nat)
    requires UniqueKeys(r) && i < |r|
    ensures Get(r, r[i].key) == Some(r[i].value)
  {
    if i > 0 {
      assert r[0].key != r[i].key;
      assert r[1..][i - 1] == r[i];
      GetAt(r[1..], i - 1);
    }
  }

  /** `{ ...r, [k]: v }`. */
  function Put<V>(r: Record<V>, k: string, v: V): (r': Record<V>)
    ensures HasKey(r, k) ==> |r'| == |r|
    ensures !HasKey(r, k) ==> r' == r + [Entry(k, v)]
  {
    if r == [] then [Entry(k, v)]
    else if r[0].key == k then [Entry(k, v)] + r[1..]
    else [r[0]] + Put(r[1..], k, v)
  }

  lemma {:induction false} PutGet<V>(r: Record<V>, k: string, v: V, k': string)
    ensures Get(Put(r, k, v), k') == if k' == k then Some(v) else Get(r, k')
  {
    if r != [] && r[0].key != k {
      PutGet(r[1..], k, v, k');
      assert Put(r, k, v)[1..] == Put(r[1..], k, v);
    }
  }

  /** A second `Put` under the same key overwrites the first. */
  lemma {:induction false} PutPut<V>(r: Record<V>, k: string, v: V, w: V)
    ensures Put(Put(r, k, v), k, w) == Put(r, k, w)
  {
    if r != [] && r[0].key != k {
      PutPut(r[1..], k, v, w);
      assert Put(r, k, v)[1..] == Put(r[1..], k, v);
    }
  }

  /** An existing key keeps its position: the key order is unchanged. */
  lemma {:induction false} PutKeepsKeys<V>(r: Record<V>, k: string, v: V)
    requires HasKey(r, k)
    ensures Keys(Put(r, k, v)) == Keys(r)
  {
    if r[0].key != k {
      assert HasKey(r[1..], k) by {
        var i :| 0 <= i < |r| && r[i].key == k;
        assert r[1..][i - 1].key == k;
      }
      PutKeepsKeys(r[1..], k, v);
    }
  }

  /** A new entry at the end adds its key at the end. */
  lemma KeysAppend<V>(r: Record<V>, e: Entry<V>)
    ensures Keys(r + [e]) == Keys(r) + [e.key]
  {
    assert forall i :: 0 <= i < |r| ==> (r + [e])[i] == r[i];
  }

  lemma HasKeyInKeys<V>(r: Record<V>, k: string)
    ensures HasKey(r, k) <==> k in Keys(r)
  {
    if k in Keys(r) {
      var i :| 0 <= i < |Keys(r)| && Keys(r)[i] == k;
      assert r[i].key == k;
    }
  }

  /** The keys after `{ ...r, [k]: v }`: unchanged for a present key, `k` appended otherwise. */
  lemma PutKeys<V>(r: Record<V>, k: string, v: V)
    ensures Keys(Put(r, k, v)) == if k in Keys(r) then Keys(r) else Keys(r) + [k]
  {
    HasKeyInKeys(r, k);
    if HasKey(r, k) {
      PutKeepsKeys(r, k, v);
    } else {
      KeysAppend(r, Entry(k, v));
    }
  }

  lemma {:induction false} PutUnique<V>(r: Record<V>, k: string, v: V)
    requires UniqueKeys(r)
    ensures UniqueKeys(Put(r, k, v))
  {
    if HasKey(r, k) {
      PutKeepsKeys(r, k, v);
      var r' := Put(r, k, v);
      forall i, j | 0 <= i < j < |r'| ensures r'[i].key != r'[j].key {
        assert Keys(r')[i] == Keys(r)[i] && Keys(r')[j] == Keys(r)[j];
      }
    }
  }

  /** A property of every value survives a `Put` of a value that has it. */
  lemma {:induction false} PutAll<V>(r: Record<V>, k: string, v: V, P: V -> bool)
    requires forall i :: 0 <= i < |r| ==> P(r[i].value)
    requires P(v)
    ensures forall i :: 0 <= i < |Put(r, k, v)| ==> P(Put(r, k, v)[i].value)
  {
    if r != [] && r[0].key != k {
      PutAll(r[1..], k, v, P);
    }
  }

  /** `Object.values(r)`. */
  function Values<V>(r: Record<V>): (vs: seq<V>)
    ensures |vs| == |r|
    ensures forall i :: 0 <= i < |r| ==> vs[i] == r[i].value
  {
    if r == [] then [] else [r[0].value] + Values(r[1..])
  }
}

=== FILE: rehype_toc.dfy ===
/**
 * The table-of-contents extractor. The visit reaches the elements of the
 * HTML tree in document order and replaces none of them, so the tree is
 * modelled by its elements in preorder, held in an array whose entries
 * are annotated in place. The slugger is external: a fresh one per
 * document, whose answer depends on the texts it has already slugged.
 */
module RehypeToc {
  import opened Wrappers
  import opened Text

  /** `className` as found on a heading: absent, an array, or some other value. */
  datatype ClassName = NoClassName | ClassList(classes: seq<string>) | ClassOther(value: string)

  /**
   * An element: its tag, the two properties the extractor writes, and its
   * flattened text content (what the text flattener returns for it, which
   * the extractor never changes).
   */
  datatype HElement = HElement(tagName: string, id: Option<string>, className: ClassName, text: string)

  datatype TocEntry = TocEntry(depth: int, text: string, slug: string)

  /** `slugger.slug(text)`, given the texts this document's slugger has already seen. */
  type Slugger = (seq<string>, string) -> string

  /** `/^h[1-6]$/`: exactly the tags h1 to h6. */
  function IsHeading(tagName: string): (b: bool)
    ensures b <==> exists d :: 1 <= d <= 6 && tagName == ['h', DigitChar(d)]
  {
    var b := |tagName| == 2 && tagName[0] == 'h' && '1' <= tagName[1] <= '6';
    if b then
      var d := tagName[1] as int - '0' as int;
      assert tagName == ['h', DigitChar(d)];
      b
    else b
  }

  /** `parseInt(tagName.charAt(1), 10)` for a heading tag. */
  function HeadingDepth(tagName: string): (depth: int)
    requires IsHeading(tagName)
    ensures 1 <= depth <= 6
    ensures tagName == ['h', DigitChar(depth)]
  {
    DigitValue(tagName[1])
  }

  /** A heading in the depth range whose trimmed text is not empty. */
  predicate Kept(e: HElement, minDepth: int, maxDepth: int) {
    IsHeading(e.tagName) && minDepth <= HeadingDepth(e.tagName) <= maxDepth && Trim(e.text) != ""
  }

  /** The texts handed to the slugger before position `|elems|`. */
  function KeptTexts(elems: seq<HElement>, minDepth: int, maxDepth: int): (r: seq<string>)
    ensures |r| <= |elems|
  {
    if elems == [] then []
    else
      var last := elems[|elems| - 1];
      KeptTexts(elems[..|elems| - 1], minDepth, maxDepth)
        + (if Kept(last, minDepth, maxDepth) then [Trim(last.text)] else [])
  }

  function SlugAt(elems: seq<HElement>, k: nat, minDepth: int, maxDepth: int, slugger: Slugger): string
    requires k < |elems|
  {
    slugger(KeptTexts(elems[..k], minDepth, maxDepth), Trim(elems[k].text))
  }

  /** The heading with its id set and `heading-anchor` appended to the array classes. */
  function Annotate(e: HElement, slug: string): (r: HElement)
    ensures r.tagName == e.tagName && r.text == e.text
    ensures r.id == Some(slug)
    ensures e.className.ClassList? ==> r.className == ClassList(e.className.classes + ["heading-anchor"])
    ensures !e.className.ClassList? ==> r.className == ClassList(["heading-anchor"])
  {
    var existing := if e.className.ClassList? then e.className.classes else [];
    assert [] + ["heading-anchor"] == ["heading-anchor"];
    e.(id := Some(slug), className := ClassList(existing + ["heading-anchor"]))
  }

  /** The element at position `k` once the visit has passed it. */
  function Visited(elems: seq<HElement>, k: nat, minDepth: int, maxDepth: int, slugger: Slugger): HElement
    requires k < |elems|
  {
    if Kept(elems[k], minDepth, maxDepth) then Annotate(elems[k], SlugAt(elems, k, minDepth, maxDepth, slugger))
    else elems[k]
  }

  /** The table of contents of `elems`, in document order. */
  function TocOf(elems: seq<HElement>, minDepth: int, maxDepth: int, slugger: Slugger): (toc: seq<TocEntry>)
    ensures |toc| == |KeptTexts(elems, minDepth, maxDepth)|
  {
    if elems == [] then []
    else
      var k := |elems| - 1;
      var e := elems[k];
      assert elems[..k] == elems[..|elems| - 1];
      TocOf(elems[..k], minDepth, maxDepth, slugger)
        + (if Kept(e, minDepth, maxDepth)
           then [TocEntry(HeadingDepth(e.tagName), Trim(e.text), SlugAt(elems, k, minDepth, maxDepth, slugger))]
           else [])
  }

  /** The VFile the extractor writes its result to. */
  class VFile {
    var toc: Option<seq<TocEntry>>

    constructor()
      ensures toc.None?
    {
      toc := None;
    }
  }

  /**
   * One run of the plugin over a document. `minDepth` and `maxDepth`
   * default to 2 and 3.
   */
  method Run(elements: array<HElement>, file: VFile, minDepthOption: Option<int>, maxDepthOption: Option<int>,
             slugger: Slugger)
    modifies elements, file
    ensures var minDepth, maxDepth := minDepthOption.GetOr(2), maxDepthOption.GetOr(3);
      file.toc == Some(TocOf(old(elements[..]), minDepth, maxDepth, slugger))
      && forall k :: 0 <= k < elements.Length ==>
           elements[k] == Visited(old(elements[..]), k, minDepth, maxDepth, slugger)
  {
    var minDepth, maxDepth := minDepthOption.GetOr(2), maxDepthOption.GetOr(3);
    ghost var original := elements[..];
    var seen: seq<string> := [];          // the slugger's state
    var toc: seq<TocEntry> := [];
    var i := 0;
    while i < elements.Length
      invariant 0 <= i <= elements.Length
      invariant seen == KeptTexts(original[..i], minDepth, maxDepth)
      invariant toc == TocOf(original[..i], minDepth, maxDepth, slugger)
      invariant elements[..] == VisitedUpTo(original, i, minDepth, maxDepth, slugger)
    {
      var node := elements[i];
      RunStep(original, i, minDepth, maxDepth, slugger);
      VisitedUpToStep(original, i, minDepth, maxDepth, slugger);
      if IsHeading(node.tagName) {
        var depth := HeadingDepth(node.tagName);
        if minDepth <= depth <= maxDepth {
          var text := Trim(node.text);
          if text != "" {
            var slug := slugger(seen, text);
            seen := seen + [text];
            elements[i] := Annotate(node, slug);
            toc := toc + [TocEntry(depth, text, slug)];
          }
        }
      }
      i := i + 1;
    }
    assert original[..i] == original;
    file.toc := Some(toc);
  }

  /** The elements once the visit has passed the first `i` of them. */
  ghost function VisitedUpTo(elems: seq<HElement>, i: nat, minDepth: int, maxDepth: int, slugger: Slugger)
    : (r: seq<HElement>)
    ensures |r| == |elems|
  {
    seq(|elems|, k requires 0 <= k < |elems| =>
      if k < i then Visited(elems, k, minDepth, maxDepth, slugger) else elems[k])
  }

  lemma VisitedUpToStep(elems: seq<HElement>, i: nat, minDepth: int, maxDepth: int, slugger: Slugger)
    requires i < |elems|
    ensures VisitedUpTo(elems, i, minDepth, maxDepth, slugger)[i := Visited(elems, i, minDepth, maxDepth, slugger)]
         == VisitedUpTo(elems, i + 1, minDepth, maxDepth, slugger)
    ensures VisitedUpTo(elems, i, minDepth, maxDepth, slugger)[i] == elems[i]
  {
  }

  /** What the visit of position `i` adds to the slugger's state and to the table of contents. */
  lemma RunStep(elems: seq<HElement>, i: nat, minDepth: int, maxDepth: int, slugger: Slugger)
    requires i < |elems|
    ensures KeptTexts(elems[..i + 1], minDepth, maxDepth)
         == KeptTexts(elems[..i], minDepth, maxDepth)
            + (if Kept(elems[i], minDepth, maxDepth) then [Trim(elems[i].text)] else [])
    ensures TocOf(elems[..i + 1], minDepth, maxDepth, slugger)
         == TocOf(elems[..i], minDepth, maxDepth, slugger)
            + (if Kept(elems[i], minDepth, maxDepth)
               then [TocEntry(HeadingDepth(elems[i].tagName), Trim(elems[i].text),
                              SlugAt(elems, i, minDepth, maxDepth, slugger))]
               else [])
  {
    var p := elems[..i + 1];
    assert p[..i] == elems[..i] && p[i] == elems[i];
    assert SlugAt(p, i, minDepth, maxDepth, slugger) == SlugAt(elems, i, minDepth, maxDepth, slugger);
  }

  // --------------------------------------------------------------- lemmas

  lemma {:induction false} TocOfPrefix(elems: seq<HElement>, j: nat, minDepth: int, maxDepth: int, slugger: Slugger)
    requires j <= |elems|
    ensures TocOf(elems[..j], minDepth, maxDepth, slugger) <= TocOf(elems, minDepth, maxDepth, slugger)
    decreases |elems|
  {
    if j < |elems| {
      var init := elems[..|elems| - 1];
      assert init[..j] == elems[..j];
      TocOfPrefix(init, j, minDepth, maxDepth, slugger);
    } else {
      assert elems[..j] == elems;
    }
  }

  /**
   * Each kept heading has exactly one entry: the one at its rank among the
   * kept headings, which carries the heading's depth, trimmed text and the
   * slug written to its id.
   */
  lemma TocEntryOfHeading(elems: seq<HElement>, k: nat, minDepth: int, maxDepth: int, slugger: Slugger)
    requires k < |elems| && Kept(elems[k], minDepth, maxDepth)
    ensures var toc := TocOf(elems, minDepth, maxDepth, slugger);
      var rank := |KeptTexts(elems[..k], minDepth, maxDepth)|;
      rank < |toc|
      && toc[rank] == TocEntry(HeadingDepth(elems[k].tagName), Trim(elems[k].text),
                               SlugAt(elems, k, minDepth, maxDepth, slugger))
      && Visited(elems, k, minDepth, maxDepth, slugger).id == Some(toc[rank].slug)
  {
    var p := elems[..k + 1];
    var rank := |KeptTexts(elems[..k], minDepth, maxDepth)|;
    var entry := TocEntry(HeadingDepth(elems[k].tagName), Trim(elems[k].text),
                          SlugAt(elems, k, minDepth, maxDepth, slugger));
    assert rank < |TocOf(p, minDepth, maxDepth, slugger)|
                 && TocOf(p, minDepth, maxDepth, slugger)[rank] == entry by {
      assert p[..k] == elems[..k] && p[k] == elems[k];
      TocOfLastKept(p, minDepth, maxDepth, slugger);
      assert SlugAt(p, k, minDepth, maxDepth, slugger) == SlugAt(elems, k, minDepth, maxDepth, slugger);
    }
    assert TocOf(p, minDepth, maxDepth, slugger) <= TocOf(elems, minDepth, maxDepth, slugger) by {
      TocOfPrefix(elems, k + 1, minDepth, maxDepth, slugger);
    }
  }

  lemma TocOfLastKept(p: seq<HElement>, minDepth: int, maxDepth: int, slugger: Slugger)
    requires p != [] && Kept(p[|p| - 1], minDepth, maxDepth)
    ensures var k := |p| - 1;
      TocOf(p, minDepth, maxDepth, slugger)
      == TocOf(p[..k], minDepth, maxDepth, slugger)
         + [TocEntry(HeadingDepth(p[k].tagName), Trim(p[k].text), SlugAt(p, k, minDepth, maxDepth, slugger))]
  {
  }

  /** Elements that are not kept headings get neither an entry nor an id. */
  lemma UnkeptUntouched(elems: seq<HElement>, k: nat, minDepth: int, maxDepth: int, slugger: Slugger)
    requires k < |elems| && !Kept(elems[k], minDepth, maxDepth)
    ensures Visited(elems, k, minDepth, maxDepth, slugger) == elems[k]
    ensures KeptTexts(elems[..k + 1], minDepth, maxDepth) == KeptTexts(elems[..k], minDepth, maxDepth)
  {
    assert elems[..k + 1][..k] == elems[..k];
  }

  /** Every entry comes from a heading within the depth range with non-empty text. */
  lemma {:induction false} TocEntriesInRange(elems: seq<HElement>, minDepth: int, maxDepth: int, slugger: Slugger)
    ensures forall t :: t in TocOf(elems, minDepth, maxDepth, slugger) ==>
              minDepth <= t.depth <= maxDepth && 1 <= t.depth <= 6 && t.text != ""
  {
    if elems != [] {
      TocEntriesInRange(elems[..|elems| - 1], minDepth, maxDepth, slugger);
    }
  }
}

=== FILE: remark_pedagogical.dfy ===
/**
 * The pedagogical-directive transformer. A Markdown tree is walked in
 * preorder; every container or leaf directive that has a parent receives
 * an id (its `id` attribute, or `<name>-<globalIndex>` with the counter
 * bumped), and a directive with a recognised name is replaced, at the same
 * index of its parent, by a JSX element. The walk does not descend into a
 * replaced directive. The counter lives in the plugin's module and so runs
 * on across documents; here it is the field of `PedagogicalPlugin`.
 */
module RemarkPedagogical {
  import opened Wrappers
  import opened Records
  import opened Text
  import Json

  datatype DirectiveKind = ContainerDirective | LeafDirective | TextDirective

  datatype JsxAttribute = JsxAttribute(name: string, value: string)

  /** A Markdown syntax tree node, after directive parsing. */
  datatype Node =
    | TextNode(value: string)
    | Directive(kind: DirectiveKind, name: string, attributes: Record<string>, children: seq<Node>)
    | JsxElement(name: string, props: seq<JsxAttribute>, children: seq<Node>)
    | Parent(nodeType: string, children: seq<Node>)      // root, paragraph, list, listItem, ...
    | Literal(nodeType: string, value: string)           // inlineCode, code, html, ...

  /** Container and leaf directives are rewritten; text directives are not. */
  predicate IsDirective(n: Node) {
    n.Directive? && n.kind != TextDirective
  }

  predicate IsLeafNamed(n: Node, name: string) {
    n.Directive? && n.kind == LeafDirective && n.name == name
  }

  // ---------------------------------------------------------------- text

  /**
   * `extractText`: the text of a text node, the concatenated text of the
   * children otherwise. Literals such as inline code contribute nothing, so
   * a tree without text nodes has no text.
   */
  function ExtractText(n: Node): (r: string)
    ensures n.TextNode? ==> r == n.value
    ensures NoTextNodes(n) ==> r == ""
  {
    match n
    case TextNode(v) => v
    case Directive(_, _, _, children) => ExtractTextAll(children)
    case JsxElement(_, _, children) => ExtractTextAll(children)
    case Parent(_, children) => ExtractTextAll(children)
    case Literal(_, _) => ""
  }

  /** `children.map(extractText).join('')`. */
  function ExtractTextAll(ns: seq<Node>): (r: string)
    ensures (forall i :: 0 <= i < |ns| ==> NoTextNodes(ns[i])) ==> r == ""
  {
    if ns == [] then "" else ExtractText(ns[0]) + ExtractTextAll(ns[1..])
  }

  lemma {:induction false} ExtractTextAllAppend(a: seq<Node>, b: seq<Node>)
    ensures ExtractTextAll(a + b) == ExtractTextAll(a) + ExtractTextAll(b)
  {
    if a != [] {
      assert (a + b)[0] == a[0];
      assert (a + b)[1..] == a[1..] + b;
      ExtractTextAllAppend(a[1..], b);
    } else {
      assert a + b == b;
    }
  }

  /** No text node anywhere in the tree. */
  predicate NoTextNodes(n: Node) {
    match n
    case TextNode(_) => false
    case Literal(_, _) => true
    case Directive(_, _, _, children) => forall i :: 0 <= i < |children| ==> NoTextNodes(children[i])
    case JsxElement(_, _, children) => forall i :: 0 <= i < |children| ==> NoTextNodes(children[i])
    case Parent(_, children) => forall i :: 0 <= i < |children| ==> NoTextNodes(children[i])
  }

  // ------------------------------------------------------ checklist items

  /** The non-empty texts of the list items of one list, in order. */
  function ListItemTexts(items: seq<Node>): (r: seq<string>)
    ensures |r| <= |items|
    ensures forall i :: 0 <= i < |r| ==> r[i] != ""
  {
    if items == [] then []
    else
      var init := ListItemTexts(items[..|items| - 1]);
      var item := items[|items| - 1];
      if item.Parent? && item.nodeType == "listItem" && ExtractText(item) != ""
      then init + [ExtractText(item)] else init
  }

  /** The items of every top-level list among `children`, in order. */
  function ChecklistItems(children: seq<Node>): (r: seq<string>)
    ensures forall i :: 0 <= i < |r| ==> r[i] != ""
  {
    if children == [] then []
    else
      var init := ChecklistItems(children[..|children| - 1]);
      var child := children[|children| - 1];
      if child.Parent? && child.nodeType == "list" then init + ListItemTexts(child.children) else init
  }

  /** Children that are not lists contribute nothing; the items of consecutive parts concatenate. */
  lemma {:induction false} ChecklistItemsAppend(a: seq<Node>, b: seq<Node>)
    ensures ChecklistItems(a + b) == ChecklistItems(a) + ChecklistItems(b)
    decreases |b|
  {
    if b == [] {
      assert a + b == a;
    } else {
      var b' := b[..|b| - 1];
      assert (a + b)[..|a + b| - 1] == a + b';
      assert (a + b)[|a + b| - 1] == b[|b| - 1];
      ChecklistItemsAppend(a, b');
    }
  }

  /** `extractChecklistItems`: the outer loop, over the top-level lists. */
  method ExtractChecklistItems(children: seq<Node>) returns (items: seq<string>)
    ensures items == ChecklistItems(children)
    ensures forall i :: 0 <= i < |items| ==> items[i] != ""
  {
    items := [];
    var i := 0;
    while i < |children|
      invariant 0 <= i <= |children|
      invariant items == ChecklistItems(children[..i])
    {
      var child := children[i];
      assert children[..i + 1][..i] == children[..i];
      if child.Parent? && child.nodeType == "list" {
        var texts := ListItemsOf(child.children);
        items := items + texts;
      }
      i := i + 1;
    }
    assert children[..i] == children;
  }

  /** The inner loop of `extractChecklistItems`: the non-empty texts of the list items. */
  method ListItemsOf(listItems: seq<Node>) returns (texts: seq<string>)
    ensures texts == ListItemTexts(listItems)
  {
    texts := [];
    var j := 0;
    while j < |listItems|
      invariant 0 <= j <= |listItems|
      invariant texts == ListItemTexts(listItems[..j])
    {
      var listItem := listItems[j];
      assert listItems[..j + 1][..j] == listItems[..j];
      if listItem.Parent? && listItem.nodeType == "listItem" {
        var text := ExtractText(listItem);
        if text != "" {
          texts := texts + [text];
        }
      }
      j := j + 1;
    }
    assert listItems[..j] == listItems;
  }

  // ------------------------------------------------------------- splitting

  /** The position of the first top-level leaf directive with that name. */
  function FirstLeaf(ns: seq<Node>, name: string): (k: Option<nat>)
    ensures k.Some? ==> k.value < |ns| && IsLeafNamed(ns[k.value], name)
                        && forall i :: 0 <= i < k.value ==> !IsLeafNamed(ns[i], name)
    ensures k.None? ==> forall i :: 0 <= i < |ns| ==> !IsLeafNamed(ns[i], name)
  {
    if ns == [] then None
    else if IsLeafNamed(ns[0], name) then Some(0)
    else match FirstLeaf(ns[1..], name)
      case None => None
      case Some(k) => Some(k + 1)
  }

  datatype Split = Split(before: seq<Node>, after: seq<Node>)

  /** What `splitAtDirective` returns. */
  function SplitAt(ns: seq<Node>, name: string): (r: Split)
    ensures FirstLeaf(ns, name).None? ==> r == Split(ns, [])
    ensures FirstLeaf(ns, name).Some? ==>
              var k := FirstLeaf(ns, name).value;
              r == Split(ns[..k], ns[k].children + ns[k + 1..])
  {
    match FirstLeaf(ns, name)
    case None => Split(ns, [])
    case Some(k) => Split(ns[..k], ns[k].children + ns[k + 1..])
  }

  /** No node is dropped or duplicated: the split directive is traded for its own children. */
  lemma SplitAtKeepsNodes(ns: seq<Node>, name: string)
    ensures FirstLeaf(ns, name).None? ==>
              multiset(SplitAt(ns, name).before + SplitAt(ns, name).after) == multiset(ns)
    ensures FirstLeaf(ns, name).Some? ==>
              var k := FirstLeaf(ns, name).value;
              multiset(SplitAt(ns, name).before + SplitAt(ns, name).after) + multiset{ns[k]}
              == multiset(ns) + multiset(ns[k].children)
  {
    match FirstLeaf(ns, name)
    case None =>
      assert SplitAt(ns, name).before + SplitAt(ns, name).after == ns;
    case Some(k) =>
      SliceKeepsNodes(ns, k);
  }

  lemma SliceKeepsNodes(ns: seq<Node>, k: nat)
    requires k < |ns| && ns[k].Directive?
    ensures multiset(ns[..k] + (ns[k].children + ns[k + 1..])) + multiset{ns[k]}
            == multiset(ns) + multiset(ns[k].children)
  {
    assert ns == ns[..k] + [ns[k]] + ns[k + 1..];
  }

  /**
   * The "before, or else all children" fallback of the question and try
   * cases only changes anything when the marker is the very first child.
   */
  lemma EmptyBeforeMeansMarkerFirst(ns: seq<Node>, name: string)
    requires SplitAt(ns, name).before == []
    ensures ns == [] || FirstLeaf(ns, name) == Some(0)
  {
  }

  /** `splitAtDirective`: one loop with a `found` flag. */
  method SplitAtDirective(children: seq<Node>, directiveName: string) returns (before: seq<Node>, after: seq<Node>)
    ensures Split(before, after) == SplitAt(children, directiveName)
  {
    before, after := [], [];
    var found := false;
    var i := 0;
    while i < |children|
      invariant 0 <= i <= |children|
      invariant !found ==> FirstLeaf(children[..i], directiveName).None? && before == children[..i] && after == []
      invariant found ==> var k := FirstLeaf(children, directiveName);
                          k.Some? && k.value < i && before == children[..k.value]
                          && after == children[k.value].children + children[k.value + 1..i]
    {
      var child := children[i];
      if !found && IsLeafNamed(child, directiveName) {
        found := true;
        FirstLeafOfPrefix(children, directiveName, i);
        if |child.children| > 0 {
          after := after + child.children;
        }
      } else if found {
        after := after + [child];
      } else {
        before := before + [child];
        FirstLeafNone(children[..i], child, directiveName);
        assert children[..i] + [child] == children[..i + 1];
      }
      i := i + 1;
    }
    if !found {
      assert children[..i] == children;
    } else {
      assert children[FirstLeaf(children, directiveName).value + 1..i]
          == children[FirstLeaf(children, directiveName).value + 1..];
    }
  }

  lemma {:induction false} FirstLeafNone(ns: seq<Node>, n: Node, name: string)
    requires FirstLeaf(ns, name).None? && !IsLeafNamed(n, name)
    ensures FirstLeaf(ns + [n], name).None?
  {
    var m := ns + [n];
    assert forall i :: 0 <= i < |m| ==> !IsLeafNamed(m[i], name) by {
      forall i | 0 <= i < |m| ensures !IsLeafNamed(m[i], name) {
        if i < |ns| { assert m[i] == ns[i]; }
      }
    }
  }

  lemma {:induction false} FirstLeafOfPrefix(ns: seq<Node>, name: string, i: nat)
    requires i < |ns| && IsLeafNamed(ns[i], name) && FirstLeaf(ns[..i], name).None?
    ensures FirstLeaf(ns, name) == Some(i)
  {
    assert forall j :: 0 <= j < i ==> !IsLeafNamed(ns[j], name) by {
      forall j | 0 <= j < i ensures !IsLeafNamed(ns[j], name) {
        assert ns[..i][j] == ns[j];
      }
    }
    FirstLeafUnique(ns, name, i);
  }

  lemma {:induction false} FirstLeafUnique(ns: seq<Node>, name: string, i: nat)
    requires i < |ns| && IsLeafNamed(ns[i], name)
    requires forall j :: 0 <= j < i ==> !IsLeafNamed(ns[j], name)
    ensures FirstLeaf(ns, name) == Some(i)
  {
    if i > 0 {
      assert forall j :: 0 <= j < i - 1 ==> !IsLeafNamed(ns[1..][j], name) by {
        forall j | 0 <= j < i - 1 ensures !IsLeafNamed(ns[1..][j], name) {
          assert ns[1..][j] == ns[j + 1];
        }
      }
      FirstLeafUnique(ns[1..], name, i - 1);
    }
  }

  // ---------------------------------------------------------- replacement

  function Attr(name: string, value: string): JsxAttribute {
    JsxAttribute(name, value)
  }

  /** A JSX `div` carrying a `slot` attribute. */
  function Slot(slot: string, children: seq<Node>): Node {
    JsxElement("div", [Attr("slot", slot)], children)
  }

  /** The children of a `question` or `try` directive, split at `::reveal` or `::hint`. */
  function SlotChildren(children: seq<Node>, first: string, second: string, marker: string): (r: seq<Node>)
    ensures 1 <= |r| <= 2
  {
    var split := SplitAt(children, marker);
    [Slot(first, if |split.before| > 0 then split.before else children)]
      + (if |split.after| > 0 then [Slot(second, split.after)] else [])
  }

  /** The element that replaces a directive with a recognised name, or `None` for any other name. */
  function Replacement(name: string, attributes: Record<string>, children: seq<Node>,
                       id: string, chapterSlug: string): (r: Option<Node>)
    ensures r.Some? <==> name in RecognisedNames
    ensures r.Some? ==> r.value.JsxElement?
    ensures name == "concept" ==>
              r == Some(JsxElement("ConceptCard", [Attr("id", id), Attr("chapterSlug", chapterSlug)], children))
    ensures name == "reveal" || name == "hint" ==> r == Some(JsxElement("div", [], children))
  {
    if name == "concept" then
      Some(JsxElement("ConceptCard", [Attr("id", id), Attr("chapterSlug", chapterSlug)], children))
    else if name == "question" then
      Some(JsxElement("QuestionBlock", [Attr("id", id), Attr("chapterSlug", chapterSlug)],
                      SlotChildren(children, "question", "answer", "reveal")))
    else if name == "checkpoint" then
      Some(JsxElement("Checkpoint",
                      [Attr("id", id), Attr("chapterSlug", chapterSlug),
                       Attr("items", Json.StringifyArray(ChecklistItems(children)))],
                      []))
    else if name == "try" then
      var hint := SplitAt(children, "hint").after;
      Some(JsxElement("TryBlock", if |hint| > 0 then [Attr("hasHint", "true")] else [],
                      SlotChildren(children, "exercise", "hint", "hint")))
    else if name == "callout" then
      var t := Get(attributes, "type").GetOr("");
      Some(JsxElement("Callout", [Attr("type", if t != "" then t else "info")], children))
    else if name == "reveal" || name == "hint" then
      Some(JsxElement("div", [], children))
    else None
  }

  const RecognisedNames: set<string> := {"concept", "question", "checkpoint", "try", "callout", "reveal", "hint"}

  /**
   * A question becomes a `QuestionBlock` whose first child is the question
   * slot, holding the content before `::reveal` (all children when that is
   * empty), and whose second child, present only for non-empty answer
   * content, is the answer slot.
   */
  lemma QuestionSlots(attributes: Record<string>, children: seq<Node>, id: string, chapterSlug: string)
    ensures var r := Replacement("question", attributes, children, id, chapterSlug).value;
      var split := SplitAt(children, "reveal");
      r.JsxElement? && r.name == "QuestionBlock"
      && r.props == [JsxAttribute("id", id), JsxAttribute("chapterSlug", chapterSlug)]
      && r.children[0] == Slot("question", if split.before != [] then split.before else children)
      && (|r.children| == 2 <==> split.after != [])
      && (split.after != [] ==> r.children[1] == Slot("answer", split.after))
  {
  }

  /**
   * A `try` block is flagged `hasHint="true"` exactly when there is hint
   * content; its first child is the exercise slot and its second, present
   * only for that content, the hint slot.
   */
  lemma TrySlots(attributes: Record<string>, children: seq<Node>, id: string, chapterSlug: string)
    ensures var r := Replacement("try", attributes, children, id, chapterSlug).value;
      var split := SplitAt(children, "hint");
      r.JsxElement? && r.name == "TryBlock"
      && (r.props == [JsxAttribute("hasHint", "true")] <==> split.after != [])
      && (r.props == [] <==> split.after == [])
      && r.children[0] == Slot("exercise", if split.before != [] then split.before else children)
      && (|r.children| == 2 <==> split.after != [])
      && (split.after != [] ==> r.children[1] == Slot("hint", split.after))
  {
  }

  /** A checkpoint has no children and carries its list items as a JSON array that parses back. */
  lemma CheckpointItems(attributes: Record<string>, children: seq<Node>, id: string, chapterSlug: string)
    ensures var r := Replacement("checkpoint", attributes, children, id, chapterSlug).value;
      r.JsxElement? && r.name == "Checkpoint" && r.children == []
      && |r.props| == 3 && r.props[2].name == "items"
      && Json.ParseArray(r.props[2].value) == Some(ChecklistItems(children))
  {
    Json.ParseStringifyArray(ChecklistItems(children));
  }

  /** A callout without a non-empty `type` attribute is of type `info`. */
  lemma CalloutType(attributes: Record<string>, children: seq<Node>, id: string, chapterSlug: string)
    ensures var r := Replacement("callout", attributes, children, id, chapterSlug).value;
      r.JsxElement? && r.children == children
      && (Get(attributes, "type").GetOr("") == "" ==> r.props == [JsxAttribute("type", "info")])
      && (Get(attributes, "type").GetOr("") != "" ==> r.props == [JsxAttribute("type", Get(attributes, "type").value)])
  {
  }

  // ----------------------------------------------------------------- walk

  /** Where a directive's id came from. */
  datatype IdSource = Given(id: string) | Fallback(name: string, index: nat)

  function IdOf(s: IdSource): string {
    match s
    case Given(id) => id
    case Fallback(name, index) => name + "-" + NatToString(index)
  }

  /** `attributes.id || `${name}-${globalIndex++}``. */
  function IdFor(name: string, attributes: Record<string>, next: nat): (r: IdSource)
    ensures r.Given? <==> Get(attributes, "id").Some? && Get(attributes, "id").value != ""
    ensures r.Given? ==> r.id == Get(attributes, "id").value
    ensures r.Fallback? ==> IdOf(r) == name + "-" + NatToString(next) && r.index == next
  {
    var given := Get(attributes, "id").GetOr("");
    if given != "" then Given(given) else Fallback(name, next)
  }

  /** The counter values taken by fallback ids, in order. */
  function Indices(ids: seq<IdSource>): seq<nat> {
    if ids == [] then []
    else (if ids[0].Fallback? then [ids[0].index] else []) + Indices(ids[1..])
  }

  function Range(lo: nat, hi: nat): (r: seq<nat>)
    decreases hi - lo
    ensures |r| == if lo <= hi then hi - lo else 0
    ensures forall i :: 0 <= i < |r| ==> r[i] == lo + i
  {
    if lo >= hi then [] else [lo] + Range(lo + 1, hi)
  }

  lemma {:induction false} IndicesAppend(a: seq<IdSource>, b: seq<IdSource>)
    ensures Indices(a + b) == Indices(a) + Indices(b)
  {
    if a == [] {
      assert a + b == b;
    } else {
      assert (a + b)[0] == a[0];
      assert (a + b)[1..] == a[1..] + b;
      IndicesAppend(a[1..], b);
    }
  }

  lemma RangeAppend(lo: nat, mid: nat, hi: nat)
    requires lo <= mid <= hi
    ensures Range(lo, mid) + Range(mid, hi) == Range(lo, hi)
  {
  }

  /** The same node with new children; nodes without children are returned as they are. */
  function WithChildren(n: Node, children: seq<Node>): Node {
    match n
    case Directive(kind, name, attributes, _) => Directive(kind, name, attributes, children)
    case JsxElement(name, props, _) => JsxElement(name, props, children)
    case Parent(nodeType, _) => Parent(nodeType, children)
    case _ => n
  }

  /** The result of walking a node list: the new nodes, the next counter value, and the ids assigned. */
  datatype Walked = Walked(nodes: seq<Node>, next: nat, ids: seq<IdSource>)

  /**
   * The visitor applied to one node that has a parent, then (unless it was
   * replaced) to its children. The fallback ids take exactly the counter
   * values from `next` up to the returned counter.
   */
  function WalkNode(n: Node, chapterSlug: string, next: nat): (w: Walked)
    ensures |w.nodes| == 1
    ensures next <= w.next && Indices(w.ids) == Range(next, w.next)
  {
    if IsDirective(n) then
      var src := IdFor(n.name, n.attributes, next);
      var next' := if src.Fallback? then next + 1 else next;
      match Replacement(n.name, n.attributes, n.children, IdOf(src), chapterSlug)
      case Some(element) => Walked([element], next', [src])
      case None =>
        var inner := WalkList(n.children, chapterSlug, next');
        IndicesAppend([src], inner.ids);
        RangeAppend(next, next', inner.next);
        Walked([WithChildren(n, inner.nodes)], inner.next, [src] + inner.ids)
    else if n.TextNode? || n.Literal? then
      Walked([n], next, [])
    else
      var inner := WalkList(n.children, chapterSlug, next);
      Walked([WithChildren(n, inner.nodes)], inner.next, inner.ids)
  }

  /** The visitor over a list of siblings, left to right. */
  function WalkList(ns: seq<Node>, chapterSlug: string, next: nat): (w: Walked)
    ensures |w.nodes| == |ns|
    ensures next <= w.next && Indices(w.ids) == Range(next, w.next)
  {
    if ns == [] then Walked([], next, [])
    else
      var head := WalkNode(ns[0], chapterSlug, next);
      var tail := WalkList(ns[1..], chapterSlug, head.next);
      IndicesAppend(head.ids, tail.ids);
      RangeAppend(next, head.next, tail.next);
      Walked(head.nodes + tail.nodes, tail.next, head.ids + tail.ids)
  }

  /** Every fallback id issued by one walk is different from every other. */
  lemma FallbackIdsDistinct(ns: seq<Node>, chapterSlug: string, next: nat, i: nat, j: nat)
    requires var ids := WalkList(ns, chapterSlug, next).ids;
      i < j < |ids| && ids[i].Fallback? && ids[j].Fallback?
    ensures var ids := WalkList(ns, chapterSlug, next).ids;
      IdOf(ids[i]) != IdOf(ids[j])
  {
    var w := WalkList(ns, chapterSlug, next);
    IndicesOrder(w.ids, i, j);
    var a, b := w.ids[i], w.ids[j];
    if IdOf(a) == IdOf(b) {
      DashNumberInjective(a.name, a.index, b.name, b.index);
    }
  }

  /** Counter values in `Indices` are strictly increasing when they form a range. */
  lemma {:induction false} IndicesOrder(ids: seq<IdSource>, i: nat, j: nat)
    requires i < j < |ids| && ids[i].Fallback? && ids[j].Fallback?
    requires exists lo, hi :: Indices(ids) == Range(lo, hi)
    ensures ids[i].index < ids[j].index
  {
    var lo, hi :| Indices(ids) == Range(lo, hi);
    IndexAt(ids, i);
    IndexAt(ids, j);
    IndicesPrefixGrows(ids, i, j);
  }

  /** A fallback id's counter value sits in `Indices` after those of the ids before it. */
  lemma IndexAt(ids: seq<IdSource>, i: nat)
    requires i < |ids| && ids[i].Fallback?
    ensures |Indices(ids[..i])| < |Indices(ids)|
    ensures Indices(ids)[|Indices(ids[..i])|] == ids[i].index
  {
    IndicesAppend(ids[..i], ids[i..]);
    assert ids == ids[..i] + ids[i..];
    assert ids[i..][0] == ids[i];
    assert Indices(ids[i..])[0] == ids[i].index;
  }

  lemma {:induction false} IndicesPrefixGrows(ids: seq<IdSource>, i: nat, j: nat)
    requires i < j <= |ids| && ids[i].Fallback?
    ensures |Indices(ids[..i])| < |Indices(ids[..j])|
  {
    assert ids[..j] == ids[..i] + ids[i..j];
    IndicesAppend(ids[..i], ids[i..j]);
    assert ids[i..j][0] == ids[i];
  }

  /** A tree in which no directive has a recognised name. */
  predicate NoRecognised(n: Node) {
    match n
    case TextNode(_) => true
    case Literal(_, _) => true
    case Directive(_, name, _, children) =>
      (n.kind == TextDirective || name !in RecognisedNames)
      && forall i :: 0 <= i < |children| ==> NoRecognised(children[i])
    case JsxElement(_, _, children) => forall i :: 0 <= i < |children| ==> NoRecognised(children[i])
    case Parent(_, children) => forall i :: 0 <= i < |children| ==> NoRecognised(children[i])
  }

  /** Unknown directives are left as they are (though each still takes an id). */
  lemma {:induction false} UnknownUntouched(n: Node, chapterSlug: string, next: nat)
    requires NoRecognised(n)
    ensures WalkNode(n, chapterSlug, next).nodes == [n]
  {
    if IsDirective(n) {
      var src := IdFor(n.name, n.attributes, next);
      var next' := if src.Fallback? then next + 1 else next;
      UnknownUntouchedList(n.children, chapterSlug, next');
    } else if !n.TextNode? && !n.Literal? {
      UnknownUntouchedList(n.children, chapterSlug, next);
    }
  }

  lemma {:induction false} UnknownUntouchedList(ns: seq<Node>, chapterSlug: string, next: nat)
    requires forall i :: 0 <= i < |ns| ==> NoRecognised(ns[i])
    ensures WalkList(ns, chapterSlug, next).nodes == ns
  {
    if ns != [] {
      UnknownUntouched(ns[0], chapterSlug, next);
      UnknownUntouchedList(ns[1..], chapterSlug, WalkNode(ns[0], chapterSlug, next).next);
      assert ns == [ns[0]] + ns[1..];
    }
  }

  /**
   * A recognised directive is replaced in place and its content is not
   * visited: a directive nested inside it is carried over unchanged.
   */
  lemma ReplacedNotDescended(n: Node, chapterSlug: string, next: nat)
    requires IsDirective(n) && n.name in RecognisedNames
    ensures var src := IdFor(n.name, n.attributes, next);
      var w := WalkNode(n, chapterSlug, next);
      w.nodes == [Replacement(n.name, n.attributes, n.children, IdOf(src), chapterSlug).value]
      && w.ids == [src]
  {
  }

  datatype Root = Root(children: seq<Node>)

  /** The plugin instance: the module-level counter that survives across documents. */
  class PedagogicalPlugin {
    var globalIndex: nat

    constructor()
      ensures globalIndex == 0
    {
      globalIndex := 0;
    }

    /**
     * Runs the transformer on one document. `chapterSlug` is the option,
     * `'unknown'` when absent. The root has no parent and is never
     * replaced; its children are walked.
     */
    method Transform(tree: Root, chapterSlug: Option<string>) returns (result: Root)
      modifies this
      ensures var w := WalkList(tree.children, chapterSlug.GetOr("unknown"), old(globalIndex));
        result == Root(w.nodes) && globalIndex == w.next
      ensures |result.children| == |tree.children|
      ensures old(globalIndex) <= globalIndex
    {
      var w := WalkList(tree.children, chapterSlug.GetOr("unknown"), globalIndex);
      globalIndex := w.next;
      result := Root(w.nodes);
    }
  }
}

=== FILE: review_prompt.dfy ===
/**
 * The review prompt on the home page: the due concepts, gathered with the
 * same filters as the review session, ordered most overdue first and
 * counted per chapter, of which the first three chapters are listed.
 */
module ReviewPrompt {
  import opened Wrappers
  import opened Records
  import opened Types
  import opened Sorting
  import opened SpacedRepetition
  import opened ChaptersContext
  import opened ReviewSession

  datatype DueConcept = DueConcept(chapterSlug: string, chapterTitle: string, conceptId: string, daysSinceReview: int)

  /** A gathered item with its whole days since the last review. */
  function ToDueConcept(item: ReviewItem, now: Instant): (d: DueConcept)
    ensures d.chapterSlug == item.chapterSlug && d.chapterTitle == item.chapterTitle && d.conceptId == item.conceptId
  {
    DueConcept(item.chapterSlug, item.chapterTitle, item.conceptId, DaysSince(item.lastReview, now))
  }

  /** `Math.floor` of the elapsed days: the whole days that have fully passed. */
  lemma DaysSinceReviewBounds(item: ReviewItem, now: Instant)
    ensures var days := ToDueConcept(item, now).daysSinceReview;
      days * MS_PER_DAY <= now - item.lastReview < (days + 1) * MS_PER_DAY
  {
    var d := now - item.lastReview;
    assert d == MS_PER_DAY * (d / MS_PER_DAY) + d % MS_PER_DAY;
  }

  function DueList(items: seq<ReviewItem>, now: Instant): (ds: seq<DueConcept>)
    ensures |ds| == |items|
  {
    if items == [] then []
    else DueList(items[..|items| - 1], now) + [ToDueConcept(items[|items| - 1], now)]
  }

  lemma {:induction false} DueListAt(items: seq<ReviewItem>, now: Instant)
    ensures forall k :: 0 <= k < |items| ==> DueList(items, now)[k] == ToDueConcept(items[k], now)
  {
    if items != [] {
      DueListAt(items[..|items| - 1], now);
    }
  }

  lemma DueListStep(items: seq<ReviewItem>, item: ReviewItem, now: Instant)
    ensures DueList(items + [item], now) == DueList(items, now) + [ToDueConcept(item, now)]
  {
    assert (items + [item])[..|items|] == items;
  }

  lemma {:induction false} DueListAppend(a: seq<ReviewItem>, b: seq<ReviewItem>, now: Instant)
    ensures DueList(a + b, now) == DueList(a, now) + DueList(b, now)
    decreases |b|
  {
    if b == [] {
      assert a + b == a;
    } else {
      var init := b[..|b| - 1];
      DueListAppend(a, init, now);
      assert (a + b)[..|a + b| - 1] == a + init;
    }
  }

  /** The inner loop: the due concepts of one catalogued chapter, in history order. */
  method ChapterDueConcepts(chapterSlug: string, chapterTitle: string, concepts: Record<seq<Instant>>, now: Instant)
    returns (due: seq<DueConcept>)
    ensures due == DueList(ItemsOf(chapterSlug, chapterTitle, concepts, now), now)
  {
    due := [];
    var j := 0;
    while j < |concepts|
      invariant 0 <= j <= |concepts|
      invariant due == DueList(ItemsOf(chapterSlug, chapterTitle, concepts[..j], now), now)
    {
      var concept := concepts[j];
      assert concepts[..j + 1][..j] == concepts[..j];
      var reviews := concept.value;
      ghost var items := ItemsOf(chapterSlug, chapterTitle, concepts[..j], now);
      assert ItemsOf(chapterSlug, chapterTitle, concepts[..j + 1], now)
          == if Qualifies(reviews, now) then items + [ItemFor(chapterSlug, chapterTitle, concept.key, reviews)]
             else items;
      if |reviews| > 0 {
        var lastReview := reviews[|reviews| - 1];
        var reviewCount := |reviews|;
        if IsConceptDue(Some(lastReview), reviewCount, now) {
          var daysSince := (now - lastReview) / MS_PER_DAY;
          ghost var item := ItemFor(chapterSlug, chapterTitle, concept.key, reviews);
          assert ToDueConcept(item, now) == DueConcept(chapterSlug, chapterTitle, concept.key, daysSince);
          DueListStep(items, item, now);
          due := due + [DueConcept(chapterSlug, chapterTitle, concept.key, daysSince)];
        }
      }
      j := j + 1;
    }
    assert concepts[..j] == concepts;
  }

  /** The gathering loop, before the sort. */
  method GatherDueConcepts(progress: UserProgress, chapters: seq<ChapterMeta>, now: Instant)
    returns (due: seq<DueConcept>)
    ensures due == DueList(GatherDue(progress.chapters, chapters, now), now)
  {
    var records := progress.chapters;
    due := [];
    var i := 0;
    while i < |records|
      invariant 0 <= i <= |records|
      invariant due == DueList(GatherDue(records[..i], chapters, now), now)
    {
      var entry := records[i];
      GatheredDueStep(records, i, chapters, now);
      var chapter := GetChapter(chapters, entry.key);
      if chapter.Some? {
        var chapterDue := ChapterDueConcepts(entry.key, chapter.value.title, entry.value.conceptsReviewed, now);
        due := due + chapterDue;
      }
      i := i + 1;
    }
    assert records[..i] == records;
  }

  /** One more chapter record appends the due list of its items. */
  lemma {:induction false} GatheredDueStep(records: Record<ChapterProgress>, i: nat, chapters: seq<ChapterMeta>, now: Instant)
    requires i < |records|
    ensures DueList(GatherDue(records[..i + 1], chapters, now), now)
         == DueList(GatherDue(records[..i], chapters, now), now) + DueList(ChapterItems(records[i], chapters, now), now)
  {
    assert records[..i + 1][..i] == records[..i];
    DueListAppend(GatherDue(records[..i], chapters, now), ChapterItems(records[i], chapters, now), now);
  }

  /** `b.daysSinceReview - a.daysSinceReview` as an ascending key. */
  function OverdueKey(d: DueConcept): real {
    -(d.daysSinceReview as real)
  }

  /** The effect: gathered, then most overdue first, ties in gathering order. */
  method DueForPrompt(progress: UserProgress, chapters: seq<ChapterMeta>, now: Instant)
    returns (dueConcepts: seq<DueConcept>)
    ensures dueConcepts == SortBy(DueList(GatherDue(progress.chapters, chapters, now), now), OverdueKey)
    ensures multiset(dueConcepts) == multiset(DueList(GatherDue(progress.chapters, chapters, now), now))
    ensures forall i, j :: 0 <= i < j < |dueConcepts| ==>
              dueConcepts[i].daysSinceReview >= dueConcepts[j].daysSinceReview
  {
    var due := GatherDueConcepts(progress, chapters, now);
    SortBySorted(due, OverdueKey);
    dueConcepts := SortBy(due, OverdueKey);
    assert SortedBy(dueConcepts, OverdueKey);
    forall i, j | 0 <= i < j < |dueConcepts|
      ensures dueConcepts[i].daysSinceReview >= dueConcepts[j].daysSinceReview
    {
      assert OverdueKey(dueConcepts[i]) <= OverdueKey(dueConcepts[j]);
    }
  }

  /** The prompt renders only when not dismissed today and something is due. */
  function Visible(isDismissed: bool, dueConcepts: seq<DueConcept>): (b: bool)
    ensures isDismissed ==> !b
    ensures dueConcepts == [] ==> !b
    ensures !isDismissed && dueConcepts != [] ==> b
  {
    !isDismissed && |dueConcepts| > 0
  }

  // ------------------------------------------------------------ grouping by chapter

  datatype ChapterCount = ChapterCount(title: string, count: nat)

  /** A chapter's group after one more concept: a new group starts at 0 with this concept's title. */
  function Bumped(existing: Option<ChapterCount>, title: string): (g: ChapterCount)
    ensures existing.None? ==> g == ChapterCount(title, 1)
    ensures existing.Some? ==> g == existing.value.(count := existing.value.count + 1)
  {
    match existing
    case None => ChapterCount(title, 1)
    case Some(g) => g.(count := g.count + 1)
  }

  /** The `byChapter` reduce: the groups have distinct chapter slugs. */
  function ByChapter(ds: seq<DueConcept>): (r: Record<ChapterCount>)
    ensures UniqueKeys(r)
    ensures |r| <= |ds|
  {
    if ds == [] then []
    else
      var acc := ByChapter(ds[..|ds| - 1]);
      var d := ds[|ds| - 1];
      PutUnique(acc, d.chapterSlug, Bumped(Get(acc, d.chapterSlug), d.chapterTitle));
      Put(acc, d.chapterSlug, Bumped(Get(acc, d.chapterSlug), d.chapterTitle))
  }

  method GroupByChapter(dueConcepts: seq<DueConcept>) returns (byChapter: Record<ChapterCount>)
    ensures byChapter == ByChapter(dueConcepts)
  {
    byChapter := [];
    var i := 0;
    while i < |dueConcepts|
      invariant 0 <= i <= |dueConcepts|
      invariant byChapter == ByChapter(dueConcepts[..i])
    {
      ByChapterStep(dueConcepts, i);
      byChapter := CountConcept(byChapter, dueConcepts[i]);
      i := i + 1;
    }
    assert dueConcepts[..i] == dueConcepts;
  }

  /** The reduce's callback: start the chapter's group at 0 with this title if it has none, then count one. */
  method CountConcept(acc: Record<ChapterCount>, concept: DueConcept) returns (acc': Record<ChapterCount>)
    ensures acc' == Put(acc, concept.chapterSlug, Bumped(Get(acc, concept.chapterSlug), concept.chapterTitle))
  {
    var group := ChapterCount(concept.chapterTitle, 0);
    var existing := Get(acc, concept.chapterSlug);
    if existing.Some? {
      group := existing.value;
    }
    acc' := Put(acc, concept.chapterSlug, group.(count := group.count + 1));
  }

  /** One more concept bumps its chapter's group. */
  lemma ByChapterStep(ds: seq<DueConcept>, i: nat)
    requires i < |ds|
    ensures ByChapter(ds[..i + 1])
         == Put(ByChapter(ds[..i]), ds[i].chapterSlug, Bumped(Get(ByChapter(ds[..i]), ds[i].chapterSlug), ds[i].chapterTitle))
  {
    assert ds[..i + 1][..i] == ds[..i];
  }

  /** `Object.entries(byChapter).slice(0, 3)`: the first three groups, or all when there are fewer. */
  function Shown(byChapter: Record<ChapterCount>): (r: Record<ChapterCount>)
    ensures r <= byChapter
    ensures |r| == if |byChapter| < 3 then |byChapter| else 3
  {
    if |byChapter| <= 3 then byChapter else byChapter[..3]
  }

  /** The chapter slugs of the due concepts, each once, in order of first appearance. */
  function ChapterSlugs(ds: seq<DueConcept>): seq<string> {
    if ds == [] then []
    else
      var s := ChapterSlugs(ds[..|ds| - 1]);
      var slug := ds[|ds| - 1].chapterSlug;
      if slug in s then s else s + [slug]
  }

  /** The number of due concepts in a chapter. */
  function CountFor(ds: seq<DueConcept>, slug: string): nat {
    if ds == [] then 0
    else CountFor(ds[..|ds| - 1], slug) + (if ds[|ds| - 1].chapterSlug == slug then 1 else 0)
  }

  /** The first due concept of a chapter. */
  function FirstOf(ds: seq<DueConcept>, slug: string): (r: Option<DueConcept>)
    ensures r.Some? <==> CountFor(ds, slug) > 0
    ensures r.Some? ==> r.value in ds && r.value.chapterSlug == slug
  {
    if ds == [] then None
    else
      var first := FirstOf(ds[..|ds| - 1], slug);
      if first.Some? then first
      else if ds[|ds| - 1].chapterSlug == slug then Some(ds[|ds| - 1])
      else None
  }

  function SumCounts(r: Record<ChapterCount>): nat {
    if r == [] then 0 else r[0].value.count + SumCounts(r[1..])
  }

  // ------------------------------------------------------------ lemmas

  /** The group `byChapter` holds for a chapter, as counted directly. */
  function ExpectedGroup(ds: seq<DueConcept>, slug: string): Option<ChapterCount> {
    if CountFor(ds, slug) == 0 then None
    else Some(ChapterCount(FirstOf(ds, slug).value.chapterTitle, CountFor(ds, slug)))
  }

  /**
   * Each chapter's group holds the number of its due concepts and the title
   * of the first of them; chapters with none have no group.
   */
  lemma {:induction false} ByChapterGet(ds: seq<DueConcept>, slug: string)
    ensures Get(ByChapter(ds), slug) == ExpectedGroup(ds, slug)
  {
    if ds != [] {
      ByChapterGet(ds[..|ds| - 1], slug);
      if ds[|ds| - 1].chapterSlug == slug {
        ByChapterGetSame(ds);
      } else {
        ByChapterGetOther(ds, slug);
      }
    }
  }

  /** One more concept of a chapter bumps that chapter's group. */
  lemma ByChapterGetSame(ds: seq<DueConcept>)
    requires ds != []
    requires var d := ds[|ds| - 1];
      Get(ByChapter(ds[..|ds| - 1]), d.chapterSlug) == ExpectedGroup(ds[..|ds| - 1], d.chapterSlug)
    ensures var d := ds[|ds| - 1];
      Get(ByChapter(ds), d.chapterSlug) == ExpectedGroup(ds, d.chapterSlug)
  {
    var init, d := ds[..|ds| - 1], ds[|ds| - 1];
    var acc := ByChapter(init);
    PutGet(acc, d.chapterSlug, Bumped(Get(acc, d.chapterSlug), d.chapterTitle), d.chapterSlug);
    BumpedExpected(ds);
  }

  lemma BumpedExpected(ds: seq<DueConcept>)
    requires ds != []
    ensures var d := ds[|ds| - 1];
      Some(Bumped(ExpectedGroup(ds[..|ds| - 1], d.chapterSlug), d.chapterTitle)) == ExpectedGroup(ds, d.chapterSlug)
  {
  }

  /** One more concept of another chapter leaves this chapter's group alone. */
  lemma ByChapterGetOther(ds: seq<DueConcept>, slug: string)
    requires ds != [] && slug != ds[|ds| - 1].chapterSlug
    requires Get(ByChapter(ds[..|ds| - 1]), slug) == ExpectedGroup(ds[..|ds| - 1], slug)
    ensures Get(ByChapter(ds), slug) == ExpectedGroup(ds, slug)
  {
    var init, d := ds[..|ds| - 1], ds[|ds| - 1];
    var acc := ByChapter(init);
    var g := Bumped(Get(acc, d.chapterSlug), d.chapterTitle);
    assert ByChapter(ds) == Put(acc, d.chapterSlug, g);
    PutGet(acc, d.chapterSlug, g, slug);
    assert CountFor(ds, slug) == CountFor(init, slug);
    assert FirstOf(ds, slug) == FirstOf(init, slug);
  }

  lemma {:induction false} SumCountsPut(r: Record<ChapterCount>, k: string, v: ChapterCount)
    requires UniqueKeys(r)
    ensures SumCounts(Put(r, k, v))
         == SumCounts(r) + v.count - (match Get(r, k) case None => 0 case Some(g) => g.count)
  {
    if r != [] {
      if r[0].key != k {
        SumCountsPut(r[1..], k, v);
        assert Put(r, k, v)[1..] == Put(r[1..], k, v);
      } else if r[1..] != [] {
        assert !HasKey(r[1..], k) by {
          forall i | 0 <= i < |r[1..]| ensures r[1..][i].key != k {
            assert r[i + 1] == r[1..][i];
          }
        }
      }
    }
  }

  /** The group counts add up to the number of due concepts. */
  lemma {:induction false} ByChapterCountsSum(ds: seq<DueConcept>)
    ensures SumCounts(ByChapter(ds)) == |ds|
  {
    if ds != [] {
      var init, d := ds[..|ds| - 1], ds[|ds| - 1];
      ByChapterCountsSum(init);
      var acc := ByChapter(init);
      var g := match Get(acc, d.chapterSlug)
        case None => ChapterCount(d.chapterTitle, 1)
        case Some(g) => g.(count := g.count + 1);
      SumCountsPut(acc, d.chapterSlug, g);
    }
  }

  /**
   * The groups come in the order in which their chapters first appear among
   * the due concepts; with the concepts sorted most overdue first, the
   * chapter of the most overdue concept leads.
   */
  lemma {:induction false} ByChapterOrder(ds: seq<DueConcept>)
    ensures Keys(ByChapter(ds)) == ChapterSlugs(ds)
  {
    if ds != [] {
      var init, d := ds[..|ds| - 1], ds[|ds| - 1];
      var acc := ByChapter(init);
      ByChapterOrder(init);
      PutKeys(acc, d.chapterSlug, Bumped(Get(acc, d.chapterSlug), d.chapterTitle));
    }
  }

  /** A chapter appears among the first-appearance slugs exactly when it has a due concept. */
  lemma {:induction false} ChapterSlugsMembers(ds: seq<DueConcept>, slug: string)
    ensures slug in ChapterSlugs(ds) <==> CountFor(ds, slug) > 0
  {
    if ds != [] {
      ChapterSlugsMembers(ds[..|ds| - 1], slug);
    }
  }

  /** The prompt lists the first three chapters to appear among the due concepts, or all when there are fewer. */
  lemma ShownFirstThree(ds: seq<DueConcept>)
    ensures var slugs := ChapterSlugs(ds);
      Keys(Shown(ByChapter(ds))) == slugs[..if |slugs| < 3 then |slugs| else 3]
  {
    ByChapterOrder(ds);
  }

  /**
   * In the prompt's pipeline, each chapter's group is titled with the
   * catalogue title of that chapter.
   */
  lemma GroupTitleFromCatalogue(progress: UserProgress, chapters: seq<ChapterMeta>, now: Instant,
                                slug: string)
    requires Get(ByChapter(SortBy(DueList(GatherDue(progress.chapters, chapters, now), now), OverdueKey)),
                 slug).Some?
    ensures GetChapter(chapters, slug).Some?
    ensures Get(ByChapter(SortBy(DueList(GatherDue(progress.chapters, chapters, now), now), OverdueKey)),
                slug).value.title == GetChapter(chapters, slug).value.title
  {
    var items := GatherDue(progress.chapters, chapters, now);
    var ds := SortBy(DueList(items, now), OverdueKey);
    ByChapterGet(ds, slug);
    var d := FirstOf(ds, slug).value;
    assert d in DueList(items, now) by {
      assert d in multiset(DueList(items, now));
    }
    var k :| 0 <= k < |items| && DueList(items, now)[k] == d;
    var item := items[k];
    assert item.chapterSlug == slug && item.chapterTitle == d.chapterTitle by {
      DueListAt(items, now);
    }
    GatheredItemSound(progress.chapters, chapters, now, item);
  }
}

=== FILE: review_session.dfy ===
/**
 * The review session: the due items gathered from the progress snapshot
 * and the chapter catalogue, ordered by retention strength, then stepped
 * through one at a time with "I reviewed this" and "Skip".
 */
module ReviewSession {
  import opened Wrappers
  import opened Records
  import opened Types
  import opened Sorting
  import opened SpacedRepetition
  import opened Progress
  import opened ChaptersContext

  datatype ReviewItem = ReviewItem(
    chapterSlug: string,
    chapterTitle: string,
    conceptId: string,
    reviewCount: nat,
    lastReview: Instant,
    nextInterval: nat)

  /** A history that yields an item: not empty, and due by its last date and its length. */
  predicate Qualifies(reviews: seq<Instant>, now: Instant) {
    |reviews| > 0 && IsConceptDue(Some(reviews[|reviews| - 1]), |reviews|, now)
  }

  function ItemFor(chapterSlug: string, chapterTitle: string, conceptId: string, reviews: seq<Instant>): (item: ReviewItem)
    requires |reviews| > 0
    ensures item.reviewCount == |reviews| && item.lastReview == reviews[|reviews| - 1]
    ensures item.nextInterval == NextInterval(item.reviewCount)
  {
    ReviewItem(chapterSlug, chapterTitle, conceptId, |reviews|, reviews[|reviews| - 1], NextInterval(|reviews|))
  }

  /** An item that is due now, with the next interval for its count. */
  predicate DueItem(item: ReviewItem, now: Instant) {
    item.reviewCount > 0 && item.nextInterval == NextInterval(item.reviewCount)
    && IsConceptDue(Some(item.lastReview), item.reviewCount, now)
  }

  /** The items one chapter contributes, in the order of its concept histories: at most one per concept, each due. */
  function ItemsOf(chapterSlug: string, chapterTitle: string, concepts: Record<seq<Instant>>, now: Instant)
    : (r: seq<ReviewItem>)
    ensures |r| <= |concepts|
    ensures forall i :: 0 <= i < |r| ==> DueItem(r[i], now) && r[i].chapterSlug == chapterSlug
  {
    if concepts == [] then []
    else
      var e := concepts[|concepts| - 1];
      ItemsOf(chapterSlug, chapterTitle, concepts[..|concepts| - 1], now)
        + (if Qualifies(e.value, now) then [ItemFor(chapterSlug, chapterTitle, e.key, e.value)] else [])
  }

  /** What one chapter record contributes: nothing unless the catalogue knows the chapter. */
  function ChapterItems(e: Entry<ChapterProgress>, chapters: seq<ChapterMeta>, now: Instant): seq<ReviewItem> {
    match GetChapter(chapters, e.key)
    case None => []
    case Some(chapter) => ItemsOf(e.key, chapter.title, e.value.conceptsReviewed, now)
  }

  /** The due items in the order of the chapter records, before sorting: every one of them due now. */
  function GatherDue(records: Record<ChapterProgress>, chapters: seq<ChapterMeta>, now: Instant): (r: seq<ReviewItem>)
    ensures forall i :: 0 <= i < |r| ==> DueItem(r[i], now)
    ensures chapters == [] ==> r == []
  {
    if records == [] then []
    else GatherDue(records[..|records| - 1], chapters, now) + ChapterItems(records[|records| - 1], chapters, now)
  }

  /** The sort key: the retention strength of the item's history in the snapshot. */
  function UrgencyKey(progress: UserProgress, strength: seq<Instant> -> real): ReviewItem -> real {
    (item: ReviewItem) => strength(ReviewsOf(progress, item.chapterSlug, item.conceptId))
  }

  /**
   * The gathering effect, without its final sort. The retention-strength
   * heuristic is a parameter.
   */
  method GatherDueItems(progress: UserProgress, chapters: seq<ChapterMeta>, now: Instant)
    returns (due: seq<ReviewItem>)
    ensures due == GatherDue(progress.chapters, chapters, now)
  {
    var records := progress.chapters;
    due := [];
    var i := 0;
    while i < |records|
      invariant 0 <= i <= |records|
      invariant due == GatherDue(records[..i], chapters, now)
    {
      var entry := records[i];
      assert records[..i + 1][..i] == records[..i];
      var chapter := GetChapter(chapters, entry.key);
      if chapter.Some? {
        var items := ChapterDueItems(entry.key, chapter.value.title, entry.value.conceptsReviewed, now);
        due := due + items;
      }
      i := i + 1;
    }
    assert records[..i] == records;
  }

  /** The inner loop of the gathering effect: the due items of one known chapter. */
  method ChapterDueItems(chapterSlug: string, chapterTitle: string, concepts: Record<seq<Instant>>, now: Instant)
    returns (items: seq<ReviewItem>)
    ensures items == ItemsOf(chapterSlug, chapterTitle, concepts, now)
  {
    items := [];
    var j := 0;
    while j < |concepts|
      invariant 0 <= j <= |concepts|
      invariant items == ItemsOf(chapterSlug, chapterTitle, concepts[..j], now)
    {
      var concept := concepts[j];
      assert concepts[..j + 1][..j] == concepts[..j];
      var reviews := concept.value;
      if |reviews| > 0 {
        var lastReview := reviews[|reviews| - 1];
        var reviewCount := |reviews|;
        if IsConceptDue(Some(lastReview), reviewCount, now) {
          items := items + [ReviewItem(chapterSlug, chapterTitle, concept.key, reviewCount, lastReview,
                                       NextInterval(reviewCount))];
        }
      }
      j := j + 1;
    }
    assert concepts[..j] == concepts;
  }

  /** The full effect: gathered, then ordered by ascending strength, ties in gathering order. */
  method GatherSession(progress: UserProgress, chapters: seq<ChapterMeta>, now: Instant,
                       strength: seq<Instant> -> real)
    returns (dueItems: seq<ReviewItem>)
    ensures dueItems == SortBy(GatherDue(progress.chapters, chapters, now), UrgencyKey(progress, strength))
    ensures multiset(dueItems) == multiset(GatherDue(progress.chapters, chapters, now))
    ensures SortedBy(dueItems, UrgencyKey(progress, strength))
  {
    var due := GatherDueItems(progress, chapters, now);
    SortBySorted(due, UrgencyKey(progress, strength));
    dueItems := SortBy(due, UrgencyKey(progress, strength));
  }

  // ------------------------------------------------------------ gathering lemmas

  lemma {:induction false} ItemsOfMembers(chapterSlug: string, chapterTitle: string,
                                          concepts: Record<seq<Instant>>, now: Instant, item: ReviewItem)
    ensures item in ItemsOf(chapterSlug, chapterTitle, concepts, now)
        <==> exists e :: e in concepts && Qualifies(e.value, now)
                         && item == ItemFor(chapterSlug, chapterTitle, e.key, e.value)
  {
    if concepts != [] {
      var init := concepts[..|concepts| - 1];
      ItemsOfMembers(chapterSlug, chapterTitle, init, now, item);
      assert concepts == init + [concepts[|concepts| - 1]];
    }
  }

  /** The concatenation, in order, of what `f` yields for each element. */
  function Flatten<E, T>(xs: seq<E>, f: E -> seq<T>): seq<T> {
    if xs == [] then [] else Flatten(xs[..|xs| - 1], f) + f(xs[|xs| - 1])
  }

  lemma {:induction false} FlattenMembers<E, T>(xs: seq<E>, f: E -> seq<T>, x: T)
    ensures x in Flatten(xs, f) <==> exists e :: e in xs && x in f(e)
  {
    if xs != [] {
      var init := xs[..|xs| - 1];
      var last := xs[|xs| - 1];
      FlattenMembers(init, f, x);
      assert xs == init + [last];
      assert x in Flatten(xs, f) <==> x in Flatten(init, f) || x in f(last);
    }
  }

  lemma {:induction false} GatherDueFlatten(records: Record<ChapterProgress>, chapters: seq<ChapterMeta>, now: Instant)
    ensures GatherDue(records, chapters, now) == Flatten(records, e => ChapterItems(e, chapters, now))
  {
    if records != [] {
      GatherDueFlatten(records[..|records| - 1], chapters, now);
    }
  }

  lemma GatherDueMembers(records: Record<ChapterProgress>, chapters: seq<ChapterMeta>,
                         now: Instant, item: ReviewItem)
    ensures item in GatherDue(records, chapters, now)
        <==> exists e :: e in records && item in ChapterItems(e, chapters, now)
  {
    var f := e => ChapterItems(e, chapters, now);
    GatherDueFlatten(records, chapters, now);
    FlattenMembers(records, f, item);
    assert forall e :: f(e) == ChapterItems(e, chapters, now);
  }

  /**
   * Every gathered item comes from a catalogued chapter and a non-empty,
   * due history of that chapter: its count is the history's length, its
   * last review the final entry, its title the catalogue's, and its next
   * interval the one for its count.
   */
  lemma GatheredItemSound(records: Record<ChapterProgress>, chapters: seq<ChapterMeta>, now: Instant,
                          item: ReviewItem)
    requires item in GatherDue(records, chapters, now)
    ensures GetChapter(chapters, item.chapterSlug).Some?
    ensures item.chapterTitle == GetChapter(chapters, item.chapterSlug).value.title
    ensures exists cp, reviews :: Entry(item.chapterSlug, cp) in records
                                  && Entry(item.conceptId, reviews) in cp.conceptsReviewed
                                  && Qualifies(reviews, now)
                                  && item == ItemFor(item.chapterSlug, item.chapterTitle, item.conceptId, reviews)
    ensures item.reviewCount > 0 && item.nextInterval == NextInterval(item.reviewCount)
    ensures IsConceptDue(Some(item.lastReview), item.reviewCount, now)
  {
    GatherDueMembers(records, chapters, now, item);
    var e :| e in records && item in ChapterItems(e, chapters, now);
    var chapter := GetChapter(chapters, e.key).value;
    ItemsOfMembers(e.key, chapter.title, e.value.conceptsReviewed, now, item);
    var c :| c in e.value.conceptsReviewed && Qualifies(c.value, now)
             && item == ItemFor(e.key, chapter.title, c.key, c.value);
    assert Entry(item.chapterSlug, e.value) == e;
    assert Entry(item.conceptId, c.value) == c;
  }

  /** Conversely, every due history of a catalogued chapter yields its item. */
  lemma GatheredItemComplete(records: Record<ChapterProgress>, chapters: seq<ChapterMeta>, now: Instant,
                             chapterSlug: string, cp: ChapterProgress, conceptId: string, reviews: seq<Instant>)
    requires Entry(chapterSlug, cp) in records && Entry(conceptId, reviews) in cp.conceptsReviewed
    requires GetChapter(chapters, chapterSlug).Some? && Qualifies(reviews, now)
    ensures ItemFor(chapterSlug, GetChapter(chapters, chapterSlug).value.title, conceptId, reviews)
            in GatherDue(records, chapters, now)
  {
    var title := GetChapter(chapters, chapterSlug).value.title;
    var item := ItemFor(chapterSlug, title, conceptId, reviews);
    ItemsOfMembers(chapterSlug, title, cp.conceptsReviewed, now, item);
    assert item in ChapterItems(Entry(chapterSlug, cp), chapters, now);
    GatherDueMembers(records, chapters, now, item);
  }

  /** A chapter missing from the catalogue contributes nothing. */
  lemma UncataloguedChapterSkipped(records: Record<ChapterProgress>, chapters: seq<ChapterMeta>, now: Instant,
                                   item: ReviewItem)
    requires GetChapter(chapters, item.chapterSlug).None?
    ensures item !in GatherDue(records, chapters, now)
  {
    if item in GatherDue(records, chapters, now) {
      GatheredItemSound(records, chapters, now, item);
    }
  }

  // ------------------------------------------------------------ the session

  /** The component's stepping state. */
  datatype Session = Session(
    dueItems: seq<ReviewItem>,
    currentIndex: nat,
    showAnswer: bool,
    sessionComplete: bool,
    reviewed: nat)

  function Start(dueItems: seq<ReviewItem>): Session {
    Session(dueItems, 0, false, false, 0)
  }

  /** `dueItems[currentIndex]`, or `undefined`. */
  function CurrentItem(s: Session): (r: Option<ReviewItem>)
    ensures r.Some? <==> s.currentIndex < |s.dueItems|
  {
    if s.currentIndex < |s.dueItems| then Some(s.dueItems[s.currentIndex]) else None
  }

  /** Move to the next item with the answer hidden, or end the session after the last one. */
  function Advance(s: Session): (r: Session)
    ensures r.dueItems == s.dueItems && r.reviewed == s.reviewed
    ensures s.currentIndex < |s.dueItems| - 1 ==>
              r == s.(currentIndex := s.currentIndex + 1, showAnswer := false)
    ensures !(s.currentIndex < |s.dueItems| - 1) ==> r == s.(sessionComplete := true)
  {
    if s.currentIndex < |s.dueItems| - 1 then s.(currentIndex := s.currentIndex + 1, showAnswer := false)
    else s.(sessionComplete := true)
  }

  /** `handleReviewed` on the stepping state: nothing without a current item. */
  function AfterReviewed(s: Session): (r: Session)
    ensures CurrentItem(s).None? ==> r == s
    ensures CurrentItem(s).Some? ==> r == Advance(s).(reviewed := s.reviewed + 1)
  {
    if CurrentItem(s).None? then s else Advance(s.(reviewed := s.reviewed + 1))
  }

  /** The snapshot after `handleReviewed`: one review of the current item, if there is one. */
  function RecordReview(p: UserProgress, s: Session, now: Instant): (q: UserProgress)
    ensures CurrentItem(s).None? ==> q == p
    ensures CurrentItem(s).Some? ==>
              var item := CurrentItem(s).value;
              HistoryOf(q, item.chapterSlug, item.conceptId) == HistoryOf(p, item.chapterSlug, item.conceptId) + [now]
  {
    match CurrentItem(s)
    case None => p
    case Some(item) => WithConceptReviewed(p, item.chapterSlug, item.conceptId, now)
  }

  /** `handleSkip`: advances like `handleReviewed` but counts nothing. */
  function AfterSkip(s: Session): (r: Session)
    ensures r == Advance(s)
  {
    Advance(s)
  }

  /** The days shown for the next review once this one is recorded. */
  function NextReviewIn(item: ReviewItem): (days: nat)
    ensures days == NextInterval(item.reviewCount + 1)
    ensures item.nextInterval == NextInterval(item.reviewCount) ==> item.nextInterval <= days
  {
    NextIntervalMonotone(item.reviewCount, item.reviewCount + 1);
    NextInterval(item.reviewCount + 1)
  }

  class ReviewSessionView {
    var dueItems: seq<ReviewItem>
    var currentIndex: nat
    var showAnswer: bool
    var sessionComplete: bool
    var reviewed: nat

    function State(): Session
      reads this
    {
      Session(dueItems, currentIndex, showAnswer, sessionComplete, reviewed)
    }

    constructor()
      ensures State() == Start([])
    {
      dueItems := [];
      currentIndex := 0;
      showAnswer := false;
      sessionComplete := false;
      reviewed := 0;
    }

    /** The gathering effect writing its result into the state. */
    method Gather(progress: UserProgress, chapters: seq<ChapterMeta>, now: Instant,
                  strength: seq<Instant> -> real)
      modifies this
      ensures dueItems == SortBy(GatherDue(progress.chapters, chapters, now), UrgencyKey(progress, strength))
      ensures currentIndex == old(currentIndex) && showAnswer == old(showAnswer)
      ensures sessionComplete == old(sessionComplete) && reviewed == old(reviewed)
    {
      dueItems := GatherSession(progress, chapters, now, strength);
    }

    method RevealAnswer()
      modifies this
      ensures State() == old(State()).(showAnswer := true)
    {
      showAnswer := true;
    }

    /** `handleReviewed`: records one review of the current item, then advances. */
    method HandleReviewed(store: ProgressStore, now: Instant)
      requires store.Valid()
      modifies this, store
      ensures State() == AfterReviewed(old(State()))
      ensures store.progress == RecordReview(old(store.progress), old(State()), now)
      ensures store.Valid()
    {
      if currentIndex >= |dueItems| {
        return;
      }
      var currentItem := dueItems[currentIndex];
      reviewed := reviewed + 1;
      if currentIndex < |dueItems| - 1 {
        currentIndex := currentIndex + 1;
        showAnswer := false;
      } else {
        sessionComplete := true;
      }
      store.ReviewConcept(currentItem.chapterSlug, currentItem.conceptId, now);
    }

    /** `handleSkip`. */
    method HandleSkip()
      modifies this
      ensures State() == AfterSkip(old(State()))
    {
      if currentIndex < |dueItems| - 1 {
        currentIndex := currentIndex + 1;
        showAnswer := false;
      } else {
        sessionComplete := true;
      }
    }
  }

  // ------------------------------------------------------------ session lemmas

  /** The index stays on an item, or at 0 when there is none. */
  predicate IndexInRange(s: Session) {
    s.currentIndex < |s.dueItems| || s.currentIndex == 0
  }

  lemma StepsKeepIndexInRange(s: Session)
    requires IndexInRange(s)
    ensures IndexInRange(AfterReviewed(s)) && IndexInRange(AfterSkip(s))
    ensures AfterReviewed(s).currentIndex <= s.currentIndex + 1 && AfterSkip(s).currentIndex <= s.currentIndex + 1
  {
  }

  datatype Action = Reviewed | Skipped

  function Step(s: Session, a: Action): Session {
    match a
    case Reviewed => AfterReviewed(s)
    case Skipped => AfterSkip(s)
  }

  /** The state after a sequence of button presses. */
  function Apply(s: Session, actions: seq<Action>): Session {
    if actions == [] then s else Step(Apply(s, actions[..|actions| - 1]), actions[|actions| - 1])
  }

  function CountReviewed(actions: seq<Action>): nat {
    if actions == [] then 0
    else CountReviewed(actions[..|actions| - 1]) + (if actions[|actions| - 1] == Reviewed then 1 else 0)
  }

  /**
   * Walking a session of n items: after k < n presses the k-th item is on
   * screen and the session is open; after n presses it is complete; and
   * `reviewed` counts the "I reviewed this" presses. Every item is thus
   * shown once, in order.
   */
  lemma {:induction false} SessionWalk(items: seq<ReviewItem>, actions: seq<Action>)
    requires 0 < |items| && |actions| <= |items|
    ensures var s := Apply(Start(items), actions);
      s.dueItems == items && s.reviewed == CountReviewed(actions)
      && (|actions| < |items| ==> s.currentIndex == |actions| && !s.sessionComplete)
      && (|actions| == |items| ==> s.currentIndex == |items| - 1 && s.sessionComplete)
  {
    if actions != [] {
      SessionWalk(items, actions[..|actions| - 1]);
    }
  }

  // ------------------------------------------------------------ re-gathering after a review

  /**
   * `handleReviewed` as the component runs it: recording the review
   * replaces the progress snapshot, which re-runs the gathering effect, so
   * the advanced index is applied to a freshly gathered list.
   */
  function ReviewedThenRegathered(s: Session, p: UserProgress, chapters: seq<ChapterMeta>, now: Instant,
                                  strength: seq<Instant> -> real): (r: Session)
    requires CurrentItem(s).Some?
    ensures r.currentIndex == AfterReviewed(s).currentIndex && r.reviewed == s.reviewed + 1
    ensures r.sessionComplete == AfterReviewed(s).sessionComplete
  {
    var item := CurrentItem(s).value;
    var p' := WithConceptReviewed(p, item.chapterSlug, item.conceptId, now);
    AfterReviewed(s).(dueItems := SortBy(GatherDue(p'.chapters, chapters, now), UrgencyKey(p', strength)))
  }

  const SampleChapter: ChapterMeta := ChapterMeta("01-intro", "01", "Intro", 1, 10)

  /** One chapter with two concepts, each reviewed once at time 0. */
  const SampleProgress: UserProgress :=
    UserProgress([Entry("01-intro", NewChapter.(conceptsReviewed := [Entry("x", [0]), Entry("y", [0])]))],
                 None, DefaultSettings, None, None)

  /**
   * With two due concepts, reviewing the first advances the index to 1
   * while the re-gathered list holds only the second concept: the open
   * session has no current item, which the view then dereferences.
   */
  lemma RegatherLosesCurrentItem(strength: seq<Instant> -> real)
    ensures var now := 3 * MS_PER_DAY;
      var items := SortBy(GatherDue(SampleProgress.chapters, [SampleChapter], now),
                          UrgencyKey(SampleProgress, strength));
      |items| == 2
      && var r := ReviewedThenRegathered(Start(items), SampleProgress, [SampleChapter], now, strength);
      !r.sessionComplete && CurrentItem(r).None?
  {
    var now := 3 * MS_PER_DAY;
    var due := GatherDue(SampleProgress.chapters, [SampleChapter], now);
    assert |due| == 2 by {
      SampleGathered(now);
    }
    var items := SortBy(due, UrgencyKey(SampleProgress, strength));
    var s := Start(items);
    var item := CurrentItem(s).value;
    assert item in multiset(due);
    SampleGathered(now);
    RegatheredHasOne(item, now);
  }

  function SampleItem(conceptId: string): ReviewItem {
    ItemFor("01-intro", "Intro", conceptId, [0])
  }

  /** Both sample concepts are due three days after their first review. */
  lemma SampleGathered(now: Instant)
    requires now == 3 * MS_PER_DAY
    ensures GatherDue(SampleProgress.chapters, [SampleChapter], now) == [SampleItem("x"), SampleItem("y")]
  {
    var ex, ey := Entry("x", [0]), Entry("y", [0]);
    assert Qualifies([0], now) by {
      assert NextInterval(1) == 3;
    }
    assert ItemsOf("01-intro", "Intro", [ex], now) == [SampleItem("x")] by {
      assert [ex][..0] == [];
    }
    assert ItemsOf("01-intro", "Intro", [ex, ey], now) == [SampleItem("x"), SampleItem("y")] by {
      assert [ex, ey][..1] == [ex];
    }
    assert GetChapter([SampleChapter], "01-intro") == Some(SampleChapter);
    assert SampleProgress.chapters[..0] == [];
  }

  /** After either concept is reviewed at `now`, only the other one is still due. */
  lemma RegatheredHasOne(item: ReviewItem, now: Instant)
    requires now == 3 * MS_PER_DAY && item in [SampleItem("x"), SampleItem("y")]
    ensures |GatherDue(WithConceptReviewed(SampleProgress, item.chapterSlug, item.conceptId, now).chapters,
                       [SampleChapter], now)| <= 1
  {
    var slug, id := item.chapterSlug, item.conceptId;
    var ex, ey := Entry("x", [0]), Entry("y", [0]);
    var cp := NewChapter.(conceptsReviewed := [ex, ey]);
    assert slug == "01-intro" && (id == "x" || id == "y");
    assert ChapterOf(SampleProgress, slug) == cp;
    assert HistoryOf(SampleProgress, slug, id) + [now] == [0, now];
    assert ChapterOf(SampleProgress, slug).conceptsReviewed == [ex, ey];
    var reviewed := Put([ex, ey], id, [0, now]);
    assert reviewed == if id == "x" then [Entry("x", [0, now]), ey] else [ex, Entry("y", [0, now])];
    var cp' := Merge(cp, NoChange.(conceptsReviewed := Some(reviewed)));
    assert cp' == cp.(conceptsReviewed := reviewed);
    var p' := WithConceptReviewed(SampleProgress, slug, id, now);
    assert p' == UpdateChapter(SampleProgress, slug, NoChange.(conceptsReviewed := Some(reviewed)));
    assert p'.chapters == [Entry(slug, cp')];
    assert !Qualifies([0, now], now) by {
      assert NextInterval(2) == 7;
    }
    assert Qualifies([0], now) by {
      assert NextInterval(1) == 3;
    }
    assert GetChapter([SampleChapter], "01-intro") == Some(SampleChapter);
    assert reviewed[..1] == [reviewed[0]];
    assert [reviewed[0]][..0] == [];
    if id == "x" {
      assert ItemsOf(slug, "Intro", [reviewed[0]], now) == [];
      assert ItemsOf(slug, "Intro", reviewed, now) == [SampleItem("y")];
    } else {
      assert ItemsOf(slug, "Intro", [reviewed[0]], now) == [SampleItem("x")];
      assert ItemsOf(slug, "Intro", reviewed, now) == [SampleItem("x")];
    }
    assert p'.chapters[..0] == [];
  }
}

=== FILE: search_index.dfy ===
/**
 * The build-time search index: per chapter file, the plain text, the
 * `##`/`###` sections with their slugs and plain text, and the chapter
 * number; the chapters sorted by that number. Removing Markdown and MDX
 * markup is a chain of regular-expression replacements given here as a
 * parameter; the whitespace normalisation that ends it is modelled
 * exactly, as are the heading pattern, the slug and the chapter number.
 */
module SearchIndex {
  import opened Wrappers
  import opened Text
  import opened Sorting

  /** The markup-removal replacements that precede the whitespace normalisation. */
  type Markup = string -> string

  /** `stripMarkdown`. */
  function StripMarkdown(content: string, markup: Markup): (r: string)
    ensures Normalized(r)
  {
    NormalizeWhitespaceIsNormalized(markup(content));
    NormalizeWhitespace(markup(content))
  }

  // --------------------------------------------------------------- headings

  predicate NoLineTerminator(s: string) {
    forall i :: 0 <= i < |s| ==> !IsLineTerminator(s[i])
  }

  predicate HasLineTerminator(s: string) {
    s != [] && (IsLineTerminator(s[0]) || HasLineTerminator(s[1..]))
  }

  /** `\s+(.+)$` matching all of `rest`, one leading whitespace character at a time. */
  predicate TailMatches(rest: string) {
    |rest| >= 2 && IsSpace(rest[0]) && (!HasLineTerminator(rest[1..]) || TailMatches(rest[1..]))
  }

  lemma {:induction false} HasLineTerminatorIff(s: string)
    ensures !HasLineTerminator(s) <==> NoLineTerminator(s)
  {
    if s != [] {
      HasLineTerminatorIff(s[1..]);
      assert forall i :: 1 <= i < |s| ==> s[i] == s[1..][i - 1];
    }
  }

  /**
   * The tail matches exactly when the text splits into a non-empty
   * whitespace run and a non-empty rest without line terminators.
   */
  lemma {:induction false} TailMatchesIff(rest: string)
    ensures TailMatches(rest) <==>
            exists w :: 1 <= w < |rest| && AllSpace(rest[..w]) && NoLineTerminator(rest[w..])
  {
    if |rest| >= 2 && IsSpace(rest[0]) {
      var t := rest[1..];
      HasLineTerminatorIff(t);
      TailMatchesIff(t);
      if TailMatches(rest) {
        if !HasLineTerminator(t) {
          assert rest[..1] == [rest[0]] && rest[1..] == t;
          assert AllSpace(rest[..1]) && NoLineTerminator(rest[1..]);
        } else {
          var w :| 1 <= w < |t| && AllSpace(t[..w]) && NoLineTerminator(t[w..]);
          assert rest[..w + 1] == [rest[0]] + t[..w] && rest[w + 1..] == t[w..];
          assert AllSpace(rest[..w + 1]);
        }
      } else {
        forall w | 1 <= w < |rest| && AllSpace(rest[..w])
          ensures !NoLineTerminator(rest[w..])
        {
          if w == 1 {
            assert rest[1..] == t;
          } else {
            assert rest[w..] == t[w - 1..];
            assert t[..w - 1] == rest[1..w];
            assert AllSpace(t[..w - 1]);
          }
        }
      }
    } else if |rest| >= 1 && !IsSpace(rest[0]) {
      forall w | 1 <= w < |rest| ensures !AllSpace(rest[..w]) {
        assert rest[..w][0] == rest[0];
      }
    }
  }

  /**
   * The trimmed second group of `/^(#{2,3})\s+(.+)$/` on a line, or `None`
   * when it does not match: exactly two or three `#`, then a whitespace
   * run, then at least one character, none of which ends a line.
   */
  function HeadingText(line: string): (r: Option<string>)
    ensures r.Some? ==> LeadingRun(line, '#') == 2 || LeadingRun(line, '#') == 3
    ensures r.Some? ==> r.value == Trim(line[LeadingRun(line, '#')..])
  {
    var h := LeadingRun(line, '#');
    if (h == 2 || h == 3) && TailMatches(line[h..]) then Some(Trim(line[h..])) else None
  }

  /** Level-one and level-four-or-deeper heading lines are body text. */
  lemma {:induction false} OtherLevelsAreBody(line: string)
    requires LeadingRun(line, '#') != 2 && LeadingRun(line, '#') != 3
    ensures HeadingText(line).None?
  {
  }

  predicate IsAlnum(c: char) {
    'a' <= c <= 'z' || '0' <= c <= '9'
  }

  /** `.replace(/[^a-z0-9]+/g, '-')`; `afterDash` records that the previous character was replaced. */
  function Dashify(s: string, afterDash: bool): (r: string)
    ensures forall i :: 0 <= i < |r| ==> IsAlnum(r[i]) || r[i] == '-'
    ensures forall i :: 0 <= i < |r| - 1 ==> !(r[i] == '-' && r[i + 1] == '-')
    ensures afterDash && r != [] ==> r[0] != '-'
  {
    if s == [] then []
    else if IsAlnum(s[0]) then [s[0]] + Dashify(s[1..], false)
    else (if afterDash then [] else "-") + Dashify(s[1..], true)
  }

  /** `.replace(/^-|-$/g, '')`. */
  function TrimDashes(s: string): string {
    var a := if s != [] && s[0] == '-' then s[1..] else s;
    if a != [] && a[|a| - 1] == '-' then a[..|a| - 1] else a
  }

  /** The heading slug: lower-cased, non-alphanumeric runs to one `-`, a `-` at either end dropped. */
  function HeadingSlug(text: string): (slug: string)
    ensures forall i :: 0 <= i < |slug| ==> IsAlnum(slug[i]) || slug[i] == '-'
    ensures forall i :: 0 <= i < |slug| - 1 ==> !(slug[i] == '-' && slug[i + 1] == '-')
    ensures slug == [] || (slug[0] != '-' && slug[|slug| - 1] != '-')
  {
    var d := Dashify(ToLower(text), false);
    var t := TrimDashes(d);
    SlugShape(d);
    t
  }

  /** Dash-separated alphanumerics: only letters, digits and single dashes. */
  predicate DashShaped(s: string) {
    (forall i :: 0 <= i < |s| ==> IsAlnum(s[i]) || s[i] == '-')
    && (forall i :: 0 <= i < |s| - 1 ==> !(s[i] == '-' && s[i + 1] == '-'))
  }

  lemma {:induction false} SlugShape(d: string)
    requires forall i :: 0 <= i < |d| ==> IsAlnum(d[i]) || d[i] == '-'
    requires forall i :: 0 <= i < |d| - 1 ==> !(d[i] == '-' && d[i + 1] == '-')
    ensures var t := TrimDashes(d);
      (forall i :: 0 <= i < |t| ==> IsAlnum(t[i]) || t[i] == '-')
      && (forall i :: 0 <= i < |t| - 1 ==> !(t[i] == '-' && t[i + 1] == '-'))
      && (t == [] || (t[0] != '-' && t[|t| - 1] != '-'))
  {
    var a := if d != [] && d[0] == '-' then d[1..] else d;
    DropLeadingDash(d);
    DropTrailingDash(a);
  }

  lemma {:induction false} DropLeadingDash(d: string)
    requires DashShaped(d)
    ensures var a := if d != [] && d[0] == '-' then d[1..] else d;
      DashShaped(a) && (a == [] || a[0] != '-')
  {
    if d != [] && d[0] == '-' {
      var a := d[1..];
      forall i | 0 <= i < |a| ensures a[i] == d[i + 1] { }
      if a != [] {
        assert d[1] != '-';
      }
    }
  }

  lemma {:induction false} DropTrailingDash(a: string)
    requires DashShaped(a) && (a == [] || a[0] != '-')
    ensures var t := if a != [] && a[|a| - 1] == '-' then a[..|a| - 1] else a;
      DashShaped(t) && (t == [] || (t[0] != '-' && t[|t| - 1] != '-'))
  {
    if a != [] && a[|a| - 1] == '-' {
      var t := a[..|a| - 1];
      forall i | 0 <= i < |t| ensures t[i] == a[i] { }
      if t != [] {
        assert a[|a| - 2] != '-';
      }
    }
  }

  datatype HeadingRecord = HeadingRecord(slug: string, text: string, content: string)

  /** A section before its text is stripped: the heading text and the lines of its body. */
  datatype RawSection = RawSection(text: string, body: seq<string>)

  /** The record pushed for a section. */
  function Section(raw: RawSection, markup: Markup): (r: HeadingRecord)
    ensures r.text == raw.text
  {
    HeadingRecord(HeadingSlug(raw.text), raw.text, StripMarkdown(Join(raw.body, "\n"), markup))
  }

  function Records(raws: seq<RawSection>, markup: Markup): (rs: seq<HeadingRecord>)
    ensures |rs| == |raws|
  {
    seq(|raws|, i requires 0 <= i < |raws| => Section(raws[i], markup))
  }

  /** A heading-line matcher: the heading text, or `None` for a body line. */
  type Matcher = string -> Option<string>

  /** The locals of `extractHeadings` between two lines. */
  datatype Scan = Scan(done: seq<RawSection>, current: Option<string>, body: seq<string>)

  function Step(sc: Scan, line: string, heading: Matcher): Scan {
    match heading(line)
    case Some(text) =>
      var done := if sc.current.Some? then sc.done + [RawSection(sc.current.value, sc.body)] else sc.done;
      Scan(done, Some(text), [])
    case None =>
      if sc.current.Some? then sc.(body := sc.body + [line]) else sc
  }

  /** Runs the scan from state `sc` over `lines`. */
  function Run(sc: Scan, lines: seq<string>, heading: Matcher): Scan
    decreases |lines|
  {
    if lines == [] then sc else Run(Step(sc, lines[0], heading), lines[1..], heading)
  }

  function Finish(sc: Scan): seq<RawSection> {
    if sc.current.Some? then sc.done + [RawSection(sc.current.value, sc.body)] else sc.done
  }

  /** `extractHeadings`: one pass over the lines with the current heading and its body lines. */
  method ExtractHeadings(content: string, markup: Markup) returns (headings: seq<HeadingRecord>)
    ensures headings == Records(Sections(Split(content, '\n'), HeadingText), markup)
  {
    headings := ScanSections(Split(content, '\n'), HeadingText, markup);
  }

  /** The loop of `extractHeadings` over the lines, for any heading matcher. */
  method ScanSections(lines: seq<string>, heading: Matcher, markup: Markup) returns (headings: seq<HeadingRecord>)
    ensures headings == Records(Sections(lines, heading), markup)
  {
    headings := [];
    ghost var done: seq<RawSection> := [];
    var currentHeading: Option<string> := None;
    var currentContent: seq<string> := [];
    var i := 0;
    while i < |lines|
      invariant 0 <= i <= |lines|
      invariant headings == Records(done, markup)
      invariant Run(Scan(done, currentHeading, currentContent), lines[i..], heading)
             == Run(Scan([], None, []), lines, heading)
    {
      var line := lines[i];
      ghost var before := Scan(done, currentHeading, currentContent);
      RunUnfold(before, lines, i, heading);
      var headingMatch := heading(line);
      if headingMatch.Some? {
        if currentHeading.Some? {
          var raw := RawSection(currentHeading.value, currentContent);
          RecordsAppend(done, raw, markup);
          headings := headings + [Section(raw, markup)];
          done := done + [raw];
        }
        currentHeading := Some(headingMatch.value);
        currentContent := [];
      } else if currentHeading.Some? {
        currentContent := currentContent + [line];
      }
      assert Scan(done, currentHeading, currentContent) == Step(before, line, heading);
      i := i + 1;
    }
    assert lines[i..] == [];
    if currentHeading.Some? {
      var raw := RawSection(currentHeading.value, currentContent);
      RecordsAppend(done, raw, markup);
      headings := headings + [Section(raw, markup)];
      done := done + [raw];
    }
    ScanComputesSections(lines, heading);
  }

  lemma {:induction false} RecordsAppend(raws: seq<RawSection>, raw: RawSection, markup: Markup)
    ensures Records(raws + [raw], markup) == Records(raws, markup) + [Section(raw, markup)]
  {
    assert (raws + [raw])[..|raws|] == raws;
  }

  lemma {:induction false} RunUnfold(sc: Scan, lines: seq<string>, i: nat, heading: Matcher)
    requires i < |lines|
    ensures Run(sc, lines[i..], heading) == Run(Step(sc, lines[i], heading), lines[i + 1..], heading)
  {
    assert lines[i..][1..] == lines[i + 1..];
  }

  /** Finishing the scan of a whole document yields its sections. */
  lemma {:induction false} ScanComputesSections(lines: seq<string>, heading: Matcher)
    ensures Finish(Run(Scan([], None, []), lines, heading)) == Sections(lines, heading)
  {
    ExtractHeadingsCharacterised(Scan([], None, []), lines, heading);
    var n := BodyLength(lines, heading);
    assert [] + [] + SectionsFrom(lines[n..], heading) == SectionsFrom(lines[n..], heading);
  }

  // ------------------------------------------------ reference definition

  /** The number of leading lines that are not headings. */
  function BodyLength(lines: seq<string>, heading: Matcher): (n: nat)
    ensures n <= |lines|
    ensures n < |lines| ==> heading(lines[n]).Some?
  {
    if lines == [] || heading(lines[0]).Some? then 0 else 1 + BodyLength(lines[1..], heading)
  }

  /** The lines before the first heading line are all body lines. */
  lemma {:induction false} BodyLinesAreNotHeadings(lines: seq<string>, heading: Matcher)
    ensures forall i :: 0 <= i < BodyLength(lines, heading) ==> heading(lines[i]).None?
  {
    if lines != [] && heading(lines[0]).None? {
      BodyLinesAreNotHeadings(lines[1..], heading);
      assert forall i :: 1 <= i < |lines| ==> lines[i] == lines[1..][i - 1];
    }
  }

  /** One section per heading line; each body runs up to the next heading line or the end. */
  function SectionsFrom(lines: seq<string>, heading: Matcher): seq<RawSection>
    requires lines == [] || heading(lines[0]).Some?
    decreases |lines|
  {
    if lines == [] then []
    else
      var n := BodyLength(lines[1..], heading);
      [RawSection(heading(lines[0]).value, lines[1..1 + n])] + SectionsFrom(lines[1 + n..], heading)
  }

  /** The sections of a document: the lines before the first heading are dropped. */
  function Sections(lines: seq<string>, heading: Matcher): seq<RawSection> {
    SectionsFrom(lines[BodyLength(lines, heading)..], heading)
  }

  /** The scan computes the sections, from any state it may be in. */
  lemma {:induction false} ExtractHeadingsCharacterised(sc: Scan, lines: seq<string>, heading: Matcher)
    requires sc.current.None? ==> sc.body == []
    ensures var n := BodyLength(lines, heading);
      Finish(Run(sc, lines, heading))
      == sc.done
         + (if sc.current.Some? then [RawSection(sc.current.value, sc.body + lines[..n])] else [])
         + SectionsFrom(lines[n..], heading)
    decreases |lines|
  {
    if lines == [] {
      assert sc.body + [] == sc.body;
    } else {
      var next := Step(sc, lines[0], heading);
      assert next.current.None? ==> next.body == [];
      ExtractHeadingsCharacterised(next, lines[1..], heading);
      assert Run(sc, lines, heading) == Run(next, lines[1..], heading);
      if heading(lines[0]).Some? {
        HeadingLineStep(sc, lines, heading);
      } else {
        BodyLineStep(sc, lines, heading);
      }
    }
  }

  lemma {:induction false} HeadingLineStep(sc: Scan, lines: seq<string>, heading: Matcher)
    requires lines != [] && heading(lines[0]).Some?
    ensures var next := Step(sc, lines[0], heading);
      var m := BodyLength(lines[1..], heading);
      next.done + [RawSection(heading(lines[0]).value, [] + lines[1..][..m])]
        + SectionsFrom(lines[1..][m..], heading)
      == sc.done
         + (if sc.current.Some? then [RawSection(sc.current.value, sc.body + lines[..0])] else [])
         + SectionsFrom(lines[0..], heading)
  {
    var m := BodyLength(lines[1..], heading);
    var text := heading(lines[0]).value;
    var next := Step(sc, lines[0], heading);
    var x := if sc.current.Some? then [RawSection(sc.current.value, sc.body)] else [];
    var first := RawSection(text, lines[1..1 + m]);
    var rest := SectionsFrom(lines[1 + m..], heading);
    calc {
      next.done + [RawSection(text, [] + lines[1..][..m])] + SectionsFrom(lines[1..][m..], heading);
      { assert [] + lines[1..][..m] == lines[1..1 + m];
        assert lines[1..][m..] == lines[1 + m..]; }
      next.done + [first] + rest;
      { assert next.done == sc.done + x; }
      sc.done + x + [first] + rest;
      sc.done + x + ([first] + rest);
      { SectionsFromCons(lines, heading); assert lines[0..] == lines; }
      sc.done + x + SectionsFrom(lines[0..], heading);
      { assert sc.body + lines[..0] == sc.body; }
      sc.done
        + (if sc.current.Some? then [RawSection(sc.current.value, sc.body + lines[..0])] else [])
        + SectionsFrom(lines[0..], heading);
    }
  }

  lemma {:induction false} SectionsFromCons(lines: seq<string>, heading: Matcher)
    requires lines != [] && heading(lines[0]).Some?
    ensures var m := BodyLength(lines[1..], heading);
      SectionsFrom(lines, heading)
      == [RawSection(heading(lines[0]).value, lines[1..1 + m])] + SectionsFrom(lines[1 + m..], heading)
  {
  }

  lemma {:induction false} BodyLineStep(sc: Scan, lines: seq<string>, heading: Matcher)
    requires sc.current.None? ==> sc.body == []
    requires lines != [] && heading(lines[0]).None?
    ensures var next := Step(sc, lines[0], heading);
      var m := BodyLength(lines[1..], heading);
      next.done
        + (if next.current.Some? then [RawSection(next.current.value, next.body + lines[1..][..m])] else [])
        + SectionsFrom(lines[1..][m..], heading)
      == sc.done
         + (if sc.current.Some? then [RawSection(sc.current.value, sc.body + lines[..m + 1])] else [])
         + SectionsFrom(lines[m + 1..], heading)
  {
    var m := BodyLength(lines[1..], heading);
    var next := Step(sc, lines[0], heading);
    assert lines[m + 1..] == lines[1..][m..];
    if sc.current.Some? {
      assert next == sc.(body := sc.body + [lines[0]]);
      BodyGrows(sc.body, lines, m);
    } else {
      assert next == sc;
    }
  }

  lemma {:induction false} BodyGrows(body: seq<string>, lines: seq<string>, m: nat)
    requires m < |lines|
    ensures body + [lines[0]] + lines[1..][..m] == body + lines[..m + 1]
  {
    assert lines[..m + 1] == [lines[0]] + lines[1..][..m];
  }

  /** The texts of the heading lines, in order. */
  function HeadingTexts(lines: seq<string>, heading: Matcher): seq<string> {
    if lines == [] then []
    else (if heading(lines[0]).Some? then [heading(lines[0]).value] else []) + HeadingTexts(lines[1..], heading)
  }

  function TextsOf(rs: seq<RawSection>): (ts: seq<string>)
    ensures |ts| == |rs|
    ensures forall i :: 0 <= i < |rs| ==> ts[i] == rs[i].text
  {
    if rs == [] then [] else [rs[0].text] + TextsOf(rs[1..])
  }

  lemma {:induction false} HeadingTextsAppend(a: seq<string>, b: seq<string>, heading: Matcher)
    ensures HeadingTexts(a + b, heading) == HeadingTexts(a, heading) + HeadingTexts(b, heading)
  {
    if a == [] {
      assert a + b == b;
    } else {
      var p := if heading(a[0]).Some? then [heading(a[0]).value] else [];
      assert (a + b)[0] == a[0] && (a + b)[1..] == a[1..] + b;
      assert HeadingTexts(a + b, heading) == p + HeadingTexts(a[1..] + b, heading);
      HeadingTextsAppend(a[1..], b, heading);
      assert HeadingTexts(a, heading) == p + HeadingTexts(a[1..], heading);
    }
  }

  lemma {:induction false} NoHeadingTexts(lines: seq<string>, heading: Matcher)
    requires forall i :: 0 <= i < |lines| ==> heading(lines[i]).None?
    ensures HeadingTexts(lines, heading) == []
  {
    if lines != [] {
      NoHeadingTexts(lines[1..], heading);
    }
  }

  lemma {:induction false} SectionsFromTexts(lines: seq<string>, heading: Matcher)
    requires lines == [] || heading(lines[0]).Some?
    ensures TextsOf(SectionsFrom(lines, heading)) == HeadingTexts(lines, heading)
    decreases |lines|
  {
    if lines != [] {
      var n := BodyLength(lines[1..], heading);
      var rest := lines[1 + n..];
      assert rest == [] || heading(rest[0]).Some? by {
        assert rest == [] || rest[0] == lines[1..][n];
      }
      var first := RawSection(heading(lines[0]).value, lines[1..1 + n]);
      calc {
        TextsOf(SectionsFrom(lines, heading));
        { SectionsFromCons(lines, heading); }
        TextsOf([first] + SectionsFrom(rest, heading));
        { TextsOfCons(first, SectionsFrom(rest, heading)); }
        [first.text] + TextsOf(SectionsFrom(rest, heading));
        { SectionsFromTexts(rest, heading); }
        [heading(lines[0]).value] + HeadingTexts(rest, heading);
        { HeadingTextsOfSection(lines, heading); }
        HeadingTexts(lines, heading);
      }
    }
  }

  lemma {:induction false} TextsOfCons(r: RawSection, rs: seq<RawSection>)
    ensures TextsOf([r] + rs) == [r.text] + TextsOf(rs)
  {
    assert ([r] + rs)[1..] == rs;
  }

  /** A heading line and its body lines contribute the heading's text alone. */
  lemma {:induction false} HeadingTextsOfSection(lines: seq<string>, heading: Matcher)
    requires lines != [] && heading(lines[0]).Some?
    ensures var n := BodyLength(lines[1..], heading);
      HeadingTexts(lines, heading) == [heading(lines[0]).value] + HeadingTexts(lines[1 + n..], heading)
  {
    var n := BodyLength(lines[1..], heading);
    var body, rest := lines[1..1 + n], lines[1 + n..];
    assert lines[1..] == body + rest;
    HeadingTextsAppend(body, rest, heading);
    BodyLinesAreNotHeadings(lines[1..], heading);
    assert forall i :: 0 <= i < n ==> body[i] == lines[1..][i];
    NoHeadingTexts(body, heading);
    assert [] + HeadingTexts(rest, heading) == HeadingTexts(rest, heading);
  }

  /** One section per heading line, in document order, carrying that line's text. */
  lemma {:induction false} OneSectionPerHeadingLine(lines: seq<string>, heading: Matcher)
    ensures TextsOf(Sections(lines, heading)) == HeadingTexts(lines, heading)
  {
    var n := BodyLength(lines, heading);
    var body, rest := lines[..n], lines[n..];
    SectionsFromTexts(rest, heading);
    assert lines == body + rest;
    HeadingTextsAppend(body, rest, heading);
    BodyLinesAreNotHeadings(lines, heading);
    assert forall i :: 0 <= i < n ==> body[i] == lines[i];
    NoHeadingTexts(body, heading);
    assert [] + HeadingTexts(rest, heading) == HeadingTexts(rest, heading);
  }

  // -------------------------------------------------------------- chapters

  function LeadingDigits(s: string): (n: nat)
    ensures n <= |s| && AllDigits(s[..n])
    ensures n < |s| ==> !IsDigit(s[n])
  {
    if s != [] && IsDigit(s[0]) then
      assert s[..1 + LeadingDigits(s[1..])] == [s[0]] + s[1..][..LeadingDigits(s[1..])];
      1 + LeadingDigits(s[1..])
    else 0
  }

  /** `getChapterNumber`: the digits of `/^(\d+)-/`, or `'00'`. */
  function ChapterNumber(filename: string): (r: string)
    ensures |r| >= 1 && AllDigits(r)
    ensures r == "00" || (StartsWith(filename, r + "-"))
    ensures 0 < LeadingDigits(filename) < |filename| && filename[LeadingDigits(filename)] == '-' ==>
              r == filename[..LeadingDigits(filename)]
    ensures !(0 < LeadingDigits(filename) < |filename| && filename[LeadingDigits(filename)] == '-') ==> r == "00"
  {
    var n := LeadingDigits(filename);
    if 0 < n < |filename| && filename[n] == '-' then
      assert filename[..n + 1] == filename[..n] + "-";
      filename[..n]
    else "00"
  }

  datatype SourceFile = SourceFile(name: string, content: string)

  datatype ChapterRecord = ChapterRecord(
    slug: string,
    title: string,
    chapter: string,
    content: string,
    headings: seq<HeadingRecord>)

  const MAX_CONTENT: nat := 5000
  const MAX_HEADINGS: nat := 20

  /** The frontmatter title pattern, given as a parameter: the captured title, if it matches. */
  type TitleMatch = string -> Option<string>

  /**
   * The record for one `.mdx` file: the name without its first ".mdx" as
   * slug, the frontmatter title (else the slug), the chapter number, the
   * first 5000 characters of the stripped text and the first 20 headings.
   */
  function ChapterOf(file: SourceFile, markup: Markup, titleMatch: TitleMatch): (c: ChapterRecord)
    ensures c.content <= StripMarkdown(file.content, markup)
    ensures c.headings <= Records(Sections(Split(file.content, '\n'), HeadingText), markup)
    ensures var plain := StripMarkdown(file.content, markup);
      |c.content| == if |plain| < MAX_CONTENT then |plain| else MAX_CONTENT
    ensures var hs := Records(Sections(Split(file.content, '\n'), HeadingText), markup);
      |c.headings| == if |hs| < MAX_HEADINGS then |hs| else MAX_HEADINGS
    ensures c.slug == ReplaceFirst(file.name, ".mdx", "")
    ensures titleMatch(file.content).Some? ==> c.title == Trim(titleMatch(file.content).value)
    ensures titleMatch(file.content).None? ==> c.title == c.slug
    ensures c.chapter == "Ch. " + ChapterNumber(file.name)
  {
    var plain := StripMarkdown(file.content, markup);
    var headings := Records(Sections(Split(file.content, '\n'), HeadingText), markup);
    var slug := ReplaceFirst(file.name, ".mdx", "");
    ChapterRecord(
      slug,
      match titleMatch(file.content) case Some(t) => Trim(t) case None => slug,
      "Ch. " + ChapterNumber(file.name),
      Take(plain, MAX_CONTENT),
      Take(headings, MAX_HEADINGS))
  }

  /** The `.mdx` files of the directory, in listing order, as records. */
  function ChaptersOf(files: seq<SourceFile>, markup: Markup, titleMatch: TitleMatch): seq<ChapterRecord> {
    KeepMap(files, IsMdx, f => ChapterOf(f, markup, titleMatch))
  }

  predicate IsMdx(f: SourceFile) {
    EndsWith(f.name, ".mdx")
  }

  /** `f` applied to the elements that `keep` accepts, in order. */
  function KeepMap<A, B>(xs: seq<A>, keep: A -> bool, f: A -> B): seq<B> {
    if xs == [] then []
    else
      var init := KeepMap(xs[..|xs| - 1], keep, f);
      var x := xs[|xs| - 1];
      if keep(x) then init + [f(x)] else init
  }

  /** The sort key: `parseInt(getChapterNumber(slug))`. */
  function ChapterKey(c: ChapterRecord): real {
    DigitsValue(ChapterNumber(c.slug)) as real
  }

  /**
   * `main`: the chapter directory (`None` when it cannot be read) to the
   * sorted chapter list; an unreadable directory gives an empty index.
   */
  method BuildIndex(directory: Option<seq<SourceFile>>, markup: Markup, titleMatch: TitleMatch)
    returns (chapters: seq<ChapterRecord>)
    ensures directory.None? ==> chapters == []
    ensures directory.Some? ==>
      multiset(chapters) == multiset(ChaptersOf(directory.value, markup, titleMatch))
      && SortedBy(chapters, ChapterKey)
      && chapters == SortBy(ChaptersOf(directory.value, markup, titleMatch), ChapterKey)
  {
    if directory.None? {
      return [];
    }
    var files := directory.value;
    chapters := [];
    var i := 0;
    while i < |files|
      invariant 0 <= i <= |files|
      invariant chapters == ChaptersOf(files[..i], markup, titleMatch)
    {
      assert files[..i + 1][..i] == files[..i];
      var file := files[i];
      if EndsWith(file.name, ".mdx") {
        chapters := chapters + [ChapterOf(file, markup, titleMatch)];
      }
      i := i + 1;
    }
    assert files[..i] == files;
    SortBySorted(chapters, ChapterKey);
    chapters := SortBy(chapters, ChapterKey);
  }

  /**
   * For a file named `digits-...`, the sort key read from the record's
   * slug is the chapter number of the file name: removing ".mdx" cannot
   * reach the leading `digits-` prefix.
   */
  lemma {:induction false} ChapterKeyOfFile(file: SourceFile, markup: Markup, titleMatch: TitleMatch)
    requires 0 < LeadingDigits(file.name) < |file.name| && file.name[LeadingDigits(file.name)] == '-'
    ensures ChapterNumber(ChapterOf(file, markup, titleMatch).slug) == ChapterNumber(file.name)
    ensures ChapterKey(ChapterOf(file, markup, titleMatch)) == DigitsValue(ChapterNumber(file.name)) as real
  {
    SlugKeepsNumber(file.name);
  }

  lemma {:induction false} SlugKeepsNumber(name: string)
    requires 0 < LeadingDigits(name) < |name| && name[LeadingDigits(name)] == '-'
    ensures ChapterNumber(ReplaceFirst(name, ".mdx", "")) == ChapterNumber(name)
  {
    var n := LeadingDigits(name);
    SlugPrefix(name, n);
    NumberOfSamePrefix(name, ReplaceFirst(name, ".mdx", ""), n);
  }

  lemma {:induction false} SlugPrefix(name: string, n: nat)
    requires n == LeadingDigits(name) && n < |name| && name[n] == '-'
    ensures |ReplaceFirst(name, ".mdx", "")| > n && ReplaceFirst(name, ".mdx", "")[..n + 1] == name[..n + 1]
  {
    var k := IndexOf(name, ".mdx");
    if k != -1 {
      NoDotBefore(name, n);
      assert name[k] == '.' by {
        assert OccursAt(name, ".mdx", k);
        assert name[k] == name[k..k + 4][0];
      }
    }
    ReplaceFirstKeepsPrefix(name, ".mdx", "", n + 1);
  }

  lemma {:induction false} NumberOfSamePrefix(s: string, t: string, n: nat)
    requires n == LeadingDigits(s) && 0 < n < |s| && s[n] == '-'
    requires n < |t| && t[..n + 1] == s[..n + 1]
    ensures ChapterNumber(t) == ChapterNumber(s)
  {
    LeadingDigitsOfPrefix(s, t, n);
    assert t[..n] == t[..n + 1][..n];
    assert s[..n] == s[..n + 1][..n];
  }

  lemma {:induction false} NoDotBefore(name: string, n: nat)
    requires n == LeadingDigits(name) && n < |name| && name[n] == '-'
    ensures forall i :: 0 <= i <= n ==> name[i] != '.'
  {
    forall i | 0 <= i <= n ensures name[i] != '.' {
      if i < n { assert name[i] == name[..n][i]; }
    }
  }

  /** Replacing an occurrence that starts at or after `m` keeps the first `m` characters. */
  lemma {:induction false} ReplaceFirstKeepsPrefix(s: string, pat: string, rep: string, m: nat)
    requires m <= |s| && (IndexOf(s, pat) == -1 || IndexOf(s, pat) >= m)
    ensures |ReplaceFirst(s, pat, rep)| >= m && ReplaceFirst(s, pat, rep)[..m] == s[..m]
  {
    var k := IndexOf(s, pat);
    if k != -1 {
      var r := ReplaceFirst(s, pat, rep);
      assert r == s[..k] + rep + s[k + |pat|..];
      forall i | 0 <= i < m ensures r[i] == s[i] {
        assert r[i] == s[..k][i];
      }
    }
  }

  /** Two strings that agree on `digits-` agree on their leading digits. */
  lemma {:induction false} LeadingDigitsOfPrefix(s: string, t: string, n: nat)
    requires n < |s| && n < |t| && s[..n + 1] == t[..n + 1]
    requires LeadingDigits(s) == n && s[n] == '-'
    ensures LeadingDigits(t) == n && t[n] == '-'
  {
    assert t[n] == s[..n + 1][n];
    assert AllDigits(t[..n]) by {
      forall i | 0 <= i < n ensures IsDigit(t[..n][i]) {
        assert t[i] == s[..n + 1][i] == s[..n][i];
      }
    }
    LeadingDigitsOfDigits(t, n);
  }

  lemma {:induction false} LeadingDigitsOfDigits(t: string, n: nat)
    requires n < |t| && AllDigits(t[..n]) && !IsDigit(t[n])
    ensures LeadingDigits(t) == n
  {
    if n > 0 {
      var u := t[1..][..n - 1];
      assert AllDigits(u) by {
        forall i | 0 <= i < n - 1 ensures IsDigit(u[i]) {
          assert u[i] == t[..n][i + 1];
        }
      }
      assert IsDigit(t[0]) by { assert t[0] == t[..n][0]; }
      LeadingDigitsOfDigits(t[1..], n - 1);
    }
  }

  /** Every indexed chapter comes from an `.mdx` file, and every `.mdx` file is indexed. */
  lemma {:induction false} ChaptersOfMdx(files: seq<SourceFile>, markup: Markup, titleMatch: TitleMatch)
    ensures forall c :: c in ChaptersOf(files, markup, titleMatch) <==>
              exists f :: f in files && EndsWith(f.name, ".mdx") && c == ChapterOf(f, markup, titleMatch)
  {
    KeepMapMembers(files, IsMdx, f => ChapterOf(f, markup, titleMatch));
  }

  lemma {:induction false} KeepMapMembers<A, B>(xs: seq<A>, keep: A -> bool, f: A -> B)
    ensures forall y :: y in KeepMap(xs, keep, f) <==> exists x :: x in xs && keep(x) && y == f(x)
  {
    if xs != [] {
      var init := xs[..|xs| - 1];
      KeepMapMembers(init, keep, f);
      assert xs == init + [xs[|xs| - 1]];
    }
  }
}

=== FILE: search_modal.dfy ===
/**
 * The search dialog: matching a query against the search index, the
 * excerpt shown under each result, arrow-key selection and the link a
 * result leads to. Fetching the index, the debounce timer, focus handling
 * and screen-reader announcements are not modelled.
 */
module SearchModal {
  import opened Wrappers
  import opened Text
  import opened SearchIndex

  datatype SearchResult = SearchResult(
    slug: string,
    title: string,
    chapter: string,
    excerpt: string,
    headingSlug: Option<string>,
    headingText: Option<string>)

  const MAX_RESULTS: nat := 10

  // ---------------------------------------------------------------- excerpt

  /**
   * The excerpt around a hit at `index`: up to 50 characters before it and
   * 100 from it, trimmed, with `...` on each side that was cut off.
   */
  function Window(content: string, index: nat): (r: string)
    ensures index > 50 ==> StartsWith(r, "...")
    ensures index + 100 < |content| ==> EndsWith(r, "...")
    ensures index <= 50 && |content| <= index + 100 ==> r == Trim(content)
    ensures |r| <= 156
    ensures var start := if index > 50 then index - 50 else 0;
            var end := if |content| < index + 100 then |content| else index + 100;
            r == (if start > 0 then "..." else "") + Trim(Slice(content, start, end))
                 + (if end < |content| then "..." else "")
  {
    var start: nat := if index > 50 then index - 50 else 0;
    var end: nat := if |content| < index + 100 then |content| else index + 100;
    var mid := Trim(Slice(content, start, end));
    WindowMiddle(content, start, end);
    Ellipsised(start > 0, mid, end < |content|)
  }

  /** The middle of an excerpt with `...` on each side that was cut off. */
  function Ellipsised(cutBefore: bool, mid: string, cutAfter: bool): (r: string)
    ensures cutBefore ==> StartsWith(r, "...")
    ensures cutAfter ==> EndsWith(r, "...")
    ensures !cutBefore && !cutAfter ==> r == mid
    ensures |r| <= |mid| + 6
  {
    var pre := if cutBefore then "..." else "";
    var post := if cutAfter then "..." else "";
    Framed(pre, mid, post);
    pre + mid + post
  }

  lemma WindowMiddle(content: string, start: nat, end: nat)
    requires end <= start + 150
    ensures |Trim(Slice(content, start, end))| <= 150
    ensures start == 0 && end == |content| ==> Trim(Slice(content, start, end)) == Trim(content)
  {
    assert content[0..|content|] == content;
  }

  lemma Framed(pre: string, mid: string, post: string)
    ensures StartsWith(pre + mid + post, pre) && EndsWith(pre + mid + post, post)
    ensures |pre + mid + post| == |pre| + |mid| + |post|
  {
    assert (pre + mid + post)[..|pre|] == pre;
    assert (pre + mid + post)[|pre + mid|..] == post;
  }

  /** The index of the first word, in query order, found in `lower`. */
  function FirstWordHit(lower: string, words: seq<string>): (r: Option<nat>)
    ensures r.None? <==> forall j :: 0 <= j < |words| ==> IndexOf(lower, words[j]) == -1
    ensures r.Some? ==> exists j :: 0 <= j < |words| && IndexOf(lower, words[j]) == r.value
                                    && forall j' :: 0 <= j' < j ==> IndexOf(lower, words[j']) == -1
  {
    if words == [] then None
    else
      var i := IndexOf(lower, words[0]);
      if i != -1 then Some(i)
      else
        var r := FirstWordHit(lower, words[1..]);
        assert forall j :: 1 <= j < |words| ==> words[j] == words[1..][j - 1];
        r
  }

  /** What `getExcerpt(content, query)` returns. */
  function ExcerptOf(content: string, query: string): (r: string)
    ensures |r| <= 156
    ensures IndexOf(ToLower(content), query) != -1 ==> r == Window(content, IndexOf(ToLower(content), query))
  {
    var lower := ToLower(content);
    var index := IndexOf(lower, query);
    if index != -1 then Window(content, index)
    else
      match FirstWordHit(lower, SplitWs(query))
      case Some(i) => Window(content, i)
      case None => Trim(Slice(content, 0, 150)) + "..."
  }

  /** `getExcerpt`: the full query first, then each query word in turn, then the opening text. */
  method GetExcerpt(content: string, query: string) returns (excerpt: string)
    ensures excerpt == ExcerptOf(content, query)
  {
    var contentLower := ToLower(content);
    var index := IndexOf(contentLower, query);
    if index == -1 {
      var words := SplitWs(query);
      var k := 0;
      while k < |words|
        invariant 0 <= k <= |words|
        invariant FirstWordHit(contentLower, words) == FirstWordHit(contentLower, words[k..])
      {
        assert words[k..][1..] == words[k + 1..];
        var wordIndex := IndexOf(contentLower, words[k]);
        if wordIndex != -1 {
          return Window(content, wordIndex);
        }
        k := k + 1;
      }
      return Trim(Slice(content, 0, 150)) + "...";
    }
    return Window(content, index);
  }

  // ----------------------------------------------------------------- search

  /** `queryLower.split(/\s+/).filter(w => w.length > 1)`. */
  function LongWords(words: seq<string>): (r: seq<string>)
    ensures forall j :: 0 <= j < |r| ==> |r[j]| > 1 && r[j] in words
    ensures forall w :: w in words && |w| > 1 ==> w in r
  {
    if words == [] then []
    else (if |words[0]| > 1 then [words[0]] else []) + LongWords(words[1..])
  }

  /** `words.every(word => lower.includes(word))`. */
  function AllIncluded(lower: string, words: seq<string>): (b: bool)
    ensures b <==> forall j :: 0 <= j < |words| ==> Includes(lower, words[j])
  {
    if words == [] then true
    else
      assert forall j :: 1 <= j < |words| ==> words[j] == words[1..][j - 1];
      Includes(lower, words[0]) && AllIncluded(lower, words[1..])
  }

  predicate HeadingMatches(h: HeadingRecord, queryLower: string) {
    Includes(ToLower(h.text), queryLower) || Includes(ToLower(h.content), queryLower)
  }

  /** The position of the first heading whose text or body contains the query. */
  function FirstHeadingHit(headings: seq<HeadingRecord>, queryLower: string): (r: Option<nat>)
    ensures r.None? <==> forall j :: 0 <= j < |headings| ==> !HeadingMatches(headings[j], queryLower)
    ensures r.Some? ==> r.value < |headings| && HeadingMatches(headings[r.value], queryLower)
                        && forall j :: 0 <= j < r.value ==> !HeadingMatches(headings[j], queryLower)
  {
    FirstHeadingHitFrom(headings, queryLower, 0)
  }

  /** The search from position `i` on. */
  function FirstHeadingHitFrom(headings: seq<HeadingRecord>, queryLower: string, i: nat): (r: Option<nat>)
    requires i <= |headings|
    ensures r.None? <==> forall j :: i <= j < |headings| ==> !HeadingMatches(headings[j], queryLower)
    ensures r.Some? ==> i <= r.value < |headings| && HeadingMatches(headings[r.value], queryLower)
                        && forall j :: i <= j < r.value ==> !HeadingMatches(headings[j], queryLower)
    decreases |headings| - i
  {
    if i == |headings| then None
    else if HeadingMatches(headings[i], queryLower) then Some(i)
    else FirstHeadingHitFrom(headings, queryLower, i + 1)
  }

  lemma FirstHeadingHitAt(headings: seq<HeadingRecord>, queryLower: string, k: nat)
    requires k < |headings| && HeadingMatches(headings[k], queryLower)
    requires forall j :: 0 <= j < k ==> !HeadingMatches(headings[j], queryLower)
    ensures FirstHeadingHit(headings, queryLower) == Some(k)
  {
    var r := FirstHeadingHit(headings, queryLower);
    assert r.Some?;
    assert !(r.value < k) && !(k < r.value);
  }

  predicate TitleHit(c: ChapterRecord, queryLower: string) {
    Includes(ToLower(c.title), queryLower)
  }

  predicate ContentHit(c: ChapterRecord, queryLower: string) {
    var contentLower := ToLower(c.content);
    AllIncluded(contentLower, LongWords(SplitWs(queryLower))) || Includes(contentLower, queryLower)
  }

  /** The one result a chapter contributes, if any. */
  function ResultFor(c: ChapterRecord, queryLower: string): Option<SearchResult> {
    if TitleHit(c, queryLower) || ContentHit(c, queryLower) then
      Some(SearchResult(c.slug, c.title, c.chapter, ExcerptOf(c.content, queryLower), None, None))
    else HeadingResult(c, queryLower)
  }

  /** The result for the first heading whose text or body contains the query. */
  function HeadingResult(c: ChapterRecord, queryLower: string): Option<SearchResult> {
    match FirstHeadingHit(c.headings, queryLower)
    case Some(k) =>
      var h := c.headings[k];
      Some(SearchResult(c.slug, c.title, c.chapter, ExcerptOf(h.content, queryLower), Some(h.slug), Some(h.text)))
    case None => None
  }

  /** The results of all chapters, in chapter order, before the cap. */
  function Found(chapters: seq<ChapterRecord>, queryLower: string): (found: seq<SearchResult>)
    ensures |found| <= |chapters|
  {
    if chapters == [] then []
    else
      var c := chapters[|chapters| - 1];
      Found(chapters[..|chapters| - 1], queryLower)
        + match ResultFor(c, queryLower) case Some(r) => [r] case None => []
  }

  lemma FoundStep(chapters: seq<ChapterRecord>, i: nat, queryLower: string)
    requires i < |chapters|
    ensures Found(chapters[..i + 1], queryLower)
         == Found(chapters[..i], queryLower)
            + match ResultFor(chapters[i], queryLower) case Some(r) => [r] case None => []
  {
    assert chapters[..i + 1][..i] == chapters[..i];
  }

  /** `found.slice(0, 10)`: the first ten results, or all when there are fewer. */
  function Limit(found: seq<SearchResult>): (r: seq<SearchResult>)
    ensures r <= found
    ensures |r| == if |found| < MAX_RESULTS then |found| else MAX_RESULTS
  {
    if |found| <= MAX_RESULTS then found else found[..MAX_RESULTS]
  }

  /**
   * `search`: nothing without an index or for a query shorter than two
   * characters, with the selection left where it was; otherwise each
   * chapter's result, in chapter order, at most ten, with the selection
   * back on the first result, so that Enter opens it.
   */
  method Search(index: Option<seq<ChapterRecord>>, q: string, selected: int)
    returns (results: seq<SearchResult>, selectedAfter: int)
    ensures index.None? || |q| < 2 ==> results == [] && selectedAfter == selected
    ensures index.Some? && |q| >= 2 ==> results == Limit(Found(index.value, ToLower(q))) && selectedAfter == 0
    ensures index.Some? && |q| >= 2 && results != [] ==> EnterTarget(results, selectedAfter) == Some(ResultUrl(results[0]))
    ensures results == [] ==> EnterTarget(results, selectedAfter) == None
  {
    if index.None? || |q| < 2 {
      return [], selected;
    }
    var chapters := index.value;
    var queryLower := ToLower(q);
    var queryWords := LongWords(SplitWs(queryLower));
    var found: seq<SearchResult> := [];
    var i := 0;
    while i < |chapters|
      invariant 0 <= i <= |chapters|
      invariant found == Found(chapters[..i], queryLower)
    {
      FoundStep(chapters, i, queryLower);
      var result := SearchChapter(chapters[i], queryLower, queryWords);
      if result.Some? {
        found := found + [result.value];
      }
      i := i + 1;
    }
    assert chapters[..i] == chapters;
    results := Limit(found);
    selectedAfter := 0;
  }

  /**
   * One pass of the chapter loop of `search`: a title hit, else a content
   * hit, else the first matching heading (each `continue` or `break` of the
   * loop is a return here).
   */
  method SearchChapter(chapter: ChapterRecord, queryLower: string, queryWords: seq<string>)
    returns (result: Option<SearchResult>)
    requires queryWords == LongWords(SplitWs(queryLower))
    ensures result == ResultFor(chapter, queryLower)
  {
    if Includes(ToLower(chapter.title), queryLower) {
      var excerpt := GetExcerpt(chapter.content, queryLower);
      ChapterLevelResult(chapter, queryLower);
      return Some(SearchResult(chapter.slug, chapter.title, chapter.chapter, excerpt, None, None));
    }
    var contentLower := ToLower(chapter.content);
    var allWordsMatch := AllIncluded(contentLower, queryWords);
    if allWordsMatch || Includes(contentLower, queryLower) {
      var excerpt := GetExcerpt(chapter.content, queryLower);
      ChapterLevelResult(chapter, queryLower);
      return Some(SearchResult(chapter.slug, chapter.title, chapter.chapter, excerpt, None, None));
    }
    result := SearchHeadings(chapter, queryLower);
  }

  /** The heading loop of `search`, which stops at the first matching heading. */
  method SearchHeadings(chapter: ChapterRecord, queryLower: string) returns (result: Option<SearchResult>)
    ensures result == HeadingResult(chapter, queryLower)
  {
    var k := 0;
    while k < |chapter.headings|
      invariant 0 <= k <= |chapter.headings|
      invariant forall j :: 0 <= j < k ==> !HeadingMatches(chapter.headings[j], queryLower)
    {
      var heading := chapter.headings[k];
      var headingLower := ToLower(heading.text);
      var headingContentLower := ToLower(heading.content);
      var hit := Includes(headingLower, queryLower) || Includes(headingContentLower, queryLower);
      assert hit == HeadingMatches(heading, queryLower);
      if hit {
        var excerpt := GetExcerpt(heading.content, queryLower);
        FirstHeadingHitAt(chapter.headings, queryLower, k);
        return Some(SearchResult(chapter.slug, chapter.title, chapter.chapter, excerpt,
                                 Some(heading.slug), Some(heading.text)));
      }
      k := k + 1;
    }
    return None;
  }

  lemma ChapterLevelResult(c: ChapterRecord, queryLower: string)
    requires TitleHit(c, queryLower) || ContentHit(c, queryLower)
    ensures ResultFor(c, queryLower)
         == Some(SearchResult(c.slug, c.title, c.chapter, ExcerptOf(c.content, queryLower), None, None))
  {
  }

  // ----------------------------------------------------------- search lemmas

  /**
   * A result carries a heading exactly when neither the title nor the
   * content matched and some heading did; it is then the first such heading.
   */
  lemma ResultPriority(c: ChapterRecord, queryLower: string)
    ensures TitleHit(c, queryLower) || ContentHit(c, queryLower) ==>
      ResultFor(c, queryLower).Some? && ResultFor(c, queryLower).value.headingSlug.None?
      && ResultFor(c, queryLower).value.excerpt == ExcerptOf(c.content, queryLower)
    ensures ResultFor(c, queryLower).Some? && ResultFor(c, queryLower).value.headingSlug.Some? <==>
      !TitleHit(c, queryLower) && !ContentHit(c, queryLower)
      && exists j :: 0 <= j < |c.headings| && HeadingMatches(c.headings[j], queryLower)
    ensures ResultFor(c, queryLower).None? <==>
      !TitleHit(c, queryLower) && !ContentHit(c, queryLower)
      && forall j :: 0 <= j < |c.headings| ==> !HeadingMatches(c.headings[j], queryLower)
    ensures ResultFor(c, queryLower).Some? ==>
      var r := ResultFor(c, queryLower).value;
      r.slug == c.slug && r.title == c.title && r.chapter == c.chapter
      && (r.headingSlug.Some? ==>
            exists j :: 0 <= j < |c.headings| && HeadingMatches(c.headings[j], queryLower)
                        && r.headingSlug == Some(c.headings[j].slug) && r.headingText == Some(c.headings[j].text)
                        && forall j' :: 0 <= j' < j ==> !HeadingMatches(c.headings[j'], queryLower))
  {
    var hit := FirstHeadingHit(c.headings, queryLower);
    if TitleHit(c, queryLower) || ContentHit(c, queryLower) {
      assert ResultFor(c, queryLower).value.headingSlug.None?;
    } else if hit.Some? {
      var k := hit.value;
      assert HeadingMatches(c.headings[k], queryLower);
      assert ResultFor(c, queryLower).value.headingSlug == Some(c.headings[k].slug);
    } else {
      assert ResultFor(c, queryLower).None?;
    }
  }

  /** A query with no word longer than one character matches every chapter. */
  lemma {:induction false} NoLongWordsMatchesAll(chapters: seq<ChapterRecord>, queryLower: string)
    requires LongWords(SplitWs(queryLower)) == []
    ensures |Found(chapters, queryLower)| == |chapters|
  {
    if chapters != [] {
      NoLongWordsMatchesAll(chapters[..|chapters| - 1], queryLower);
      assert ContentHit(chapters[|chapters| - 1], queryLower);
    }
  }

  /** Every result is the result of one of the chapters. */
  lemma {:induction false} FoundFromChapters(chapters: seq<ChapterRecord>, queryLower: string)
    ensures forall r :: r in Found(chapters, queryLower) ==>
              exists c :: c in chapters && ResultFor(c, queryLower) == Some(r)
  {
    if chapters != [] {
      var init := chapters[..|chapters| - 1];
      FoundFromChapters(init, queryLower);
      assert forall c :: c in init ==> c in chapters;
    }
  }

  /** The results of a longer chapter list extend those of a shorter one. */
  lemma {:induction false} FoundPrefix(chapters: seq<ChapterRecord>, j: nat, queryLower: string)
    requires j <= |chapters|
    ensures Found(chapters[..j], queryLower) <= Found(chapters, queryLower)
    decreases |chapters|
  {
    if j < |chapters| {
      var init := chapters[..|chapters| - 1];
      assert init[..j] == chapters[..j];
      FoundPrefix(init, j, queryLower);
    } else {
      assert chapters[..j] == chapters;
    }
  }

  /** A hit of the whole query is shown in the window around its first occurrence. */
  lemma ExcerptOfHit(content: string, query: string)
    requires Includes(ToLower(content), query)
    ensures ExcerptOf(content, query) == Window(content, IndexOf(ToLower(content), query))
  {
  }

  /** With no hit for the query or any of its words, the opening 150 characters are shown, always cut. */
  lemma ExcerptWithoutHit(content: string, query: string)
    requires !Includes(ToLower(content), query)
    requires forall w :: w in SplitWs(query) ==> !Includes(ToLower(content), w)
    ensures ExcerptOf(content, query) == Trim(Slice(content, 0, 150)) + "..."
    ensures EndsWith(ExcerptOf(content, query), "...")
  {
    var lower := ToLower(content);
    var words := SplitWs(query);
    assert FirstWordHit(lower, words).None? by {
      forall j | 0 <= j < |words| ensures IndexOf(lower, words[j]) == -1 {
        assert words[j] in words;
      }
    }
    assert IndexOf(lower, query) == -1;
    var tail := Trim(Slice(content, 0, 150));
    assert (tail + "...")[|tail|..] == "...";
  }

  // -------------------------------------------------------------- selection

  datatype Key = ArrowDown | ArrowUp | Enter | Escape | OtherKey

  /** The selected index after a key press among `count` results. */
  function SelectionAfter(key: Key, selected: int, count: nat): (r: int)
    ensures key == ArrowDown && count == 0 && selected >= -1 ==> r == -1
    ensures key == ArrowDown && count > 0 && -1 <= selected < count ==> 0 <= r < count && r >= selected
    ensures key == ArrowUp ==> r >= 0 && (selected > 0 ==> r == selected - 1)
    ensures key == ArrowDown && selected + 1 < count ==> r == selected + 1
    ensures key == ArrowDown && selected + 1 >= count ==> r == count - 1
    ensures key == ArrowUp && selected <= 0 ==> r == 0
    ensures key != ArrowDown && key != ArrowUp ==> r == selected
  {
    match key
    case ArrowDown => if selected + 1 < count - 1 then selected + 1 else count - 1
    case ArrowUp => if selected - 1 > 0 then selected - 1 else 0
    case _ => selected
  }

  /** Down then up, away from the last result, returns to the same result. */
  lemma DownThenUp(selected: int, count: nat)
    requires 0 <= selected < count - 1
    ensures SelectionAfter(ArrowUp, SelectionAfter(ArrowDown, selected, count), count) == selected
  {
  }

  /** Up then down, away from the first result, returns to the same result. */
  lemma UpThenDown(selected: int, count: nat)
    requires 0 < selected < count
    ensures SelectionAfter(ArrowDown, SelectionAfter(ArrowUp, selected, count), count) == selected
  {
  }

  /** `navigateToResult`'s address: the chapter page, with the heading as fragment when it has one. */
  function ResultUrl(result: SearchResult): (url: string)
    ensures StartsWith(url, "/chapters/" + result.slug)
    ensures '#' !in result.slug ==>
      ('#' in url <==> result.headingSlug.Some? && result.headingSlug.value != "")
    ensures result.headingSlug.Some? && result.headingSlug.value != "" ==>
      EndsWith(url, "#" + result.headingSlug.value)
  {
    var page := "/chapters/" + result.slug;
    if result.headingSlug.Some? && result.headingSlug.value != "" then
      var url := page + "#" + result.headingSlug.value;
      assert url[..|page|] == page;
      assert url[|page|] == '#';
      assert url[|url| - |"#" + result.headingSlug.value|..] == "#" + result.headingSlug.value;
      url
    else page
  }

  /** Enter opens the selected result, if the selection is on one. */
  function EnterTarget(results: seq<SearchResult>, selected: int): (r: Option<string>)
    ensures r.Some? <==> 0 <= selected < |results|
    ensures r.Some? ==> r.value == ResultUrl(results[selected])
  {
    if 0 <= selected < |results| then Some(ResultUrl(results[selected])) else None
  }
}

=== FILE: slots.dfy ===
/**
 * Slot extraction in the question and try widgets. The transformer emits
 * `<div slot="...">` children; once compiled they reach the widget as
 * React elements, and `extractSlots` walks them once, the last child of a
 * slot winning and unslotted children kept aside as a fallback for the
 * first slot.
 */
module Slots {
  import opened Wrappers
  import RemarkPedagogical
  import Records

  /** A React child: an element (its `slot` prop and its children) or a text. */
  datatype Child =
    | Element(tag: string, slot: Option<string>, kids: seq<Child>)
    | TextChild(text: string)

  /**
   * A `ReactNode` value held by a slot: nothing, one child, or an array
   * of children. `props.children` is a single child when there is exactly
   * one and an array otherwise.
   */
  datatype Content = NoContent | Single(child: Child) | Nodes(children: seq<Child>)

  /** JavaScript truthiness of a `ReactNode`: arrays and elements are truthy, `""` is not. */
  predicate Truthy(c: Content) {
    match c
    case NoContent => false
    case Single(TextChild(t)) => t != ""
    case Single(Element(_, _, _)) => true
    case Nodes(_) => true
  }

  function PropsChildren(kids: seq<Child>): Content {
    if kids == [] then NoContent else if |kids| == 1 then Single(kids[0]) else Nodes(kids)
  }

  /** `child.props.children || child`. */
  function SlotValue(e: Child): (c: Content)
    requires e.Element?
    ensures Truthy(c)
    ensures c == PropsChildren(e.kids) || c == Single(e)
  {
    if Truthy(PropsChildren(e.kids)) then PropsChildren(e.kids) else Single(e)
  }

  predicate HasSlot(c: Child, name: string) {
    c.Element? && c.slot == Some(name)
  }

  /** The locals of `extractSlots` while `Children.forEach` runs. */
  datatype Scan = Scan(primary: Content, secondary: Content, others: seq<Child>)

  function Step(sc: Scan, child: Child, first: string, second: string): Scan {
    if HasSlot(child, first) then sc.(primary := SlotValue(child))
    else if HasSlot(child, second) then sc.(secondary := SlotValue(child))
    else sc.(others := sc.others + [child])
  }

  /** The state after visiting `children` in order. */
  function ScanAll(children: seq<Child>, first: string, second: string): Scan {
    if children == [] then Scan(NoContent, NoContent, [])
    else Step(ScanAll(children[..|children| - 1], first, second), children[|children| - 1], first, second)
  }

  datatype Slots = Slots(primary: Content, secondary: Content)

  /** What `extractSlots` returns: unslotted children stand in for a missing first slot. */
  function ExtractSlotsOf(children: seq<Child>, first: string, second: string): Slots {
    var sc := ScanAll(children, first, second);
    Slots(if !Truthy(sc.primary) && |sc.others| > 0 then Nodes(sc.others) else sc.primary, sc.secondary)
  }

  /** `extractSlots` of both widgets, with the slot names as parameters. */
  method ExtractSlots(children: seq<Child>, first: string, second: string)
    returns (primary: Content, secondary: Content)
    requires first != second
    ensures Slots(primary, secondary) == ExtractSlotsOf(children, first, second)
  {
    primary, secondary := NoContent, NoContent;
    var otherChildren: seq<Child> := [];
    var i := 0;
    while i < |children|
      invariant 0 <= i <= |children|
      invariant Scan(primary, secondary, otherChildren) == ScanAll(children[..i], first, second)
    {
      var child := children[i];
      assert children[..i + 1][..i] == children[..i];
      if child.Element? {
        if child.slot == Some(first) {
          primary := SlotValue(child);
        } else if child.slot == Some(second) {
          secondary := SlotValue(child);
        } else {
          otherChildren := otherChildren + [child];
        }
      } else {
        otherChildren := otherChildren + [child];
      }
      i := i + 1;
    }
    assert children[..i] == children;
    if !Truthy(primary) && |otherChildren| > 0 {
      primary := Nodes(otherChildren);
    }
  }

  // ------------------------------------------------ reference definitions

  /** The position of the last child carrying that slot. */
  function LastWithSlot(children: seq<Child>, name: string): (k: Option<nat>)
    ensures k.Some? ==> k.value < |children| && HasSlot(children[k.value], name)
                        && forall j :: k.value < j < |children| ==> !HasSlot(children[j], name)
    ensures k.None? ==> forall j :: 0 <= j < |children| ==> !HasSlot(children[j], name)
  {
    if children == [] then None
    else if HasSlot(children[|children| - 1], name) then Some(|children| - 1)
    else LastWithSlot(children[..|children| - 1], name)
  }

  /** The children carrying neither slot, in order. */
  function Unslotted(children: seq<Child>, first: string, second: string): seq<Child> {
    if children == [] then []
    else
      var c := children[|children| - 1];
      Unslotted(children[..|children| - 1], first, second)
        + (if HasSlot(c, first) || HasSlot(c, second) then [] else [c])
  }

  function ValueOfLast(children: seq<Child>, name: string): Content {
    match LastWithSlot(children, name)
    case None => NoContent
    case Some(k) => SlotValue(children[k])
  }

  /** The scan keeps the value of the last child of each slot and every other child, in order. */
  lemma {:induction false} ScanCharacterised(children: seq<Child>, first: string, second: string)
    requires first != second
    ensures ScanAll(children, first, second)
         == Scan(ValueOfLast(children, first), ValueOfLast(children, second), Unslotted(children, first, second))
  {
    if children != [] {
      ScanCharacterised(children[..|children| - 1], first, second);
    }
  }

  /**
   * The first slot is the last child carrying it, else the unslotted
   * children when there are any; the second slot has no fallback.
   */
  lemma ExtractSlotsLastWins(children: seq<Child>, first: string, second: string)
    requires first != second
    ensures var r := ExtractSlotsOf(children, first, second);
      var others := Unslotted(children, first, second);
      (LastWithSlot(children, first).Some? ==> r.primary == SlotValue(children[LastWithSlot(children, first).value]))
      && (LastWithSlot(children, first).None? && others != [] ==> r.primary == Nodes(others))
      && (LastWithSlot(children, first).None? && others == [] ==> r.primary == NoContent)
      && (LastWithSlot(children, second).Some? ==> r.secondary == SlotValue(children[LastWithSlot(children, second).value]))
      && (LastWithSlot(children, second).None? <==> r.secondary == NoContent)
  {
    ScanCharacterised(children, first, second);
  }

  // ------------------------------------------------------------- widgets

  datatype QuestionView = QuestionView(question: Content, answer: Content, answerSection: bool)

  /** `QuestionBlock`: props override the slots; the answer section exists only for a present answer. */
  function QuestionBlock(children: seq<Child>, questionProp: Content, answerProp: Content): (v: QuestionView)
    ensures Truthy(questionProp) ==> v.question == questionProp
    ensures !Truthy(questionProp) ==> v.question == ExtractSlotsOf(children, "question", "answer").primary
    ensures Truthy(answerProp) ==> v.answer == answerProp
    ensures !Truthy(answerProp) ==> v.answer == ExtractSlotsOf(children, "question", "answer").secondary
    ensures v.answerSection <==> Truthy(v.answer)
  {
    var slots := ExtractSlotsOf(children, "question", "answer");
    var question := if Truthy(questionProp) then questionProp else slots.primary;
    var answer := if Truthy(answerProp) then answerProp else slots.secondary;
    QuestionView(question, answer, Truthy(answer))
  }

  /** The `hasHint` prop: absent, a string, or a boolean. */
  datatype HintFlag = FlagAbsent | FlagString(s: string) | FlagBool(b: bool)

  datatype TryView = TryView(exercise: Content, hint: Content, hasHintContent: bool, hintSection: bool)

  /** `TryBlock`: the hint prop overrides the slot, and the flag alone shows no hint section. */
  function TryBlock(children: seq<Child>, hintProp: Content, hasHint: HintFlag): (v: TryView)
    ensures v.hasHintContent <==> Truthy(v.hint) || hasHint == FlagString("true") || hasHint == FlagBool(true)
    ensures v.hintSection <==> Truthy(v.hint)
    ensures Truthy(hintProp) ==> v.hint == hintProp
    ensures !Truthy(v.exercise) ==> v.exercise == PropsChildren(children)
    ensures !Truthy(hintProp) ==> v.hint == ExtractSlotsOf(children, "exercise", "hint").secondary
    ensures var exercise := ExtractSlotsOf(children, "exercise", "hint").primary;
      v.exercise == if Truthy(exercise) then exercise else PropsChildren(children)
  {
    var slots := ExtractSlotsOf(children, "exercise", "hint");
    var hint := if Truthy(hintProp) then hintProp else slots.secondary;
    var hasHintContent := Truthy(hint) || hasHint == FlagString("true") || hasHint == FlagBool(true);
    TryView(if Truthy(slots.primary) then slots.primary else PropsChildren(children),
            hint, hasHintContent, hasHintContent && Truthy(hint))
  }

  // ------------------------------------------- pairing with the transformer

  /** The slot name a compiled JSX element carries. */
  function SlotProp(props: seq<RemarkPedagogical.JsxAttribute>): Option<string> {
    if props == [] then None
    else if props[0].name == "slot" then Some(props[0].value)
    else SlotProp(props[1..])
  }

  /** Compiling a Markdown node to a React child: JSX elements keep their `slot`, text stays text. */
  function ToReact(n: RemarkPedagogical.Node): Child {
    match n
    case TextNode(v) => TextChild(v)
    case Literal(_, v) => TextChild(v)
    case Directive(_, name, _, kids) => Element(name, None, ToReactAll(kids))
    case JsxElement(name, props, kids) => Element(name, SlotProp(props), ToReactAll(kids))
    case Parent(nodeType, kids) => Element(nodeType, None, ToReactAll(kids))
  }

  function ToReactAll(ns: seq<RemarkPedagogical.Node>): (r: seq<Child>)
    ensures |r| == |ns|
  {
    if ns == [] then [] else [ToReact(ns[0])] + ToReactAll(ns[1..])
  }

  /**
   * A compiled question directive: the widget finds its question in the
   * question slot, and shows an answer section exactly when the Markdown
   * had content after `::reveal`.
   */
  lemma QuestionPairsWithTransformer(attributes: Records.Record<string>,
                                     children: seq<RemarkPedagogical.Node>, id: string, chapterSlug: string)
    ensures var r := RemarkPedagogical.Replacement("question", attributes, children, id, chapterSlug).value;
      var split := RemarkPedagogical.SplitAt(children, "reveal");
      var shown := if split.before != [] then split.before else children;
      var v := QuestionBlock(ToReactAll(r.children), NoContent, NoContent);
      v.question == SlotValue(Element("div", Some("question"), ToReactAll(shown)))
      && (v.answerSection <==> split.after != [])
      && (split.after != [] ==> v.answer == SlotValue(Element("div", Some("answer"), ToReactAll(split.after))))
  {
    var r := RemarkPedagogical.Replacement("question", attributes, children, id, chapterSlug).value;
    var kids := ToReactAll(r.children);
    var split := RemarkPedagogical.SplitAt(children, "reveal");
    PairedScan("question", "answer", if split.before != [] then split.before else children, split.after);
  }

  /** A compiled try directive: the hint section is shown exactly when there was content after `::hint`. */
  lemma TryPairsWithTransformer(attributes: Records.Record<string>,
                                children: seq<RemarkPedagogical.Node>, id: string, chapterSlug: string)
    ensures var r := RemarkPedagogical.Replacement("try", attributes, children, id, chapterSlug).value;
      var split := RemarkPedagogical.SplitAt(children, "hint");
      var flag := if r.props == [] then FlagAbsent else FlagString(r.props[0].value);
      var v := TryBlock(ToReactAll(r.children), NoContent, flag);
      v.hasHintContent == v.hintSection
      && (v.hintSection <==> split.after != [])
      && (split.after != [] ==> v.hint == SlotValue(Element("div", Some("hint"), ToReactAll(split.after))))
  {
    var r := RemarkPedagogical.Replacement("try", attributes, children, id, chapterSlug).value;
    var split := RemarkPedagogical.SplitAt(children, "hint");
    PairedScan("exercise", "hint", if split.before != [] then split.before else children, split.after);
  }

  /** The compiled form of the one or two slot divs the transformer emits. */
  lemma PairedScan(first: string, second: string, a: seq<RemarkPedagogical.Node>, b: seq<RemarkPedagogical.Node>)
    requires first != second
    ensures var ns := [RemarkPedagogical.Slot(first, a)] + (if |b| > 0 then [RemarkPedagogical.Slot(second, b)] else []);
      var kids := ToReactAll(ns);
      ExtractSlotsOf(kids, first, second)
        == Slots(SlotValue(Element("div", Some(first), ToReactAll(a))),
                 if |b| > 0 then SlotValue(Element("div", Some(second), ToReactAll(b))) else NoContent)
  {
    var ns := [RemarkPedagogical.Slot(first, a)] + (if |b| > 0 then [RemarkPedagogical.Slot(second, b)] else []);
    var kids := ToReactAll(ns);
    var k0 := Element("div", Some(first), ToReactAll(a));
    assert ToReact(ns[0]) == k0;
    if |b| > 0 {
      var k1 := Element("div", Some(second), ToReactAll(b));
      assert ToReact(ns[1]) == k1;
      assert ToReactAll(ns[1..]) == [k1] + ToReactAll(ns[2..]);
      assert kids == [k0, k1];
      assert kids[..1] == [k0];
      assert [k0][..0] == [];
      assert ScanAll([k0], first, second) == Scan(SlotValue(k0), NoContent, []);
      assert ScanAll(kids, first, second) == Scan(SlotValue(k0), SlotValue(k1), []);
    } else {
      assert kids == [k0];
      assert kids[..0] == [];
      assert ScanAll(kids, first, second) == Scan(SlotValue(k0), NoContent, []);
    }
  }
}

=== FILE: sorting.dfy ===
/**
 * `Array.prototype.sort` with a comparator `(a, b) => key(a) - key(b)`:
 * a stable sort into non-decreasing key order. The specification is
 * stated three ways: the result is ordered, it is a permutation of the
 * input, and for every key value the elements carrying that key keep
 * their input order (stability).
 */
module Sorting {

  ghost predicate SortedBy<T>(s: seq<T>, key: T -> real) {
    forall i, j :: 0 <= i < j < |s| ==> key(s[i]) <= key(s[j])
  }

  /** The elements of `s` whose key is `k`, in order. */
  function WithKey<T>(s: seq<T>, key: T -> real, k: real): (r: seq<T>)
    ensures |r| <= |s|
  {
    if s == [] then []
    else (if key(s[0]) == k then [s[0]] else []) + WithKey(s[1..], key, k)
  }

  /** `WithKey` keeps exactly the elements carrying key `k`. */
  lemma {:induction false} WithKeyMembers<T>(s: seq<T>, key: T -> real, k: real, x: T)
    ensures x in WithKey(s, key, k) <==> x in s && key(x) == k
  {
    if s != [] {
      WithKeyMembers(s[1..], key, k, x);
      assert s == [s[0]] + s[1..];
    }
  }

  /** Places `x` in front of the first element whose key is not smaller. */
  function Insert<T>(x: T, s: seq<T>, key: T -> real): (r: seq<T>)
    ensures |r| == |s| + 1
    ensures multiset(r) == multiset(s) + multiset{x}
  {
    if s == [] || key(x) <= key(s[0]) then [x] + s
    else
      assert s == [s[0]] + s[1..];
      [s[0]] + Insert(x, s[1..], key)
  }

  function SortBy<T>(s: seq<T>, key: T -> real): (r: seq<T>)
    ensures |r| == |s|
    ensures multiset(r) == multiset(s)
  {
    if s == [] then []
    else
      assert s == [s[0]] + s[1..];
      Insert(s[0], SortBy(s[1..], key), key)
  }

  lemma {:induction false} InsertSorted<T>(x: T, s: seq<T>, key: T -> real)
    requires SortedBy(s, key)
    ensures SortedBy(Insert(x, s, key), key)
  {
    if s != [] && key(s[0]) < key(x) {
      InsertSorted(x, s[1..], key);
      var t := Insert(x, s[1..], key);
      forall i | 0 <= i < |t| ensures key(s[0]) <= key(t[i]) {
        assert t[i] in multiset(t);
        if t[i] != x {
          assert t[i] in multiset(s[1..]);
        }
      }
      ConsSorted(s[0], t, key);
    }
  }

  lemma ConsSorted<T>(h: T, t: seq<T>, key: T -> real)
    requires SortedBy(t, key)
    requires forall i :: 0 <= i < |t| ==> key(h) <= key(t[i])
    ensures SortedBy([h] + t, key)
  {
    var s := [h] + t;
    forall i, j | 0 <= i < j < |s| ensures key(s[i]) <= key(s[j]) {
      assert s[j] == t[j - 1];
      if i > 0 {
        assert s[i] == t[i - 1];
      }
    }
  }

  lemma {:induction false} SortBySorted<T>(s: seq<T>, key: T -> real)
    ensures SortedBy(SortBy(s, key), key)
  {
    if s != [] {
      SortBySorted(s[1..], key);
      InsertSorted(s[0], SortBy(s[1..], key), key);
    }
  }

  /** `x` goes in front of every element with an equal key. */
  lemma {:induction false} InsertWithKey<T>(x: T, s: seq<T>, key: T -> real, k: real)
    requires SortedBy(s, key)
    ensures WithKey(Insert(x, s, key), key, k) == WithKey([x] + s, key, k)
  {
    if s != [] && key(s[0]) < key(x) {
      var t := Insert(x, s[1..], key);
      var o0 := if key(s[0]) == k then [s[0]] else [];
      var ox := if key(x) == k then [x] else [];
      var ws := WithKey(s[1..], key, k);
      InsertWithKey(x, s[1..], key, k);
      assert Insert(x, s, key) == [s[0]] + t;
      assert [s[0]] + s[1..] == s;
      WithKeyCons(s[0], t, key, k);
      WithKeyCons(x, s[1..], key, k);
      WithKeyCons(x, s, key, k);
      WithKeyCons(s[0], s[1..], key, k);
      SwapEmpty(o0, ox, ws);
    }
  }

  lemma WithKeyCons<T>(h: T, t: seq<T>, key: T -> real, k: real)
    ensures WithKey([h] + t, key, k) == (if key(h) == k then [h] else []) + WithKey(t, key, k)
  {
    assert ([h] + t)[1..] == t;
  }

  lemma SwapEmpty<T>(a: seq<T>, b: seq<T>, w: seq<T>)
    requires a == [] || b == []
    ensures a + (b + w) == b + (a + w)
  {
    if a == [] {
      assert a + (b + w) == b + w && a + w == w;
    } else {
      assert b + w == w && b + (a + w) == a + w;
    }
  }

  /** Stability: the elements of each key keep their relative order. */
  lemma {:induction false} SortByStable<T>(s: seq<T>, key: T -> real, k: real)
    ensures WithKey(SortBy(s, key), key, k) == WithKey(s, key, k)
  {
    if s != [] {
      SortByStable(s[1..], key, k);
      SortBySorted(s[1..], key);
      InsertWithKey(s[0], SortBy(s[1..], key), key, k);
      assert ([s[0]] + SortBy(s[1..], key))[1..] == SortBy(s[1..], key);
    }
  }
}

=== FILE: spaced_repetition.dfy ===
/**
 * The review scheduler: a five-step interval table clamped at its last
 * step, the due test on whole elapsed days, the due filter over a concept
 * list, the urgency ordering, and the review statistics.
 */
module SpacedRepetition {
  import opened Wrappers
  import opened Records
  import opened Types
  import opened Sorting

  /** `getNextInterval`: the table entry for the review count, clamped. */
  function NextInterval(reviewCount: nat): (days: nat)
    ensures days in REVIEW_INTERVALS
    ensures reviewCount < |REVIEW_INTERVALS| ==> days == REVIEW_INTERVALS[reviewCount]
    ensures reviewCount >= |REVIEW_INTERVALS| - 1 ==> days == 30
  {
    var index := if reviewCount < |REVIEW_INTERVALS| - 1 then reviewCount else |REVIEW_INTERVALS| - 1;
    REVIEW_INTERVALS[index]
  }

  lemma NextIntervalMonotone(a: nat, b: nat)
    requires a <= b
    ensures 1 <= NextInterval(a) <= NextInterval(b) <= 30
  {
    ReviewIntervalsAscending();
  }

  /** Whole days from `last` to `now`, rounded down as `Math.floor` does. */
  function DaysSince(last: Instant, now: Instant): int {
    (now - last) / MS_PER_DAY
  }

  /** `isConceptDue`; an absent last review is never due. */
  function IsConceptDue(lastReview: Option<Instant>, reviewCount: nat, now: Instant): (due: bool)
    ensures lastReview.None? ==> !due
  {
    lastReview.Some? && DaysSince(lastReview.value, now) >= NextInterval(reviewCount)
  }

  /** Due exactly when the interval, in milliseconds, has fully elapsed. */
  lemma DueIff(last: Instant, reviewCount: nat, now: Instant)
    ensures IsConceptDue(Some(last), reviewCount, now)
        <==> now - last >= NextInterval(reviewCount) * MS_PER_DAY
  {
    var d := now - last;
    var k := NextInterval(reviewCount);
    assert d == MS_PER_DAY * (d / MS_PER_DAY) + d % MS_PER_DAY;
    if d / MS_PER_DAY >= k {
      assert MS_PER_DAY * (d / MS_PER_DAY) >= MS_PER_DAY * k;
    } else {
      assert MS_PER_DAY * (d / MS_PER_DAY) <= MS_PER_DAY * (k - 1);
    }
  }

  /** Once due, a concept stays due as time passes. */
  lemma DueStaysDue(last: Option<Instant>, reviewCount: nat, now: Instant, later: Instant)
    requires now <= later && IsConceptDue(last, reviewCount, now)
    ensures IsConceptDue(last, reviewCount, later)
  {
    DueIff(last.value, reviewCount, now);
    DueIff(last.value, reviewCount, later);
  }

  /** The review history of a concept, or `[]` when there is none. */
  function ReviewsOf(progress: UserProgress, chapterSlug: string, conceptId: string): seq<Instant> {
    match Get(progress.chapters, chapterSlug)
    case None => []
    case Some(cp) => Get(cp.conceptsReviewed, conceptId).GetOr([])
  }

  /** The condition under which `getConceptsDueForReview` keeps a concept. */
  predicate ConceptIsDue(progress: UserProgress, c: Concept, now: Instant) {
    var reviews := ReviewsOf(progress, c.chapterSlug, c.id);
    |reviews| > 0 && IsConceptDue(Some(reviews[|reviews| - 1]), |reviews|, now)
  }

  /** Specification of the due filter, as a left-to-right accumulation. */
  function DueConcepts(progress: UserProgress, concepts: seq<Concept>, now: Instant): (r: seq<Concept>)
    ensures |r| <= |concepts|
    ensures forall i :: 0 <= i < |r| ==> r[i] in concepts && ConceptIsDue(progress, r[i], now)
  {
    if concepts == [] then []
    else
      var init := DueConcepts(progress, concepts[..|concepts| - 1], now);
      var c := concepts[|concepts| - 1];
      if ConceptIsDue(progress, c, now) then init + [c] else init
  }

  lemma {:induction false} DueConceptsMembers(progress: UserProgress, concepts: seq<Concept>, now: Instant)
    ensures |DueConcepts(progress, concepts, now)| <= |concepts|
    ensures forall c :: c in DueConcepts(progress, concepts, now) <==> c in concepts && ConceptIsDue(progress, c, now)
  {
    if concepts != [] {
      var init := concepts[..|concepts| - 1];
      DueConceptsMembers(progress, init, now);
      assert concepts == init + [concepts[|concepts| - 1]];
    }
  }

  /** A concept whose chapter has no record, or whose history is empty, is never returned. */
  lemma NoHistoryNeverDue(progress: UserProgress, concepts: seq<Concept>, now: Instant, c: Concept)
    requires Get(progress.chapters, c.chapterSlug).None?
          || ReviewsOf(progress, c.chapterSlug, c.id) == []
    ensures c !in DueConcepts(progress, concepts, now)
  {
    DueConceptsMembers(progress, concepts, now);
  }

  /** `getConceptsDueForReview`. */
  method GetConceptsDueForReview(progress: UserProgress, allConcepts: seq<Concept>, now: Instant)
    returns (dueConcepts: seq<Concept>)
    ensures dueConcepts == DueConcepts(progress, allConcepts, now)
    ensures forall c :: c in dueConcepts <==> c in allConcepts && ConceptIsDue(progress, c, now)
  {
    dueConcepts := [];
    var i := 0;
    while i < |allConcepts|
      invariant 0 <= i <= |allConcepts|
      invariant dueConcepts == DueConcepts(progress, allConcepts[..i], now)
    {
      var concept := allConcepts[i];
      assert allConcepts[..i + 1][..i] == allConcepts[..i];
      if ConceptIsDue(progress, concept, now) {
        dueConcepts := dueConcepts + [concept];
      }
      i := i + 1;
    }
    assert allConcepts[..i] == allConcepts;
    DueConceptsMembers(progress, allConcepts, now);
  }

  /**
   * `sortByUrgency`: a stable sort of a copy of the list by ascending
   * retention strength. The strength heuristic is a parameter; only the
   * ordering it induces matters here.
   */
  function SortByUrgency(concepts: seq<Concept>, progress: UserProgress,
                         strength: seq<Instant> -> real): (r: seq<Concept>)
    ensures multiset(r) == multiset(concepts)
    ensures SortedBy(r, (c: Concept) => strength(ReviewsOf(progress, c.chapterSlug, c.id)))
  {
    var key := (c: Concept) => strength(ReviewsOf(progress, c.chapterSlug, c.id));
    SortBySorted(concepts, key);
    SortBy(concepts, key)
  }

  /** The integer counts of `getReviewStats`. */
  datatype Counts = Counts(concepts: nat, reviewed: nat, reviews: nat)

  datatype ReviewStats = ReviewStats(
    totalConcepts: nat,
    reviewedConcepts: nat,
    totalReviews: nat,
    averageReviews: real)

  function Tally(c: Counts, reviews: seq<Instant>): Counts {
    Counts(c.concepts + 1,
           c.reviewed + (if |reviews| > 0 then 1 else 0),
           c.reviews + |reviews|)
  }

  function TallyHistories(c: Counts, hs: Record<seq<Instant>>): Counts {
    if hs == [] then c
    else Tally(TallyHistories(c, hs[..|hs| - 1]), hs[|hs| - 1].value)
  }

  function TallyChapters(c: Counts, chs: Record<ChapterProgress>): Counts {
    if chs == [] then c
    else TallyHistories(TallyChapters(c, chs[..|chs| - 1]), chs[|chs| - 1].value.conceptsReviewed)
  }

  /** The statistics of `getReviewStats`: reviewed concepts are among all concepts, each with a review. */
  function StatsOf(progress: UserProgress): (r: ReviewStats)
    ensures r.reviewedConcepts <= r.totalConcepts && r.reviewedConcepts <= r.totalReviews
    ensures r.reviewedConcepts == 0 ==> r.averageReviews == 0.0
  {
    TallyChaptersConsistent(Counts(0, 0, 0), progress.chapters);
    var c := TallyChapters(Counts(0, 0, 0), progress.chapters);
    ReviewStats(c.concepts, c.reviewed, c.reviews,
                if c.reviewed > 0 then c.reviews as real / c.reviewed as real else 0.0)
  }

  /** Reviewed concepts are among all concepts, and each has at least one review. */
  predicate Consistent(c: Counts) {
    c.reviewed <= c.concepts && c.reviewed <= c.reviews
  }

  lemma {:induction false} TallyHistoriesConsistent(c: Counts, hs: Record<seq<Instant>>)
    requires Consistent(c)
    ensures Consistent(TallyHistories(c, hs))
    ensures TallyHistories(c, hs).concepts == c.concepts + |hs|
  {
    if hs != [] {
      TallyHistoriesConsistent(c, hs[..|hs| - 1]);
    }
  }

  lemma {:induction false} TallyChaptersConsistent(c: Counts, chs: Record<ChapterProgress>)
    requires Consistent(c)
    ensures Consistent(TallyChapters(c, chs))
  {
    if chs != [] {
      TallyChaptersConsistent(c, chs[..|chs| - 1]);
      TallyHistoriesConsistent(TallyChapters(c, chs[..|chs| - 1]), chs[|chs| - 1].value.conceptsReviewed);
    }
  }

  /** The statistics are mutually consistent; the average is 0 without reviews and at least 1 otherwise. */
  lemma StatsConsistent(progress: UserProgress)
    ensures StatsOf(progress).reviewedConcepts <= StatsOf(progress).totalConcepts
    ensures StatsOf(progress).reviewedConcepts <= StatsOf(progress).totalReviews
    ensures StatsOf(progress).reviewedConcepts == 0 ==> StatsOf(progress).averageReviews == 0.0
    ensures StatsOf(progress).reviewedConcepts > 0 ==> StatsOf(progress).averageReviews >= 1.0
  {
    TallyChaptersConsistent(Counts(0, 0, 0), progress.chapters);
    var s := StatsOf(progress);
    if s.reviewedConcepts > 0 {
      assert s.totalReviews as real >= s.reviewedConcepts as real;
    }
  }

  /** `getReviewStats`: two nested loops over the chapter and concept records. */
  method GetReviewStats(progress: UserProgress) returns (stats: ReviewStats)
    ensures stats == StatsOf(progress)
    ensures stats.reviewedConcepts <= stats.totalConcepts
    ensures stats.reviewedConcepts <= stats.totalReviews
  {
    var totalConcepts: nat, reviewedConcepts: nat, totalReviews: nat := 0, 0, 0;
    var chapters := progress.chapters;
    var i := 0;
    while i < |chapters|
      invariant 0 <= i <= |chapters|
      invariant Counts(totalConcepts, reviewedConcepts, totalReviews)
             == TallyChapters(Counts(0, 0, 0), chapters[..i])
    {
      assert chapters[..i + 1][..i] == chapters[..i];
      var histories := chapters[i].value.conceptsReviewed;
      ghost var start := Counts(totalConcepts, reviewedConcepts, totalReviews);
      var j := 0;
      while j < |histories|
        invariant 0 <= j <= |histories|
        invariant Counts(totalConcepts, reviewedConcepts, totalReviews)
               == TallyHistories(start, histories[..j])
      {
        assert histories[..j + 1][..j] == histories[..j];
        var reviews := histories[j].value;
        totalConcepts := totalConcepts + 1;
        if |reviews| > 0 {
          reviewedConcepts := reviewedConcepts + 1;
          totalReviews := totalReviews + |reviews|;
        }
        j := j + 1;
      }
      assert histories[..j] == histories;
      i := i + 1;
    }
    assert chapters[..i] == chapters;
    stats := ReviewStats(totalConcepts, reviewedConcepts, totalReviews,
                         if reviewedConcepts > 0 then totalReviews as real / reviewedConcepts as real else 0.0);
    StatsConsistent(progress);
  }
}

=== FILE: sync_content.dfy ===
/**
 * The content-sync scripts of the three courses: each reads the course's
 * markdown chapters, gives every numbered chapter a frontmatter block when
 * it has none, inserts the MDX component imports after that block, and
 * writes it under the same name with the extension `.mdx`.
 *
 * The three scripts differ only in their metadata table, the default reading
 * time, the import lines and whether the file filter already demands a
 * chapter number; a `Course` holds those four. Reading the directory and
 * the files becomes a parameter (`None` for a missing directory) and writing
 * becomes the returned sequence of outputs.
 */
module SyncContent {
  import opened Wrappers
  import opened Records
  import opened Text
  import CC = ChaptersContext
  import T = Types

  /** An entry of a script's `chapterMeta` table. */
  datatype Meta = Meta(title: string, tier: nat, estimatedMinutes: nat)

  /** What distinguishes one course's script from another's. */
  datatype Course = Course(chapterMeta: Record<Meta>, defaultMinutes: nat, imports: string, numberedOnly: bool)

  datatype SourceFile = SourceFile(name: string, content: string)

  datatype Output = Output(name: string, content: string)

  // ------------------------------------------------------------ chapter numbers

  /** The name starts with two digits and a dash: `/^(\d{2})-/`. */
  predicate NumberedName(filename: string) {
    |filename| >= 3 && IsDigit(filename[0]) && IsDigit(filename[1]) && filename[2] == '-'
  }

  /** `getChapterNumber`: the two leading digits, or `None` (`null`). */
  function ChapterNumber(filename: string): (r: Option<string>)
    ensures r.Some? <==> NumberedName(filename)
    ensures r.Some? ==> |r.value| == 2 && AllDigits(r.value) && StartsWith(filename, r.value + "-")
  {
    if NumberedName(filename) then
      assert filename[..3] == filename[..2] + "-";
      Some(filename[..2])
    else None
  }

  // ---------------------------------------------------------------- frontmatter

  /** `/^---\n([\s\S]*?)\n---/` matches: an opening fence and, after it, a line starting with `---`. */
  predicate HasFrontmatterBlock(content: string) {
    StartsWith(content, "---\n") && IndexOfFrom(content, "\n---", 4) != -1
  }

  /** The generated block: title, tier and reading time, then a blank line. */
  function Frontmatter(title: string, tier: nat, minutes: nat): string {
    "---\ntitle: \"" + title + "\"\ntier: " + NatToString(tier)
    + "\nestimatedMinutes: " + NatToString(minutes) + "\n---\n\n"
  }

  /** The fields `meta.title || 'Untitled'`, `meta.tier || 1` and `meta.estimatedMinutes || default`. */
  function FrontmatterOf(course: Course, chapterNum: string): string {
    var meta := Get(course.chapterMeta, chapterNum);
    var title := if meta.Some? && meta.value.title != "" then meta.value.title else "Untitled";
    var tier := if meta.Some? && meta.value.tier != 0 then meta.value.tier else 1;
    var minutes := if meta.Some? && meta.value.estimatedMinutes != 0 then meta.value.estimatedMinutes
                   else course.defaultMinutes;
    Frontmatter(title, tier, minutes)
  }

  /**
   * `generateFrontmatter`: content whose frontmatter block matches is kept;
   * anything else gets a generated block in front. The `trimStart` test that
   * precedes the match never decides the outcome on its own.
   */
  function GenerateFrontmatter(course: Course, chapterNum: string, content: string): (r: string)
    ensures HasFrontmatterBlock(content) ==> r == content
    ensures !HasFrontmatterBlock(content) ==> r == FrontmatterOf(course, chapterNum) + content
  {
    var hasFrontmatter := StartsWith(TrimStart(content), "---");
    if hasFrontmatter && HasFrontmatterBlock(content) then content
    else FrontmatterOf(course, chapterNum) + content
  }

  // -------------------------------------------------------------------- imports

  /**
   * `addMdxImports`: with `k` the first `---` at index 4 or later, a newline
   * and the imports go in at `k + 4` (clamped to the length, as `slice` does);
   * without one, the imports go in front.
   */
  function AddMdxImports(imports: string, content: string): (r: string)
    ensures var k := IndexOfFrom(content, "---", 4);
      k == -1 ==> r == imports + content
    ensures var k := IndexOfFrom(content, "---", 4);
      k != -1 ==> var j := InsertionPoint(content, k); r == content[..j] + "\n" + imports + content[j..]
  {
    var frontmatterEnd := IndexOfFrom(content, "---", 4);
    if frontmatterEnd != -1 then
      var afterFrontmatter := frontmatterEnd + 4;
      Slice(content, 0, afterFrontmatter) + "\n" + imports + Slice(content, afterFrontmatter, |content|)
    else imports + content
  }

  /** Four characters past the fence, or the end of the content when the fence ends it. */
  function InsertionPoint(content: string, k: nat): (j: nat)
    ensures j <= |content|
  {
    if k + 4 <= |content| then k + 4 else |content|
  }

  // -------------------------------------------------------------- the sync loop

  /** `f.endsWith('.md') && !f.startsWith('README')`, and for the strict filter also `/^\d{2}-/`. */
  predicate Selected(course: Course, name: string) {
    EndsWith(name, ".md") && !StartsWith(name, "README") && (course.numberedOnly ==> NumberedName(name))
  }

  /** The directory listing after the filter, in listing order. */
  function MdFiles(course: Course, files: seq<SourceFile>): (r: seq<SourceFile>)
    ensures |r| <= |files|
  {
    if files == [] then []
    else
      var last := files[|files| - 1];
      MdFiles(course, files[..|files| - 1]) + (if Selected(course, last.name) then [last] else [])
  }

  /** `file.replace(/\.md$/, '.mdx')`. */
  function DestName(name: string): string {
    if EndsWith(name, ".md") then name[..|name| - 3] + ".mdx" else name
  }

  /** What the loop writes for one file: nothing for an unnumbered one. */
  function Process(course: Course, file: SourceFile): Option<Output> {
    match ChapterNumber(file.name)
    case None => None
    case Some(chapterNum) =>
      var content := GenerateFrontmatter(course, chapterNum, file.content);
      Some(Output(DestName(file.name), AddMdxImports(course.imports, content)))
  }

  /** The outputs of the loop over `mdFiles`, in order. */
  function Written(course: Course, mdFiles: seq<SourceFile>): (r: seq<Output>)
    ensures |r| <= |mdFiles|
  {
    if mdFiles == [] then []
    else
      var last := mdFiles[|mdFiles| - 1];
      var out := Process(course, last);
      Written(course, mdFiles[..|mdFiles| - 1]) + (if out.Some? then [out.value] else [])
  }

  /** `syncContent`: a missing book directory writes nothing. */
  method Sync(course: Course, bookDir: Option<seq<SourceFile>>) returns (written: seq<Output>)
    ensures bookDir.None? ==> written == []
    ensures bookDir.Some? ==> written == Written(course, MdFiles(course, bookDir.value))
  {
    if bookDir.None? {
      return [];
    }
    var mdFiles := MdFiles(course, bookDir.value);
    written := [];
    var i := 0;
    while i < |mdFiles|
      invariant 0 <= i <= |mdFiles|
      invariant written == Written(course, mdFiles[..i])
    {
      var file := mdFiles[i];
      WrittenStep(course, mdFiles, i);
      var chapterNum := ChapterNumber(file.name);
      if chapterNum.Some? {
        var content := GenerateFrontmatter(course, chapterNum.value, file.content);
        content := AddMdxImports(course.imports, content);
        written := written + [Output(DestName(file.name), content)];
      }
      i := i + 1;
    }
    assert mdFiles[..i] == mdFiles;
  }

  lemma WrittenStep(course: Course, mdFiles: seq<SourceFile>, i: nat)
    requires i < |mdFiles|
    ensures Written(course, mdFiles[..i + 1])
         == Written(course, mdFiles[..i]) + (if Process(course, mdFiles[i]).Some? then [Process(course, mdFiles[i]).value] else [])
  {
    assert mdFiles[..i + 1][..i] == mdFiles[..i];
  }

  // ------------------------------------------------------------------ the courses

  const COMPONENT_IMPORTS: string :=
    "import { ConceptCard, QuestionBlock, Checkpoint, TryBlock, Callout } from '@repo/book-viewer/components';\n\n"

  const LOCAL_IMPORTS: string :=
    "import ConceptCard from '../../components/ConceptCard';\n"
    + "import QuestionBlock from '../../components/QuestionBlock';\n"
    + "import Checkpoint from '../../components/Checkpoint';\n"
    + "import TryBlock from '../../components/TryBlock';\n"
    + "import Callout from '../../components/Callout';\n\n"

  const LLM_META: Record<Meta> := [
    Entry("00", Meta("What Is Machine Intelligence?", 1, 25)),
    Entry("01", Meta("How LLMs Work (Conceptually)", 1, 30)),
    Entry("02", Meta("The Capability Inflection Point", 1, 20)),
    Entry("03", Meta("Capabilities & Limitations", 1, 25)),
    Entry("04", Meta("Your First Conversation", 1, 35)),
    Entry("05", Meta("Reading AI-Generated Code", 2, 30)),
    Entry("06", Meta("Prompting Fundamentals", 2, 35)),
    Entry("07", Meta("Multi-Modal Models", 2, 25)),
    Entry("08", Meta("Reasoning Models", 2, 25)),
    Entry("09", Meta("Context & Memory", 2, 20)),
    Entry("10", Meta("Prompt Injection & AI Security", 3, 40)),
    Entry("11", Meta("Agentic Loops", 3, 30)),
    Entry("12", Meta("Developer Workflows", 3, 25)),
    Entry("13", Meta("The Human-AI Partnership", 3, 30)),
    Entry("14", Meta("Iterating with AI", 3, 25)),
    Entry("15", Meta("Bias & Fairness", 4, 30)),
    Entry("16", Meta("Privacy & Data", 4, 25)),
    Entry("17", Meta("The Future of Work", 4, 30))
  ]

  const SWE_META: Record<Meta> := [
    Entry("00", Meta("Your Development Environment", 1, 20)),
    Entry("01", Meta("What is Source Code?", 1, 20)),
    Entry("02", Meta("GitHub Setup Guide", 1, 30)),
    Entry("03", Meta("Understanding Diffs", 1, 25)),
    Entry("04", Meta("Your First Commit", 1, 30)),
    Entry("05", Meta("Branches and Merging", 2, 30)),
    Entry("06", Meta("Pull Requests", 2, 30)),
    Entry("07", Meta("Testing Fundamentals", 2, 25)),
    Entry("08", Meta("Debugging Techniques", 2, 25)),
    Entry("09", Meta("Dependencies & Packages", 2, 20)),
    Entry("10", Meta("Build Pipelines", 3, 20)),
    Entry("11", Meta("O11y: Understanding Your Code", 3, 25)),
    Entry("12", Meta("Iterative Design", 3, 20)),
    Entry("13", Meta("Timeless Principles", 3, 25)),
    Entry("14", Meta("Communication", 3, 20)),
    Entry("15", Meta("Ethics in Software", 3, 45))
  ]

  const MBS_META: Record<Meta> := [
    Entry("00", Meta("The Sustainable Developer", 1, 5)),
    Entry("01", Meta("Your Physical Setup", 1, 12)),
    Entry("02", Meta("The Breath as Tool", 1, 10)),
    Entry("03", Meta("Movement for the Mind", 1, 15)),
    Entry("04", Meta("Rhythm of Deep Work", 1, 12)),
    Entry("05", Meta("Presence in Collaboration", 2, 12)),
    Entry("06", Meta("Facilitator's Guide", 2, 15))
  ]

  const LLM: Course := Course(LLM_META, 20, COMPONENT_IMPORTS, false)
  const SWE: Course := Course(SWE_META, 20, LOCAL_IMPORTS, false)
  const MBS: Course := Course(MBS_META, 10, COMPONENT_IMPORTS, true)

  // ------------------------------------------------------------------ lemmas

  /** Two digits and a dash in front of any name give those digits back. */
  lemma ChapterNumberOfNumbered(digits: string, rest: string)
    requires |digits| == 2 && AllDigits(digits)
    ensures ChapterNumber(digits + "-" + rest) == Some(digits)
  {
    var f := digits + "-" + rest;
    assert f[0] == digits[0] && f[1] == digits[1] && f[2] == '-';
    assert f[..2] == digits;
  }

  /** The markdown file of a numbered catalogue chapter yields the chapter's number. */
  lemma CatalogueFileNumber(c: T.ChapterMeta, i: nat)
    requires CC.NumberedAt(c, i)
    ensures ChapterNumber(c.slug + ".md") == Some(c.number)
  {
    var f := c.slug + ".md";
    assert f[0] == c.number[0] && f[1] == c.number[1] && f[2] == '-';
    assert IsDigit(c.number[0]) && IsDigit(c.number[1]);
    assert f[..2] == c.number;
  }

  lemma NotFenced(content: string)
    requires content != [] && content[0] != '-'
    ensures !HasFrontmatterBlock(content)
  {
    assert |content| < 4 || content[..4][0] == content[0];
  }

  /** Content that starts with whitespace never counts as having frontmatter, so a block is put in front. */
  lemma LeadingWhitespaceDefeats(course: Course, chapterNum: string, content: string)
    requires content != [] && IsSpace(content[0])
    ensures GenerateFrontmatter(course, chapterNum, content) == FrontmatterOf(course, chapterNum) + content
  {
    assert content[0] != '-';
    NotFenced(content);
  }

  /** The generated block is a frontmatter block the match recognises, whatever follows it. */
  lemma FrontmatterRecognised(title: string, tier: nat, minutes: nat, rest: string)
    ensures HasFrontmatterBlock(Frontmatter(title, tier, minutes) + rest)
  {
    var f := Frontmatter(title, tier, minutes);
    var s := f + rest;
    var p := |f| - 6;
    assert f[..4] == "---\n";
    assert s[..4] == f[..4];
    assert f[p..p + 4] == "\n---";
    assert s[p..p + 4] == f[p..p + 4];
    assert OccursAt(s, "\n---", p);
  }

  /** Running `generateFrontmatter` again, for any chapter number, changes nothing. */
  lemma GenerateFrontmatterIdempotent(course: Course, chapterNum: string, otherNum: string, content: string)
    ensures var once := GenerateFrontmatter(course, chapterNum, content);
      GenerateFrontmatter(course, otherNum, once) == once
  {
    if !HasFrontmatterBlock(content) {
      var meta := Get(course.chapterMeta, chapterNum);
      var title := if meta.Some? && meta.value.title != "" then meta.value.title else "Untitled";
      var tier := if meta.Some? && meta.value.tier != 0 then meta.value.tier else 1;
      var minutes := if meta.Some? && meta.value.estimatedMinutes != 0 then meta.value.estimatedMinutes
                     else course.defaultMinutes;
      FrontmatterRecognised(title, tier, minutes, content);
    }
  }

  /** A chapter the table does not list gets the defaults: "Untitled", tier 1 and the course's reading time. */
  lemma UnlistedChapterDefaults(course: Course, chapterNum: string)
    requires Get(course.chapterMeta, chapterNum).None?
    ensures FrontmatterOf(course, chapterNum) == Frontmatter("Untitled", 1, course.defaultMinutes)
  {
  }

  /** A listed chapter's non-empty fields are copied into its block. */
  lemma ListedChapterFields(course: Course, chapterNum: string, meta: Meta)
    requires Get(course.chapterMeta, chapterNum) == Some(meta)
    requires meta.title != "" && meta.tier != 0 && meta.estimatedMinutes != 0
    ensures FrontmatterOf(course, chapterNum) == Frontmatter(meta.title, meta.tier, meta.estimatedMinutes)
  {
  }

  /** The LLM and SWE scripts default to 20 minutes, the MBS script to 10. */
  lemma CourseDefaults()
    ensures LLM.defaultMinutes == 20 && SWE.defaultMinutes == 20 && MBS.defaultMinutes == 10
    ensures !LLM.numberedOnly && !SWE.numberedOnly && MBS.numberedOnly
  {
  }

  /** Where `addMdxImports` puts its text: after the fence when one is found, else at the start. */
  function InsertPos(content: string): (j: nat)
    ensures j <= |content|
  {
    var k := IndexOfFrom(content, "---", 4);
    if k == -1 then 0 else InsertionPoint(content, k)
  }

  /** The text `addMdxImports` inserts: the imports, after a newline when a fence was found. */
  function Inserted(imports: string, content: string): string {
    if IndexOfFrom(content, "---", 4) == -1 then imports else "\n" + imports
  }

  /** The imports only ever add text: cutting the inserted piece back out restores the content. */
  lemma AddMdxImportsInsertsOnly(imports: string, content: string)
    ensures var r := AddMdxImports(imports, content);
      var j := InsertPos(content);
      var ins := Inserted(imports, content);
      r == content[..j] + ins + content[j..] && r[..j] + r[j + |ins|..] == content
  {
    var r := AddMdxImports(imports, content);
    var j := InsertPos(content);
    var ins := Inserted(imports, content);
    if IndexOfFrom(content, "---", 4) == -1 {
      assert j == 0 && ins == imports;
      assert r == content[..j] + ins + content[j..];
    } else {
      assert ins == "\n" + imports;
      assert r == content[..j] + ins + content[j..];
    }
    CutOut(content[..j], ins, content[j..]);
    assert content[..j] + content[j..] == content;
  }

  lemma CutOut(a: string, ins: string, b: string)
    ensures var r := a + ins + b; r[..|a|] + r[|a| + |ins|..] == a + b
  {
    var r := a + ins + b;
    assert r[..|a|] == a;
    assert r[|a| + |ins|..] == b;
  }


  /** The filter keeps exactly the selected files of the listing. */
  lemma {:induction false} MdFilesMembers(course: Course, files: seq<SourceFile>)
    ensures forall f :: f in MdFiles(course, files) <==> f in files && Selected(course, f.name)
  {
    if files != [] {
      var init := files[..|files| - 1];
      MdFilesMembers(course, init);
      assert files == init + [files[|files| - 1]];
    }
  }

  /** A `.md` name gets an `x` appended, so the written name ends in `.mdx`. */
  lemma DestNameAppendsX(name: string)
    requires EndsWith(name, ".md")
    ensures DestName(name) == name + "x" && EndsWith(DestName(name), ".mdx")
  {
    assert name == name[..|name| - 3] + ".md";
  }

  /** Every output comes from a numbered file of the list, processed. */
  lemma {:induction false} WrittenFromNumbered(course: Course, mdFiles: seq<SourceFile>)
    ensures forall o :: o in Written(course, mdFiles) ==>
      exists f :: f in mdFiles && ChapterNumber(f.name).Some? && Process(course, f) == Some(o)
  {
    if mdFiles != [] {
      var init := mdFiles[..|mdFiles| - 1];
      WrittenFromNumbered(course, init);
      assert forall f :: f in init ==> f in mdFiles;
    }
  }

  /** Every numbered file of the list is written. */
  lemma {:induction false} NumberedWritten(course: Course, mdFiles: seq<SourceFile>)
    ensures forall f :: f in mdFiles && ChapterNumber(f.name).Some? ==>
      Process(course, f).Some? && Process(course, f).value in Written(course, mdFiles)
  {
    if mdFiles != [] {
      var init := mdFiles[..|mdFiles| - 1];
      NumberedWritten(course, init);
      assert mdFiles == init + [mdFiles[|mdFiles| - 1]];
    }
  }

  /** With the strict filter every file that passes has a number, so each one is written. */
  lemma {:induction false} StrictFilterWritesAll(course: Course, files: seq<SourceFile>)
    requires course.numberedOnly
    ensures |Written(course, MdFiles(course, files))| == |MdFiles(course, files)|
  {
    var mdFiles := MdFiles(course, files);
    MdFilesMembers(course, files);
    assert forall k :: 0 <= k < |mdFiles| ==> mdFiles[k] in mdFiles;
    StrictWritten(course, mdFiles);
  }

  lemma {:induction false} StrictWritten(course: Course, mdFiles: seq<SourceFile>)
    requires course.numberedOnly
    requires forall k :: 0 <= k < |mdFiles| ==> Selected(course, mdFiles[k].name)
    ensures |Written(course, mdFiles)| == |mdFiles|
  {
    if mdFiles != [] {
      StrictWritten(course, mdFiles[..|mdFiles| - 1]);
    }
  }

  /** The generated block after the title: the closing quote, the tier and minutes lines and the fence. */
  function FrontmatterTail(tier: nat, minutes: nat): string {
    "\"\ntier: " + NatToString(tier) + "\nestimatedMinutes: " + NatToString(minutes) + "\n---\n\n"
  }

  lemma FrontmatterSplit(title: string, tier: nat, minutes: nat)
    ensures Frontmatter(title, tier, minutes) == "---\ntitle: \"" + title + FrontmatterTail(tier, minutes)
    ensures |Frontmatter(title, tier, minutes)| == 12 + |title| + |FrontmatterTail(tier, minutes)|
  {
  }

  /** Before its closing fence the tail holds no dash: its digits and labels have none. */
  lemma TailHasNoDash(tier: nat, minutes: nat)
    ensures |FrontmatterTail(tier, minutes)| >= 5
    ensures forall k :: 0 <= k < |FrontmatterTail(tier, minutes)| - 5 ==> FrontmatterTail(tier, minutes)[k] != '-'
    ensures FrontmatterTail(tier, minutes)[0] == '"'
  {
    var d1 := NatToString(tier);
    var d2 := NatToString(minutes);
    var b1 := "\"\ntier: ";
    var b2 := "\nestimatedMinutes: ";
    var t := FrontmatterTail(tier, minutes);
    assert t == b1 + d1 + b2 + d2 + "\n---\n\n";
    forall k | 0 <= k < |t| - 5 ensures t[k] != '-' {
      if k < |b1| {
        assert t[k] == b1[k];
      } else if k < |b1| + |d1| {
        assert t[k] == d1[k - |b1|];
      } else if k < |b1| + |d1| + |b2| {
        assert t[k] == b2[k - |b1| - |d1|];
      } else if k < |b1| + |d1| + |b2| + |d2| {
        assert t[k] == d2[k - |b1| - |d1| - |b2|];
      } else {
        assert t[k] == '\n';
      }
    }
  }

  lemma NoFenceBeforeClosing(title: string, tier: nat, minutes: nat, content: string)
    requires forall i :: !OccursAt(title, "---", i)
    ensures var f := Frontmatter(title, tier, minutes);
      forall i :: 4 <= i < |f| - 5 ==> !OccursAt(f + content, "---", i)
  {
    var f := Frontmatter(title, tier, minutes);
    forall i | 4 <= i < |f| - 5 ensures !OccursAt(f + content, "---", i) {
      NoFenceAt(title, tier, minutes, content, i);
    }
  }

  lemma NoFenceAt(title: string, tier: nat, minutes: nat, content: string, i: nat)
    requires forall i :: !OccursAt(title, "---", i)
    requires 4 <= i < |Frontmatter(title, tier, minutes)| - 5
    ensures !OccursAt(Frontmatter(title, tier, minutes) + content, "---", i)
  {
    var f := Frontmatter(title, tier, minutes);
    var s := f + content;
    var tail := FrontmatterTail(tier, minutes);
    FrontmatterSplit(title, tier, minutes);
    TailHasNoDash(tier, minutes);
    var w := f[i..i + 3];
    assert w[0] == f[i] && w[1] == f[i + 1] && w[2] == f[i + 2];
    if i < 12 {
      assert f[i] == "---\ntitle: \""[i] != '-';
    } else if i + 2 < 12 + |title| {
      assert w == title[i - 12..i - 9];
      assert !OccursAt(title, "---", i - 12);
    } else if i < 12 + |title| {
      assert f[12 + |title|] == tail[0] == '"';
    } else {
      assert f[i] == tail[i - 12 - |title|] != '-';
    }
    assert w != "---";
    assert s[i..i + 3] == w;
  }

  /** No fence inside the generated block between its opening and its closing fence. */
  lemma OnlyClosingFence(title: string, tier: nat, minutes: nat, content: string)
    requires forall i :: !OccursAt(title, "---", i)
    ensures var f := Frontmatter(title, tier, minutes);
      |f| >= 17 && IndexOfFrom(f + content, "---", 4) == |f| - 5
  {
    var f := Frontmatter(title, tier, minutes);
    var s := f + content;
    FrontmatterSplit(title, tier, minutes);
    TailHasNoDash(tier, minutes);
    var p := |f| - 5;
    assert s[p..p + 3] == f[p..p + 3] == "---";
    NoFenceBeforeClosing(title, tier, minutes, content);
    assert OccursAt(s, "---", p);
  }

  /**
   * A chapter without frontmatter, whose title holds no `---`, comes out as
   * the generated block, the imports, a blank line and the chapter text.
   */
  lemma ImportsFollowGeneratedBlock(title: string, tier: nat, minutes: nat, imports: string, content: string)
    requires forall i :: !OccursAt(title, "---", i)
    ensures var f := Frontmatter(title, tier, minutes);
      AddMdxImports(imports, f + content) == f + imports + "\n" + content
  {
    var f := Frontmatter(title, tier, minutes);
    var s := f + content;
    OnlyClosingFence(title, tier, minutes, content);
    var j := |f| - 1;
    assert InsertionPoint(s, |f| - 5) == j;
    assert f[j] == '\n';
    assert s[..j] + "\n" == f;
    assert s[j..] == "\n" + content;
  }
}

=== FILE: text.dfy ===
/**
 * The JavaScript string operations the book viewer relies on, over strings
 * as sequences of characters (one per UTF-16 code unit for text in the Basic
 * Multilingual Plane): whitespace as the regular-expression
 * class `\s` and `String.prototype.trim` understand it, `indexOf`, `includes`,
 * `slice`, `split`, `replace` with a string pattern, ASCII lower-casing, and
 * decimal rendering and parsing of natural numbers.
 */
module Text {

  /** The characters matched by `\s` and removed by `trim()`. */
  predicate IsSpace(c: char) {
    c in SPACE_CHARS || '\U{2000}' <= c <= '\U{200A}'
  }

  const SPACE_CHARS: set<char> := {
    ' ', '\t', '\n', '\r', '\U{000B}', '\U{000C}', '\U{00A0}', '\U{1680}',
    '\U{2028}', '\U{2029}', '\U{202F}', '\U{205F}', '\U{3000}', '\U{FEFF}'
  }

  /** The characters that `.` in a regular expression does not match. */
  predicate IsLineTerminator(c: char) {
    c == '\n' || c == '\r' || c == '\U{2028}' || c == '\U{2029}'
  }

  predicate NoSpace(s: string) {
    forall i :: 0 <= i < |s| ==> !IsSpace(s[i])
  }

  predicate AllSpace(s: string) {
    forall i :: 0 <= i < |s| ==> IsSpace(s[i])
  }

  predicate IsDigit(c: char) { '0' <= c <= '9' }

  predicate AllDigits(s: string) {
    forall i :: 0 <= i < |s| ==> IsDigit(s[i])
  }

  predicate StartsWith(s: string, prefix: string) {
    |prefix| <= |s| && s[..|prefix|] == prefix
  }

  predicate EndsWith(s: string, suffix: string) {
    |suffix| <= |s| && s[|s| - |suffix|..] == suffix
  }

  /** `sub` occurs in `s` starting at index `i`. */
  predicate OccursAt(s: string, sub: string, i: int) {
    0 <= i && i + |sub| <= |s| && s[i..i + |sub|] == sub
  }

  // ---------------------------------------------------------------------
  // trim, trimStart, trimEnd

  function TrimStart(s: string): (r: string)
    ensures |r| <= |s| && r == s[|s| - |r|..]
    ensures r == [] || !IsSpace(r[0])
  {
    if s != [] && IsSpace(s[0]) then TrimStart(s[1..]) else s
  }

  /** What `trimStart` removes is whitespace, so it removes all the leading whitespace. */
  lemma {:induction false} TrimStartRemovesSpaces(s: string)
    ensures AllSpace(s[..|s| - |TrimStart(s)|])
  {
    if s != [] && IsSpace(s[0]) {
      var r := TrimStart(s[1..]);
      TrimStartRemovesSpaces(s[1..]);
      forall i | 0 <= i < |s| - |r| ensures IsSpace(s[i]) {
        if i > 0 { assert s[i] == s[1..][..|s| - 1 - |r|][i - 1]; }
      }
    }
  }

  function TrimEnd(s: string): (r: string)
    ensures |r| <= |s| && r == s[..|r|]
    ensures r == [] || !IsSpace(r[|r| - 1])
  {
    if s != [] && IsSpace(s[|s| - 1]) then TrimEnd(s[..|s| - 1]) else s
  }

  /** What `trimEnd` removes is whitespace, so it removes all the trailing whitespace. */
  lemma {:induction false} TrimEndRemovesSpaces(s: string)
    ensures AllSpace(s[|TrimEnd(s)|..])
  {
    if s != [] && IsSpace(s[|s| - 1]) {
      var r := TrimEnd(s[..|s| - 1]);
      TrimEndRemovesSpaces(s[..|s| - 1]);
      forall i | |r| <= i < |s| ensures IsSpace(s[i]) {
        if i < |s| - 1 { assert s[i] == s[..|s| - 1][|r|..][i - |r|]; }
      }
    }
  }

  function Trim(s: string): (r: string)
    ensures r == [] || (!IsSpace(r[0]) && !IsSpace(r[|r| - 1]))
    ensures |r| <= |s|
  {
    var t := TrimStart(s);
    var r := TrimEnd(t);
    assert r == [] || r[0] == t[0];
    r
  }

  /** `trim()` keeps a contiguous piece of its input: what follows the leading whitespace. */
  lemma {:induction false} TrimIsSlice(s: string)
    ensures |s| - |TrimStart(s)| + |Trim(s)| <= |s|
    ensures Trim(s) == s[|s| - |TrimStart(s)|..|s| - |TrimStart(s)| + |Trim(s)|]
  {
    var t := TrimStart(s);
    var r := Trim(s);
    assert r == TrimEnd(t);
    PrefixOfSuffix(s, t, r);
  }

  /** A prefix `r` of a suffix `t` of `s` is the slice of `s` where `t` starts. */
  lemma {:induction false} PrefixOfSuffix(s: string, t: string, r: string)
    requires |t| <= |s| && t == s[|s| - |t|..]
    requires |r| <= |t| && r == t[..|r|]
    ensures r == s[|s| - |t|..|s| - |t| + |r|]
  {
    var i := |s| - |t|;
    forall k | 0 <= k < |r| ensures r[k] == s[i + k] {
      assert r[k] == t[k];
    }
  }

  lemma TrimOfTrimmed(s: string)
    requires s == [] || (!IsSpace(s[0]) && !IsSpace(s[|s| - 1]))
    ensures Trim(s) == s
  {
  }

  // ---------------------------------------------------------------------
  // Searching

  /** `s.indexOf(sub, from)`: the first occurrence at or after `from`, or -1. */
  function IndexOfFrom(s: string, sub: string, from: nat): (r: int)
    decreases |s| - from
    ensures r == -1 || (from <= r && OccursAt(s, sub, r))
    ensures r != -1 ==> forall i :: from <= i < r ==> !OccursAt(s, sub, i)
    ensures r == -1 ==> forall i :: from <= i ==> !OccursAt(s, sub, i)
  {
    if from + |sub| > |s| then -1
    else if s[from..from + |sub|] == sub then from
    else IndexOfFrom(s, sub, from + 1)
  }

  function IndexOf(s: string, sub: string): (r: int)
    ensures r == -1 || OccursAt(s, sub, r)
    ensures r != -1 ==> forall i :: 0 <= i < r ==> !OccursAt(s, sub, i)
    ensures r == -1 <==> forall i :: !OccursAt(s, sub, i)
  {
    IndexOfFrom(s, sub, 0)
  }

  /** `s.includes(sub)`. */
  predicate Includes(s: string, sub: string) {
    IndexOf(s, sub) != -1
  }

  /** `includes` holds exactly when the piece occurs somewhere. */
  lemma IncludesIff(s: string, sub: string)
    ensures Includes(s, sub) <==> exists i :: OccursAt(s, sub, i)
  {
    if !Includes(s, sub) {
      assert forall i :: !OccursAt(s, sub, i);
    }
  }

  lemma EmptyOccursAtZero(s: string)
    ensures OccursAt(s, "", 0) && IndexOf(s, "") == 0
  {
  }

  /** `s.slice(0, k)`: the first `k` elements, or all of them when there are fewer. */
  function Take<T>(s: seq<T>, k: nat): (r: seq<T>)
    ensures r <= s
    ensures |r| == if |s| < k then |s| else k
  {
    s[..if |s| < k then |s| else k]
  }

  /** `s.slice(start, end)` for non-negative arguments: both are clamped to the length. */
  function Slice(s: string, start: nat, end: nat): (r: string)
    ensures |r| <= |s|
    ensures start <= end <= |s| ==> r == s[start..end]
    ensures end <= start ==> r == []
  {
    var a := if start < |s| then start else |s|;
    var b := if end < |s| then end else |s|;
    if a < b then s[a..b] else []
  }

  /** `s.replace(pat, rep)` with a string pattern: only the first occurrence is replaced. */
  function ReplaceFirst(s: string, pat: string, rep: string): (r: string)
    ensures IndexOf(s, pat) == -1 ==> r == s
    ensures IndexOf(s, pat) != -1 ==>
      var k := IndexOf(s, pat); r == s[..k] + rep + s[k + |pat|..]
  {
    var k := IndexOf(s, pat);
    if k == -1 then s else s[..k] + rep + s[k + |pat|..]
  }

  // ---------------------------------------------------------------------
  // Lower-casing (ASCII letters only)

  function LowerChar(c: char): char {
    if 'A' <= c <= 'Z' then (c as int + 32) as char else c
  }

  function ToLower(s: string): (r: string)
    ensures |r| == |s|
    ensures forall i :: 0 <= i < |s| ==> r[i] == LowerChar(s[i])
  {
    if s == [] then [] else [LowerChar(s[0])] + ToLower(s[1..])
  }

  // ---------------------------------------------------------------------
  // Splitting and joining

  /** The index of the first `c` in `s`, or `|s|` when there is none. */
  function FirstIndexOfChar(s: string, c: char): (k: nat)
    ensures k <= |s|
    ensures k < |s| ==> s[k] == c
    ensures forall i :: 0 <= i < k ==> s[i] != c
  {
    if s == [] then 0 else if s[0] == c then 0 else 1 + FirstIndexOfChar(s[1..], c)
  }

  /** `s.split(sep)` for a one-character separator. */
  function Split(s: string, sep: char): (r: seq<string>)
    ensures |r| >= 1
    ensures forall i :: 0 <= i < |r| ==> sep !in r[i]
  {
    var k := FirstIndexOfChar(s, sep);
    if k == |s| then [s] else [s[..k]] + Split(s[k + 1..], sep)
  }

  /** `parts.join(sep)`. */
  function Join(parts: seq<string>, sep: string): string {
    if |parts| == 0 then []
    else if |parts| == 1 then parts[0]
    else parts[0] + sep + Join(parts[1..], sep)
  }

  /** Splitting at every separator and joining back gives the original string. */
  lemma {:induction false} JoinSplit(s: string, sep: char)
    ensures Join(Split(s, sep), [sep]) == s
  {
    var k := FirstIndexOfChar(s, sep);
    if k < |s| {
      JoinSplit(s[k + 1..], sep);
      var rest := Split(s[k + 1..], sep);
      assert Split(s, sep) == [s[..k]] + rest;
      assert s == s[..k] + [sep] + s[k + 1..];
    }
  }

  /** The index of the first whitespace character, or `|s|`. */
  function FirstSpace(s: string): (k: nat)
    ensures k <= |s|
    ensures k < |s| ==> IsSpace(s[k])
    ensures NoSpace(s[..k])
  {
    if s == [] then 0 else if IsSpace(s[0]) then 0 else 1 + FirstSpace(s[1..])
  }

  /** `s.split(/\s+/)`: the pieces between maximal whitespace runs (empty at either end
      when `s` starts or ends with whitespace). */
  function SplitWs(s: string): (r: seq<string>)
    decreases |s|
    ensures |r| >= 1
    ensures forall i :: 0 <= i < |r| ==> NoSpace(r[i])
  {
    var k := FirstSpace(s);
    if k == |s| then [s]
    else
      var rest := TrimStart(s[k..]);
      [s[..k]] + SplitWs(rest)
  }

  /** Joining the pieces of `split(/\s+/)` with one space collapses every whitespace run to one space. */
  lemma {:induction false} JoinSplitWs(s: string)
    decreases |s|
    ensures Join(SplitWs(s), " ") == CollapseSpaces(s, false)
  {
    var k := FirstSpace(s);
    if k == |s| {
      assert s[..k] == s;
      CollapseNoSpace(s, []);
      assert s + [] == s;
    } else {
      var rest := TrimStart(s[k..]);
      calc {
        Join(SplitWs(s), " ");
        Join([s[..k]] + SplitWs(rest), " ");
        { JoinCons(s[..k], SplitWs(rest)); }
        s[..k] + " " + Join(SplitWs(rest), " ");
        { JoinSplitWs(rest); }
        s[..k] + " " + CollapseSpaces(rest, false);
        { CollapseAtSpace(s[k..]); }
        s[..k] + CollapseSpaces(s[k..], false);
        { CollapseNoSpacePrefix(s, k); }
        CollapseSpaces(s, false);
      }
    }
  }

  /** Joining a piece in front of at least one other piece puts the separator between them. */
  lemma JoinCons(first: string, parts: seq<string>)
    requires |parts| >= 1
    ensures Join([first] + parts, " ") == first + " " + Join(parts, " ")
  {
    assert ([first] + parts)[1..] == parts;
  }

  /** `CollapseNoSpace` for a whitespace-free prefix of length `k`. */
  lemma CollapseNoSpacePrefix(s: string, k: nat)
    requires k <= |s| && NoSpace(s[..k])
    ensures CollapseSpaces(s, false) == s[..k] + CollapseSpaces(s[k..], false)
  {
    assert s == s[..k] + s[k..];
    CollapseNoSpace(s[..k], s[k..]);
  }

  /** A whitespace run becomes one space. */
  lemma CollapseAtSpace(s: string)
    requires s != [] && IsSpace(s[0])
    ensures CollapseSpaces(s, false) == " " + CollapseSpaces(TrimStart(s), false)
  {
    CollapseSkipsSpaces(s[1..]);
  }

  /** A whitespace-free prefix passes through `CollapseSpaces` unchanged. */
  lemma {:induction false} CollapseNoSpace(a: string, b: string)
    requires NoSpace(a)
    ensures CollapseSpaces(a + b, false) == a + CollapseSpaces(b, false)
  {
    if a != [] {
      assert NoSpace(a[1..]) by {
        forall i | 0 <= i < |a| - 1 ensures !IsSpace(a[1..][i]) { assert a[1..][i] == a[i + 1]; }
      }
      CollapseNoSpace(a[1..], b);
      assert (a + b)[0] == a[0] && !IsSpace(a[0]);
      assert (a + b)[1..] == a[1..] + b;
      assert a == [a[0]] + a[1..];
    } else {
      assert a + b == b;
    }
  }

  /** After a whitespace character, the rest of its run produces nothing more. */
  lemma {:induction false} CollapseSkipsSpaces(s: string)
    ensures CollapseSpaces(s, true) == CollapseSpaces(TrimStart(s), false)
  {
    if s != [] && IsSpace(s[0]) {
      CollapseSkipsSpaces(s[1..]);
    }
  }

  // ---------------------------------------------------------------------
  // Whitespace normalisation: `.replace(/\n{3,}/g, '\n\n').replace(/\s+/g, ' ').trim()`

  /** The length of the run of `c` at the start of `s`. */
  function LeadingRun(s: string, c: char): (n: nat)
    ensures n <= |s|
    ensures forall i :: 0 <= i < n ==> s[i] == c
    ensures n < |s| ==> s[n] != c
  {
    if s != [] && s[0] == c then 1 + LeadingRun(s[1..], c) else 0
  }

  /** `.replace(/\n{3,}/g, '\n\n')`: every run of three or more newlines becomes two. */
  function CollapseBlankLines(s: string): string
    decreases |s|
  {
    if s == [] then []
    else
      var n := LeadingRun(s, '\n');
      if n >= 3 then "\n\n" + CollapseBlankLines(s[n..])
      else if n > 0 then s[..n] + CollapseBlankLines(s[n..])
      else [s[0]] + CollapseBlankLines(s[1..])
  }

  /** `.replace(/\s+/g, ' ')`; `afterSpace` records that the previous input character
      was whitespace, so the current run has already produced its space. */
  function CollapseSpaces(s: string, afterSpace: bool): string {
    if s == [] then []
    else if IsSpace(s[0]) then
      (if afterSpace then [] else [' ']) + CollapseSpaces(s[1..], true)
    else [s[0]] + CollapseSpaces(s[1..], false)
  }

  /** The final normalisation of the search-index stripper. */
  function NormalizeWhitespace(s: string): string {
    Trim(CollapseSpaces(CollapseBlankLines(s), false))
  }

  /** The text has no newline, no two adjacent whitespace characters, and no
      whitespace at either end. */
  predicate Normalized(s: string) {
    && '\n' !in s
    && (forall i :: 0 <= i < |s| ==> IsSpace(s[i]) ==> s[i] == ' ')
    && (forall i :: 0 <= i < |s| - 1 ==> !(IsSpace(s[i]) && IsSpace(s[i + 1])))
    && (s == [] || (!IsSpace(s[0]) && !IsSpace(s[|s| - 1])))
  }

  /** Output of CollapseSpaces: its only whitespace is ' ', never two in a row, and
      it does not start with a space after a space. */
  predicate SpacesCollapsed(r: string, afterSpace: bool) {
    && (forall i :: 0 <= i < |r| ==> IsSpace(r[i]) ==> r[i] == ' ')
    && (forall i :: 0 <= i < |r| - 1 ==> !(IsSpace(r[i]) && IsSpace(r[i + 1])))
    && (afterSpace && r != [] ==> !IsSpace(r[0]))
  }

  lemma {:induction false} CollapseSpacesShape(s: string, afterSpace: bool)
    ensures SpacesCollapsed(CollapseSpaces(s, afterSpace), afterSpace)
  {
    if s != [] {
      CollapseSpacesShape(s[1..], IsSpace(s[0]));
      var tail := CollapseSpaces(s[1..], IsSpace(s[0]));
      var r := CollapseSpaces(s, afterSpace);
      if IsSpace(s[0]) {
        assert r == (if afterSpace then [] else [' ']) + tail;
      } else {
        assert r == [s[0]] + tail;
      }
    }
  }

  lemma SubstringKeepsCollapsed(r: string, i: nat, j: nat)
    requires i <= j <= |r|
    requires SpacesCollapsed(r, false)
    ensures SpacesCollapsed(r[i..j], false)
  {
    var t := r[i..j];
    forall k | 0 <= k < |t| - 1
      ensures !(IsSpace(t[k]) && IsSpace(t[k + 1]))
    {
      assert t[k] == r[i + k] && t[k + 1] == r[i + k + 1];
    }
  }

  /** The normalised text has the shape of property "Normalized". */
  lemma NormalizeWhitespaceIsNormalized(s: string)
    ensures Normalized(NormalizeWhitespace(s))
  {
    CollapseSpacesShape(CollapseBlankLines(s), false);
    TrimmedCollapsedIsNormalized(CollapseSpaces(CollapseBlankLines(s), false));
  }

  lemma TrimmedCollapsedIsNormalized(c: string)
    requires SpacesCollapsed(c, false)
    ensures Normalized(Trim(c))
  {
    var r := Trim(c);
    var i := |c| - |TrimStart(c)|;
    TrimIsSlice(c);
    SubstringKeepsCollapsed(c, i, i + |r|);
    CollapsedHasNoNewline(r);
  }

  lemma CollapsedHasNoNewline(r: string)
    requires SpacesCollapsed(r, false)
    ensures '\n' !in r
  {
    forall k | 0 <= k < |r| ensures r[k] != '\n' {
      assert IsSpace('\n');
    }
  }

  lemma {:induction false} CollapseSpacesOfCollapsed(s: string, afterSpace: bool)
    requires SpacesCollapsed(s, afterSpace)
    requires s != [] && IsSpace(s[0]) ==> !afterSpace
    ensures CollapseSpaces(s, afterSpace) == s
  {
    if s != [] {
      var t := s[1..];
      assert SpacesCollapsed(t, IsSpace(s[0])) by {
        forall k | 0 <= k < |t| - 1 ensures !(IsSpace(t[k]) && IsSpace(t[k + 1])) {
          assert t[k] == s[k + 1] && t[k + 1] == s[k + 2];
        }
        if IsSpace(s[0]) && t != [] {
          assert !(IsSpace(s[0]) && IsSpace(s[1]));
        }
      }
      CollapseSpacesOfCollapsed(t, IsSpace(s[0]));
    }
  }

  lemma {:induction false} CollapseBlankLinesOfNoNewline(s: string)
    requires '\n' !in s
    ensures CollapseBlankLines(s) == s
  {
    if s != [] {
      assert LeadingRun(s, '\n') == 0;
      CollapseBlankLinesOfNoNewline(s[1..]);
    }
  }

  /** Normalising twice is the same as normalising once. */
  lemma NormalizeWhitespaceIdempotent(s: string)
    ensures NormalizeWhitespace(NormalizeWhitespace(s)) == NormalizeWhitespace(s)
  {
    var n := NormalizeWhitespace(s);
    NormalizeWhitespaceIsNormalized(s);
    CollapseBlankLinesOfNoNewline(n);
    CollapseSpacesOfCollapsed(n, false);
    TrimOfTrimmed(n);
  }

  // ---------------------------------------------------------------------
  // Decimal numbers

  function DigitChar(d: nat): char
    requires d < 10
  {
    ('0' as int + d) as char
  }

  function DigitValue(c: char): nat
    requires IsDigit(c)
  {
    c as int - '0' as int
  }

  /** `String(n)` for a natural number. */
  function NatToString(n: nat): (r: string)
    ensures |r| >= 1 && AllDigits(r)
  {
    if n < 10 then [DigitChar(n)] else NatToString(n / 10) + [DigitChar(n % 10)]
  }

  /** `String(i)` for any integer: a minus sign before the digits of a negative one. */
  function IntToString(i: int): string {
    if i < 0 then "-" + NatToString(-i) else NatToString(i)
  }

  /** `parseInt(s, 10)` of a non-empty run of decimal digits. */
  function DigitsValue(s: string): nat
    requires AllDigits(s)
  {
    if s == [] then 0 else 10 * DigitsValue(s[..|s| - 1]) + DigitValue(s[|s| - 1])
  }

  lemma {:induction false} NatToStringRoundTrip(n: nat)
    ensures DigitsValue(NatToString(n)) == n
  {
    if n >= 10 {
      NatToStringRoundTrip(n / 10);
      var s := NatToString(n);
      assert s[..|s| - 1] == NatToString(n / 10);
    }
  }

  lemma NatToStringInjective(a: nat, b: nat)
    requires NatToString(a) == NatToString(b)
    ensures a == b
  {
    NatToStringRoundTrip(a);
    NatToStringRoundTrip(b);
  }

  /** The index of the last `c` in `s`, or -1. */
  function LastIndexOfChar(s: string, c: char): int {
    if s == [] then -1
    else if s[|s| - 1] == c then |s| - 1
    else LastIndexOfChar(s[..|s| - 1], c)
  }

  lemma {:induction false} LastDashBeforeDigits(p: string, d: string)
    requires AllDigits(d)
    ensures LastIndexOfChar(p + "-" + d, '-') == |p|
  {
    var s := p + "-" + d;
    if d != [] {
      assert s[..|s| - 1] == p + "-" + d[..|d| - 1];
      LastDashBeforeDigits(p, d[..|d| - 1]);
    }
  }

  /** `prefix + "-" + String(n)` determines `n` (and the prefix): digits hold no '-'. */
  lemma DashNumberInjective(p1: string, n1: nat, p2: string, n2: nat)
    requires p1 + "-" + NatToString(n1) == p2 + "-" + NatToString(n2)
    ensures n1 == n2 && p1 == p2
  {
    var s := p1 + "-" + NatToString(n1);
    LastDashBeforeDigits(p1, NatToString(n1));
    LastDashBeforeDigits(p2, NatToString(n2));
    assert p1 == s[..|p1|] == p2;
    assert NatToString(n1) == s[|p1| + 1..] == NatToString(n2);
    NatToStringInjective(n1, n2);
  }
}

=== FILE: types.dfy ===
/**
 * The learner-state records of the book viewer and the review-interval
 * table. Dates, which the viewer keeps as ISO-8601 strings, are held here
 * as the millisecond instants those strings denote.
 */
module Types {
  import opened Wrappers
  import opened Records

  /** Milliseconds since the epoch. */
  type Instant = int

  const MS_PER_DAY: int := 86400000

  datatype Concept = Concept(id: string, text: string, chapterSlug: string)

  datatype Bookmark = Bookmark(
    chapterSlug: string,
    headingSlug: string,
    headingText: string,
    createdAt: Instant,
    note: Option<string>)

  datatype CheckpointProgress = CheckpointProgress(
    confidence: int,          // 1..5 once submitted, 0 for a fresh checkpoint
    items: seq<bool>,         // one flag per checklist item
    completedAt: Option<Instant>)

  datatype ChapterProgress = ChapterProgress(
    started: Option<Instant>,
    completed: Option<Instant>,
    readProgress: int,        // percentage
    scrollPosition: Option<int>,
    checkpoints: Record<CheckpointProgress>,
    questionsRevealed: seq<string>,
    conceptsReviewed: Record<seq<Instant>>)   // concept id -> review dates

  datatype Theme = Light | Dark | System
  datatype FontSize = Sm | Md | Lg

  datatype UserSettings = UserSettings(
    theme: Theme,
    fontSize: FontSize,
    showReadingTime: bool,
    enableReviewPrompts: bool)

  /** `bookmarks` is absent from the default snapshot, hence the option. */
  datatype UserProgress = UserProgress(
    chapters: Record<ChapterProgress>,
    bookmarks: Option<seq<Bookmark>>,
    settings: UserSettings,
    lastVisited: Option<string>,
    startedAt: Option<Instant>)

  /** Tiers are 1..3 in the type; the four-tier catalogue also uses 4. */
  datatype ChapterMeta = ChapterMeta(
    slug: string,
    number: string,
    title: string,
    tier: int,
    estimatedMinutes: nat)

  datatype Tier = Tier(number: int, title: string, chapters: seq<ChapterMeta>)

  /** Spaced-repetition intervals, in days. */
  const REVIEW_INTERVALS: seq<nat> := [1, 3, 7, 14, 30]

  lemma ReviewIntervalsAscending()
    ensures |REVIEW_INTERVALS| == 5
    ensures forall i, j :: 0 <= i < j < |REVIEW_INTERVALS| ==> 0 < REVIEW_INTERVALS[i] < REVIEW_INTERVALS[j]
  {
  }
}

=== FILE: url.dfy ===
/**
 * The base-path URL helper. The module-level cache is the one field of a
 * `UrlHelper`; the page's `data-base-path` attribute, read only when the
 * cache is empty, is a parameter (`None` when there is no window or no
 * attribute).
 */
module Url {
  import opened Wrappers
  import opened Text

  /** The path with one trailing `/` removed, if it has one. */
  function StripTrailingSlash(path: string): (r: string)
    ensures EndsWith(path, "/") ==> r + "/" == path
    ensures !EndsWith(path, "/") ==> r == path
  {
    if EndsWith(path, "/") then path[..|path| - 1] else path
  }

  /** The path with a leading `/` added when it has none. */
  function NormalizePath(path: string): (r: string)
    ensures StartsWith(r, "/")
    ensures StartsWith(path, "/") ==> r == path
    ensures !StartsWith(path, "/") ==> r == "/" + path
  {
    if StartsWith(path, "/") then path else "/" + path
  }

  /**
   * What `getBasePath` returns and what the cache holds afterwards, given
   * the cache before the call and the page's attribute.
   */
  function ResolveBasePath(cache: Option<string>, domBase: Option<string>): (r: (string, Option<string>))
    ensures cache.Some? ==> r == (cache.value, cache)
    ensures cache.None? && domBase.Some? && domBase.value != "" ==>
              r.1 == Some(StripTrailingSlash(domBase.value)) && r.0 == r.1.value
    ensures cache.None? && (domBase.None? || domBase.value == "") ==> r == ("", None)
  {
    if cache.Some? then (cache.value, cache)
    else if domBase.Some? && domBase.value != "" then
      var base := StripTrailingSlash(domBase.value);
      (base, Some(base))
    else ("", None)
  }

  class UrlHelper {
    var cachedBasePath: Option<string>

    constructor()
      ensures cachedBasePath.None?
    {
      cachedBasePath := None;
    }

    /** `initUrl`: caches the base path without its trailing slash. */
    method InitUrl(basePath: string)
      modifies this
      ensures cachedBasePath == Some(StripTrailingSlash(basePath))
    {
      cachedBasePath := Some(if EndsWith(basePath, "/") then basePath[..|basePath| - 1] else basePath);
    }

    /** `getBasePath`. */
    method GetBasePath(domBase: Option<string>) returns (base: string)
      modifies this
      ensures (base, cachedBasePath) == ResolveBasePath(old(cachedBasePath), domBase)
    {
      if cachedBasePath.Some? {
        return cachedBasePath.value;
      }
      if domBase.Some? && domBase.value != "" {
        var b := domBase.value;
        cachedBasePath := Some(if EndsWith(b, "/") then b[..|b| - 1] else b);
        return cachedBasePath.value;
      }
      return "";
    }

    /** `url`: the base path followed by the path, which gets a leading `/` if it lacks one. */
    method Url(path: string, domBase: Option<string>) returns (r: string)
      modifies this
      ensures r == ResolveBasePath(old(cachedBasePath), domBase).0 + NormalizePath(path)
      ensures cachedBasePath == ResolveBasePath(old(cachedBasePath), domBase).1
    {
      var base := GetBasePath(domBase);
      var normalizedPath := if StartsWith(path, "/") then path else "/" + path;
      r := base + normalizedPath;
    }

    /** `getUrl`, the same as `url`. */
    method GetUrl(path: string, domBase: Option<string>) returns (r: string)
      modifies this
      ensures r == ResolveBasePath(old(cachedBasePath), domBase).0 + NormalizePath(path)
      ensures cachedBasePath == ResolveBasePath(old(cachedBasePath), domBase).1
    {
      r := Url(path, domBase);
    }
  }

  // ------------------------------------------------------------------ lemmas

  /** At most one character, a slash, is removed: a base ending in "//" keeps one. */
  lemma StripTrailingSlashOnce(path: string)
    ensures |StripTrailingSlash(path)| >= |path| - 1
    ensures StripTrailingSlash(path) <= path
  {
  }

  /** A base with and without its trailing slash resolves to the same cached value. */
  lemma StripTrailingSlashAbsorbs(base: string)
    requires !EndsWith(base, "/")
    ensures StripTrailingSlash(base + "/") == StripTrailingSlash(base) == base
  {
    assert (base + "/")[..|base|] == base;
  }

  /** Normalising a normalised path changes nothing. */
  lemma NormalizePathIdempotent(path: string)
    ensures NormalizePath(NormalizePath(path)) == NormalizePath(path)
  {
  }

  /**
   * Once a base path is cached, every later resolution returns it and keeps
   * it, whatever the page's attribute says.
   */
  lemma CachedBaseIsStable(cache: Option<string>, dom1: Option<string>, dom2: Option<string>)
    requires ResolveBasePath(cache, dom1).1.Some?
    ensures var (b1, c1) := ResolveBasePath(cache, dom1);
      ResolveBasePath(c1, dom2) == (b1, c1)
  {
  }
}

=== FILE: wrappers.dfy ===
/** Optional values: JavaScript's `undefined`/`null` results and optional fields. */
module Wrappers {
  datatype Option<+T> = None | Some(value: T) {
    function GetOr(default: T): T {
      match this
      case Some(v) => v
      case None => default
    }
  }
}
